=== FILE: README.md ===
# A11yGym core, modelled in Dafny

A11yGym is a practice site for web accessibility. A learner edits a small JSX
snippet. The site checks it against three rules: images need alternative
text, inputs need labels, and clickable `div`/`span` elements need keyboard
support. It renders a preview, and it records progress against the 33 items
of the Korean web accessibility checklist (KWCAG). This project models the
pure logic behind those features and proves what that logic promises.

| module (file) | models |
|---|---|
| `Base` (base.dfy) | `Option` for `undefined`/`null`, `Result` for thrown errors |
| `Seqs` (seqs.dfy) | `filter`, `find` and counting over sequences |
| `Text` (text.dfy) | JavaScript whitespace, `trim`, `indexOf`, `split`/`join`, `String(n)`, `parseInt`, `replaceAll` on plain text |
| `Pattern` (pattern.dfy) | a hand-written matcher for the fixed regular expressions the validators and the converter use: global search, `match` and `replace` with `$n` groups |
| `Csv` (csv.dfy) | the generator script's character-level CSV reader |
| `GuidelineGenerator` (generator.dfy) | the generator script: the principle ranges, `escapeTsString`, the title/description split, the filter, dedupe and sort pipeline, and the text of each written entry |
| `KwcagGuidelines` (kwcag_guidelines.dfy) | the generated 33-item catalogue with `getGuidelineByCode` and `getGuidelinesByPrinciple` |
| `Validator` (validator.dfy) | `normalizeCode`, `validateAltText`, `validateLabel`, `validateKeyboard` and `escapeRegExp` |
| `NormalizeInText` (normalize_in_text.dfy) | `normalizeCode` on an attribute that stands inside longer markup |
| `Preview` (preview.dfy) | `convertReactJSXToHTML`: fourteen global replacements applied in order |
| `GuidelineHelper` (guideline_helper.dfy) | `getGuidelineInfo`, `formatGuidelineDisplay` and `findChecklistIdsByWcagCode` |
| `GuidelineDetails` (guideline_details.dfy) | `getGuidelineDetail` over an abstract detail table, and `getRelatedChallenges` |
| `AppStore` (app_store.dfy) | the client store: its initial state and every action as a state transition |
| `Queries` (queries.dfy) | the status/attempts rule and the response of the solution-submission mutation, over a progress table kept as a map |
| `HintPanel` (hint_panel.dfy) | which hint levels are open, the level ordering and what each item shows |
| `CodeEditor` (code_editor.dfy) | the Prism grammar chosen for a language, and the wrapping of highlighted lines |

Regular expressions are `seq<Atom>` patterns interpreted by `Pattern.MatchFrom`.
Each one the code uses is written out by hand in the module that uses it. The
`i` flag is modelled as ASCII case folding.

`getWcagCodeFromChecklistId` lives in a file that is not part of this model;
it is the parameter `wcagOf: string -> Option<string>` wherever the code calls
it.

## Model

| member | source | states |
|---|---|---|
| Csv.ParseCsv | scripts/generate-kwcag-guidelines.mjs:11-66 | every row the reader returns has at least one field |
| Csv.Finish | scripts/generate-kwcag-guidelines.mjs:59-63 | the rows in progress are closed by one more row exactly when a field or row is pending, and no row comes out empty |
| Csv.QuotedContent | scripts/generate-kwcag-guidelines.mjs:20-33 | inside quotes, `""` reads as one `"`, a lone `"` ends the quoting, and every other character, commas and line breaks included, is kept |
| Csv.PlainField | scripts/generate-kwcag-guidelines.mjs:35-56 | an unquoted field with no quote, comma or line break is taken as it is |
| Csv.PlainRow | scripts/generate-kwcag-guidelines.mjs:35-56 | such fields joined by commas and ended by a line feed read as one row |
| Csv.RunAppend | scripts/generate-kwcag-guidelines.mjs:17-57 | reading two texts one after the other is reading their concatenation |
| Csv.RowRoundTrip | scripts/generate-kwcag-guidelines.mjs:11-66 | one row written with every field quoted and inner quotes doubled reads back as that row |
| Csv.RowsRoundTrip | scripts/generate-kwcag-guidelines.mjs:11-66 | rows written that way, with LF or CRLF line ends, read back as the same rows |
| Csv.ParseWrite | scripts/generate-kwcag-guidelines.mjs:11-66 | the reader inverts the quoting writer on every list of non-empty rows |
| Csv.FinalLineFeed | scripts/generate-kwcag-guidelines.mjs:48-63 | a line feed closing a pending last row, outside quotes, gives the same rows as leaving it off: no trailing empty row |
| GuidelineGenerator.InferPrincipleById | scripts/generate-kwcag-guidelines.mjs:75-82 | the principle of an item number; its contract is stated by `GuidelineGenerator.GetGuidelinesByPrincipleRange`, `GuidelineGenerator.InRangeFrom` and `GuidelineGenerator.CatalogueAgreesWithInference` |
| GuidelineGenerator.CatalogueAgreesWithInference | scripts/generate-kwcag-guidelines.mjs:75-82 | every catalogue item carries the principle the generator infers from its number |
| GuidelineGenerator.GetGuidelinesByPrincipleRange | constants/kwcag-guidelines.ts:217-219 | item `n` is in a principle's list exactly when `n` falls in that principle's range 1-9, 10-20, 21-31 or 32-33 |
| GuidelineGenerator.InRangeFrom | scripts/generate-kwcag-guidelines.mjs:75-82 | counting the numbers from `lo` to 33 that fall under a principle gives the part of its range at or after `lo` |
| GuidelineGenerator.TableSize | constants/kwcag-guidelines.ts:217-219 | any 33-item table carrying the inferred principles lists 9, 11, 11 and 2 items under the four principles |
| GuidelineGenerator.CatalogueSize | constants/kwcag-guidelines.ts:12-219 | the catalogue lists 9 perceivable, 11 operable, 11 understandable and 2 robust items |
| GuidelineGenerator.EscapeTsString | scripts/generate-kwcag-guidelines.mjs:68-73 | the three `replaceAll` passes; its contract is stated by the `EscapeTsString…` and `EscapeOnce…` lemmas below |
| GuidelineGenerator.EscapeTsStringOnePass | scripts/generate-kwcag-guidelines.mjs:68-73 | the three `replaceAll` passes equal one left-to-right pass that puts a backslash before each `\`, each backtick and each `${` and copies everything else |
| GuidelineGenerator.EscapeOnceReadsBack | scripts/generate-kwcag-guidelines.mjs:68-73 | read back inside a double-quoted literal, the one-pass escaping gives back the text, for text without `"` or line breaks |
| GuidelineGenerator.EscapeTsStringReadsBack | scripts/generate-kwcag-guidelines.mjs:68-73 | `escapeTsString` reads back through a double-quoted literal for text without `"` or line breaks |
| GuidelineGenerator.EscapeTsStringCutsAtQuote | scripts/generate-kwcag-guidelines.mjs:68-73 | a `"` in the text is not escaped, so the literal ends at it |
| GuidelineGenerator.EscapeForLiteralReadsBack | scripts/generate-kwcag-guidelines.mjs:68-73 | the corrected escaping reads back for every text |
| GuidelineGenerator.EscapeForLiteralAgrees | scripts/generate-kwcag-guidelines.mjs:68-73 | on text without `"` or line breaks, the corrected escaping writes what `escapeTsString` writes |
| GuidelineGenerator.EntryReadsBack | scripts/generate-kwcag-guidelines.mjs:159-169 | an entry written as the object literal reads back as its guideline whenever the escaping round-trips its three text fields |
| GuidelineGenerator.EntryTextAsWrittenReadsBack | scripts/generate-kwcag-guidelines.mjs:159-169 | with `escapeTsString`, an entry reads back when its fields hold no `"` and no line break |
| GuidelineGenerator.EntryTextAsWrittenBreaks | scripts/generate-kwcag-guidelines.mjs:159-169 | with `escapeTsString`, an entry whose title holds a `"` does not read back |
| GuidelineGenerator.EntryTextReadsBack | scripts/generate-kwcag-guidelines.mjs:159-169 | with the corrected escaping, every entry reads back as its guideline |
| GuidelineGenerator.ExtractTitleAndDescription | scripts/generate-kwcag-guidelines.mjs:84-94 | the title/description split; its contract is stated by `GuidelineGenerator.ExtractBracketed` and `GuidelineGenerator.ExtractUnbracketed` |
| GuidelineGenerator.ExtractBracketed | scripts/generate-kwcag-guidelines.mjs:84-92 | when the first `(` comes before the first `)`, the title is the trimmed text between them and the description the trimmed text after `)` |
| GuidelineGenerator.ExtractUnbracketed | scripts/generate-kwcag-guidelines.mjs:93 | otherwise title and description are both the trimmed whole |
| GuidelineGenerator.Prepare | scripts/generate-kwcag-guidelines.mjs:106-116 | the script fails on `rows[0]` exactly when every row is blank; otherwise it throws the header error, naming the trimmed first non-blank row, exactly when that row lacks `고유 번호` or `지침_원문`, and else the plan is the later non-blank rows with the first position of each column |
| GuidelineGenerator.PrepareWritten | scripts/generate-kwcag-guidelines.mjs:106-116 | for a written CSV of non-blank rows whose first row names both columns, the header is that row, the body is the rest, and the columns are found where they are |
| GuidelineGenerator.Accept | scripts/generate-kwcag-guidelines.mjs:121-129 | the per-row filter; its contract is stated by `GuidelineGenerator.AcceptBlank`, `GuidelineGenerator.AcceptUnreadable`, `GuidelineGenerator.AcceptRead` and `GuidelineGenerator.AcceptNumberedRow` |
| GuidelineGenerator.AcceptUnreadable | scripts/generate-kwcag-guidelines.mjs:125-126 | a row whose trimmed number cell has no digit at its start or right after a leading sign is skipped, because `parseInt` gives `NaN` |
| GuidelineGenerator.AcceptRead | scripts/generate-kwcag-guidelines.mjs:121-129 | a row whose trimmed number cell reads through `parseInt` as `id`, trailing text included, and whose wording is not blank is kept with `id` and the trimmed wording |
| GuidelineGenerator.AcceptNumberedRow | scripts/generate-kwcag-guidelines.mjs:121-129 | a row whose number cell is a printed integer and whose wording cell is not blank is kept with that number and its trimmed wording |
| GuidelineGenerator.AcceptBlank | scripts/generate-kwcag-guidelines.mjs:123-129 | a row with a blank number or a blank wording is skipped |
| GuidelineGenerator.FirstOriginalAppend | scripts/generate-kwcag-guidelines.mjs:131-139 | a later row never replaces the wording already kept for its number |
| GuidelineGenerator.SortIds | scripts/generate-kwcag-guidelines.mjs:142-144 | sorting the distinct numbers gives the same numbers in strictly ascending order |
| GuidelineGenerator.CollectFirst | scripts/generate-kwcag-guidelines.mjs:119-140 | the loop records each kept number once, with the first wording given for it |
| GuidelineGenerator.Assemble | scripts/generate-kwcag-guidelines.mjs:118-144 | the entries are exactly one per kept number, in ascending order of number, each built from the first wording given for its number |
| GuidelineGenerator.Generate | scripts/generate-kwcag-guidelines.mjs:106-144 | the script throws the preparation error, or returns exactly the entries for the kept numbers in ascending order, each built from the first wording for its number |
| GuidelineGenerator.AscendingUnique | scripts/generate-kwcag-guidelines.mjs:142-144 | two strictly ascending lists with the same members are equal |
| GuidelineGenerator.GeneratedUnique | scripts/generate-kwcag-guidelines.mjs:121-144 | the kept rows decide the generated list completely |
| GuidelineGenerator.GeneratedCodes | scripts/generate-kwcag-guidelines.mjs:131-144 | every generated code reads back with `parseInt` as its number, and the codes ascend strictly |
| KwcagGuidelines.Table | constants/kwcag-guidelines.ts:12-211 | the catalogue has 33 items, and item `k` has code `k`, written in decimal |
| KwcagGuidelines.ByCode | constants/kwcag-guidelines.ts:213-215 | a lookup returns an item with that code, and returns nothing exactly when no item has it |
| KwcagGuidelines.ByPrinciple | constants/kwcag-guidelines.ts:217-219 | the principle list keeps table order and holds exactly the items with that principle |
| KwcagGuidelines.ByCodeNumbered | constants/kwcag-guidelines.ts:213-215 | in a table numbered 1 to n, a code is found exactly when it is one of "1".."n", and code `k` finds item `k` |
| KwcagGuidelines.GetGuidelineByCodeFinds | constants/kwcag-guidelines.ts:12-215 | `getGuidelineByCode` finds an item exactly for "1".."33", and for code `k` it is item `k` |
| Validator.NormalizeHtmlFor | lib/validator.ts:18 | `htmlFor="` becomes `for="` when it is the whole input |
| Validator.NormalizeTabIndexBraced | lib/validator.ts:20 | `tabIndex={0}` becomes `tabindex="0"` when it is the whole input |
| Validator.NormalizeTabIndexDouble | lib/validator.ts:21 | `tabIndex="0"` becomes `tabindex="0"` when it is the whole input |
| Validator.NormalizeTabIndexSingle | lib/validator.ts:22 | `tabIndex='0'` becomes `tabindex="0"` when it is the whole input |
| Validator.NormalizeRoleDouble | lib/validator.ts:24 | `role={"button"}` becomes `role="button"` when it is the whole input |
| Validator.NormalizeRoleSingle | lib/validator.ts:25 | `role={'button'}` becomes `role="button"` when it is the whole input |
| Validator.NormalizeCode | lib/validator.ts:14-27 | the six replacements in order; its contract is stated by `Validator.NormalizeUnmatched`, `Validator.NormalizeWithoutEquals`, `Validator.NormalizeKeepsAngle` and the six `NormalizeInText` theorems |
| Validator.NormalizeUnmatched | lib/validator.ts:14-27 | text in which none of the six patterns matches comes back unchanged |
| NormalizeInText.HtmlForInText | lib/validator.ts:18 | `htmlFor = "`, with any white space around `=`, becomes `for="` where it stands inside longer markup, and the text before and after is kept |
| NormalizeInText.TabIndexBracedInText | lib/validator.ts:20 | `tabIndex = { 0 }`, with any white space its pattern allows, becomes `tabindex="0"` inside longer markup, the rest kept |
| NormalizeInText.TabIndexDoubleInText | lib/validator.ts:21 | `tabIndex = "0"` becomes `tabindex="0"` inside longer markup, the rest kept |
| NormalizeInText.TabIndexSingleInText | lib/validator.ts:22 | `tabIndex = '0'` becomes `tabindex="0"` inside longer markup, the rest kept |
| NormalizeInText.RoleDoubleInText | lib/validator.ts:24 | `role = { "button" }` becomes `role="button"` inside longer markup, the rest kept |
| NormalizeInText.RoleSingleInText | lib/validator.ts:25 | `role = { 'button' }` becomes `role="button"` inside longer markup, the rest kept |
| Validator.NormalizeWithoutEquals | lib/validator.ts:14-27 | text with no `=` is left unchanged |
| Validator.NormalizeKeepsAngle | lib/validator.ts:14-27 | normalising never introduces a `<` |
| Validator.NoAngleNoTags | lib/validator.ts:46-138 | a tag search finds nothing in text without `<` |
| Validator.TagsAreTags | lib/validator.ts:46-138 | every match of a tag search is one opening tag of a searched name, from `<` to its first `>` |
| Validator.AltOkIff | lib/validator.ts:55 | the `alt` test passes exactly when the tag has `alt="…"` with a value that is not empty and not only whitespace |
| Validator.AltVerdict | lib/validator.ts:47-66 | no image tag is a failure with its own message; otherwise the result passes exactly when every image tag has such an `alt`, with the matching message |
| Validator.ValidateAltText | lib/validator.ts:43-67 | `validateAltText` passes exactly when an image tag is found and all of them have a non-blank `alt` |
| Validator.AltWithoutAngle | lib/validator.ts:46-52 | code with no `<` fails with the no-image message |
| Validator.InputIdsInOrder | lib/validator.ts:89-95 | the input ids keep the order of the tags: a concatenation of tags gives the ids of each part in turn, and one tag gives its own id if it has one |
| Validator.HasLabelIff | lib/validator.ts:107-108 | the label test passes exactly when some `<label …>` carries `for="id"` |
| Validator.MissingIdsAre | lib/validator.ts:106-109 | the ids reported missing keep input order and are exactly the ids without a label |
| Validator.MissingListed | lib/validator.ts:114-116 | the list in the failure message reads back as the missing ids |
| Validator.ValidateLabel | lib/validator.ts:78-124 | no input, or no input with an id, is a failure of its own; otherwise the result passes exactly when no id lacks a label, and a failure names the missing ids |
| Validator.LabelPassIff | lib/validator.ts:78-124 | `validateLabel` passes exactly when some input has an id and every such id has a label in the normalised code |
| Validator.LabelWithoutAngle | lib/validator.ts:81-87 | code with no `<` fails with the no-input message |
| Validator.AssignsIff | lib/validator.ts:150-151 | the role and tabindex tests pass exactly when the tag sets that attribute to that value, in any letter case |
| Validator.AssignsNameIff | lib/validator.ts:139 | the `onClick=` test passes exactly when the tag assigns `onClick` |
| Validator.ClickableAre | lib/validator.ts:139 | the clickable tags keep their order and are exactly the tags that assign `onClick` |
| Validator.UnreadyAre | lib/validator.ts:149-153 | the failing tags keep their order and are exactly those lacking `role="button"` or `tabindex="0"` |
| Validator.ValidateKeyboard | lib/validator.ts:135-167 | no clickable `div`/`span` is a failure of its own; otherwise the result passes exactly when none of them fails |
| Validator.KeyboardPassIff | lib/validator.ts:135-167 | `validateKeyboard` passes exactly when some `div`/`span` tag assigns `onClick` and every such tag has both attributes |
| Validator.KeyboardWithoutAngle | lib/validator.ts:138-147 | code with no `<` fails with the no-clickable message |
| Validator.EscapeRegExp | lib/validator.ts:169-171 | the result is longer by exactly the number of special characters |
| Validator.EscapeReads | lib/validator.ts:169-171 | undoing the backslashes gives back the input |
| Validator.ReadEscapedInverts | lib/validator.ts:169-171 | every text in escaped form is the escaping of what it reads as |
| Validator.EscapePlain | lib/validator.ts:169-171 | text without special characters is unchanged |
| Pattern.SearchFrom | lib/validator.ts:46 | a search returns the leftmost position where the pattern matches, or nothing exactly when it matches nowhere |
| Pattern.FindFrom | lib/validator.ts:46 | the matches of a global search are in order and do not overlap |
| Pattern.ReplaceIsSplice | components/PreviewPanel.tsx:93 | a global replace splices each match's replacement into the text between the matches |
| Pattern.FindMatches | lib/validator.ts:46 | each match of a global search is what the pattern matches at that match's start |
| Pattern.FindCovers | lib/validator.ts:46 | every position where the pattern matches non-empty text lies inside one of the global matches, so the scan skips only text inside an earlier match |
| Pattern.ReplaceAll | components/PreviewPanel.tsx:93 | `String.prototype.replace` with a global pattern; its contract is stated by `Pattern.ReplaceIsSplice` and `Pattern.ReplaceNoMatch` |
| Pattern.ReplaceNoMatch | components/PreviewPanel.tsx:89-131 | a replace with no match returns the text unchanged |
| Preview.ClassNameQuoted | components/PreviewPanel.tsx:93 | `className="x"`, with either quote, becomes `class="x"` when it is the whole input |
| Preview.ClassNameBraced | components/PreviewPanel.tsx:94 | `className={"x"}` becomes `class="x"` when it is the whole input |
| Preview.HtmlForQuoted | components/PreviewPanel.tsx:97 | `htmlFor="x"` becomes `for="x"` when it is the whole input |
| Preview.HtmlForBraced | components/PreviewPanel.tsx:98 | `htmlFor={"x"}` becomes `for="x"` when it is the whole input |
| Preview.TabIndexBracedZero | components/PreviewPanel.tsx:101 | `tabIndex={0}` becomes `tabindex="0"` when it is the whole input |
| Preview.TabIndexQuotedZero | components/PreviewPanel.tsx:102 | `tabIndex="0"` becomes `tabindex="0"` when it is the whole input |
| Preview.TabIndexBracedMinusOne | components/PreviewPanel.tsx:103 | `tabIndex={-1}` becomes `tabindex="-1"` when it is the whole input |
| Preview.TabIndexQuotedMinusOne | components/PreviewPanel.tsx:104 | `tabIndex="-1"` becomes `tabindex="-1"` when it is the whole input |
| Preview.OnClickAlert | components/PreviewPanel.tsx:108-116 | `onClick={() => alert("msg")}` becomes `onclick="alert('msg')"`, and the later handler removal leaves it alone, when it is the whole input |
| Preview.OnClickHandler | components/PreviewPanel.tsx:113-116 | any other braced `onClick` handler without `}` becomes the removal comment, when it is the whole input |
| Preview.OnKeyDownHandler | components/PreviewPanel.tsx:119-122 | a braced `onKeyDown` handler without `}` becomes the removal comment, when it is the whole input |
| Preview.SelfClosingTag | components/PreviewPanel.tsx:125 | `<t a/>` loses the slash and becomes `<t a>` when it is the whole input |
| Preview.BracedNumber | components/PreviewPanel.tsx:128 | `{digits}` becomes `"digits"` when it is the whole input |
| Preview.BracedQuoted | components/PreviewPanel.tsx:129 | `{"x"}` becomes `"x"` when it is the whole input |
| Preview.Convert | components/PreviewPanel.tsx:89-131 | the fourteen replacements in order; its contract is stated by `Preview.ConvertUnmatched`, `Preview.ConvertKeeps` and the closed forms above |
| Preview.ConvertKeeps | components/PreviewPanel.tsx:89-131 | markup with no `=`, no brace, and not both a `<` and a `/`, comes out unchanged |
| Preview.ConvertUnmatchedWith | components/PreviewPanel.tsx:89-131 | for any attribute names and replacement texts, markup that none of the fourteen patterns matches comes out unchanged |
| Preview.ConvertUnmatched | components/PreviewPanel.tsx:89-131 | markup that none of the converter's fourteen patterns matches comes out unchanged |
| GuidelineHelper.InfoIn | utils/guideline-helper.ts:29-42 | the info is missing exactly when the id is not in the catalogue; otherwise it carries the id and the mapped WCAG code |
| GuidelineHelper.InfoInFinds | utils/guideline-helper.ts:29-42 | in a numbered table the info exists exactly for ids "1".."n", with title, description and principle copied from item `n` |
| GuidelineHelper.GetGuidelineInfoFinds | utils/guideline-helper.ts:29-42 | `getGuidelineInfo` returns info exactly for "1".."33", copied from that item |
| GuidelineHelper.FormatIn | utils/guideline-helper.ts:59-60 | an id not in the catalogue is shown as the id itself |
| GuidelineHelper.FormatInTitleOnly | utils/guideline-helper.ts:64-66 | the title-only format shows just the title, whatever the other options say |
| GuidelineHelper.FormatInCodeOnly | utils/guideline-helper.ts:68-70 | the code-only format shows the WCAG code, or the id when there is no code |
| GuidelineHelper.DisplayFull | utils/guideline-helper.ts:62-85 | the full format is an optional `id.`, the title, and an optional `(code)`, joined by single spaces, with both flags on by default |
| GuidelineHelper.FormatInFull | utils/guideline-helper.ts:51-86 | the same for a catalogue item |
| GuidelineHelper.FormatUnknownId | utils/guideline-helper.ts:59-60 | on the catalogue, any id other than "1".."33" is shown unchanged |
| GuidelineHelper.FormatKnownId | utils/guideline-helper.ts:51-86 | on the catalogue, item `n` in each of the three formats |
| GuidelineHelper.FindChecklistIdsByWcagCode | utils/guideline-helper.ts:94-107 | the result holds exactly the ids "1".."33" that map to the code, in strictly ascending numeric order |
| GuidelineDetails.GetGuidelineDetail | utils/guideline-details.ts:301-303 | a stored id gives its entry; any other id gives the empty object `{}`, with every field absent |
| GuidelineDetails.GetRelatedChallenges | utils/guideline-details.ts:308-310 | the result keeps catalogue order and holds exactly the challenges whose `kwcagCode` is the id |
| GuidelineDetails.RelatedChallengesDisjoint | utils/guideline-details.ts:308-310 | no challenge is related to two different ids |
| GuidelineDetails.NoKwcagCodeNoRelated | utils/guideline-details.ts:308-310 | when no challenge has a `kwcagCode`, every id has no related challenges |
| AppStore.Apply | store/useAppStore.ts:111-148 | every action leaves every field it does not write unchanged |
| AppStore.LogoutEffect | store/useAppStore.ts:117-121 | `logout` clears the user and the flag only |
| AppStore.ResetChallengeSessionEffect | store/useAppStore.ts:127-132 | `resetChallengeSession` resets only the challenge, the code and the running flag |
| AppStore.ResetFeedbackEffect | store/useAppStore.ts:143-148 | `resetFeedback` restores the hint flag, level 1 and the idle result only |
| AppStore.ToggleSidebarTwice | store/useAppStore.ts:135 | `toggleSidebar` negates the flag, and toggling twice gives back the state |
| AppStore.SetterEffect | store/useAppStore.ts:116-142 | each single-field setter writes its own field and no other |
| AppStore.InitialValid | store/useAppStore.ts:64-81 | the initial state has a hint level in 1..3 and a message on any non-idle result, and is authenticated exactly when a user is present |
| AppStore.ApplyValid | store/useAppStore.ts:38-146 | every action with well-typed arguments keeps the hint level in 1..3 |
| AppStore.RunValid | store/useAppStore.ts:38-146 | so does any sequence of such actions from a valid state |
| AppStore.ApplyConsistent | store/useAppStore.ts:111-121 | every action but `setIsAuthenticated` keeps the flag equal to whether a user is present |
| AppStore.RunConsistent | store/useAppStore.ts:111-121 | so does any sequence of such actions |
| AppStore.SetIsAuthenticatedBreaksConsistency | store/useAppStore.ts:116 | `setIsAuthenticated` alone can set the flag with no user |
| AppStore.ResetsReachInitial | store/useAppStore.ts:64-148 | logout, both resets, opening the sidebar and choosing the editor tab bring any state back to the initial one |
| Queries.NewStatus | hooks/useQueries.ts:154-158 | the status is completed exactly when the answer is valid or the row was already completed, and failed otherwise |
| Queries.Submit | hooks/useQueries.ts:143-204 | a database error is thrown with the update or save prefix; otherwise `success` equals validity, the message is the correct-answer text when valid and the try-again text otherwise, and only the submitted row changes |
| Queries.SubmitRow | hooks/useQueries.ts:154-195 | the new row has one more attempt than before (so at least 1), the submitted code and time, a completion time set only by a valid answer, and the old id when it updates |
| Queries.After | hooks/useQueries.ts:170-195 | a submission touches no other row and removes none |
| Queries.CompletedStaysCompleted | hooks/useQueries.ts:156-157 | a completed row stays completed under any later submissions |
| Queries.AttemptsCount | hooks/useQueries.ts:165 | a row's attempts grow by exactly the number of stored submissions for it |
| Queries.OtherRowsUntouched | hooks/useQueries.ts:170-195 | rows no submission names are left as they were |
| HintPanel.ScanFrom | components/HintPanel.tsx:35 | the search finds the leftmost `hint-` followed by a digit at or after a position, or reports that there is none |
| HintPanel.LevelOf | components/HintPanel.tsx:34-37 | a value yields the digit after its first `hint-`+digit, in 0..9, or nothing exactly when it holds no such match |
| HintPanel.LevelOfItemValue | components/HintPanel.tsx:35-79 | an item's own value `hint-d` yields level `d` |
| HintPanel.HandleValueChange | components/HintPanel.tsx:31-40 | the open levels are exactly the levels read from the given values |
| HintPanel.SingleValueIsList | components/HintPanel.tsx:32 | a single value counts as a one-element list |
| HintPanel.OpenedReplaced | components/HintPanel.tsx:39 | the previous open set plays no part |
| HintPanel.OpenedItems | components/HintPanel.tsx:31-40 | opening the items of some levels opens exactly those levels |
| HintPanel.InsertSorted | components/HintPanel.tsx:43 | inserting into a level-ordered list keeps it ordered |
| HintPanel.SortHints | components/HintPanel.tsx:43 | the sorted hints are a permutation of the hints, in ascending level order |
| HintPanel.SortHintsStable | components/HintPanel.tsx:43 | hints of equal level keep their original order |
| HintPanel.Panel | components/HintPanel.tsx:43-104 | one item per hint in level order; an item shows content exactly when its level is open, and level 3 as code |
| CodeEditor.GetPrismLanguage | components/CodeEditor.tsx:41-56 | html picks markup, jsx, typescript and javascript their own grammars, and every other language, tsx included, the tsx grammar |
| CodeEditor.Highlight | components/CodeEditor.tsx:78-95 | with no or an empty line list, the highlighted text is returned unchanged |
| CodeEditor.HighlightByLine | components/CodeEditor.tsx:78-92 | the text keeps its line count and line breaks; line `k` is wrapped exactly when it lies in the selected range |
| CodeEditor.HighlightOneLine | components/CodeEditor.tsx:80-81 | a one-number list wraps that line (1-based) and no other |
| CodeEditor.HighlightEmptyRange | components/CodeEditor.tsx:80-85 | a range whose start is after its end wraps nothing |
| Text.SplitJoin | components/CodeEditor.tsx:79-92 | joining lines without the separator and splitting again gives back the lines |
| Text.JoinSplit | components/CodeEditor.tsx:79-92 | splitting and joining gives back the text |
| Text.ParseInt | scripts/generate-kwcag-guidelines.mjs:125 | `parseInt(s, 10)`, with `NaN` as nothing; its contract is stated by `Text.ParseIntReads`, `Text.ParseIntNaN` and `Text.ParseIntToString` |
| Text.ParseIntReads | scripts/generate-kwcag-guidelines.mjs:125 | leading white space, an optional sign and the longest run of digits give the number, whatever follows the digits |
| Text.ParseIntExample | scripts/generate-kwcag-guidelines.mjs:125 | `parseInt("12abc")` is 12: a number cell with trailing text still reads as its digit prefix |
| Text.ParseIntNaN | scripts/generate-kwcag-guidelines.mjs:125-126 | `parseInt` gives `NaN` exactly when no digit is preceded only by white space and at most one sign |
| Text.ParseIntToString | scripts/generate-kwcag-guidelines.mjs:125-134 | `parseInt(String(n))` is `n` |
| Text.QuotedListReads | lib/validator.ts:114-116 | a list of quote-free ids printed as `"a", "b"` reads back as the list |
| Text.TrimEmptyIffBlank | scripts/generate-kwcag-guidelines.mjs:106-129 | trimming gives the empty string exactly when the text is all whitespace |

## Left out

- File reading and writing, the missing-file error and the console output of the generator script: I/O.
- The `Number.isFinite` check is modelled by `parseInt` returning nothing; `parseInt` is exact on integers, with no floating-point rounding of very long digit strings.
- Text.ParseIntToString: `String(n)` is modelled as plain decimal digits for every integer. In JavaScript, `String` switches to exponent notation from 1e21, so `parseInt(String(n))` gives back `n` only below that size, and exactly only up to 2^53.
- Regular expressions: only the fixed patterns the code uses are modelled, and each one by hand. The `i` flag is ASCII case folding, and characters are Unicode scalar values rather than UTF-16 units. `Pattern.ReplaceIsSplice` assumes no pattern matches the empty string, which holds for every pattern used here.
- Pattern: a greedy run such as `\s*` or `[^"']+` is not backtracked into. This is sound here because in every pattern used, such a run is followed by an atom outside the run's class. `[^>]*` before `\bfor` and before `\s*\/>` does backtrack in the model (`Gap`).
- Text.ReadQuotedList: only the direction "printed list reads back" is proved, not that every readable text is a printed list.
- Preview: the rewrites are proved on canonical attribute shapes. These shapes have no spaces around `=`, single spaces inside the alert handler, and values without quotes, `{` or `/`. Attribute values may not contain the letters that start the other attribute names (`Plain`), and tag names avoid them too. The converter is total on every input; only these shapes have closed-form results.
- Preview.ClassNameQuoted: proved only when the attribute (or tag, or braced value) is the whole input. The converter rewrites it inside longer markup too, but a closed form there would have to rule out every match of the fourteen patterns that overlaps the surrounding text. For surrounding text in general, only `Preview.ConvertUnmatched` is stated.
- Preview.ClassNameBraced: proved only when the attribute (or tag, or braced value) is the whole input. The converter rewrites it inside longer markup too, but a closed form there would have to rule out every match of the fourteen patterns that overlaps the surrounding text. For surrounding text in general, only `Preview.ConvertUnmatched` is stated.
- Preview.HtmlForQuoted: proved only when the attribute (or tag, or braced value) is the whole input. The converter rewrites it inside longer markup too, but a closed form there would have to rule out every match of the fourteen patterns that overlaps the surrounding text. For surrounding text in general, only `Preview.ConvertUnmatched` is stated.
- Preview.HtmlForBraced: proved only when the attribute (or tag, or braced value) is the whole input. The converter rewrites it inside longer markup too, but a closed form there would have to rule out every match of the fourteen patterns that overlaps the surrounding text. For surrounding text in general, only `Preview.ConvertUnmatched` is stated.
- Preview.TabIndexBracedZero: proved only when the attribute (or tag, or braced value) is the whole input. The converter rewrites it inside longer markup too, but a closed form there would have to rule out every match of the fourteen patterns that overlaps the surrounding text. For surrounding text in general, only `Preview.ConvertUnmatched` is stated.
- Preview.TabIndexQuotedZero: proved only when the attribute (or tag, or braced value) is the whole input. The converter rewrites it inside longer markup too, but a closed form there would have to rule out every match of the fourteen patterns that overlaps the surrounding text. For surrounding text in general, only `Preview.ConvertUnmatched` is stated.
- Preview.TabIndexBracedMinusOne: proved only when the attribute (or tag, or braced value) is the whole input. The converter rewrites it inside longer markup too, but a closed form there would have to rule out every match of the fourteen patterns that overlaps the surrounding text. For surrounding text in general, only `Preview.ConvertUnmatched` is stated.
- Preview.TabIndexQuotedMinusOne: proved only when the attribute (or tag, or braced value) is the whole input. The converter rewrites it inside longer markup too, but a closed form there would have to rule out every match of the fourteen patterns that overlaps the surrounding text. For surrounding text in general, only `Preview.ConvertUnmatched` is stated.
- Preview.OnClickAlert: proved only when the attribute (or tag, or braced value) is the whole input. The converter rewrites it inside longer markup too, but a closed form there would have to rule out every match of the fourteen patterns that overlaps the surrounding text. For surrounding text in general, only `Preview.ConvertUnmatched` is stated.
- Preview.OnClickHandler: proved only when the attribute (or tag, or braced value) is the whole input. The converter rewrites it inside longer markup too, but a closed form there would have to rule out every match of the fourteen patterns that overlaps the surrounding text. For surrounding text in general, only `Preview.ConvertUnmatched` is stated.
- Preview.OnKeyDownHandler: proved only when the attribute (or tag, or braced value) is the whole input. The converter rewrites it inside longer markup too, but a closed form there would have to rule out every match of the fourteen patterns that overlaps the surrounding text. For surrounding text in general, only `Preview.ConvertUnmatched` is stated.
- Preview.SelfClosingTag: proved only when the attribute (or tag, or braced value) is the whole input. The converter rewrites it inside longer markup too, but a closed form there would have to rule out every match of the fourteen patterns that overlaps the surrounding text. For surrounding text in general, only `Preview.ConvertUnmatched` is stated.
- Preview.BracedNumber: proved only when the attribute (or tag, or braced value) is the whole input. The converter rewrites it inside longer markup too, but a closed form there would have to rule out every match of the fourteen patterns that overlaps the surrounding text. For surrounding text in general, only `Preview.ConvertUnmatched` is stated.
- Preview.BracedQuoted: proved only when the attribute (or tag, or braced value) is the whole input. The converter rewrites it inside longer markup too, but a closed form there would have to rule out every match of the fourteen patterns that overlaps the surrounding text. For surrounding text in general, only `Preview.ConvertUnmatched` is stated.
- NormalizeInText: the six theorems ask that the text before the attribute ends with a character that cannot be part of a word, and that neither the text before nor the text after holds a match of the six patterns (`Surround`). Markup that holds several forms, or a form glued to a preceding word, has no closed form here.
- GuidelineDetails.GetRelatedChallenges: the challenge type in constants/sample-challenges.ts declares `guidelineCode` but no `kwcagCode`. The model gives records an optional `kwcagCode` so that the filter has its declared meaning. For the shipped sample records, every id has no related challenges (`NoKwcagCodeNoRelated`).
- GuidelineDetails.GetGuidelineDetail: JavaScript object-prototype keys such as `constructor` are not modelled; the detail table is an abstract map.
- Queries: the Supabase calls are parameters of a submission. The row id the database assigns, the two clock readings and any database error are inputs. The error of the `.single()` read is ignored, as in the code. The React Query cache invalidation is left out.
- AppStore.ApplyValid: `setHintLevel` keeps the level in 1..3 only for arguments of the declared type; the store does not check its argument, and `WellTyped` states the type's promise.
- CodeEditor.HighlightByLine: `highlightLines` is a list of integers. Fractional numbers, and the `NaN` from a hole in a sparse array or from a non-number element, are not modelled. Prism's own tokenising is left out: its output is an opaque input string.
- React rendering, DOM events, the accordion widget and focus handling in HintPanel, CodeEditor and PreviewPanel: UI behaviour outside the pure logic.

## Findings

| source | as written | input that shows it | evidently intended | confidence | as-written member | corrected member |
|---|---|---|---|---|---|---|
| scripts/generate-kwcag-guidelines.mjs:68-169 | `escapeTsString` escapes `\`, backtick and `${`, but each field is written inside a double-quoted literal, where an unescaped `"` or line break ends or breaks the literal | a CSV wording whose title is `a"b` | every text field of the generated file reads back as the text taken from the CSV | not executed; the shipped catalogue contains no such title | GuidelineGenerator.EntryTextAsWrittenBreaks | GuidelineGenerator.EntryTextReadsBack |

=== FILE: app_store.dfy ===
/** The global app store: a record of ten fields and the actions the store
    exposes, each a pure transition from one record to the next (the
    store's `set` merges the returned fields into the current state). */
module AppStore {
  import opened Base

  datatype EditorTab = EditorPane | PreviewPane

  datatype TestStatus = Idle | Success | Failure

  /** `TestResult`: the message is optional only for the idle status. */
  datatype TestResult = TestResult(status: TestStatus, message: Option<string>)

  datatype AppUser = AppUser(id: string, email: Option<string>, name: Option<string>)

  datatype ChallengeRef = ChallengeRef(id: string, title: string, guidelineCode: Option<string>)

  /** The data part of `AppState`. `hintLevel` is an integer here: that it
      stays within 1..3 is proved, not assumed. */
  datatype State = State(
    currentUser: Option<AppUser>,
    isAuthenticated: bool,
    currentChallenge: Option<ChallengeRef>,
    userCode: string,
    isCodeRunning: bool,
    isSidebarOpen: bool,
    currentTab: EditorTab,
    showHint: bool,
    hintLevel: int,
    testResult: TestResult)

  const IdleResult := TestResult(Idle, None)

  /** `initialState`. */
  const Initial := State(None, false, None, "", false, true, EditorPane, false, 1, IdleResult)

  datatype Action =
    | SetCurrentUser(user: Option<AppUser>)
    | SetIsAuthenticated(authenticated: bool)
    | Logout
    | SetCurrentChallenge(challenge: Option<ChallengeRef>)
    | SetUserCode(code: string)
    | SetIsCodeRunning(running: bool)
    | ResetChallengeSession
    | ToggleSidebar
    | SetSidebarOpen(open: bool)
    | SetCurrentTab(tab: EditorTab)
    | SetShowHint(show: bool)
    | SetHintLevel(level: int)
    | SetTestResult(result: TestResult)
    | ResetFeedback

  datatype Field =
    | CurrentUser | IsAuthenticated | CurrentChallenge | UserCode | IsCodeRunning
    | IsSidebarOpen | CurrentTab | ShowHint | HintLevel | TestResultField

  /** `s` and `t` hold the same value in field `f`. */
  predicate Agree(s: State, t: State, f: Field) {
    match f
    case CurrentUser => s.currentUser == t.currentUser
    case IsAuthenticated => s.isAuthenticated == t.isAuthenticated
    case CurrentChallenge => s.currentChallenge == t.currentChallenge
    case UserCode => s.userCode == t.userCode
    case IsCodeRunning => s.isCodeRunning == t.isCodeRunning
    case IsSidebarOpen => s.isSidebarOpen == t.isSidebarOpen
    case CurrentTab => s.currentTab == t.currentTab
    case ShowHint => s.showHint == t.showHint
    case HintLevel => s.hintLevel == t.hintLevel
    case TestResultField => s.testResult == t.testResult
  }

  /** Every field outside `fs` is the same in `s` and `t`. */
  predicate Keeps(s: State, t: State, fs: set<Field>) {
    forall f :: f !in fs ==> Agree(s, t, f)
  }

  /** The fields named in the object an action passes to `set`. */
  function Writes(a: Action): set<Field> {
    match a
    case SetCurrentUser(_) => {CurrentUser, IsAuthenticated}
    case SetIsAuthenticated(_) => {IsAuthenticated}
    case Logout => {CurrentUser, IsAuthenticated}
    case SetCurrentChallenge(_) => {CurrentChallenge}
    case SetUserCode(_) => {UserCode}
    case SetIsCodeRunning(_) => {IsCodeRunning}
    case ResetChallengeSession => {CurrentChallenge, UserCode, IsCodeRunning}
    case ToggleSidebar => {IsSidebarOpen}
    case SetSidebarOpen(_) => {IsSidebarOpen}
    case SetCurrentTab(_) => {CurrentTab}
    case SetShowHint(_) => {ShowHint}
    case SetHintLevel(_) => {HintLevel}
    case SetTestResult(_) => {TestResultField}
    case ResetFeedback => {ShowHint, HintLevel, TestResultField}
  }

  /** One store action. */
  function Apply(s: State, a: Action): (t: State)
    ensures Keeps(s, t, Writes(a))
  {
    match a
    case SetCurrentUser(u) => s.(currentUser := u, isAuthenticated := u.Some?)
    case SetIsAuthenticated(b) => s.(isAuthenticated := b)
    case Logout => s.(currentUser := None, isAuthenticated := false)
    case SetCurrentChallenge(c) => s.(currentChallenge := c)
    case SetUserCode(code) => s.(userCode := code)
    case SetIsCodeRunning(b) => s.(isCodeRunning := b)
    case ResetChallengeSession => s.(currentChallenge := None, userCode := "", isCodeRunning := false)
    case ToggleSidebar => s.(isSidebarOpen := !s.isSidebarOpen)
    case SetSidebarOpen(b) => s.(isSidebarOpen := b)
    case SetCurrentTab(tab) => s.(currentTab := tab)
    case SetShowHint(b) => s.(showHint := b)
    case SetHintLevel(l) => s.(hintLevel := l)
    case SetTestResult(r) => s.(testResult := r)
    case ResetFeedback => s.(showHint := false, hintLevel := 1, testResult := IdleResult)
  }

  /** Actions applied in order. */
  function Run(s: State, actions: seq<Action>): State
    decreases |actions|
  {
    if |actions| == 0 then s else Run(Apply(s, actions[0]), actions[1..])
  }

  /** `setCurrentUser(u)` stores `u` and sets the flag to `Boolean(u)`. */
  lemma SetCurrentUserEffect(s: State, u: Option<AppUser>)
    ensures var t := Apply(s, SetCurrentUser(u));
            t.currentUser == u && (t.isAuthenticated <==> u != None)
            && Keeps(s, t, {CurrentUser, IsAuthenticated})
  {
  }

  /** `logout` clears the user and the flag and nothing else. */
  lemma LogoutEffect(s: State)
    ensures var t := Apply(s, Logout);
            t.currentUser == Initial.currentUser && t.isAuthenticated == Initial.isAuthenticated
            && Keeps(s, t, {CurrentUser, IsAuthenticated})
  {
  }

  /** `resetChallengeSession` puts back the initial challenge, code and
      running flag, and nothing else. */
  lemma ResetChallengeSessionEffect(s: State)
    ensures var t := Apply(s, ResetChallengeSession);
            t.currentChallenge == Initial.currentChallenge && t.userCode == Initial.userCode
            && t.isCodeRunning == Initial.isCodeRunning
            && Keeps(s, t, {CurrentChallenge, UserCode, IsCodeRunning})
  {
  }

  /** `resetFeedback` puts back the initial hint flag, level and result,
      and nothing else. */
  lemma ResetFeedbackEffect(s: State)
    ensures var t := Apply(s, ResetFeedback);
            t.showHint == Initial.showHint && t.hintLevel == Initial.hintLevel
            && t.testResult == Initial.testResult
            && Keeps(s, t, {ShowHint, HintLevel, TestResultField})
  {
  }

  /** `toggleSidebar` flips the flag; doing it twice changes nothing. */
  lemma ToggleSidebarTwice(s: State)
    ensures Apply(s, ToggleSidebar).isSidebarOpen == !s.isSidebarOpen
    ensures Apply(Apply(s, ToggleSidebar), ToggleSidebar) == s
  {
  }

  /** The single-field setter of field `f` (every field but the user has
      one), writing the value that `value` holds in that field. */
  function Setter(f: Field, value: State): Action
    requires f != CurrentUser
  {
    match f
    case IsAuthenticated => SetIsAuthenticated(value.isAuthenticated)
    case CurrentChallenge => SetCurrentChallenge(value.currentChallenge)
    case UserCode => SetUserCode(value.userCode)
    case IsCodeRunning => SetIsCodeRunning(value.isCodeRunning)
    case IsSidebarOpen => SetSidebarOpen(value.isSidebarOpen)
    case CurrentTab => SetCurrentTab(value.currentTab)
    case ShowHint => SetShowHint(value.showHint)
    case HintLevel => SetHintLevel(value.hintLevel)
    case TestResultField => SetTestResult(value.testResult)
  }

  /** Each single-field setter stores its argument in its own field and
      leaves every other field alone. */
  lemma SetterEffect(s: State, f: Field, value: State)
    requires f != CurrentUser
    ensures var t := Apply(s, Setter(f, value));
            Agree(t, value, f) && Keeps(s, t, {f})
  {
  }

  /** The values the declared types allow: a hint level of 1, 2 or 3, and
      a message on every non-idle result. */
  predicate Valid(s: State) {
    1 <= s.hintLevel <= 3 && (s.testResult.status != Idle ==> s.testResult.message.Some?)
  }

  /** An action whose argument has its declared type. */
  predicate WellTyped(a: Action) {
    match a
    case SetHintLevel(l) => 1 <= l <= 3
    case SetTestResult(r) => r.status != Idle ==> r.message.Some?
    case _ => true
  }

  /** The initial state has valid values and no user is signed in. */
  lemma InitialValid()
    ensures Valid(Initial) && Consistent(Initial)
  {
  }

  /** A well-typed action keeps the values valid. */
  lemma ApplyValid(s: State, a: Action)
    requires Valid(s) && WellTyped(a)
    ensures Valid(Apply(s, a))
  {
  }

  /** Along any run of well-typed actions the hint level stays 1, 2 or 3
      and every non-idle result has a message. */
  lemma {:induction false} RunValid(s: State, actions: seq<Action>)
    requires Valid(s)
    requires forall k :: 0 <= k < |actions| ==> WellTyped(actions[k])
    ensures Valid(Run(s, actions))
    ensures 1 <= Run(s, actions).hintLevel <= 3
    decreases |actions|
  {
    if |actions| > 0 {
      ApplyValid(s, actions[0]);
      RunValid(Apply(s, actions[0]), actions[1..]);
    }
  }

  /** The authentication flag says whether a user is stored. */
  predicate Consistent(s: State) {
    s.isAuthenticated <==> s.currentUser.Some?
  }

  /** Every action but `setIsAuthenticated` keeps the flag consistent with
      the stored user. */
  lemma ApplyConsistent(s: State, a: Action)
    requires Consistent(s) && !a.SetIsAuthenticated?
    ensures Consistent(Apply(s, a))
  {
  }

  /** So does every run without `setIsAuthenticated`. */
  lemma {:induction false} RunConsistent(s: State, actions: seq<Action>)
    requires Consistent(s)
    requires forall k :: 0 <= k < |actions| ==> !actions[k].SetIsAuthenticated?
    ensures Consistent(Run(s, actions))
    decreases |actions|
  {
    if |actions| > 0 {
      ApplyConsistent(s, actions[0]);
      RunConsistent(Apply(s, actions[0]), actions[1..]);
    }
  }

  /** `setIsAuthenticated` alone can break that agreement. */
  lemma SetIsAuthenticatedBreaksConsistency()
    ensures Consistent(Initial) && !Consistent(Apply(Initial, SetIsAuthenticated(true)))
  {
  }

  /** Logging out, resetting the session and the feedback, reopening the
      sidebar and returning to the editor tab gives back the initial state. */
  lemma ResetsReachInitial(s: State)
    ensures Run(s, [Logout, ResetChallengeSession, SetSidebarOpen(true), SetCurrentTab(EditorPane), ResetFeedback]) == Initial
  {
    var actions := [Logout, ResetChallengeSession, SetSidebarOpen(true), SetCurrentTab(EditorPane), ResetFeedback];
    var s1 := Apply(s, Logout);
    var s2 := Apply(s1, ResetChallengeSession);
    var s3 := Apply(s2, SetSidebarOpen(true));
    var s4 := Apply(s3, SetCurrentTab(EditorPane));
    var s5 := Apply(s4, ResetFeedback);
    assert actions[1..][1..][1..][1..][1..] == [];
    assert Run(s5, []) == s5;
    assert s5 == Initial;
  }
}

=== FILE: base.dfy ===
/** Shared wrappers used across the model: JavaScript's `undefined`/`null`
    results become `None`, thrown errors become `Err`. */
module Base {

  datatype Option<+T> = None | Some(value: T) {
    /** `x ?? d` */
    function GetOr(default: T): T {
      match this
      case Some(v) => v
      case None => default
    }
  }

  datatype Result<+T, +E> = Ok(value: T) | Err(error: E)
}

=== FILE: code_editor.dfy ===
/** The code editor's pure parts: choosing the highlighting grammar for a
    language, and marking a range of lines of the highlighted text. The
    highlighter itself is an external library, so its output is an input
    string here. */
module CodeEditor {
  import opened Base
  import opened Text

  /** The grammars the editor loads. */
  datatype Grammar = Markup | JsxGrammar | TsxGrammar | TypeScriptGrammar | JavaScriptGrammar

  /** `getPrismLanguage(language)`: html is highlighted as markup, the four
      script dialects with their own grammar, anything else as tsx. */
  function GetPrismLanguage(language: string): (g: Grammar)
    ensures g == Markup <==> language == "html"
    ensures g == JsxGrammar <==> language == "jsx"
    ensures g == TypeScriptGrammar <==> language == "typescript"
    ensures g == JavaScriptGrammar <==> language == "javascript"
    ensures g == TsxGrammar <==> language !in {"html", "jsx", "typescript", "javascript"}
  {
    match language
    case "html" => Markup
    case "jsx" => JsxGrammar
    case "tsx" => TsxGrammar
    case "typescript" => TypeScriptGrammar
    case "javascript" => JavaScriptGrammar
    case _ => TsxGrammar
  }

  /** The markup put around a highlighted line. */
  function Wrap(line: string): string {
    "<span data-highlight-line=\"true\">" + line + "</span>"
  }

  /** The 0-based line range `[first, last]` that `[a]` or `[a, b, ...]`
      selects: `a - 1` to `b - 1`, or just `a - 1`; later elements are
      ignored. */
  function Range(highlightLines: seq<int>): (int, int)
    requires |highlightLines| > 0
  {
    var first := highlightLines[0] - 1;
    (first, if |highlightLines| > 1 then highlightLines[1] - 1 else first)
  }

  /** Line `index` of the range-marked text. */
  function MarkLine(line: string, index: int, first: int, last: int): string {
    if index >= first && index <= last then Wrap(line) else line
  }

  /** The lines wrapped when their index is within `[first, last]`. */
  function MarkLines(lines: seq<string>, first: int, last: int): (r: seq<string>)
    ensures |r| == |lines|
  {
    seq(|lines|, k requires 0 <= k < |lines| => MarkLine(lines[k], k, first, last))
  }

  /** The `highlight` callback after the highlighter has produced
      `highlighted`: with a non-empty `highlightLines`, the selected lines
      are wrapped; otherwise the text is returned as it is. */
  function Highlight(highlighted: string, highlightLines: Option<seq<int>>): (r: string)
    ensures highlightLines.None? || highlightLines.value == [] ==> r == highlighted
  {
    if highlightLines.Some? && |highlightLines.value| > 0 then
      var (first, last) := Range(highlightLines.value);
      Join(MarkLines(Split(highlighted, '\n'), first, last), '\n')
    else highlighted
  }

  /** Wrapping adds no line break. */
  lemma WrapAvoids(line: string)
    requires Avoids(line, '\n')
    ensures Avoids(Wrap(line), '\n')
  {
    var open := "<span data-highlight-line=\"true\">";
    var close := "</span>";
    assert Avoids(open, '\n') && Avoids(close, '\n');
    var w := Wrap(line);
    forall i | 0 <= i < |w| ensures w[i] != '\n' {
      if i < |open| {
        assert w[i] == open[i];
      } else if i < |open| + |line| {
        assert w[i] == line[i - |open|];
      } else {
        assert w[i] == close[i - |open| - |line|];
      }
    }
  }

  /** Marked lines still hold no line break. */
  lemma MarkLinesAvoid(lines: seq<string>, first: int, last: int)
    requires forall k :: 0 <= k < |lines| ==> Avoids(lines[k], '\n')
    ensures forall k :: 0 <= k < |lines| ==> Avoids(MarkLines(lines, first, last)[k], '\n')
  {
    forall k | 0 <= k < |lines| ensures Avoids(MarkLines(lines, first, last)[k], '\n') {
      WrapAvoids(lines[k]);
    }
  }

  /** Read line by line, the result has the same number of lines as the
      input, line `k` wrapped exactly when `first <= k <= last`, where
      `[first, last]` is the range `highlightLines` selects; the count of
      line breaks is unchanged. */
  lemma HighlightByLine(highlighted: string, highlightLines: seq<int>)
    requires |highlightLines| > 0
    ensures var r := Highlight(highlighted, Some(highlightLines));
            var before := Split(highlighted, '\n');
            var after := Split(r, '\n');
            var (first, last) := Range(highlightLines);
            && |after| == |before|
            && (forall k :: 0 <= k < |after| ==>
                  after[k] == if first <= k <= last then Wrap(before[k]) else before[k])
            && Count(r, '\n') == Count(highlighted, '\n')
  {
    var before := Split(highlighted, '\n');
    var (first, last) := Range(highlightLines);
    var marked := MarkLines(before, first, last);
    MarkLinesAvoid(before, first, last);
    SplitJoin(marked, '\n');
    JoinCount(marked, '\n');
    SplitCount(highlighted, '\n');
  }

  /** `[a]` wraps line `a` (1-based) and no other. */
  lemma HighlightOneLine(highlighted: string, a: int)
    ensures var after := Split(Highlight(highlighted, Some([a])), '\n');
            var before := Split(highlighted, '\n');
            |after| == |before|
            && forall k :: 0 <= k < |after| ==> after[k] == if k == a - 1 then Wrap(before[k]) else before[k]
  {
    HighlightByLine(highlighted, [a]);
  }

  /** A range whose start is after its end wraps nothing. */
  lemma HighlightEmptyRange(highlighted: string, highlightLines: seq<int>)
    requires |highlightLines| > 1 && highlightLines[0] > highlightLines[1]
    ensures Highlight(highlighted, Some(highlightLines)) == highlighted
  {
    var before := Split(highlighted, '\n');
    var (first, last) := Range(highlightLines);
    assert MarkLines(before, first, last) == before;
    JoinSplit(highlighted, '\n');
  }
}

=== FILE: csv.dfy ===
/** `parseCsv` of the guideline generator: a character loop with an explicit
    in-quotes state, a lenient subset of RFC 4180 section 2 (quoted fields,
    doubled quotes, line breaks inside quotes; CR outside quotes is dropped). */
module Csv {

  type Row = seq<string>

  /** The loop variables of `parseCsv`. */
  datatype State = State(rows: seq<Row>, row: Row, field: string, inQuotes: bool)

  const Start := State([], [], "", false)

  predicate RowsNonEmpty(rows: seq<Row>) {
    forall k :: 0 <= k < |rows| ==> |rows[k]| >= 1
  }

  /** The character loop over the rest `t` of the text. Inside quotes `""` is one
      literal quote and a lone quote ends quoting; outside quotes `"` starts
      quoting, `,` ends the field, LF ends the row and CR is skipped. Every row
      it emits has at least one field. */
  function Run(t: string, st: State): (r: State)
    ensures RowsNonEmpty(st.rows) ==> RowsNonEmpty(r.rows)
    decreases |t|
  {
    if |t| == 0 then st
    else
      var ch := t[0];
      if st.inQuotes then
        if ch == '"' then
          if |t| > 1 && t[1] == '"' then Run(t[2..], st.(field := st.field + "\""))
          else Run(t[1..], st.(inQuotes := false))
        else Run(t[1..], st.(field := st.field + [ch]))
      else if ch == '"' then Run(t[1..], st.(inQuotes := true))
      else if ch == ',' then Run(t[1..], st.(row := st.row + [st.field], field := ""))
      else if ch == '\r' then Run(t[1..], st)
      else if ch == '\n' then Run(t[1..], State(st.rows + [st.row + [st.field]], [], "", false))
      else Run(t[1..], st.(field := st.field + [ch]))
  }

  /** After the loop: the last row is kept only if it has a field or content. */
  function Finish(st: State): (rows: seq<Row>)
    ensures RowsNonEmpty(st.rows) ==> RowsNonEmpty(rows)
    ensures |rows| == |st.rows| + (if |st.field| > 0 || |st.row| > 0 then 1 else 0)
  {
    if |st.field| > 0 || |st.row| > 0 then st.rows + [st.row + [st.field]] else st.rows
  }

  /** `parseCsv(text)`. Every row has at least one field. */
  function ParseCsv(text: string): (rows: seq<Row>)
    ensures RowsNonEmpty(rows)
  {
    Finish(Run(text, Start))
  }

  // ---------------------------------------------------------------------------
  // Writing rows back out

  /** A field's content with every `"` doubled. */
  function DoubleQuotes(f: string): (r: string)
    ensures |r| >= |f|
  {
    if |f| == 0 then ""
    else (if f[0] == '"' then "\"\"" else [f[0]]) + DoubleQuotes(f[1..])
  }

  function Quote(f: string): string {
    "\"" + DoubleQuotes(f) + "\""
  }

  /** One row, every field quoted, comma-separated, LF-terminated. */
  function WriteRow(fs: Row, eol: string): string
    requires |fs| >= 1
  {
    Quote(fs[0]) + (if |fs| == 1 then eol else "," + WriteRow(fs[1..], eol))
  }

  function Write(rows: seq<Row>, eol: string): string
    requires RowsNonEmpty(rows)
  {
    if |rows| == 0 then "" else WriteRow(rows[0], eol) + Write(rows[1..], eol)
  }

  lemma StepComma(u: string, st: State)
    requires !st.inQuotes
    ensures Run("," + u, st) == Run(u, st.(row := st.row + [st.field], field := ""))
  {
    assert ("," + u)[0] == ',' && ("," + u)[1..] == u;
  }

  lemma StepLineFeed(u: string, st: State)
    requires !st.inQuotes
    ensures Run("\n" + u, st) == Run(u, State(st.rows + [st.row + [st.field]], [], "", false))
  {
    assert ("\n" + u)[0] == '\n' && ("\n" + u)[1..] == u;
  }

  lemma StepOpenQuote(u: string, st: State)
    requires !st.inQuotes
    ensures Run("\"" + u, st) == Run(u, st.(inQuotes := true))
  {
    assert ("\"" + u)[0] == '"' && ("\"" + u)[1..] == u;
  }

  lemma StepCarriageReturn(u: string, st: State)
    requires !st.inQuotes
    ensures Run("\r" + u, st) == Run(u, st)
  {
    assert ("\r" + u)[0] == '\r' && ("\r" + u)[1..] == u;
  }

  /** Inside quotes the doubled content of `f` and the closing quote add exactly
      `f` to the field, commas, CR, LF and quotes included, and leave quoting. */
  lemma {:induction false} QuotedContent(f: string, rest: string, st: State)
    requires st.inQuotes
    requires |rest| == 0 || rest[0] != '"'
    ensures Run(DoubleQuotes(f) + "\"" + rest, st) == Run(rest, st.(field := st.field + f, inQuotes := false))
    decreases |f|
  {
    var t := DoubleQuotes(f) + "\"" + rest;
    if |f| == 0 {
      assert t == "\"" + rest;
      assert st.field + f == st.field;
    } else if f[0] == '"' {
      assert t == "\"\"" + (DoubleQuotes(f[1..]) + "\"" + rest);
      assert t[2..] == DoubleQuotes(f[1..]) + "\"" + rest;
      QuotedContent(f[1..], rest, st.(field := st.field + "\""));
      assert st.field + "\"" + f[1..] == st.field + f;
    } else {
      assert t == [f[0]] + (DoubleQuotes(f[1..]) + "\"" + rest);
      assert t[1..] == DoubleQuotes(f[1..]) + "\"" + rest;
      QuotedContent(f[1..], rest, st.(field := st.field + [f[0]]));
      assert st.field + [f[0]] + f[1..] == st.field + f;
    }
  }

  /** A quoted field read from an empty field, then a character that is not
      a quote. */
  lemma QuotedFieldThen(f: string, after: string, st: State)
    requires !st.inQuotes && st.field == ""
    requires |after| > 0 && after[0] != '"'
    ensures Run(Quote(f) + after, st) == Run(after, st.(field := f))
  {
    var u := DoubleQuotes(f) + "\"" + after;
    assert Quote(f) + after == "\"" + u;
    var inQ := st.(inQuotes := true);
    StepOpenQuote(u, st);
    QuotedContent(f, after, inQ);
    assert inQ.(field := inQ.field + f, inQuotes := false) == st.(field := f);
  }

  /** The end of a row, LF or CRLF, outside quotes. */
  lemma EolStep(eol: string, rest: string, st: State)
    requires eol == "\n" || eol == "\r\n"
    requires !st.inQuotes
    ensures Run(eol + rest, st) == Run(rest, State(st.rows + [st.row + [st.field]], [], "", false))
  {
    if eol == "\r\n" {
      assert eol + rest == "\r" + ("\n" + rest);
      StepCarriageReturn("\n" + rest, st);
    }
    StepLineFeed(rest, st);
  }

  /** A written row is read back as one row with the same fields. */
  lemma {:induction false} RowRoundTrip(fs: Row, rest: string, st: State, eol: string)
    requires |fs| >= 1 && !st.inQuotes && st.field == ""
    requires eol == "\n" || eol == "\r\n"
    ensures Run(WriteRow(fs, eol) + rest, st) == Run(rest, State(st.rows + [st.row + fs], [], "", false))
    decreases |fs|
  {
    var s1 := st.(field := fs[0]);
    if |fs| == 1 {
      assert WriteRow(fs, eol) + rest == Quote(fs[0]) + (eol + rest);
      QuotedFieldThen(fs[0], eol + rest, st);
      EolStep(eol, rest, s1);
      assert fs == [fs[0]];
    } else {
      var more := WriteRow(fs[1..], eol) + rest;
      assert WriteRow(fs, eol) + rest == Quote(fs[0]) + ("," + more);
      QuotedFieldThen(fs[0], "," + more, st);
      StepComma(more, s1);
      RowRoundTrip(fs[1..], rest, State(st.rows, st.row + [fs[0]], "", false), eol);
      assert st.row + [fs[0]] + fs[1..] == st.row + fs;
    }
  }

  lemma {:induction false} RowsRoundTrip(rows: seq<Row>, acc: seq<Row>, eol: string)
    requires RowsNonEmpty(rows)
    requires eol == "\n" || eol == "\r\n"
    ensures Run(Write(rows, eol), State(acc, [], "", false)) == State(acc + rows, [], "", false)
    decreases |rows|
  {
    if |rows| == 0 {
      assert acc + rows == acc;
    } else {
      var rest := Write(rows[1..], eol);
      assert Write(rows, eol) == WriteRow(rows[0], eol) + rest;
      RowRoundTrip(rows[0], rest, State(acc, [], "", false), eol);
      assert [] + rows[0] == rows[0];
      RowsRoundTrip(rows[1..], acc + [rows[0]], eol);
      assert acc + [rows[0]] + rows[1..] == acc + rows;
    }
  }

  /** Round trip: rows written with every field quoted, inner quotes doubled,
      comma separators and LF (or CRLF) terminators parse back to the same rows. */
  lemma ParseWrite(rows: seq<Row>, eol: string)
    requires RowsNonEmpty(rows)
    requires eol == "\n" || eol == "\r\n"
    ensures ParseCsv(Write(rows, eol)) == rows
  {
    RowsRoundTrip(rows, [], eol);
    assert [] + rows == rows;
  }

  // ---------------------------------------------------------------------------
  // Unquoted text

  /** A field that needs no quoting: no quote, comma, CR or LF. */
  predicate Plain(f: string) {
    forall i :: 0 <= i < |f| ==> f[i] != '"' && f[i] != ',' && f[i] != '\r' && f[i] != '\n'
  }

  lemma {:induction false} PlainField(f: string, rest: string, st: State)
    requires Plain(f) && !st.inQuotes
    ensures Run(f + rest, st) == Run(rest, st.(field := st.field + f))
    decreases |f|
  {
    if |f| == 0 {
      assert f + rest == rest;
      assert st.field + f == st.field;
    } else {
      assert (f + rest)[1..] == f[1..] + rest;
      PlainField(f[1..], rest, st.(field := st.field + [f[0]]));
      assert st.field + [f[0]] + f[1..] == st.field + f;
    }
  }

  /** Outside quotes a comma ends a field and LF ends the row: `f1,...,fn` plus
      LF reads as the row `[f1, ..., fn]`. */
  lemma {:induction false} PlainRow(fs: Row, rest: string, st: State)
    requires |fs| >= 1 && forall k :: 0 <= k < |fs| ==> Plain(fs[k])
    requires !st.inQuotes && st.field == ""
    ensures Run(JoinComma(fs) + "\n" + rest, st) == Run(rest, State(st.rows + [st.row + fs], [], "", false))
    decreases |fs|
  {
    if |fs| == 1 {
      assert JoinComma(fs) + "\n" + rest == fs[0] + ("\n" + rest);
      PlainFieldThen(fs[0], "\n", rest, st);
      assert st.row + [fs[0]] == st.row + fs;
    } else {
      var tail := JoinComma(fs[1..]) + "\n" + rest;
      assert JoinComma(fs) + "\n" + rest == fs[0] + ("," + tail);
      PlainFieldThen(fs[0], ",", tail, st);
      PlainRow(fs[1..], rest, State(st.rows, st.row + [fs[0]], "", false));
      assert st.row + [fs[0]] + fs[1..] == st.row + fs;
    }
  }

  /** A plain field read from an empty field, then a comma or LF. */
  lemma PlainFieldThen(f: string, sep: string, rest: string, st: State)
    requires Plain(f) && !st.inQuotes && st.field == ""
    requires sep == "," || sep == "\n"
    ensures Run(f + (sep + rest), st)
            == if sep == "," then Run(rest, st.(row := st.row + [f], field := ""))
               else Run(rest, State(st.rows + [st.row + [f]], [], "", false))
  {
    PlainField(f, sep + rest, st);
    var mid := st.(field := f);
    assert st.(field := st.field + f) == mid;
    if sep == "," { StepComma(rest, mid); } else { StepLineFeed(rest, mid); }
  }

  function JoinComma(fs: Row): string
    requires |fs| >= 1
  {
    if |fs| == 1 then fs[0] else fs[0] + "," + JoinComma(fs[1..])
  }

  // ---------------------------------------------------------------------------
  // The end of the input

  /** The loop over `t + u` is the loop over `t` followed by the loop over `u`,
      unless `u` starts with a quote that could pair with a final quote of `t`. */
  lemma {:induction false} RunAppend(t: string, u: string, st: State)
    requires |u| == 0 || u[0] != '"'
    ensures Run(t + u, st) == Run(u, Run(t, st))
    decreases |t|
  {
    if |t| == 0 {
      assert t + u == u;
    } else {
      assert (t + u)[0] == t[0];
      assert (t + u)[1..] == t[1..] + u;
      if st.inQuotes && t[0] == '"' {
        if |t| > 1 && t[1] == '"' {
          assert (t + u)[1] == '"';
          assert (t + u)[2..] == t[2..] + u;
          RunAppend(t[2..], u, st.(field := st.field + "\""));
        } else if |t| > 1 {
          assert (t + u)[1] == t[1];
          RunAppend(t[1..], u, st.(inQuotes := false));
        } else {
          assert t[1..] == "";
          assert Run(t, st) == st.(inQuotes := false);
          assert t + u == "\"" + u;
        }
      } else if st.inQuotes {
        RunAppend(t[1..], u, st.(field := st.field + [t[0]]));
      } else if t[0] == '"' {
        RunAppend(t[1..], u, st.(inQuotes := true));
      } else if t[0] == ',' {
        RunAppend(t[1..], u, st.(row := st.row + [st.field], field := ""));
      } else if t[0] == '\r' {
        RunAppend(t[1..], u, st);
      } else if t[0] == '\n' {
        RunAppend(t[1..], u, State(st.rows + [st.row + [st.field]], [], "", false));
      } else {
        RunAppend(t[1..], u, st.(field := st.field + [t[0]]));
      }
    }
  }

  /** A final LF outside quotes adds no row: when the text so far ends inside a
      non-empty row, terminating it with LF gives the same rows. */
  lemma FinalLineFeed(t: string)
    requires !Run(t, Start).inQuotes
    requires |Run(t, Start).field| > 0 || |Run(t, Start).row| > 0
    ensures ParseCsv(t + "\n") == ParseCsv(t)
  {
    RunAppend(t, "\n", Start);
  }
}

=== FILE: generator.dfy ===
/** The catalogue generator script: it reads the checklist CSV, keeps the first
    row for each checklist number, sorts by number, and writes each entry out as
    a TypeScript object literal. */
module GuidelineGenerator {
  import opened Base
  import opened Text
  import Seqs
  import Csv
  import opened KwcagGuidelines

  // ---------------------------------------------------------------------------
  // Principle by checklist number

  /** `inferPrincipleById(id)`: 1-9 perceivable, 10-20 operable, 21-31
      understandable, anything else robust. */
  function InferPrincipleById(id: int): Principle {
    if 1 <= id <= 9 then Perceivable
    else if 10 <= id <= 20 then Operable
    else if 21 <= id <= 31 then Understandable
    else Robust
  }

  /** The shipped catalogue carries, for item `n`, the principle the generator
      infers for `n`. */
  lemma CatalogueAgreesWithInference()
    ensures forall k :: 0 <= k < 33 ==> Table()[k].principle == InferPrincipleById(k + 1)
  {
    forall k | 0 <= k < 33 ensures Table()[k].principle == InferPrincipleById(k + 1) {
      assert Table()[k] == Entry(k + 1);
    }
  }

  /** A principle lookup on the catalogue returns exactly the items whose
      number falls in that principle's range. */
  lemma GetGuidelinesByPrincipleRange(p: Principle)
    ensures forall n :: 1 <= n <= 33 ==> (Table()[n - 1] in GetGuidelinesByPrinciple(p) <==> InferPrincipleById(n) == p)
  {
    CatalogueAgreesWithInference();
    var t := Table();
    forall n | 1 <= n <= 33
      ensures t[n - 1] in ByPrinciple(t, p) <==> InferPrincipleById(n) == p
    {
      assert t[n - 1] in t;
    }
  }

  /** How many of the numbers `lo` to `hi` the generator files under `p`. */
  function InRange(lo: int, hi: int, p: Principle): nat
    decreases hi - lo
  {
    if lo > hi then 0
    else (if InferPrincipleById(lo) == p then 1 else 0) + InRange(lo + 1, hi, p)
  }

  /** One entry off the front of a principle lookup. */
  lemma ByPrincipleStep(xs: seq<Guideline>, p: Principle)
    requires |xs| > 0
    ensures |ByPrinciple(xs, p)| == (if xs[0].principle == p then 1 else 0) + |ByPrinciple(xs[1..], p)|
  {
  }

  /** In a table whose `j`-th entry carries the principle inferred for
      `j + 1`, the principle lookup over the entries from position `k` on
      has one result per number of that principle in `k + 1` to `|table|`. */
  lemma {:induction false} ByPrincipleCount(table: seq<Guideline>, p: Principle, k: nat)
    requires forall j :: 0 <= j < |table| ==> table[j].principle == InferPrincipleById(j + 1)
    requires k <= |table|
    ensures |ByPrinciple(table[k..], p)| == InRange(k + 1, |table|, p)
    decreases |table| - k
  {
    if k < |table| {
      ByPrincipleCount(table, p, k + 1);
      ByPrincipleStep(table[k..], p);
      assert table[k..][1..] == table[k + 1..];
    }
  }

  /** The first and last checklist numbers `inferPrincipleById` files under
      `p`, within 1 to 33. */
  function FirstOf(p: Principle): int {
    match p
    case Perceivable => 1
    case Operable => 10
    case Understandable => 21
    case Robust => 32
  }

  function LastOf(p: Principle): int {
    match p
    case Perceivable => 9
    case Operable => 20
    case Understandable => 31
    case Robust => 33
  }

  /** How many checklist items each principle covers. */
  function PrincipleSize(p: Principle): nat {
    match p
    case Perceivable => 9
    case Operable => 11
    case Understandable => 11
    case Robust => 2
  }

  /** The numbers from `lo` to 33 that fall under `p`: all of `p`'s range
      when `lo` is below it, the part from `lo` on when `lo` is inside it,
      none when `lo` is past it. */
  lemma {:induction false} InRangeFrom(lo: int, hi: int, p: Principle)
    requires 1 <= lo <= hi + 1 && hi == 33
    ensures InRange(lo, hi, p) == if lo <= FirstOf(p) then LastOf(p) - FirstOf(p) + 1
                                  else if lo <= LastOf(p) then LastOf(p) - lo + 1
                                  else 0
    decreases hi - lo
  {
    if lo <= hi {
      InRangeFrom(lo + 1, hi, p);
    }
  }

  /** A table carrying the inferred principles has one entry per number of
      each principle. */
  lemma {:induction false} ByPrincipleSizes(table: seq<Guideline>, p: Principle)
    requires forall j :: 0 <= j < |table| ==> table[j].principle == InferPrincipleById(j + 1)
    ensures |ByPrinciple(table, p)| == InRange(1, |table|, p)
  {
    ByPrincipleCount(table, p, 0);
    assert table[0..] == table;
  }

  /** The catalogue holds 9 perceivable, 11 operable, 11 understandable and
      2 robust items. */
  lemma CatalogueSize(p: Principle)
    ensures |GetGuidelinesByPrinciple(p)| == PrincipleSize(p)
  {
    CatalogueAgreesWithInference();
    TableSize(Table(), p);
  }

  /** Any 33-entry table carrying the inferred principles has that many
      entries under each principle. */
  lemma TableSize(table: seq<Guideline>, p: Principle)
    requires |table| == 33
    requires forall k :: 0 <= k < 33 ==> table[k].principle == InferPrincipleById(k + 1)
    ensures |ByPrinciple(table, p)| == PrincipleSize(p)
  {
    ByPrincipleSizes(table, p);
    InRangeFrom(1, |table|, p);
  }

  // ---------------------------------------------------------------------------
  // Escaping for the generated file

  /** `escapeTsString(s)`: three `replaceAll` passes putting a backslash before
      every backslash, every backtick and every `${`. */
  function EscapeTsString(s: string): string {
    ReplaceAllText(ReplaceAllText(ReplaceAllText(s, "\\", "\\\\"), "`", "\\`"), "${", "\\${")
  }

  /** The same escaping done in one left-to-right pass. */
  function EscapeOnce(s: string): string
    decreases |s|
  {
    if |s| == 0 then ""
    else if s[0] == '\\' then "\\\\" + EscapeOnce(s[1..])
    else if s[0] == '`' then "\\`" + EscapeOnce(s[1..])
    else if s[0] == '$' && |s| > 1 && s[1] == '{' then "\\${" + EscapeOnce(s[2..])
    else [s[0]] + EscapeOnce(s[1..])
  }

  /** What the first two passes do to one character. */
  function BackslashBacktick(c: char): string {
    if c == '\\' then "\\\\" else if c == '`' then "\\`" else [c]
  }

  function MapBackslashBacktick(s: string): string
    decreases |s|
  {
    if |s| == 0 then "" else BackslashBacktick(s[0]) + MapBackslashBacktick(s[1..])
  }

  /** A one-character pattern is replaced character by character. */
  lemma ReplaceCharStep(c: char, rest: string, p: char, rep: string)
    ensures ReplaceAllText([c] + rest, [p], rep) == (if c == p then rep else [c]) + ReplaceAllText(rest, [p], rep)
  {
    var s := [c] + rest;
    assert s[..1] == [c] && s[1..] == rest;
  }

  /** Replacing one character, written as a map over the characters. */
  function MapChar(s: string, p: char, rep: string): string
    decreases |s|
  {
    if |s| == 0 then "" else (if s[0] == p then rep else [s[0]]) + MapChar(s[1..], p, rep)
  }

  lemma {:induction false} ReplaceCharIsMap(s: string, p: char, rep: string)
    ensures ReplaceAllText(s, [p], rep) == MapChar(s, p, rep)
    decreases |s|
  {
    if |s| > 0 {
      assert s == [s[0]] + s[1..];
      ReplaceCharStep(s[0], s[1..], p, rep);
      ReplaceCharIsMap(s[1..], p, rep);
    }
  }

  lemma {:induction false} MapCharAppend(a: string, b: string, p: char, rep: string)
    ensures MapChar(a + b, p, rep) == MapChar(a, p, rep) + MapChar(b, p, rep)
    decreases |a|
  {
    if |a| == 0 {
      assert a + b == b;
    } else {
      assert (a + b)[0] == a[0] && (a + b)[1..] == a[1..] + b;
      MapCharAppend(a[1..], b, p, rep);
    }
  }

  lemma ReplaceCharAppend(a: string, b: string, p: char, rep: string)
    ensures ReplaceAllText(a + b, [p], rep) == ReplaceAllText(a, [p], rep) + ReplaceAllText(b, [p], rep)
  {
    ReplaceCharIsMap(a + b, p, rep);
    ReplaceCharIsMap(a, p, rep);
    ReplaceCharIsMap(b, p, rep);
    MapCharAppend(a, b, p, rep);
  }

  lemma {:induction false} FirstTwoPasses(s: string)
    ensures ReplaceAllText(ReplaceAllText(s, "\\", "\\\\"), "`", "\\`") == MapBackslashBacktick(s)
    decreases |s|
  {
    if |s| > 0 {
      var c := s[0];
      var b := if c == '\\' then "\\\\" else [c];
      assert s == [c] + s[1..];
      ReplaceCharStep(c, s[1..], '\\', "\\\\");
      var once := ReplaceAllText(s[1..], "\\", "\\\\");
      assert ReplaceAllText(s, "\\", "\\\\") == b + once;
      ReplaceCharAppend(b, once, '`', "\\`");
      FirstTwoPasses(s[1..]);
      if c == '\\' {
        ReplaceCharStep('\\', "\\", '`', "\\`");
        ReplaceCharStep('\\', "", '`', "\\`");
        assert b == ['\\'] + "\\";
      } else {
        ReplaceCharStep(c, "", '`', "\\`");
        assert b == [c] + "";
      }
    }
  }

  /** The `${` pass copies a first character that does not start `${`. */
  lemma DollarPassCopy(c: char, m: string)
    requires c != '$' || m == [] || m[0] != '{'
    ensures ReplaceAllText([c] + m, "${", "\\${") == [c] + ReplaceAllText(m, "${", "\\${")
  {
    var x := [c] + m;
    assert x[1..] == m;
    if |x| >= 2 { assert x[..2] != "${" by { assert x[..2][0] == c && x[..2][1] == m[0]; } }
  }

  /** The `${` pass escapes a leading `${`. */
  lemma DollarPassEscape(m: string)
    ensures ReplaceAllText("${" + m, "${", "\\${") == "\\${" + ReplaceAllText(m, "${", "\\${")
  {
    var x := "${" + m;
    assert x[..2] == "${" && x[2..] == m;
  }

  /** What the first two passes produce starts with `{` only where the input did. */
  lemma MapStartsWithBrace(s: string)
    requires |s| > 0
    ensures MapBackslashBacktick(s) != [] && (MapBackslashBacktick(s)[0] == '{' <==> s[0] == '{')
  {
    assert MapBackslashBacktick(s) == BackslashBacktick(s[0]) + MapBackslashBacktick(s[1..]);
  }

  /** The last pass after an escaped backslash or backtick. */
  lemma DollarPassAfterEscape(c: char, m: string)
    requires c == '\\' || c == '`'
    ensures ReplaceAllText(BackslashBacktick(c) + m, "${", "\\${") == BackslashBacktick(c) + ReplaceAllText(m, "${", "\\${")
  {
    DollarPassCopy('\\', [c] + m);
    DollarPassCopy(c, m);
    assert BackslashBacktick(c) + m == ['\\'] + ([c] + m);
  }

  /** One step of the single pass, read off its definition. */
  lemma EscapeOnceStep(s: string)
    requires |s| > 0
    ensures s[0] == '$' && |s| > 1 && s[1] == '{' ==> EscapeOnce(s) == "\\${" + EscapeOnce(s[2..])
    ensures !(s[0] == '$' && |s| > 1 && s[1] == '{') ==> EscapeOnce(s) == BackslashBacktick(s[0]) + EscapeOnce(s[1..])
  {
  }

  lemma {:induction false} LastPass(s: string)
    ensures ReplaceAllText(MapBackslashBacktick(s), "${", "\\${") == EscapeOnce(s)
    decreases |s|
  {
    if |s| > 0 {
      var c := s[0];
      var m := MapBackslashBacktick(s[1..]);
      assert MapBackslashBacktick(s) == BackslashBacktick(c) + m;
      EscapeOnceStep(s);
      if c == '$' && |s| > 1 && s[1] == '{' {
        LastPass(s[2..]);
        assert s[1..] == ['{'] + s[2..];
        assert m == "{" + MapBackslashBacktick(s[2..]);
        DollarPassEscape(MapBackslashBacktick(s[2..]));
        assert BackslashBacktick(c) + m == "${" + MapBackslashBacktick(s[2..]);
      } else {
        LastPass(s[1..]);
        if c == '\\' || c == '`' {
          DollarPassAfterEscape(c, m);
        } else {
          if |s| > 1 { MapStartsWithBrace(s[1..]); }
          DollarPassCopy(c, m);
        }
      }
    }
  }

  /** The three passes together are the one-pass escaping. */
  lemma EscapeTsStringOnePass(s: string)
    ensures EscapeTsString(s) == EscapeOnce(s)
  {
    FirstTwoPasses(s);
    LastPass(s);
  }

  // ---------------------------------------------------------------------------
  // Reading a double-quoted TypeScript string literal back

  /** The character an escape sequence `\c` stands for inside a string
      literal, for the escapes this model reads: the single-character escapes
      and any character without a special meaning after a backslash. */
  function EscapedChar(c: char): Option<char> {
    if c == 'n' then Some('\n')
    else if c == 'r' then Some('\r')
    else if c == 't' then Some('\t')
    else if c == 'b' then Some('\U{8}')
    else if c == 'f' then Some('\U{C}')
    else if c == 'v' then Some('\U{B}')
    else if c == 'x' || c == 'u' || IsDigit(c) || c == '\n' || c == '\r' || c == '\U{2028}' || c == '\U{2029}' then None
    else Some(c)
  }

  /** Reads the rest of a double-quoted literal whose opening quote has been
      consumed: the value up to the closing quote and the text after it, or
      `None` when the literal is not well formed (no closing quote, a raw line
      break, or an escape this model does not read). */
  function ReadLiteral(t: string): Option<(string, string)>
    decreases |t|
  {
    if |t| == 0 then None
    else if t[0] == '"' then Some(("", t[1..]))
    else if t[0] == '\n' || t[0] == '\r' then None
    else if t[0] == '\\' then
      if |t| == 1 then None
      else match EscapedChar(t[1])
        case None => None
        case Some(c) => Prepend(c, ReadLiteral(t[2..]))
    else Prepend(t[0], ReadLiteral(t[1..]))
  }

  function Prepend(c: char, r: Option<(string, string)>): Option<(string, string)> {
    match r
    case None => None
    case Some((v, rest)) => Some(([c] + v, rest))
  }

  /** Reading a plain character. */
  lemma ReadPlain(c: char, u: string)
    requires c != '"' && c != '\n' && c != '\r' && c != '\\'
    ensures ReadLiteral([c] + u) == Prepend(c, ReadLiteral(u))
  {
    assert ([c] + u)[1..] == u;
  }

  /** Reading an escape sequence. */
  lemma ReadEscape(e: char, u: string)
    requires EscapedChar(e).Some?
    ensures ReadLiteral(['\\', e] + u) == Prepend(EscapedChar(e).value, ReadLiteral(u))
  {
    assert (['\\', e] + u)[2..] == u;
  }

  /** Reading the closing quote. */
  lemma ReadClose(rest: string)
    ensures ReadLiteral("\"" + rest) == Some(("", rest))
  {
    assert ("\"" + rest)[1..] == rest;
  }

  /** Characters that cannot stand unescaped inside a double-quoted literal. */
  predicate LiteralSafe(s: string) {
    forall k :: 0 <= k < |s| ==> s[k] != '"' && s[k] != '\n' && s[k] != '\r'
  }

  /** Reading back `${` written as `\${`. */
  lemma ReadDollarBrace(s: string, w: string, rest: string)
    requires |s| > 1 && s[0] == '$' && s[1] == '{'
    requires ReadLiteral(w) == Some((s[2..], rest))
    ensures ReadLiteral("\\${" + w) == Some((s, rest))
  {
    ReadEscape('$', ['{'] + w);
    ReadPlain('{', w);
    assert "\\${" + w == ['\\', '$'] + (['{'] + w);
    assert ['$'] + (['{'] + s[2..]) == s;
  }

  /** Reading back one character written as `code`, a plain character or a
      backslash escape for it. */
  lemma ReadWritten(c: char, code: string, w: string, s1: string, rest: string)
    requires code == [c] || (|code| == 2 && code[0] == '\\' && EscapedChar(code[1]) == Some(c))
    requires code == [c] ==> c != '"' && c != '\n' && c != '\r' && c != '\\'
    requires ReadLiteral(w) == Some((s1, rest))
    ensures ReadLiteral(code + w) == Some(([c] + s1, rest))
  {
    if code == [c] {
      ReadPlain(c, w);
    } else {
      assert code == ['\\', code[1]];
      ReadEscape(code[1], w);
    }
  }

  /** Without quotes or line breaks in it, the one-pass escaping between
      double quotes reads back as the original text. */
  lemma {:induction false} EscapeOnceReadsBack(s: string, rest: string)
    requires LiteralSafe(s)
    ensures ReadLiteral(EscapeOnce(s) + "\"" + rest) == Some((s, rest))
    decreases |s|
  {
    if |s| == 0 {
      assert EscapeOnce(s) + "\"" + rest == "\"" + rest;
      ReadClose(rest);
    } else if s[0] == '$' && |s| > 1 && s[1] == '{' {
      assert LiteralSafe(s[2..]) by {
        forall k | 0 <= k < |s[2..]| ensures s[2..][k] == s[k + 2] { }
      }
      EscapeOnceReadsBack(s[2..], rest);
      OnceBackDollarBrace(s, rest);
    } else {
      assert LiteralSafe(s[1..]) by {
        forall k | 0 <= k < |s[1..]| ensures s[1..][k] == s[k + 1] { }
      }
      assert s[0] != '"' && s[0] != '\n' && s[0] != '\r';
      EscapeOnceReadsBack(s[1..], rest);
      OnceBackOne(s, rest);
    }
  }

  /** The step of `EscapeOnceReadsBack` over a leading `${`. */
  lemma OnceBackDollarBrace(s: string, rest: string)
    requires |s| > 1 && s[0] == '$' && s[1] == '{'
    requires ReadLiteral(EscapeOnce(s[2..]) + "\"" + rest) == Some((s[2..], rest))
    ensures ReadLiteral(EscapeOnce(s) + "\"" + rest) == Some((s, rest))
  {
    EscapeOnceStep(s);
    var w := EscapeOnce(s[2..]) + "\"" + rest;
    assert EscapeOnce(s) + "\"" + rest == "\\${" + w;
    ReadDollarBrace(s, w, rest);
  }

  /** The step of `EscapeOnceReadsBack` over one other leading character. */
  lemma OnceBackOne(s: string, rest: string)
    requires |s| > 0 && !(s[0] == '$' && |s| > 1 && s[1] == '{')
    requires s[0] != '"' && s[0] != '\n' && s[0] != '\r'
    requires ReadLiteral(EscapeOnce(s[1..]) + "\"" + rest) == Some((s[1..], rest))
    ensures ReadLiteral(EscapeOnce(s) + "\"" + rest) == Some((s, rest))
  {
    EscapeOnceStep(s);
    var w := EscapeOnce(s[1..]) + "\"" + rest;
    assert EscapeOnce(s) + "\"" + rest == BackslashBacktick(s[0]) + w;
    ReadWritten(s[0], BackslashBacktick(s[0]), w, s[1..], rest);
    assert [s[0]] + s[1..] == s;
  }

  /** `escapeTsString` round-trips through a double-quoted literal for text
      with no double quote and no line break. */
  lemma EscapeTsStringReadsBack(s: string, rest: string)
    requires LiteralSafe(s)
    ensures ReadLiteral(EscapeTsString(s) + "\"" + rest) == Some((s, rest))
  {
    EscapeTsStringOnePass(s);
    EscapeOnceReadsBack(s, rest);
  }

  /** A title containing a double quote: the literal the generator writes
      ends at that quote, and what follows is read as stray text. */
  lemma EscapeTsStringCutsAtQuote(rest: string)
    ensures ReadLiteral(EscapeTsString("a\"b") + "\"" + rest) == Some(("a", "b\"" + rest))
  {
    var s := "a\"b";
    EscapeTsStringOnePass(s);
    EscapeOnceStep(s);
    EscapeOnceStep(s[1..]);
    EscapeOnceStep(s[2..]);
    assert EscapeOnce(s[3..]) == "";
    assert EscapeOnce(s) == s;
    assert s + "\"" + rest == ['a'] + ("\"" + ("b\"" + rest));
    ReadPlain('a', "\"" + ("b\"" + rest));
    ReadClose("b\"" + rest);
    assert ['a'] + "" == "a";
  }

  /** The escaping the generated double-quoted literals need: as
      `escapeTsString`, and also a backslash before a double quote and the
      escapes `\n` and `\r` for line breaks. */
  function EscapeForLiteral(s: string): string
    decreases |s|
  {
    if |s| == 0 then ""
    else if s[0] == '$' && |s| > 1 && s[1] == '{' then "\\${" + EscapeForLiteral(s[2..])
    else LiteralChar(s[0]) + EscapeForLiteral(s[1..])
  }

  /** How the corrected escaping writes one character. */
  function LiteralChar(c: char): string {
    if c == '"' then "\\\"" else if c == '\n' then "\\n" else if c == '\r' then "\\r"
    else BackslashBacktick(c)
  }

  /** Each character the corrected escaping writes reads back as itself. */
  lemma LiteralCharReadable(c: char)
    ensures LiteralChar(c) == [c] || (|LiteralChar(c)| == 2 && LiteralChar(c)[0] == '\\' && EscapedChar(LiteralChar(c)[1]) == Some(c))
    ensures LiteralChar(c) == [c] ==> c != '"' && c != '\n' && c != '\r' && c != '\\'
  {
  }

  lemma EscapeForLiteralStep(s: string)
    requires |s| > 0
    ensures s[0] == '$' && |s| > 1 && s[1] == '{' ==> EscapeForLiteral(s) == "\\${" + EscapeForLiteral(s[2..])
    ensures !(s[0] == '$' && |s| > 1 && s[1] == '{') ==> EscapeForLiteral(s) == LiteralChar(s[0]) + EscapeForLiteral(s[1..])
  {
  }

  /** Every text reads back from the corrected literal. */
  lemma {:induction false} EscapeForLiteralReadsBack(s: string, rest: string)
    ensures ReadLiteral(EscapeForLiteral(s) + "\"" + rest) == Some((s, rest))
    decreases |s|
  {
    if |s| == 0 {
      assert EscapeForLiteral(s) + "\"" + rest == "\"" + rest;
      ReadClose(rest);
    } else if s[0] == '$' && |s| > 1 && s[1] == '{' {
      EscapeForLiteralReadsBack(s[2..], rest);
      ReadBackDollarBrace(s, rest);
    } else {
      EscapeForLiteralReadsBack(s[1..], rest);
      ReadBackOne(s, rest);
    }
  }

  lemma ReadBackDollarBrace(s: string, rest: string)
    requires |s| > 1 && s[0] == '$' && s[1] == '{'
    requires ReadLiteral(EscapeForLiteral(s[2..]) + "\"" + rest) == Some((s[2..], rest))
    ensures ReadLiteral(EscapeForLiteral(s) + "\"" + rest) == Some((s, rest))
  {
    EscapeForLiteralStep(s);
    var w := EscapeForLiteral(s[2..]) + "\"" + rest;
    assert EscapeForLiteral(s) + "\"" + rest == "\\${" + w;
    ReadDollarBrace(s, w, rest);
  }

  lemma ReadBackOne(s: string, rest: string)
    requires |s| > 0 && !(s[0] == '$' && |s| > 1 && s[1] == '{')
    requires ReadLiteral(EscapeForLiteral(s[1..]) + "\"" + rest) == Some((s[1..], rest))
    ensures ReadLiteral(EscapeForLiteral(s) + "\"" + rest) == Some((s, rest))
  {
    EscapeForLiteralStep(s);
    var w := EscapeForLiteral(s[1..]) + "\"" + rest;
    assert EscapeForLiteral(s) + "\"" + rest == LiteralChar(s[0]) + w;
    LiteralCharReadable(s[0]);
    ReadWritten(s[0], LiteralChar(s[0]), w, s[1..], rest);
    assert [s[0]] + s[1..] == s;
  }

  /** Where `escapeTsString` already works, the corrected escaping writes the
      same text. */
  lemma {:induction false} EscapeForLiteralAgrees(s: string)
    requires LiteralSafe(s)
    ensures EscapeForLiteral(s) == EscapeOnce(s)
    decreases |s|
  {
    if |s| > 0 {
      EscapeOnceStep(s);
      EscapeForLiteralStep(s);
      if s[0] == '$' && |s| > 1 && s[1] == '{' {
        EscapeForLiteralAgrees(s[2..]);
      } else {
        EscapeForLiteralAgrees(s[1..]);
      }
    }
  }

  // ---------------------------------------------------------------------------
  // One entry of the generated file

  function PrincipleName(p: Principle): string {
    match p
    case Perceivable => "perceivable"
    case Operable => "operable"
    case Understandable => "understandable"
    case Robust => "robust"
  }

  /** The principle a name in the generated file denotes. */
  function PrincipleNamed(name: string): (r: Option<Principle>)
    ensures r.Some? ==> PrincipleName(r.value) == name
    ensures forall p :: PrincipleName(p) == name ==> r == Some(p)
  {
    if name == "perceivable" then Some(Perceivable)
    else if name == "operable" then Some(Operable)
    else if name == "understandable" then Some(Understandable)
    else if name == "robust" then Some(Robust)
    else None
  }

  const CodeLabel := "  {\n    code: \""
  const TitleLabel := ",\n    title: \""
  const DescriptionLabel := ",\n    description: \""
  const PrincipleLabel := ",\n    principle: \""
  const EntryEnd := ",\n  },"

  /** A field name, a value as written, and the closing quote. */
  function Field(key: string, written: string): string {
    key + written + "\""
  }

  /** One element of `KWCAG_GUIDELINES` as the generator prints it, `esc`
      being the escaping applied to the three text fields. */
  function EntryText(g: Guideline, esc: string -> string): string {
    Field(CodeLabel, esc(g.code)) + Field(TitleLabel, esc(g.title))
    + Field(DescriptionLabel, esc(g.description))
    + Field(PrincipleLabel, PrincipleName(g.principle)) + EntryEnd
  }

  /** `t` without the prefix `p`, if `t` starts with it. */
  function Skip(t: string, p: string): (r: Option<string>)
    ensures r.Some? ==> t == p + r.value
  {
    if |p| <= |t| && t[..|p|] == p then
      assert t == p + t[|p|..];
      Some(t[|p|..])
    else None
  }

  lemma SkipPrefix(p: string, u: string)
    ensures Skip(p + u, p) == Some(u)
  {
    var t := p + u;
    assert t[..|p|] == p && t[|p|..] == u;
  }

  /** Reads a field name and the string literal after it. */
  function ReadField(t: string, key: string): Option<(string, string)> {
    match Skip(t, key)
    case None => None
    case Some(u) => ReadLiteral(u)
  }

  /** Reads one element in the generated layout back into a guideline. */
  function ReadEntry(t: string): Option<(Guideline, string)> {
    match ReadField(t, CodeLabel)
    case None => None
    case Some((code, t1)) =>
      match ReadField(t1, TitleLabel)
      case None => None
      case Some((title, t2)) =>
        match ReadField(t2, DescriptionLabel)
        case None => None
        case Some((description, t3)) =>
          match ReadField(t3, PrincipleLabel)
          case None => None
          case Some((name, t4)) =>
            match PrincipleNamed(name)
            case None => None
            case Some(p) =>
              match Skip(t4, EntryEnd)
              case None => None
              case Some(t5) => Some((Guideline(code, title, description, p), t5))
  }

  /** Reading a printed field is reading its literal. */
  lemma ReadFieldBack(key: string, written: string, rest: string)
    ensures ReadField(Field(key, written) + rest, key) == ReadLiteral(written + "\"" + rest)
  {
    var u := written + "\"" + rest;
    assert Field(key, written) + rest == key + u;
    SkipPrefix(key, u);
  }

  /** Text with no character that needs escaping reads back unchanged. */
  lemma {:induction false} PlainReadsBack(s: string, rest: string)
    requires forall k :: 0 <= k < |s| ==> s[k] != '"' && s[k] != '\n' && s[k] != '\r' && s[k] != '\\'
    ensures ReadLiteral(s + "\"" + rest) == Some((s, rest))
    decreases |s|
  {
    if |s| == 0 {
      assert s + "\"" + rest == "\"" + rest;
      ReadClose(rest);
    } else {
      PlainReadsBack(s[1..], rest);
      assert s + "\"" + rest == [s[0]] + (s[1..] + "\"" + rest);
      ReadPlain(s[0], s[1..] + "\"" + rest);
      assert [s[0]] + s[1..] == s;
    }
  }

  lemma PrincipleNameReadsBack(p: Principle, rest: string)
    ensures ReadLiteral(PrincipleName(p) + "\"" + rest) == Some((PrincipleName(p), rest))
  {
    var name := PrincipleName(p);
    forall k | 0 <= k < |name| ensures 'a' <= name[k] <= 'z' {
      match p
      case Perceivable =>
      case Operable =>
      case Understandable =>
      case Robust =>
    }
    PlainReadsBack(name, rest);
  }

  /** The printed entry followed by `rest`, grouped field by field. */
  lemma EntryTextShape(g: Guideline, esc: string -> string, rest: string)
    ensures EntryText(g, esc) + rest
            == Field(CodeLabel, esc(g.code)) + (Field(TitleLabel, esc(g.title))
               + (Field(DescriptionLabel, esc(g.description))
               + (Field(PrincipleLabel, PrincipleName(g.principle)) + (EntryEnd + rest))))
  {
  }

  /** `ReadEntry` succeeds when each of its steps does. */
  lemma ReadEntrySteps(t: string, g: Guideline, t1: string, t2: string, t3: string, t4: string, t5: string)
    requires ReadField(t, CodeLabel) == Some((g.code, t1))
    requires ReadField(t1, TitleLabel) == Some((g.title, t2))
    requires ReadField(t2, DescriptionLabel) == Some((g.description, t3))
    requires ReadField(t3, PrincipleLabel) == Some((PrincipleName(g.principle), t4))
    requires Skip(t4, EntryEnd) == Some(t5)
    ensures ReadEntry(t) == Some((g, t5))
  {
    assert PrincipleNamed(PrincipleName(g.principle)) == Some(g.principle);
  }

  /** An entry reads back as the guideline it was printed from whenever the
      escaping round-trips its three text fields. */
  lemma EntryReadsBack(g: Guideline, esc: string -> string, rest: string)
    requires forall u :: ReadLiteral(esc(g.code) + "\"" + u) == Some((g.code, u))
    requires forall u :: ReadLiteral(esc(g.title) + "\"" + u) == Some((g.title, u))
    requires forall u :: ReadLiteral(esc(g.description) + "\"" + u) == Some((g.description, u))
    ensures ReadEntry(EntryText(g, esc) + rest) == Some((g, rest))
  {
    var f1 := Field(CodeLabel, esc(g.code));
    var f2 := Field(TitleLabel, esc(g.title));
    var f3 := Field(DescriptionLabel, esc(g.description));
    var name := PrincipleName(g.principle);
    var f4 := Field(PrincipleLabel, name);
    var r4 := EntryEnd + rest;
    var r3 := f4 + r4;
    var r2 := f3 + r3;
    var r1 := f2 + r2;
    EntryTextShape(g, esc, rest);
    ReadFieldBack(CodeLabel, esc(g.code), r1);
    ReadFieldBack(TitleLabel, esc(g.title), r2);
    ReadFieldBack(DescriptionLabel, esc(g.description), r3);
    PrincipleNameReadsBack(g.principle, r4);
    ReadFieldBack(PrincipleLabel, name, r4);
    SkipPrefix(EntryEnd, rest);
    ReadEntrySteps(f1 + r1, g, r1, r2, r3, r4, rest);
  }

  /** With the corrected escaping every guideline reads back. */
  lemma EntryTextReadsBack(g: Guideline, rest: string)
    ensures ReadEntry(EntryText(g, EscapeForLiteral) + rest) == Some((g, rest))
  {
    forall u ensures ReadLiteral(EscapeForLiteral(g.code) + "\"" + u) == Some((g.code, u)) {
      EscapeForLiteralReadsBack(g.code, u);
    }
    forall u ensures ReadLiteral(EscapeForLiteral(g.title) + "\"" + u) == Some((g.title, u)) {
      EscapeForLiteralReadsBack(g.title, u);
    }
    forall u ensures ReadLiteral(EscapeForLiteral(g.description) + "\"" + u) == Some((g.description, u)) {
      EscapeForLiteralReadsBack(g.description, u);
    }
    EntryReadsBack(g, EscapeForLiteral, rest);
  }

  /** With `escapeTsString` a guideline reads back when its text fields hold
      no double quote and no line break. */
  lemma EntryTextAsWrittenReadsBack(g: Guideline, rest: string)
    requires LiteralSafe(g.code) && LiteralSafe(g.title) && LiteralSafe(g.description)
    ensures ReadEntry(EntryText(g, EscapeTsString) + rest) == Some((g, rest))
  {
    forall u ensures ReadLiteral(EscapeTsString(g.code) + "\"" + u) == Some((g.code, u)) {
      EscapeTsStringReadsBack(g.code, u);
    }
    forall u ensures ReadLiteral(EscapeTsString(g.title) + "\"" + u) == Some((g.title, u)) {
      EscapeTsStringReadsBack(g.title, u);
    }
    forall u ensures ReadLiteral(EscapeTsString(g.description) + "\"" + u) == Some((g.description, u)) {
      EscapeTsStringReadsBack(g.description, u);
    }
    EntryReadsBack(g, EscapeTsString, rest);
  }

  /** `ReadEntry` fails when the text after the title is not the
      description field. */
  lemma ReadEntryStopsAfterTitle(t: string, code: string, t1: string, title: string, t2: string)
    requires ReadField(t, CodeLabel) == Some((code, t1))
    requires ReadField(t1, TitleLabel) == Some((title, t2))
    requires Skip(t2, DescriptionLabel) == None
    ensures ReadEntry(t) == None
  {
  }

  /** The entry the generator prints for a title with a double quote in it
      does not read back at all. */
  lemma EntryTextAsWrittenBreaks(code: string, description: string, p: Principle, rest: string)
    requires LiteralSafe(code)
    ensures ReadEntry(EntryText(Guideline(code, "a\"b", description, p), EscapeTsString) + rest) == None
  {
    var g := Guideline(code, "a\"b", description, p);
    var f1 := Field(CodeLabel, EscapeTsString(code));
    var r2 := Field(DescriptionLabel, EscapeTsString(description))
              + (Field(PrincipleLabel, PrincipleName(p)) + (EntryEnd + rest));
    var r1 := Field(TitleLabel, EscapeTsString("a\"b")) + r2;
    EntryTextShape(g, EscapeTsString, rest);
    EscapeTsStringReadsBack(code, r1);
    ReadFieldBack(CodeLabel, EscapeTsString(code), r1);
    EscapeTsStringCutsAtQuote(r2);
    ReadFieldBack(TitleLabel, EscapeTsString("a\"b"), r2);
    assert r1 == Field(TitleLabel, EscapeTsString("a\"b")) + r2;
    assert Skip("b\"" + r2, DescriptionLabel) == None by {
      assert ("b\"" + r2)[0] == 'b';
      assert DescriptionLabel[0] == ',';
    }
    ReadEntryStopsAfterTitle(f1 + r1, code, r1, "a", "b\"" + r2);
  }

  // ---------------------------------------------------------------------------
  // Title and description from the original wording

  /** `extractTitleAndDescription(original)`: when the first `(` comes before
      the first `)`, the trimmed text between them is the title and the
      trimmed text after the `)` the description; otherwise both are the
      trimmed whole. */
  function ExtractTitleAndDescription(original: string): (string, string) {
    var open := IndexOf(original, '(');
    var close := IndexOf(original, ')');
    if open != -1 && close != -1 && close > open then
      (Trim(original[open + 1..close]), TrimStart(Trim(original[close + 1..])))
    else
      (Trim(original), Trim(original))
  }

  /** Wording of the form `pre(title)description`, with no bracket before the
      `(` and no `)` inside the title, splits into the trimmed title and the
      trimmed description. */
  lemma ExtractBracketed(pre: string, title: string, description: string)
    requires '(' !in pre && ')' !in pre && ')' !in title
    ensures ExtractTitleAndDescription(pre + "(" + title + ")" + description) == (Trim(title), Trim(description))
  {
    var o := pre + "(" + title + ")" + description;
    var open := |pre|;
    var close := |pre| + 1 + |title|;
    assert o[open] == '(' && o[close] == ')';
    assert o[..open] == pre;
    assert o[..close] == pre + "(" + title;
    assert ')' !in o[..close] by {
      forall k | 0 <= k < close ensures o[..close][k] != ')' {
        if k < |pre| { assert o[..close][k] == pre[k]; }
        else if k > |pre| { assert o[..close][k] == title[k - |pre| - 1]; }
      }
    }
    IndexOfAt(o, '(', open);
    IndexOfAt(o, ')', close);
    assert o[open + 1..close] == title;
    assert o[close + 1..] == description;
    TrimStartOfTrimmed(description);
  }

  /** Wording whose first `)` comes before any `(`, or that lacks one of the
      brackets, is used whole for both parts. */
  lemma ExtractUnbracketed(original: string)
    requires '(' !in original || ')' !in original
             || (exists k :: 0 <= k < |original| && original[k] == ')' && '(' !in original[..k])
    ensures ExtractTitleAndDescription(original) == (Trim(original), Trim(original))
  {
    if '(' in original && ')' in original {
      var k :| 0 <= k < |original| && original[k] == ')' && '(' !in original[..k];
      IndexOfAtMost(original, ')', k);
      IndexOfAtLeast(original, '(', k);
      assert IndexOf(original, ')') < IndexOf(original, '(') by {
        assert original[IndexOf(original, ')')] != original[IndexOf(original, '(')];
      }
    }
  }

  // ---------------------------------------------------------------------------
  // From CSV text to the sorted catalogue

  /** Header of the checklist-number column. */
  const IdColumn := "고유 번호"
  /** Header of the original-wording column. */
  const OriginalColumn := "지침_원문"

  datatype GenerateError =
    | NoRows                                  // `rows[0]` is undefined
    | UnexpectedHeader(header: seq<string>)   // a required column is missing

  /** A row all of whose cells are blank after trimming. */
  predicate BlankRow(r: Csv.Row) {
    forall k :: 0 <= k < |r| ==> Trim(r[k]) == ""
  }

  /** `r[i] ?? ""`. */
  function Cell(r: Csv.Row, i: nat): string {
    if i < |r| then r[i] else ""
  }

  function TrimAll(r: Csv.Row): (h: seq<string>)
    ensures |h| == |r| && forall k :: 0 <= k < |r| ==> h[k] == Trim(r[k])
  {
    seq(|r|, k requires 0 <= k < |r| => Trim(r[k]))
  }

  /** The rows after the header and the positions of the two columns. */
  datatype Plan = Plan(body: seq<Csv.Row>, idxId: nat, idxOriginal: nat)

  /** The rows with a non-blank cell, in order: the `filter` of line 107. */
  function NonBlankRows(parsed: seq<Csv.Row>): seq<Csv.Row> {
    Seqs.Filter(parsed, (r: Csv.Row) => !BlankRow(r))
  }

  /** Lines 106-116 of the script: drop blank rows, take the first as the
      header and find the two columns in it. */
  function Prepare(text: string): (r: Result<Plan, GenerateError>)
    ensures r == Err(NoRows) <==> forall k :: 0 <= k < |Csv.ParseCsv(text)| ==> BlankRow(Csv.ParseCsv(text)[k])
    ensures r.Err? && r.error.UnexpectedHeader? ==> IdColumn !in r.error.header || OriginalColumn !in r.error.header
    ensures var rows := NonBlankRows(Csv.ParseCsv(text));
            |rows| > 0 ==> (r.Err? <==> IdColumn !in TrimAll(rows[0]) || OriginalColumn !in TrimAll(rows[0]))
    ensures var rows := NonBlankRows(Csv.ParseCsv(text));
            |rows| > 0 && r.Err? ==> r.error == UnexpectedHeader(TrimAll(rows[0]))
    ensures var rows := NonBlankRows(Csv.ParseCsv(text));
            r.Ok? ==> (|rows| > 0 && IndexOf(TrimAll(rows[0]), IdColumn) >= 0 && IndexOf(TrimAll(rows[0]), OriginalColumn) >= 0
                       && r.value == Plan(rows[1..], IndexOf(TrimAll(rows[0]), IdColumn) as nat, IndexOf(TrimAll(rows[0]), OriginalColumn) as nat))
  {
    var parsed := Csv.ParseCsv(text);
    var rows := NonBlankRows(parsed);
    if |rows| == 0 then Err(NoRows)
    else
      var header := TrimAll(rows[0]);
      var i := IndexOf(header, IdColumn);
      var j := IndexOf(header, OriginalColumn);
      if i == -1 || j == -1 then Err(UnexpectedHeader(header))
      else Ok(Plan(rows[1..], i, j))
  }

  /** A row the loop of lines 121-140 keeps: its number and its trimmed
      wording. */
  datatype Candidate = Candidate(id: int, original: string)

  /** The three `continue` tests of the loop: a blank number, a number
      `parseInt` cannot read, a blank wording. */
  function Accept(r: Csv.Row, plan: Plan): Option<Candidate> {
    var rawId := Trim(Cell(r, plan.idxId));
    if rawId == "" then None
    else
      match ParseInt(rawId)
      case None => None
      case Some(id) =>
        var original := Trim(Cell(r, plan.idxOriginal));
        if original == "" then None else Some(Candidate(id, original))
  }

  /** The kept rows of `rows`, in order. */
  function Candidates(rows: seq<Csv.Row>, plan: Plan): seq<Candidate>
    decreases |rows|
  {
    if |rows| == 0 then []
    else
      var c := Accept(rows[|rows| - 1], plan);
      Candidates(rows[..|rows| - 1], plan) + (if c.Some? then [c.value] else [])
  }

  predicate HasId(cs: seq<Candidate>, id: int) {
    exists k :: 0 <= k < |cs| && cs[k].id == id
  }

  /** The wording of the first candidate numbered `id`. */
  function FirstOriginal(cs: seq<Candidate>, id: int): string
    requires HasId(cs, id)
    decreases |cs|
  {
    if cs[0].id == id then cs[0].original
    else
      assert HasId(cs[1..], id) by {
        var k :| 0 <= k < |cs| && cs[k].id == id;
        assert cs[1..][k - 1] == cs[k];
      }
      FirstOriginal(cs[1..], id)
  }

  /** Adding a candidate at the end changes the first wording only of a
      number not seen before. */
  lemma {:induction false} FirstOriginalAppend(cs: seq<Candidate>, c: Candidate, id: int)
    requires HasId(cs, id) || c.id == id
    ensures HasId(cs + [c], id)
    ensures FirstOriginal(cs + [c], id) == if HasId(cs, id) then FirstOriginal(cs, id) else c.original
    decreases |cs|
  {
    var t := cs + [c];
    if HasId(cs, id) {
      var k :| 0 <= k < |cs| && cs[k].id == id;
      assert t[k] == cs[k];
    } else {
      assert t[|cs|] == c;
    }
    if |cs| > 0 {
      assert t[0] == cs[0];
      assert t[1..] == cs[1..] + [c];
      if cs[0].id != id {
        if HasId(cs, id) {
          var k :| 0 <= k < |cs| && cs[k].id == id;
          assert cs[1..][k - 1] == cs[k];
        }
        if HasId(cs[1..], id) {
          var k :| 0 <= k < |cs[1..]| && cs[1..][k].id == id;
          assert cs[k + 1] == cs[1..][k];
        }
        FirstOriginalAppend(cs[1..], c, id);
      }
    } else {
      assert t == [c];
    }
  }

  /** The catalogue entry for a kept row: lines 131-139. */
  function MakeGuideline(id: int, original: string): Guideline {
    var parts := ExtractTitleAndDescription(original);
    Guideline(IntToString(id), parts.0, parts.1, InferPrincipleById(id))
  }

  predicate StrictlyIncreasing(xs: seq<int>) {
    forall j, k :: 0 <= j < k < |xs| ==> xs[j] < xs[k]
  }

  predicate Distinct(xs: seq<int>) {
    forall j, k :: 0 <= j < k < |xs| ==> xs[j] != xs[k]
  }

  function Insert(x: int, xs: seq<int>): (r: seq<int>)
    requires StrictlyIncreasing(xs) && x !in xs
    ensures StrictlyIncreasing(r) && |r| == |xs| + 1
    ensures forall y :: y in r <==> y == x || y in xs
  {
    if |xs| == 0 || x < xs[0] then [x] + xs
    else
      var rest := Insert(x, xs[1..]);
      assert forall y :: y in xs <==> y == xs[0] || y in xs[1..];
      assert forall k :: 0 <= k < |rest| ==> rest[k] in rest;
      assert forall k :: 0 <= k < |xs| - 1 ==> xs[0] < xs[1..][k];
      [xs[0]] + rest
  }

  /** `.sort((a, b) => a[0] - b[0])` on the distinct numbers: the same
      numbers in ascending order. */
  function SortIds(xs: seq<int>): (r: seq<int>)
    requires Distinct(xs)
    ensures StrictlyIncreasing(r) && |r| == |xs|
    ensures forall y :: y in r <==> y in xs
    decreases |xs|
  {
    if |xs| == 0 then []
    else
      var init := xs[..|xs| - 1];
      assert forall y :: y in xs <==> y in init || y == xs[|xs| - 1];
      assert xs[|xs| - 1] !in init;
      Insert(xs[|xs| - 1], SortIds(init))
  }

  /** `gs` is the catalogue for the candidates `cs`, listed by the numbers
      `ids`: one entry per distinct number, ascending, each built from the
      first wording given for its number. */
  ghost predicate Listing(cs: seq<Candidate>, ids: seq<int>, gs: seq<Guideline>) {
    && |ids| == |gs| && StrictlyIncreasing(ids)
    && (forall id :: id in ids <==> HasId(cs, id))
    && forall k :: 0 <= k < |ids| ==> HasId(cs, ids[k]) && gs[k] == MakeGuideline(ids[k], FirstOriginal(cs, ids[k]))
  }

  ghost predicate Generated(cs: seq<Candidate>, gs: seq<Guideline>) {
    exists ids :: Listing(cs, ids, gs)
  }

  /** What the loop has built after the candidates `cs`: `order` holds each
      number once, in the order first seen, and `firstSeen` maps each of them
      to the first wording given for it. The script stores the entry built
      from that wording; since the entry is a function of the number and the
      wording, the model builds it when the list is assembled. */
  ghost predicate Collected(cs: seq<Candidate>, order: seq<int>, firstSeen: map<int, string>) {
    && Distinct(order)
    && (forall id :: id in order <==> HasId(cs, id))
    && (forall id :: id in firstSeen <==> id in order)
    && forall id :: id in order ==> HasId(cs, id) && firstSeen[id] == FirstOriginal(cs, id)
  }

  lemma HasIdAppend(cs: seq<Candidate>, c: Candidate, id: int)
    ensures HasId(cs + [c], id) <==> HasId(cs, id) || c.id == id
  {
    var t := cs + [c];
    if HasId(t, id) {
      var k :| 0 <= k < |t| && t[k].id == id;
      if k < |cs| {
        assert cs[k] == t[k];
        assert HasId(cs, id);
      }
    }
    if HasId(cs, id) {
      var k :| 0 <= k < |cs| && cs[k].id == id;
      assert t[k] == cs[k];
    }
    assert t[|cs|] == c;
  }

  lemma CandidatesSnoc(rows: seq<Csv.Row>, i: nat, plan: Plan)
    requires i < |rows|
    ensures Candidates(rows[..i + 1], plan)
            == Candidates(rows[..i], plan) + (if Accept(rows[i], plan).Some? then [Accept(rows[i], plan).value] else [])
  {
    assert rows[..i + 1][..i] == rows[..i];
  }

  /** One turn of the loop keeps `Collected`: a new number is appended with
      its wording, a number already seen changes nothing. */
  lemma CollectStep(cs: seq<Candidate>, c: Candidate, order: seq<int>, firstSeen: map<int, string>)
    requires Collected(cs, order, firstSeen)
    ensures c.id in firstSeen ==> Collected(cs + [c], order, firstSeen)
    ensures c.id !in firstSeen ==> Collected(cs + [c], order + [c.id], firstSeen[c.id := c.original])
  {
    forall id ensures HasId(cs + [c], id) <==> HasId(cs, id) || c.id == id {
      HasIdAppend(cs, c, id);
    }
    forall id | HasId(cs, id) || c.id == id
      ensures FirstOriginal(cs + [c], id) == if HasId(cs, id) then FirstOriginal(cs, id) else c.original
    {
      FirstOriginalAppend(cs, c, id);
    }
  }

  /** After the loop, the numbers in ascending order with the entries for
      their first wordings are the catalogue listing. */
  lemma CollectedListing(cs: seq<Candidate>, order: seq<int>, firstSeen: map<int, string>, ids: seq<int>, gs: seq<Guideline>)
    requires Collected(cs, order, firstSeen)
    requires StrictlyIncreasing(ids) && (forall y :: y in ids <==> y in order)
    requires |gs| == |ids|
    requires forall k :: 0 <= k < |ids| ==> ids[k] in firstSeen && gs[k] == MakeGuideline(ids[k], firstSeen[ids[k]])
    ensures Listing(cs, ids, gs)
  {
    forall k | 0 <= k < |ids| ensures HasId(cs, ids[k]) && gs[k] == MakeGuideline(ids[k], FirstOriginal(cs, ids[k])) {
      assert ids[k] in ids;
    }
  }

  /** The loop of lines 121-140: each kept row whose number has not been
      seen yet records that number and its wording. */
  method CollectFirst(plan: Plan) returns (order: seq<int>, firstSeen: map<int, string>)
    ensures Collected(Candidates(plan.body, plan), order, firstSeen)
  {
    firstSeen := map[];
    order := [];
    for i := 0 to |plan.body|
      invariant Collected(Candidates(plan.body[..i], plan), order, firstSeen)
    {
      ghost var before := Candidates(plan.body[..i], plan);
      var c := Accept(plan.body[i], plan);
      CandidatesSnoc(plan.body, i, plan);
      if c.Some? {
        CollectStep(before, c.value, order, firstSeen);
        if c.value.id !in firstSeen {
          firstSeen := firstSeen[c.value.id := c.value.original];
          order := order + [c.value.id];
        }
      } else {
        assert before + [] == before;
      }
    }
    assert plan.body[..|plan.body|] == plan.body;
  }

  /** The script from the CSV text to the list of guidelines it writes, or
      the error it throws. */
  method Generate(text: string) returns (r: Result<seq<Guideline>, GenerateError>)
    ensures Prepare(text).Err? ==> r == Err(Prepare(text).error)
    ensures Prepare(text).Ok? ==> r.Ok? && Generated(Candidates(Prepare(text).value.body, Prepare(text).value), r.value)
  {
    var prepared := Prepare(text);
    if prepared.Err? {
      return Err(prepared.error);
    }
    var gs := Assemble(prepared.value);
    r := Ok(gs);
  }

  /** Lines 118-144 of the script: collect the first wording of each number,
      sort the numbers and build one entry per number. */
  method Assemble(plan: Plan) returns (gs: seq<Guideline>)
    ensures Generated(Candidates(plan.body, plan), gs)
  {
    var order, firstSeen := CollectFirst(plan);
    var ids := SortIds(order);
    assert forall k :: 0 <= k < |ids| ==> ids[k] in firstSeen by {
      assert forall k :: 0 <= k < |ids| ==> ids[k] in ids;
    }
    gs := seq(|ids|, k requires 0 <= k < |ids| => MakeGuideline(ids[k], firstSeen[ids[k]]));
    CollectedListing(Candidates(plan.body, plan), order, firstSeen, ids, gs);
  }

  // ---------------------------------------------------------------------------
  // Properties of the generated list

  /** The head of an ascending list is its least member. */
  lemma AscendingHead(a: seq<int>, y: int)
    requires StrictlyIncreasing(a) && y in a
    ensures a[0] <= y
  {
    var k :| 0 <= k < |a| && a[k] == y;
    if k > 0 { assert a[0] < a[k]; }
  }

  /** Past the head, an ascending list holds exactly the members above it. */
  lemma AscendingTail(a: seq<int>, y: int)
    requires StrictlyIncreasing(a) && |a| > 0
    ensures y in a[1..] <==> y in a && a[0] < y
  {
    if y in a[1..] {
      var i :| 0 <= i < |a| - 1 && a[1..][i] == y;
      assert a[i + 1] == y && a[0] < a[i + 1];
    }
    if y in a && a[0] < y {
      var m :| 0 <= m < |a| && a[m] == y;
      assert a[1..][m - 1] == y;
    }
  }

  /** Two ascending lists with the same members are the same list. */
  lemma {:induction false} AscendingUnique(a: seq<int>, b: seq<int>)
    requires StrictlyIncreasing(a) && StrictlyIncreasing(b)
    requires forall y :: y in a <==> y in b
    ensures a == b
    decreases |a|
  {
    assert (|a| == 0) == (|b| == 0) by {
      if |a| > 0 { assert a[0] in b; }
      if |b| > 0 { assert b[0] in a; }
    }
    if |a| > 0 {
      AscendingHead(a, b[0]);
      AscendingHead(b, a[0]);
      forall y ensures y in a[1..] <==> y in b[1..] {
        AscendingTail(a, y);
        AscendingTail(b, y);
      }
      AscendingUnique(a[1..], b[1..]);
      assert a == [a[0]] + a[1..] && b == [b[0]] + b[1..];
    }
  }

  /** The candidates decide the generated list completely. */
  lemma GeneratedUnique(cs: seq<Candidate>, gs1: seq<Guideline>, gs2: seq<Guideline>)
    requires Generated(cs, gs1) && Generated(cs, gs2)
    ensures gs1 == gs2
  {
    var ids1 :| Listing(cs, ids1, gs1);
    var ids2 :| Listing(cs, ids2, gs2);
    AscendingUnique(ids1, ids2);
  }

  /** Each generated code reads back with `parseInt` as its number; the
      numbers ascend, so no code repeats; each principle is the one inferred
      from the number. */
  lemma GeneratedCodes(cs: seq<Candidate>, gs: seq<Guideline>)
    requires Generated(cs, gs)
    ensures forall k :: 0 <= k < |gs| ==>
              ParseInt(gs[k].code).Some? && gs[k].principle == InferPrincipleById(ParseInt(gs[k].code).value)
    ensures forall j, k :: 0 <= j < k < |gs| ==> ParseInt(gs[j].code).value < ParseInt(gs[k].code).value
  {
    var ids :| Listing(cs, ids, gs);
    forall k | 0 <= k < |gs|
      ensures ParseInt(gs[k].code) == Some(ids[k]) && gs[k].principle == InferPrincipleById(ids[k])
    {
      assert gs[k] == MakeGuideline(ids[k], FirstOriginal(cs, ids[k]));
      ParseIntToString(ids[k]);
    }
    forall j, k | 0 <= j < k < |gs| ensures ParseInt(gs[j].code).value < ParseInt(gs[k].code).value {
      assert ids[j] < ids[k];
    }
  }

  /** A row whose number cell is a number printed by `String` and whose
      wording cell is not blank is kept, with its trimmed wording. */
  lemma AcceptNumberedRow(r: Csv.Row, plan: Plan, n: int)
    requires plan.idxId < |r| && r[plan.idxId] == IntToString(n)
    requires Trim(Cell(r, plan.idxOriginal)) != ""
    ensures Accept(r, plan) == Some(Candidate(n, Trim(Cell(r, plan.idxOriginal))))
  {
    var s := IntToString(n);
    assert s[0] == '-' || IsDigit(s[0]);
    assert IsDigit(s[|s| - 1]);
    TrimOfTrimmed(s);
    ParseIntToString(n);
  }

  /** A row with a blank number cell or a blank wording cell is skipped. */
  lemma AcceptBlank(r: Csv.Row, plan: Plan)
    requires AllSpace(Cell(r, plan.idxId)) || AllSpace(Cell(r, plan.idxOriginal))
    ensures Accept(r, plan) == None
  {
    TrimEmptyIffBlank(Cell(r, plan.idxId));
    TrimEmptyIffBlank(Cell(r, plan.idxOriginal));
  }

  /** A row whose number cell `parseInt` cannot read (NaN, as for `"abc"`)
      is skipped whatever its wording. */
  lemma AcceptUnreadable(r: Csv.Row, plan: Plan)
    requires forall k :: 0 <= k < |Trim(Cell(r, plan.idxId))| && IsDigit(Trim(Cell(r, plan.idxId))[k]) ==>
               !(k == 0 || (k == 1 && Trim(Cell(r, plan.idxId))[0] in "-+"))
    ensures Accept(r, plan) == None
  {
    var t := Trim(Cell(r, plan.idxId));
    if t != "" {
      assert !IsSpace(t[0]);
      forall k | 0 <= k < |t| && IsDigit(t[k])
        ensures !AllSpace(t[..k]) && !(0 < k && (t[k - 1] == '-' || t[k - 1] == '+') && AllSpace(t[..k - 1]))
      {
        assert t[..k][0] == t[0] by { assert 0 < k; }
        if 1 < k { assert t[..k - 1][0] == t[0]; }
      }
      ParseIntNaN(t);
    }
  }

  /** A row whose number cell `parseInt` reads and whose wording cell is not
      blank is kept under that number, with its trimmed wording; with
      `Text.ParseIntReads`, a cell `"12abc"` is row 12. */
  lemma AcceptRead(r: Csv.Row, plan: Plan, id: int)
    requires ParseInt(Trim(Cell(r, plan.idxId))) == Some(id)
    requires Trim(Cell(r, plan.idxOriginal)) != ""
    ensures Accept(r, plan) == Some(Candidate(id, Trim(Cell(r, plan.idxOriginal))))
  {
    assert Trim(Cell(r, plan.idxId)) != "";
  }

  /** For a CSV file written from non-blank rows whose first row names both
      columns, the header is that row and the body the rest. */
  lemma PrepareWritten(rows: seq<Csv.Row>, eol: string)
    requires Csv.RowsNonEmpty(rows) && |rows| > 0
    requires eol == "\n" || eol == "\r\n"
    requires forall k :: 0 <= k < |rows| ==> !BlankRow(rows[k])
    requires IdColumn in TrimAll(rows[0]) && OriginalColumn in TrimAll(rows[0])
    ensures Prepare(Csv.Write(rows, eol))
            == Ok(Plan(rows[1..], IndexOf(TrimAll(rows[0]), IdColumn), IndexOf(TrimAll(rows[0]), OriginalColumn)))
  {
    Csv.ParseWrite(rows, eol);
    Seqs.FilterAll(rows, (r: Csv.Row) => !BlankRow(r));
  }
}

=== FILE: guideline_details.dfy ===
/** The guideline detail lookup and the related-challenge filter. The
    detail table's prose is left abstract: it is a map parameter. */
module GuidelineDetails {
  import opened Base
  import Seqs

  /** `Partial<GuidelineDetail>`: every field may be absent. */
  datatype Detail = Detail(
    checklistId: Option<string>,
    keyPoints: Option<seq<string>>,
    example: Option<string>,
    relatedChallenges: Option<seq<string>>)

  /** The object literal `{}`: every field absent. */
  const EmptyDetail := Detail(None, None, None, None)

  /** `getGuidelineDetail(checklistId)`: the stored detail of a listed id,
      otherwise the empty detail. Every stored value is an object, so the
      `|| {}` fallback fires exactly for an absent key. */
  function GetGuidelineDetail(details: map<string, Detail>, checklistId: string): (r: Detail)
    ensures checklistId in details ==> r == details[checklistId]
    ensures checklistId !in details ==> r == EmptyDetail
  {
    if checklistId in details then details[checklistId] else EmptyDetail
  }

  /** A detail with content comes only from the table. */
  lemma DetailWithContentIsStored(details: map<string, Detail>, checklistId: string)
    requires var r := GetGuidelineDetail(details, checklistId);
             r.keyPoints.Some? || r.example.Some? || r.relatedChallenges.Some?
    ensures checklistId in details && details[checklistId] == GetGuidelineDetail(details, checklistId)
  {
  }

  /** The fields of a challenge record the filter reads. `kwcagCode` is
      optional: a record without it never matches. */
  datatype Challenge = Challenge(id: string, guidelineCode: string, kwcagCode: Option<string>)

  /** The filter's test `challenge.kwcagCode === checklistId`. */
  function HasKwcagCode(checklistId: string): Challenge -> bool {
    (c: Challenge) => c.kwcagCode == Some(checklistId)
  }

  /** `getRelatedChallenges(checklistId)` over the challenge catalogue: an
      order-preserving subsequence of the catalogue holding every challenge
      whose `kwcagCode` is the id and nothing else. */
  function GetRelatedChallenges(catalogue: seq<Challenge>, checklistId: string): (r: seq<Challenge>)
    ensures Seqs.Subsequence(r, catalogue)
    ensures forall k :: 0 <= k < |r| ==> r[k].kwcagCode == Some(checklistId)
    ensures forall c :: c in r <==> c in catalogue && c.kwcagCode == Some(checklistId)
  {
    Seqs.Filter(catalogue, HasKwcagCode(checklistId))
  }

  /** Challenges related to two different ids are disjoint. */
  lemma RelatedChallengesDisjoint(catalogue: seq<Challenge>, a: string, b: string)
    requires a != b
    ensures forall c :: c in GetRelatedChallenges(catalogue, a) ==> c !in GetRelatedChallenges(catalogue, b)
  {
  }

  /** A catalogue whose records carry no `kwcagCode` (only `guidelineCode`)
      relates no challenge to any id. */
  lemma NoKwcagCodeNoRelated(catalogue: seq<Challenge>, checklistId: string)
    requires forall k :: 0 <= k < |catalogue| ==> catalogue[k].kwcagCode.None?
    ensures GetRelatedChallenges(catalogue, checklistId) == []
  {
    assert forall k :: 0 <= k < |catalogue| ==> !HasKwcagCode(checklistId)(catalogue[k]);
  }
}

=== FILE: guideline_helper.dfy ===
/** The guideline helpers: a catalogue lookup enriched with the WCAG code,
    the display formatter and the reverse lookup from a WCAG code to
    checklist ids. The checklist-to-WCAG mapping is defined in a file that
    is not part of this model, so it is a parameter `wcagOf` throughout
    (`None` standing for its `null`). */
module GuidelineHelper {
  import opened Base
  import opened Text
  import opened KwcagGuidelines

  datatype GuidelineInfo = GuidelineInfo(
    checklistId: string,
    title: string,
    description: string,
    wcagCode: Option<string>,
    principle: Principle)

  /** `getGuidelineInfo(checklistId)` over a catalogue `table`. */
  function InfoIn(table: seq<Guideline>, wcagOf: string -> Option<string>, checklistId: string): (r: Option<GuidelineInfo>)
    ensures r.None? <==> ByCode(table, checklistId).None?
    ensures r.Some? ==> r.value.checklistId == checklistId && r.value.wcagCode == wcagOf(checklistId)
  {
    match ByCode(table, checklistId)
    case None => None
    case Some(g) => Some(GuidelineInfo(checklistId, g.title, g.description, wcagOf(checklistId), g.principle))
  }

  /** `getGuidelineInfo(checklistId)`. */
  function GetGuidelineInfo(wcagOf: string -> Option<string>, checklistId: string): Option<GuidelineInfo> {
    InfoIn(Table(), wcagOf, checklistId)
  }

  /** In a numbered catalogue, info is found exactly for the ids "1" to
      `|table|`; for id `n` it carries the `n`-th entry's wording and
      principle. */
  lemma InfoInFinds(table: seq<Guideline>, wcagOf: string -> Option<string>, checklistId: string)
    requires Numbered(table)
    ensures InfoIn(table, wcagOf, checklistId).Some? <==>
              exists n :: 1 <= n <= |table| && checklistId == NatToString(n)
    ensures forall n :: 1 <= n <= |table| && checklistId == NatToString(n) ==>
              InfoIn(table, wcagOf, checklistId)
                == Some(GuidelineInfo(checklistId, table[n - 1].title, table[n - 1].description,
                                      wcagOf(checklistId), table[n - 1].principle))
  {
    ByCodeNumbered(table, checklistId);
  }

  /** In a numbered catalogue, the info for id `n` carries entry `n`. */
  lemma InfoInAt(table: seq<Guideline>, wcagOf: string -> Option<string>, n: nat)
    requires Numbered(table) && 1 <= n <= |table|
    ensures InfoIn(table, wcagOf, NatToString(n))
              == Some(GuidelineInfo(NatToString(n), table[n - 1].title, table[n - 1].description,
                                    wcagOf(NatToString(n)), table[n - 1].principle))
  {
    InfoInFinds(table, wcagOf, NatToString(n));
  }

  /** Info is found exactly for the ids "1" to "33"; for id `n` it carries
      the `n`-th catalogue entry's wording and principle. */
  lemma GetGuidelineInfoFinds(wcagOf: string -> Option<string>, checklistId: string)
    ensures GetGuidelineInfo(wcagOf, checklistId).Some? <==>
              exists n :: 1 <= n <= 33 && checklistId == NatToString(n)
    ensures forall n :: 1 <= n <= 33 && checklistId == NatToString(n) ==>
              GetGuidelineInfo(wcagOf, checklistId)
                == Some(GuidelineInfo(checklistId, Table()[n - 1].title, Table()[n - 1].description,
                                      wcagOf(checklistId), Table()[n - 1].principle))
  {
    InfoInFinds(Table(), wcagOf, checklistId);
  }

  datatype Format = Full | TitleOnly | CodeOnly

  /** The options object; an absent field is `None`. */
  datatype DisplayOptions = DisplayOptions(showId: Option<bool>, showWcagCode: Option<bool>, format: Option<Format>)

  /** JavaScript truthiness of a `string | null`: the empty string counts
      as false, like `null`. */
  predicate Truthy(c: Option<string>) {
    c.Some? && c.value != ""
  }

  /** The display text of a found guideline. */
  function Display(info: GuidelineInfo, options: DisplayOptions): string {
    var showId := options.showId.GetOr(true);
    var showWcagCode := options.showWcagCode.GetOr(true);
    if options.format == Some(TitleOnly) then info.title
    else if options.format == Some(CodeOnly) then
      (if Truthy(info.wcagCode) then info.wcagCode.value else info.checklistId)
    else
      var parts := (if showId then [info.checklistId + "."] else [])
                   + [info.title]
                   + (if showWcagCode && Truthy(info.wcagCode) then ["(" + info.wcagCode.value + ")"] else []);
      Join(parts, ' ')
  }

  /** `formatGuidelineDisplay(checklistId, options)` over a catalogue `table`. */
  function FormatIn(table: seq<Guideline>, wcagOf: string -> Option<string>, checklistId: string, options: DisplayOptions): (r: string)
    ensures ByCode(table, checklistId).None? ==> r == checklistId
  {
    match InfoIn(table, wcagOf, checklistId)
    case None => checklistId
    case Some(info) => Display(info, options)
  }

  /** `formatGuidelineDisplay(checklistId, options)`. */
  function FormatGuidelineDisplay(wcagOf: string -> Option<string>, checklistId: string, options: DisplayOptions): string {
    FormatIn(Table(), wcagOf, checklistId, options)
  }

  /** Joining `[x]` gives `x`; joining `x` in front of a non-empty list puts
      one separator between. */
  lemma JoinCons(x: string, rest: seq<string>)
    ensures Join([x], ' ') == x
    ensures |rest| > 0 ==> Join([x] + rest, ' ') == x + " " + Join(rest, ' ')
  {
    if |rest| > 0 {
      assert ([x] + rest)[1..] == rest;
    }
  }

  /** A title followed by at most one part. */
  lemma JoinTail(title: string, c: seq<string>)
    requires |c| <= 1
    ensures Join([title] + c, ' ') == title + (if |c| == 1 then " " + c[0] else "")
  {
    JoinCons(title, c);
    if |c| == 1 {
      JoinCons(c[0], []);
    } else {
      assert [title] + c == [title];
    }
  }

  /** The optional first part, the title and the optional last part
      joined by single spaces. */
  lemma JoinSpaced(a: seq<string>, title: string, c: seq<string>)
    requires |a| <= 1 && |c| <= 1
    ensures Join(a + [title] + c, ' ')
              == (if |a| == 1 then a[0] + " " else "") + Join([title] + c, ' ')
  {
    if |a| == 1 {
      assert a + [title] + c == [a[0]] + ([title] + c);
      JoinCons(a[0], [title] + c);
    } else {
      assert a + [title] + c == [title] + c;
    }
  }

  /** In a numbered catalogue, an id outside "1".."|table|" is displayed
      as itself, whatever the options. */
  lemma FormatInUnknownId(table: seq<Guideline>, wcagOf: string -> Option<string>, checklistId: string, options: DisplayOptions)
    requires Numbered(table)
    requires forall n :: 1 <= n <= |table| ==> checklistId != NatToString(n)
    ensures FormatIn(table, wcagOf, checklistId, options) == checklistId
  {
    ByCodeNumbered(table, checklistId);
  }

  /** In a numbered catalogue, the title-only format shows just the
      title of entry `n`. */
  lemma FormatInTitleOnly(table: seq<Guideline>, wcagOf: string -> Option<string>, n: nat, options: DisplayOptions)
    requires Numbered(table) && 1 <= n <= |table|
    requires options.format == Some(TitleOnly)
    ensures FormatIn(table, wcagOf, NatToString(n), options) == table[n - 1].title
  {
    InfoInAt(table, wcagOf, n);
  }

  /** In a numbered catalogue, the code-only format shows the WCAG code of
      id `n`, falling back to the id when the code is null or empty. */
  lemma FormatInCodeOnly(table: seq<Guideline>, wcagOf: string -> Option<string>, n: nat, options: DisplayOptions)
    requires Numbered(table) && 1 <= n <= |table|
    requires options.format == Some(CodeOnly)
    ensures var id := NatToString(n);
            FormatIn(table, wcagOf, id, options) == (if Truthy(wcagOf(id)) then wcagOf(id).value else id)
  {
    InfoInAt(table, wcagOf, n);
  }

  /** The parts of the full format joined by single spaces: `"id. "` when
      the id is shown, the title, `" (code)"` when the code is shown. */
  lemma FullParts(id: string, title: string, showId: bool, code: string, showCode: bool)
    ensures Join((if showId then [id + "."] else []) + [title] + (if showCode then ["(" + code + ")"] else []), ' ')
              == (if showId then id + ". " else "") + title + (if showCode then " (" + code + ")" else "")
  {
    var a := if showId then [id + "."] else [];
    var c := if showCode then ["(" + code + ")"] else [];
    JoinSpaced(a, title, c);
    JoinTail(title, c);
    if showId {
      assert a[0] + " " == id + ". ";
    }
    if showCode {
      assert " " + c[0] == " (" + code + ")";
    }
  }

  /** The full format (the default) shows `"id. "` unless `showId` is
      false, then the title, then `" (code)"` when `showWcagCode` is not
      false and the code is a non-empty string. */
  lemma DisplayFull(info: GuidelineInfo, options: DisplayOptions)
    requires options.format.None? || options.format == Some(Full)
    ensures Display(info, options)
              == (if options.showId != Some(false) then info.checklistId + ". " else "")
                 + info.title
                 + (if options.showWcagCode != Some(false) && Truthy(info.wcagCode) then " (" + info.wcagCode.value + ")" else "")
  {
    var showCode := options.showWcagCode.GetOr(true) && Truthy(info.wcagCode);
    FullParts(info.checklistId, info.title, options.showId.GetOr(true),
              if showCode then info.wcagCode.value else "", showCode);
  }

  /** In a numbered catalogue, the full format (the default) shows `"n. "`
      unless `showId` is false, then the title of entry `n`, then
      `" (code)"` when `showWcagCode` is not false and the code is a
      non-empty string. */
  lemma FormatInFull(table: seq<Guideline>, wcagOf: string -> Option<string>, n: nat, options: DisplayOptions)
    requires Numbered(table) && 1 <= n <= |table|
    requires options.format.None? || options.format == Some(Full)
    ensures var id := NatToString(n);
            var code := wcagOf(id);
            FormatIn(table, wcagOf, id, options)
              == (if options.showId != Some(false) then id + ". " else "")
                 + table[n - 1].title
                 + (if options.showWcagCode != Some(false) && Truthy(code) then " (" + code.value + ")" else "")
  {
    InfoInAt(table, wcagOf, n);
    DisplayFull(InfoIn(table, wcagOf, NatToString(n)).value, options);
  }

  /** An id outside "1".."33" is displayed as itself, whatever the options. */
  lemma FormatUnknownId(wcagOf: string -> Option<string>, checklistId: string, options: DisplayOptions)
    requires forall n :: 1 <= n <= 33 ==> checklistId != NatToString(n)
    ensures FormatGuidelineDisplay(wcagOf, checklistId, options) == checklistId
  {
    FormatInUnknownId(Table(), wcagOf, checklistId, options);
  }

  /** The display of catalogue id `n`: the title alone under title-only,
      the WCAG code or else the id under code-only, and otherwise `"n. "`
      unless `showId` is false, the title, and `" (code)"` when
      `showWcagCode` is not false and the code is a non-empty string. */
  lemma FormatKnownId(wcagOf: string -> Option<string>, n: nat, options: DisplayOptions)
    requires 1 <= n <= 33
    ensures var id := NatToString(n);
            var code := wcagOf(id);
            var r := FormatGuidelineDisplay(wcagOf, id, options);
            && (options.format == Some(TitleOnly) ==> r == Table()[n - 1].title)
            && (options.format == Some(CodeOnly) ==> r == (if Truthy(code) then code.value else id))
            && (options.format.None? || options.format == Some(Full) ==>
                  r == (if options.showId != Some(false) then id + ". " else "")
                       + Table()[n - 1].title
                       + (if options.showWcagCode != Some(false) && Truthy(code) then " (" + code.value + ")" else ""))
  {
    match options.format
    case Some(TitleOnly) => FormatInTitleOnly(Table(), wcagOf, n, options);
    case Some(CodeOnly) => FormatInCodeOnly(Table(), wcagOf, n, options);
    case _ => FormatInFull(Table(), wcagOf, n, options);
  }

  /** `id` is one of "1".."`last`" written in decimal. */
  predicate NumberedUpTo(id: string, last: nat) {
    exists n: nat :: 1 <= n <= last && id == NatToString(n)
  }

  /** `findChecklistIdsByWcagCode(wcagCode)`: exactly the ids among
      "1".."33" whose mapping is `wcagCode` (a `null` mapping never equals
      a string), in ascending numeric order, hence without repeats. */
  method FindChecklistIdsByWcagCode(wcagOf: string -> Option<string>, wcagCode: string) returns (ids: seq<string>)
    ensures forall id :: id in ids <==>
              NumberedUpTo(id, 33) && wcagOf(id) == Some(wcagCode)
    ensures forall i, j :: 0 <= i < j < |ids| ==> ParseInt(ids[i]).GetOr(0) < ParseInt(ids[j]).GetOr(0)
  {
    ids := [];
    ghost var ns: seq<nat> := [];
    var i := 1;
    while i <= 33
      invariant 1 <= i <= 34
      invariant |ns| == |ids|
      invariant forall k :: 0 <= k < |ns| ==> 1 <= ns[k] < i && ids[k] == NatToString(ns[k])
      invariant forall k :: 0 <= k < |ids| ==> wcagOf(ids[k]) == Some(wcagCode)
      invariant forall k, l :: 0 <= k < l < |ns| ==> ns[k] < ns[l]
      invariant forall n :: 1 <= n < i && wcagOf(NatToString(n)) == Some(wcagCode) ==> NatToString(n) in ids
    {
      var id := NatToString(i);
      if wcagOf(id) == Some(wcagCode) {
        ids := ids + [id];
        ns := ns + [i];
      }
      i := i + 1;
    }
    NumberedIds(ids, ns, 33);
  }

  /** Ids written from strictly ascending numbers in 1..`last` are
      checklist ids and read back in ascending order. */
  lemma NumberedIds(ids: seq<string>, ns: seq<nat>, last: nat)
    requires |ns| == |ids|
    requires forall k :: 0 <= k < |ns| ==> 1 <= ns[k] <= last && ids[k] == NatToString(ns[k])
    requires forall k, l :: 0 <= k < l < |ns| ==> ns[k] < ns[l]
    ensures forall id :: id in ids ==> NumberedUpTo(id, last)
    ensures forall i, j :: 0 <= i < j < |ids| ==> ParseInt(ids[i]).GetOr(0) < ParseInt(ids[j]).GetOr(0)
  {
    forall id | id in ids
      ensures NumberedUpTo(id, last)
    {
      var k :| 0 <= k < |ids| && ids[k] == id;
      var n := ns[k];
      assert 1 <= n <= last && id == NatToString(n);
    }
    forall i, j | 0 <= i < j < |ids|
      ensures ParseInt(ids[i]).GetOr(0) < ParseInt(ids[j]).GetOr(0)
    {
      ParseIntToString(ns[i]);
      ParseIntToString(ns[j]);
    }
  }
}

=== FILE: hint_panel.dfy ===
/** The hint panel's logic: reading the opened accordion items back into
    hint levels, ordering the hints by level, and deciding what each item
    shows. */
module HintPanel {
  import opened Base
  import opened Text

  /** `HintLevel`; the declared type limits `level` to 1, 2 or 3, which the
      functions here do not rely on. */
  datatype Hint = Hint(level: int, title: string, content: string)

  /** The accordion's `value`: one string or a list of them. */
  datatype Value = One(item: string) | Many(items: seq<string>)

  /** The accordion item value of level `d`, `hint-${d}`. */
  function ItemValue(d: nat): string
    requires d < 10
  {
    "hint-" + [DigitChar(d)]
  }

  /** `v` has `hint-` followed by a decimal digit at position `i`. */
  predicate HintAt(v: string, i: nat) {
    i + 6 <= |v| && v[i..i + 5] == "hint-" && IsDigit(v[i + 5])
  }

  /** The leftmost match of `/hint-(\d)/` at or after position `i`, as the
      index of its digit. */
  function ScanFrom(v: string, i: nat): (r: Option<nat>)
    requires i <= |v|
    ensures r.None? <==> forall j :: i <= j <= |v| ==> !HintAt(v, j)
    ensures r.Some? ==> i <= r.value && HintAt(v, r.value) && forall j :: i <= j < r.value ==> !HintAt(v, j)
    decreases |v| - i
  {
    if i + 6 > |v| then None
    else if HintAt(v, i) then Some(i)
    else ScanFrom(v, i + 1)
  }

  /** `v.match(/hint-(\d)/)` read with `parseInt(match[1], 10)`: the digit
      of the leftmost `hint-` that is followed by one, if any. */
  function LevelOf(v: string): (r: Option<int>)
    ensures r.None? <==> forall j :: 0 <= j <= |v| ==> !HintAt(v, j)
    ensures r.Some? ==> exists i: nat :: HintAt(v, i) && r.value == v[i + 5] as int - '0' as int
                                        && forall j :: 0 <= j < i ==> !HintAt(v, j)
    ensures r.Some? ==> 0 <= r.value <= 9
  {
    match ScanFrom(v, 0)
    case None => None
    case Some(i) => Some(v[i + 5] as int - '0' as int)
  }

  /** An item's own value reads back as its level. */
  lemma LevelOfItemValue(d: nat)
    requires d < 10
    ensures LevelOf(ItemValue(d)) == Some(d)
  {
    assert HintAt(ItemValue(d), 0);
  }

  /** The values as a list: a single string is a one-element list. */
  function Values(value: Value): seq<string> {
    match value
    case One(v) => [v]
    case Many(vs) => vs
  }

  /** `handleValueChange(value)`: the new opened set, built from the
      values alone; whatever was open before is replaced. */
  function HandleValueChange(before: set<int>, value: Value): (r: set<int>)
    ensures forall l :: l in r <==> exists v :: v in Values(value) && LevelOf(v) == Some(l)
  {
    set v, l | v in Values(value) && LevelOf(v) == Some(l) && 0 <= l <= 9 :: l
  }

  /** A single string opens the same levels as a list holding just it. */
  lemma SingleValueIsList(before: set<int>, v: string)
    ensures HandleValueChange(before, One(v)) == HandleValueChange(before, Many([v]))
  {
  }

  /** The previous opened set plays no part. */
  lemma OpenedReplaced(a: set<int>, b: set<int>, value: Value)
    ensures HandleValueChange(a, value) == HandleValueChange(b, value)
  {
  }

  /** Opening the items of some levels opens exactly those levels. */
  lemma OpenedItems(before: set<int>, ds: seq<nat>)
    requires forall k :: 0 <= k < |ds| ==> ds[k] < 10
    ensures HandleValueChange(before, Many(seq(|ds|, k requires 0 <= k < |ds| => ItemValue(ds[k]))))
              == set k | 0 <= k < |ds| :: ds[k] as int
  {
    var items := seq(|ds|, k requires 0 <= k < |ds| => ItemValue(ds[k]));
    forall k | 0 <= k < |ds| ensures LevelOf(items[k]) == Some(ds[k] as int) {
      LevelOfItemValue(ds[k]);
    }
  }

  // ---------------------------------------------------------------------------
  // Ordering

  /** Levels never decrease along `hs`. */
  predicate SortedByLevel(hs: seq<Hint>) {
    forall i, j :: 0 <= i < j < |hs| ==> hs[i].level <= hs[j].level
  }

  /** The hints of level `l`, in order. */
  function OfLevel(hs: seq<Hint>, l: int): seq<Hint> {
    if |hs| == 0 then []
    else (if hs[0].level == l then [hs[0]] else []) + OfLevel(hs[1..], l)
  }

  /** `x` placed before the first hint of the same or a higher level. */
  function Insert(x: Hint, hs: seq<Hint>): (r: seq<Hint>)
    ensures multiset(r) == multiset(hs) + multiset{x}
    ensures |r| == |hs| + 1
    ensures forall y :: y in r ==> y == x || y in hs
  {
    if |hs| == 0 || x.level <= hs[0].level then [x] + hs
    else
      assert hs == [hs[0]] + hs[1..];
      [hs[0]] + Insert(x, hs[1..])
  }

  /** Inserting into a level-ordered list keeps it level-ordered. */
  lemma {:induction false} InsertSorted(x: Hint, hs: seq<Hint>)
    requires SortedByLevel(hs)
    ensures SortedByLevel(Insert(x, hs))
  {
    if |hs| > 0 && x.level > hs[0].level {
      var rest := Insert(x, hs[1..]);
      InsertSorted(x, hs[1..]);
      forall k | 0 <= k < |rest| ensures hs[0].level <= rest[k].level {
        assert rest[k] in rest;
        if rest[k] != x {
          var j :| 0 <= j < |hs[1..]| && hs[1..][j] == rest[k];
          assert hs[j + 1] == rest[k];
        }
      }
      assert Insert(x, hs) == [hs[0]] + rest;
    }
  }

  /** `[...hints].sort((a, b) => a.level - b.level)`: a stable sort by
      level (the language guarantees `sort` is stable), on a copy. */
  function SortHints(hints: seq<Hint>): (r: seq<Hint>)
    ensures multiset(r) == multiset(hints)
    ensures SortedByLevel(r)
  {
    if |hints| == 0 then []
    else
      assert hints == [hints[0]] + hints[1..];
      InsertSorted(hints[0], SortHints(hints[1..]));
      Insert(hints[0], SortHints(hints[1..]))
  }

  /** Inserting `x` puts it in front of every hint of its own level and
      leaves the order of the other levels alone. */
  lemma {:induction false} InsertStable(x: Hint, hs: seq<Hint>, l: int)
    ensures OfLevel(Insert(x, hs), l) == (if x.level == l then [x] else []) + OfLevel(hs, l)
  {
    if |hs| == 0 || x.level <= hs[0].level {
      assert ([x] + hs)[1..] == hs;
    } else {
      var rest := Insert(x, hs[1..]);
      InsertStable(x, hs[1..], l);
      assert ([hs[0]] + rest)[1..] == rest;
      if x.level == l {
        assert hs[0].level != l;
      }
    }
  }

  /** The sort is stable: for every level, the hints of that level keep
      their input order. */
  lemma {:induction false} SortHintsStable(hints: seq<Hint>, l: int)
    ensures OfLevel(SortHints(hints), l) == OfLevel(hints, l)
  {
    if |hints| > 0 {
      SortHintsStable(hints[1..], l);
      InsertStable(hints[0], SortHints(hints[1..]), l);
    }
  }

  // ---------------------------------------------------------------------------
  // Rendering

  /** What an item shows in its live region. */
  datatype Body = Hidden | Paragraph(text: string) | CodeBlock(code: string)

  /** `HintAccordionItem`'s content for `hint` given the opened set. */
  function ItemBody(hint: Hint, open: set<int>): Body {
    if hint.level !in open then Hidden
    else if hint.level == 3 then CodeBlock(hint.content)
    else Paragraph(hint.content)
  }

  /** The panel: one item per hint, in level order, each showing its
      content only when its level is open, the level-3 answer as code. */
  function Panel(hints: seq<Hint>, open: set<int>): (r: seq<(Hint, Body)>)
    ensures |r| == |hints|
    ensures multiset(seq(|r|, k requires 0 <= k < |r| => r[k].0)) == multiset(hints)
    ensures forall j, k :: 0 <= j < k < |r| ==> r[j].0.level <= r[k].0.level
    ensures forall k :: 0 <= k < |r| ==>
              (r[k].1 == Hidden <==> r[k].0.level !in open)
              && (r[k].1.CodeBlock? <==> r[k].0.level in open && r[k].0.level == 3)
              && (r[k].1 != Hidden ==> r[k].1 == CodeBlock(r[k].0.content) || r[k].1 == Paragraph(r[k].0.content))
  {
    var sorted := SortHints(hints);
    assert |sorted| == |hints| by {
      assert |multiset(sorted)| == |multiset(hints)|;
    }
    var r := seq(|sorted|, k requires 0 <= k < |sorted| => (sorted[k], ItemBody(sorted[k], open)));
    assert seq(|r|, k requires 0 <= k < |r| => r[k].0) == sorted;
    r
  }
}

=== FILE: kwcag_guidelines.dfy ===
/** The generated guideline catalogue `KWCAG_GUIDELINES` and its two lookups. */
module KwcagGuidelines {
  import opened Base
  import opened Text
  import Seqs

  datatype Principle = Perceivable | Operable | Understandable | Robust

  datatype Guideline = Guideline(code: string, title: string, description: string, principle: Principle)

  /** Title and description of checklist item `n` (1 to 33). */
  function Wording(n: nat): (string, string)
  {
    if n == 1 then
      ("적절한 대체 텍스트 제공",
       "텍스트 아닌 콘텐츠는 그 의미나 용도를 인식할 수 있도록 대체 텍스트를 제공해야 한다.")
    else
    if n == 2 then
      ("자막 제공",
       "멀티미디어 콘텐츠에는 자막, 대본 또는 수어를 제공해야 한다.")
    else
    if n == 3 then
      ("표의 구성",
       "표는 이해하기 쉽게 구성해야 한다.")
    else
    if n == 4 then
      ("콘텐츠의 선형구조",
       "콘텐츠는 논리적인 순서로 제공해야 한다.")
    else
    if n == 5 then
      ("명확한 지시사항 제공",
       "지시사항은 모양, 크기, 위치, 방향, 색, 소리 등에 관계없이 인식될 수 있어야 한다.")
    else
    if n == 6 then
      ("색에 무관한 콘텐츠 인식",
       "콘텐츠는 색에 관계없이 인식될 수 있어야 한다.")
    else
    if n == 7 then
      ("자동 재생 금지",
       "자동으로 소리가 재생되지 않아야 한다.")
    else
    if n == 8 then
      ("텍스트 콘텐츠의 명도 대비",
       "텍스트 콘텐츠와 배경 간의 명도 대비는 4.5 대 1 이상이어야 한다.")
    else
    if n == 9 then
      ("콘텐츠 간의 구분",
       "이웃한 콘텐츠는 구분될 수 있어야 한다.")
    else
    if n == 10 then
      ("키보드 사용 보장",
       "모든 기능은 키보드만으로도 사용할 수 있어야 한다.")
    else
    if n == 11 then
      ("초점 이동과 표시",
       "키보드에 의한 초점은 논리적으로 이동해야 하며, 시각적으로 구별할 수 있어야 한다.")
    else
    if n == 12 then
      ("조작 가능",
       "사용자 입력 및 콘트롤은 조작 가능하도록 제공되어야 한다.")
    else
    if n == 13 then
      ("문자 단축키",
       "문자 단축키는 오동작으로 인한 오류를 방지하여야 한다.")
    else
    if n == 14 then
      ("응답시간 조절",
       "시간제한이 있는 콘텐츠는 응답시간을 조절할 수 있어야 한다.")
    else
    if n == 15 then
      ("정지 기능 제공",
       "자동으로 변경되는 콘텐츠는 움직임을 제어할 수 있어야 한다.")
    else
    if n == 16 then
      ("깜빡임과 번쩍임 사용 제한",
       "초당 3~50회 주기로 깜빡이거나 번쩍이는 콘텐츠를 제공하지 않아야 한다.")
    else
    if n == 17 then
      ("반복 영역 건너뛰기",
       "콘텐츠의 반복되는 영역은 건너뛸 수 있어야 한다.")
    else
    if n == 18 then
      ("제목 제공",
       "페이지, 프레임, 콘텐츠 블록에는 적절한 제목을 제공해야 한다.")
    else
    if n == 19 then
      ("적절한 링크 텍스트",
       "링크 텍스트는 용도나 목적을 이해할 수 있도록 제공해야 한다.")
    else
    if n == 20 then
      ("고정된 참조 위치 정보",
       "전자출판문서 형식의 웹 페이지는 각 페이지로 이동할 수 있는 기능이 있어야 하고, 서식이나 플랫폼에 상관없이 참조 위치 정보를 일관되게 제공ㆍ유지해야 한다.")
    else
    if n == 21 then
      ("단일 포인터 입력 지원",
       "다중 포인터 또는 경로기반 동작을 통한 입력은 단일 포인터 입력으로도 조작할 수 있어야 한다.")
    else
    if n == 22 then
      ("포인터 입력 취소",
       "단일 포인터 입력으로 실행되는 기능은 취소할 수 있어야 한다.")
    else
    if n == 23 then
      ("레이블과 네임",
       "텍스트 또는 텍스트 이미지가 포함된 레이블이 있는 사용자 인터페이스 구성요소는 네임에 시각적으로 표시되는 해당 텍스트를 포함해야 한다.")
    else
    if n == 24 then
      ("동작기반 작동",
       "동작기반으로 작동하는 기능은 사용자 인터페이스 구성요소로 조작할 수 있고, 동작기반 기능을 비활성화할 수 있어야 한다.")
    else
    if n == 25 then
      ("기본 언어 표시",
       "주로 사용하는 언어를 명시해야 한다.")
    else
    if n == 26 then
      ("사용자 요구에 따른 실행",
       "사용자가 의도하지 않은 기능(새 창, 초점에 의한 맥락 변화 등)은 실행되지 않아야 한다.")
    else
    if n == 27 then
      ("찾기 쉬운 도움 정보",
       "도움 정보가 제공되는 경우, 각 페이지에서 동일한 상대적인 순서로 접근할 수 있어야 한다.")
    else
    if n == 28 then
      ("오류 정정",
       "입력 오류를 정정할 수 있는 방법을 제공해야 한다.")
    else
    if n == 29 then
      ("레이블 제공",
       "사용자 입력에는 대응하는 레이블을 제공해야 한다.")
    else
    if n == 30 then
      ("접근 가능한 인증",
       "인증 과정은 인지 기능 테스트에만 의존해서는 안 된다.")
    else
    if n == 31 then
      ("반복 입력 정보",
       "반복되는 입력 정보는 자동 입력 또는 선택 입력할 수 있어야 한다.")
    else
    if n == 32 then
      ("마크업 오류 방지",
       "마크업 언어의 요소는 열고 닫음, 중첩 관계 및 속성 선언에 오류가 없어야 한다.")
    else
      ("웹 애플리케이션 접근성 준수",
       "콘텐츠에 포함된 웹 애플리케이션은 접근성이 있어야 한다.")
  }

  /** Principle column of checklist item `n` (1 to 33), as written in the
      generated file. */
  function PrincipleColumn(n: nat): Principle
  {
    if n == 1 then Perceivable else
    if n == 2 then Perceivable else
    if n == 3 then Perceivable else
    if n == 4 then Perceivable else
    if n == 5 then Perceivable else
    if n == 6 then Perceivable else
    if n == 7 then Perceivable else
    if n == 8 then Perceivable else
    if n == 9 then Perceivable else
    if n == 10 then Operable else
    if n == 11 then Operable else
    if n == 12 then Operable else
    if n == 13 then Operable else
    if n == 14 then Operable else
    if n == 15 then Operable else
    if n == 16 then Operable else
    if n == 17 then Operable else
    if n == 18 then Operable else
    if n == 19 then Operable else
    if n == 20 then Operable else
    if n == 21 then Understandable else
    if n == 22 then Understandable else
    if n == 23 then Understandable else
    if n == 24 then Understandable else
    if n == 25 then Understandable else
    if n == 26 then Understandable else
    if n == 27 then Understandable else
    if n == 28 then Understandable else
    if n == 29 then Understandable else
    if n == 30 then Understandable else
    if n == 31 then Understandable else
    if n == 32 then Robust else
    Robust
  }

  /** Checklist item `n`; its code is `n` written in decimal. */
  function Entry(n: nat): Guideline
  {
    Guideline(NatToString(n), Wording(n).0, Wording(n).1, PrincipleColumn(n))
  }

  /** The 33 checklist items, in the order of the generated file. */
  function Table(): (t: seq<Guideline>)
    ensures |t| == 33 && forall k :: 0 <= k < 33 ==> t[k] == Entry(k + 1)
    ensures Numbered(t)
  {
    seq(33, k requires 0 <= k < 33 => Entry(k + 1))
  }

  /** `table.find(g => g.code === code)`: the first entry whose code is
      `code`, or `undefined` when there is none. */
  function ByCode(table: seq<Guideline>, code: string): (r: Option<Guideline>)
    ensures r.Some? ==> r.value in table && r.value.code == code
    ensures r.None? <==> forall k :: 0 <= k < |table| ==> table[k].code != code
  {
    Seqs.Find(table, (g: Guideline) => g.code == code)
  }

  /** `table.filter(g => g.principle === p)`: in table order, exactly the
      entries whose principle is `p`. */
  function ByPrinciple(table: seq<Guideline>, p: Principle): (r: seq<Guideline>)
    ensures Seqs.Subsequence(r, table)
    ensures forall k :: 0 <= k < |r| ==> r[k].principle == p
    ensures forall g :: g in r <==> g in table && g.principle == p
  {
    Seqs.Filter(table, (g: Guideline) => g.principle == p)
  }

  /** `getGuidelineByCode(code)` over the catalogue. */
  function GetGuidelineByCode(code: string): Option<Guideline>
  {
    ByCode(Table(), code)
  }

  /** `getGuidelinesByPrinciple(p)` over the catalogue. */
  function GetGuidelinesByPrinciple(p: Principle): seq<Guideline>
  {
    ByPrinciple(Table(), p)
  }

  /** Entry `k` of `table` has code `k + 1`, written in decimal. */
  predicate Numbered(table: seq<Guideline>) {
    forall k :: 0 <= k < |table| ==> table[k].code == NatToString(k + 1)
  }

  /** In a numbered table a lookup finds an entry exactly for the codes
      "1" to `|table|`, and for code `n` it is the `n`-th entry. */
  lemma ByCodeNumbered(table: seq<Guideline>, code: string)
    requires Numbered(table)
    ensures ByCode(table, code).Some? <==> exists n :: 1 <= n <= |table| && code == NatToString(n)
    ensures forall n :: 1 <= n <= |table| && code == NatToString(n) ==> ByCode(table, code) == Some(table[n - 1])
  {
    var r := ByCode(table, code);
    if r.Some? {
      var k :| 0 <= k < |table| && table[k] == r.value;
      assert 1 <= k + 1 <= |table| && code == NatToString(k + 1);
      forall n | 1 <= n <= |table| && code == NatToString(n)
        ensures r == Some(table[n - 1])
      {
        IntToStringInjective(n, k + 1);
      }
    } else {
      forall n | 1 <= n <= |table| ensures code != NatToString(n) {
        assert table[n - 1].code == NatToString(n);
      }
    }
  }

  /** A catalogue lookup finds an entry exactly for the codes "1" to "33",
      and for code `n` it is the `n`-th entry. */
  lemma GetGuidelineByCodeFinds(code: string)
    ensures GetGuidelineByCode(code).Some? <==> exists n :: 1 <= n <= 33 && code == NatToString(n)
    ensures forall n :: 1 <= n <= 33 && code == NatToString(n) ==> GetGuidelineByCode(code) == Some(Table()[n - 1])
  {
    ByCodeNumbered(Table(), code);
  }
}

=== FILE: normalize_in_text.dfy ===
/** `normalizeCode` on an attribute written inside longer markup: each of the
    six JSX forms, with the white space its pattern allows, is replaced where
    it stands and the text on either side is kept, provided that text holds
    no form of its own and the attribute starts a word. */
module NormalizeInText {
  import opened Base
  import opened Text
  import opened Pattern
  import opened Validator

  // ---------------------------------------------------------------------------
  // The patterns `\bname\s*=\s*w1\s*w2...` in plain string terms

  /** Where the words `ws` end, each after optional white space, from `i`. */
  function ChainEnd(s: string, i: nat, ws: seq<string>): (r: Option<nat>)
    requires i <= |s|
    ensures r.Some? ==> i <= r.value <= |s|
    decreases |ws|
  {
    if |ws| == 0 then Some(i)
    else
      var e := SpacedEnd(s, i, ws[0], false);
      if e.None? then None else ChainEnd(s, e.value, ws[1..])
  }

  /** Where a match of `AssignChain(name, ws)` starting at `p` ends. */
  function AssignChainEnd(s: string, p: nat, name: string, ws: seq<string>): Option<nat> {
    match AssignEnd(s, p, name, false)
    case None => None
    case Some(a) => ChainEnd(s, a, ws)
  }

  lemma {:induction false} ChainMatch(ws: seq<string>, s: string, i: nat)
    requires i <= |s|
    ensures MatchFrom(Chain(ws, false), s, i)
            == if ChainEnd(s, i, ws).Some? then Some(Match(ChainEnd(s, i, ws).value, [])) else None
    decreases |ws|
  {
    if |ws| > 0 {
      SpacedMatch(ws[0], false, Chain(ws[1..], false), s, i);
      var e := SpacedEnd(s, i, ws[0], false);
      if e.Some? { ChainMatch(ws[1..], s, e.value); }
    }
  }

  lemma AssignChainAt(name: string, ws: seq<string>, s: string, p: nat)
    requires p <= |s|
    ensures MatchAt(AssignChain(name, ws), s, p)
            == if AssignChainEnd(s, p, name, ws).Some? then Some(Match(AssignChainEnd(s, p, name, ws).value, [])) else None
  {
    MatchAtOne(Assign(name, false) + Chain(ws, false), s, p);
    AssignMatch(name, false, Chain(ws, false), s, p);
    var a := AssignEnd(s, p, name, false);
    if a.Some? { ChainMatch(ws, s, a.value); }
  }

  lemma AssignChainFrom(s: string, p: nat, name: string, ws: seq<string>, a: nat)
    requires a <= |s| && AssignEnd(s, p, name, false).Some? && AssignEnd(s, p, name, false).value == a
    requires ChainEnd(s, a, ws).Some?
    ensures AssignChainEnd(s, p, name, ws).Some?
    ensures AssignChainEnd(s, p, name, ws).value == ChainEnd(s, a, ws).value
  {
  }

  lemma AssignChainNone(s: string, p: nat, name: string, ws: seq<string>, a: nat)
    requires a <= |s| && AssignEnd(s, p, name, false).Some? && AssignEnd(s, p, name, false).value == a
    requires ChainEnd(s, a, ws).None?
    ensures AssignChainEnd(s, p, name, ws).None?
  {
  }

  // ---------------------------------------------------------------------------
  // Where a word can begin

  predicate AllWord(x: string) {
    forall k :: 0 <= k < |x| ==> IsWordChar(x[k])
  }

  /** Every `c` in `x` continues a word begun inside `x`. */
  predicate NoStart(x: string, c: char) {
    forall k :: 0 <= k < |x| && x[k] == c ==> 0 < k && IsWordChar(x[k - 1])
  }

  /** Every `c` in `x` after its first character continues a word. */
  predicate NoInnerStart(x: string, c: char) {
    forall k :: 0 < k < |x| && x[k] == c ==> IsWordChar(x[k - 1])
  }

  /** Every word is non-empty and starts with a character other than white
      space, so the white space before it ends where it begins. */
  predicate Heads(ws: seq<string>) {
    forall k :: 0 <= k < |ws| ==> |ws[k]| > 0 && !IsSpace(ws[k][0])
  }

  predicate Blank(gaps: seq<string>) {
    forall k :: 0 <= k < |gaps| ==> AllSpace(gaps[k])
  }

  predicate AllNoStart(ws: seq<string>, c: char) {
    forall k :: 0 <= k < |ws| ==> NoStart(ws[k], c)
  }

  lemma StartsJoin(a: string, b: string, c: char)
    requires NoStart(a, c) && NoStart(b, c)
    ensures NoStart(a + b, c)
  {
    forall k | 0 <= k < |a + b| && (a + b)[k] == c ensures 0 < k && IsWordChar((a + b)[k - 1]) {
      if k < |a| { assert (a + b)[k] == a[k]; } else {
        assert (a + b)[k] == b[k - |a|];
        assert 0 < k - |a| ==> (a + b)[k - 1] == b[k - |a| - 1];
      }
    }
  }

  lemma InnerJoin(a: string, b: string, c: char)
    requires NoInnerStart(a, c) && NoStart(b, c)
    ensures NoInnerStart(a + b, c)
  {
    forall k | 0 < k < |a + b| && (a + b)[k] == c ensures IsWordChar((a + b)[k - 1]) {
      if k < |a| { assert (a + b)[k] == a[k]; } else {
        assert (a + b)[k] == b[k - |a|];
        assert 0 < k - |a| ==> (a + b)[k - 1] == b[k - |a| - 1];
      }
    }
  }

  // ---------------------------------------------------------------------------
  // The forms as written

  /** The words `ws`, each after its own white space `gaps[k]`. */
  function Interleave(gaps: seq<string>, ws: seq<string>): string
    requires |gaps| == |ws|
  {
    if |ws| == 0 then "" else gaps[0] + ws[0] + Interleave(gaps[1..], ws[1..])
  }

  /** `name`, white space `g`, `=`, then each word after its own white space:
      the text a match of `AssignChain(name, ws)` covers. */
  function Spelled(name: string, g: string, gaps: seq<string>, ws: seq<string>): string
    requires |gaps| == |ws|
  {
    name + g + "=" + Interleave(gaps, ws)
  }

  lemma {:induction false} InterleaveNoStart(gaps: seq<string>, ws: seq<string>, c: char)
    requires |gaps| == |ws| && Blank(gaps) && AllNoStart(ws, c) && !IsSpace(c)
    ensures NoStart(Interleave(gaps, ws), c)
    decreases |ws|
  {
    if |ws| > 0 {
      assert NoStart(gaps[0], c) by { assert AllSpace(gaps[0]); }
      assert NoStart(ws[0], c);
      InterleaveNoStart(gaps[1..], ws[1..], c);
      StartsJoin(gaps[0], ws[0], c);
      StartsJoin(gaps[0] + ws[0], Interleave(gaps[1..], ws[1..]), c);
    }
  }

  /** A letter no word of `ws` begins with begins no word inside a form past
      its first character. */
  lemma SpelledNoInnerStart(name: string, g: string, gaps: seq<string>, ws: seq<string>, c: char)
    requires |gaps| == |ws| && AllWord(name) && AllSpace(g) && Blank(gaps)
    requires AllNoStart(ws, c) && IsWordChar(c)
    ensures NoInnerStart(Spelled(name, g, gaps, ws), c)
  {
    assert NoStart(g + "=", c) by {
      forall k | 0 <= k < |g + "="| ensures (g + "=")[k] != c {
        if k < |g| { assert (g + "=")[k] == g[k]; } else { assert (g + "=")[k] == '='; }
      }
    }
    InterleaveNoStart(gaps, ws, c);
    StartsJoin(g + "=", Interleave(gaps, ws), c);
    assert Spelled(name, g, gaps, ws) == name + (g + "=" + Interleave(gaps, ws));
    InnerJoin(name, g + "=" + Interleave(gaps, ws), c);
  }

  /** A form ends with the last character of its last word. */
  lemma SpelledLast(name: string, g: string, gaps: seq<string>, ws: seq<string>)
    requires |gaps| == |ws| && |ws| > 0 && |ws[|ws| - 1]| > 0
    ensures |Spelled(name, g, gaps, ws)| > 0
    ensures Spelled(name, g, gaps, ws)[|Spelled(name, g, gaps, ws)| - 1] == ws[|ws| - 1][|ws[|ws| - 1]| - 1]
  {
    InterleaveLast(gaps, ws);
  }

  lemma {:induction false} InterleaveLast(gaps: seq<string>, ws: seq<string>)
    requires |gaps| == |ws| && |ws| > 0 && |ws[|ws| - 1]| > 0
    ensures |Interleave(gaps, ws)| > 0
    ensures Interleave(gaps, ws)[|Interleave(gaps, ws)| - 1] == ws[|ws| - 1][|ws[|ws| - 1]| - 1]
    decreases |ws|
  {
    if |ws| > 1 { InterleaveLast(gaps[1..], ws[1..]); }
    else { assert Interleave(gaps[1..], ws[1..]) == ""; }
  }

  // ---------------------------------------------------------------------------
  // A form matches where it is written

  /** A concatenation spelt at `i` is its first part at `i` and its second
      part right after. */
  lemma SpellsSplit(s: string, i: nat, a: string, b: string)
    requires SpellsAt(s, i, a + b)
    ensures SpellsAt(s, i, a) && SpellsAt(s, i + |a|, b)
  {
    assert s[i..i + |a|] == s[i..i + |a + b|][..|a|] == (a + b)[..|a|] == a;
    assert s[i + |a|..i + |a + b|] == s[i..i + |a + b|][|a|..] == (a + b)[|a|..] == b;
  }

  /** What a text spelt at `i` puts at each position. */
  lemma SpellsChars(s: string, i: nat, x: string)
    requires SpellsAt(s, i, x)
    ensures forall y :: i <= y < i + |x| ==> s[y] == x[y - i]
  {
    forall y | i <= y < i + |x| ensures s[y] == x[y - i] {
      assert s[i..i + |x|][y - i] == s[y];
    }
  }

  /** White space `g` then `w`, spelt at `i`. */
  lemma SpacedWord(s: string, i: nat, g: string, w: string)
    requires SpellsAt(s, i, g + w) && AllSpace(g) && |w| > 0 && !IsSpace(w[0])
    ensures SpacedEnd(s, i, w, false).Some? && SpacedEnd(s, i, w, false).value == i + |g| + |w|
  {
    SpellsSplit(s, i, g, w);
    SpellsChars(s, i, g);
    SpellsChars(s, i + |g|, w);
    RunEndAt(Space, s, i, i + |g|);
  }

  lemma {:induction false} ChainInterleave(s: string, i: nat, gaps: seq<string>, ws: seq<string>)
    requires |gaps| == |ws| && Blank(gaps) && Heads(ws)
    requires SpellsAt(s, i, Interleave(gaps, ws))
    ensures ChainEnd(s, i, ws).Some? && ChainEnd(s, i, ws).value == i + |Interleave(gaps, ws)|
    decreases |ws|
  {
    if |ws| > 0 {
      var g, w := gaps[0], ws[0];
      var rest := Interleave(gaps[1..], ws[1..]);
      assert Interleave(gaps, ws) == (g + w) + rest;
      SpellsSplit(s, i, g + w, rest);
      assert AllSpace(g);
      SpacedWord(s, i, g, w);
      ChainInterleave(s, i + |g + w|, gaps[1..], ws[1..]);
    }
  }

  /** `name`, white space and `=` at `q`, where a word may begin. */
  lemma FormAssign(s: string, q: nat, name: string, g: string)
    requires SpellsAt(s, q, name + g + "=")
    requires |name| > 0 && IsWordChar(name[0]) && AllSpace(g)
    requires q == 0 || !IsWordChar(s[q - 1])
    ensures AssignEnd(s, q, name, false).Some? && AssignEnd(s, q, name, false).value == q + |name| + |g| + 1
  {
    SpellsSplit(s, q, name + g, "=");
    SpellsSplit(s, q, name, g);
    SpellsChars(s, q, name);
    SpellsChars(s, q + |name|, g);
    SpellsChars(s, q + |name + g|, "=");
    RunEndAt(Space, s, q + |name|, q + |name| + |g|);
  }

  /** A form spelt at `q`, where a word may begin, is matched whole there. */
  lemma FormMatch(s: string, q: nat, name: string, g: string, gaps: seq<string>, ws: seq<string>)
    requires |gaps| == |ws| && AllSpace(g) && Blank(gaps) && Heads(ws)
    requires SpellsAt(s, q, Spelled(name, g, gaps, ws))
    requires |name| > 0 && IsWordChar(name[0])
    requires q == 0 || !IsWordChar(s[q - 1])
    ensures AssignChainEnd(s, q, name, ws).Some?
    ensures AssignChainEnd(s, q, name, ws).value == q + |Spelled(name, g, gaps, ws)|
  {
    FormValueAt(s, q, name, g, gaps, ws);
    var a := q + |name + g + "="|;
    ChainInterleave(s, a, gaps, ws);
    AssignChainFrom(s, q, name, ws, a);
  }

  // ---------------------------------------------------------------------------
  // No match crosses into the form from before it

  /** White space then a word spelt from before `cut` stays before `cut` when
      the word cannot start at `cut` or run across it. */
  lemma WordBeforeCut(s: string, r: nat, w: string, cut: nat)
    requires SpellsAt(s, r, w) && |w| > 0 && r <= cut < |s| && 0 < cut
    requires !IsWordChar(s[cut - 1]) && NoStart(w, s[cut])
    ensures r + |w| <= cut
  {
    SpellsChars(s, r, w);
  }

  lemma {:induction false} ChainStaysBefore(s: string, i: nat, ws: seq<string>, cut: nat)
    requires i <= cut < |s| && 0 < cut && !IsWordChar(s[cut - 1]) && IsWordChar(s[cut])
    requires forall k :: 0 <= k < |ws| ==> |ws[k]| > 0
    requires AllNoStart(ws, s[cut])
    ensures ChainEnd(s, i, ws).Some? ==>
              ChainEnd(s, i, ws).value <= cut && ChainEnd(s[..cut], i, ws) == ChainEnd(s, i, ws)
    decreases |ws|
  {
    if |ws| > 0 && ChainEnd(s, i, ws).Some? {
      var w := ws[0];
      var r := RunEnd(Space, s, i);
      assert SpellsAt(s, r, w);
      assert r <= cut;
      WordBeforeCut(s, r, w, cut);
      RunEndPrefix(Space, s, cut, i);
      SpellsPrefix(s, cut, r, w);
      assert SpacedEnd(s[..cut], i, w, false) == SpacedEnd(s, i, w, false);
      ChainStaysBefore(s, r + |w|, ws[1..], cut);
    }
  }

  lemma AssignStaysBefore(s: string, p: nat, name: string, cut: nat)
    requires p < cut < |s| && !IsWordChar(s[cut - 1]) && IsWordChar(s[cut]) && AllWord(name)
    ensures AssignEnd(s, p, name, false).Some? ==>
              AssignEnd(s, p, name, false).value <= cut
              && AssignEnd(s[..cut], p, name, false) == AssignEnd(s, p, name, false)
  {
    if AssignEnd(s, p, name, false).Some? {
      SpellsChars(s, p, name);
      assert p + |name| <= cut;
      var a := RunEnd(Space, s, p + |name|);
      assert a < cut;
      RunEndPrefix(Space, s, cut, p + |name|);
      SpellsPrefix(s, cut, p, name);
      BoundaryPrefix(s, cut, p);
      assert s[..cut][a] == s[a];
    }
  }

  /** A match starting before `cut` would be a match of the text cut there. */
  lemma BeforeNoMatch(name: string, ws: seq<string>, s: string, cut: nat, p: nat)
    requires p < cut < |s| && !IsWordChar(s[cut - 1]) && IsWordChar(s[cut]) && AllWord(name)
    requires forall k :: 0 <= k < |ws| ==> |ws[k]| > 0
    requires AllNoStart(ws, s[cut])
    requires !Test(AssignChain(name, ws), s[..cut])
    ensures MatchAt(AssignChain(name, ws), s, p).None?
  {
    AssignChainAt(name, ws, s, p);
    AssignStaysBefore(s, p, name, cut);
    var a := AssignEnd(s, p, name, false);
    if a.Some? {
      ChainStaysBefore(s, a.value, ws, cut);
      AssignChainAt(name, ws, s[..cut], p);
    }
  }

  // ---------------------------------------------------------------------------
  // Nor does one start inside the form or after it

  /** A run measured from `c + j` is the run measured in the suffix from `c`. */
  lemma RunEndSuffix(k: Class, s: string, c: nat, j: nat)
    requires c + j <= |s|
    ensures RunEnd(k, s, c + j) == c + RunEnd(k, s[c..], j)
  {
    var e := RunEnd(k, s[c..], j);
    forall x | c + j <= x < c + e ensures InClass(s[x], k) {
      assert s[x] == s[c..][x - c];
    }
    if c + e < |s| { assert s[c + e] == s[c..][e]; }
    RunEndAt(k, s, c + j, c + e);
  }

  lemma SpellsSuffix(s: string, c: nat, j: nat, w: string)
    requires c + j <= |s|
    ensures SpellsAt(s, c + j, w) <==> SpellsAt(s[c..], j, w)
  {
    if c + j + |w| <= |s| {
      assert s[c..][j..j + |w|] == s[c + j..c + j + |w|];
    }
  }

  /** After a non-word character (or at the start), `\b` holds where it holds
      in the suffix. */
  lemma BoundarySuffix(s: string, c: nat, j: nat)
    requires c + j <= |s| && (c == 0 || !IsWordChar(s[c - 1]))
    ensures BoundaryAt(s, c + j) <==> BoundaryAt(s[c..], j)
  {
    if j > 0 { assert s[c..][j - 1] == s[c + j - 1]; }
    if c + j < |s| { assert s[c..][j] == s[c + j]; }
  }

  lemma SpacedSuffix(s: string, c: nat, j: nat, w: string)
    requires c + j <= |s|
    ensures SpacedEnd(s, c + j, w, false).Some? == SpacedEnd(s[c..], j, w, false).Some?
    ensures SpacedEnd(s[c..], j, w, false).Some? ==>
              SpacedEnd(s, c + j, w, false).value == c + SpacedEnd(s[c..], j, w, false).value
  {
    RunEndSuffix(Space, s, c, j);
    SpellsSuffix(s, c, RunEnd(Space, s[c..], j), w);
  }

  lemma {:induction false} ChainSuffix(s: string, c: nat, j: nat, ws: seq<string>)
    requires c + j <= |s|
    ensures ChainEnd(s, c + j, ws).Some? == ChainEnd(s[c..], j, ws).Some?
    ensures ChainEnd(s[c..], j, ws).Some? ==> ChainEnd(s, c + j, ws).value == c + ChainEnd(s[c..], j, ws).value
    decreases |ws|
  {
    if |ws| > 0 {
      SpacedSuffix(s, c, j, ws[0]);
      var e := SpacedEnd(s[c..], j, ws[0], false);
      if e.Some? { ChainSuffix(s, c, e.value, ws[1..]); }
    }
  }

  lemma AssignEndAt(s: string, p: nat, name: string)
    requires p + |name| <= |s| && BoundaryAt(s, p) && SpellsAt(s, p, name)
    requires RunEnd(Space, s, p + |name|) < |s| && s[RunEnd(Space, s, p + |name|)] == '='
    ensures AssignEnd(s, p, name, false) == Some(RunEnd(Space, s, p + |name|) + 1)
  {
  }

  lemma AssignSuffix(s: string, c: nat, j: nat, name: string)
    requires c + j <= |s| && (c == 0 || !IsWordChar(s[c - 1]))
    ensures AssignEnd(s, c + j, name, false).Some? ==>
              AssignEnd(s[c..], j, name, false).Some?
              && AssignEnd(s, c + j, name, false).value == c + AssignEnd(s[c..], j, name, false).value
  {
    var t := s[c..];
    BoundarySuffix(s, c, j);
    SpellsSuffix(s, c, j, name);
    if AssignEnd(s, c + j, name, false).Some? {
      RunEndSuffix(Space, s, c, j + |name|);
      var a := RunEnd(Space, t, j + |name|);
      assert RunEnd(Space, s, c + j + |name|) == c + a;
      assert s[c + a] == t[a];
      AssignEndAt(t, j, name);
    }
  }

  lemma AssignChainSuffix(name: string, ws: seq<string>, s: string, c: nat, j: nat)
    requires c + j <= |s| && (c == 0 || !IsWordChar(s[c - 1]))
    ensures AssignChainEnd(s, c + j, name, ws).Some? ==> AssignChainEnd(s[c..], j, name, ws).Some?
  {
    AssignSuffix(s, c, j, name);
    if AssignEnd(s, c + j, name, false).Some? {
      ChainAfterSuffix(name, ws, s, c, j, AssignEnd(s[c..], j, name, false).value);
    }
  }

  lemma ChainAfterSuffix(name: string, ws: seq<string>, s: string, c: nat, j: nat, a: nat)
    requires c + a <= |s| && c + j <= |s|
    requires AssignEnd(s, c + j, name, false).Some? && AssignEnd(s, c + j, name, false).value == c + a
    requires AssignEnd(s[c..], j, name, false).Some? && AssignEnd(s[c..], j, name, false).value == a
    ensures AssignChainEnd(s, c + j, name, ws).Some? ==> AssignChainEnd(s[c..], j, name, ws).Some?
  {
    ChainSuffix(s, c, a, ws);
    assert AssignChainEnd(s, c + j, name, ws) == ChainEnd(s, c + a, ws);
    assert AssignChainEnd(s[c..], j, name, ws) == ChainEnd(s[c..], a, ws);
  }

  /** Where `test` fails, the regex matches at no position. */
  lemma Untested(re: Regex, t: string, j: nat)
    requires !Test(re, t) && j <= |t|
    ensures MatchAt(re, t, j).None?
  {
  }

  /** A match starting at or after `c`, where `c` follows a non-word
      character, would be a match of the text from `c` on. */
  lemma AfterNoMatch(name: string, ws: seq<string>, s: string, c: nat, p: nat)
    requires c <= p < |s| && (c == 0 || !IsWordChar(s[c - 1]))
    requires !Test(AssignChain(name, ws), s[c..])
    ensures MatchAt(AssignChain(name, ws), s, p).None?
  {
    var j := p - c;
    Untested(AssignChain(name, ws), s[c..], j);
    AssignChainAt(name, ws, s[c..], j);
    AssignChainSuffix(name, ws, s, c, j);
    AssignChainAt(name, ws, s, p);
  }

  /** Where a match starts, `name` begins a word. */
  lemma AssignStarts(s: string, p: nat, name: string)
    requires |name| > 0 && IsWordChar(name[0])
    ensures AssignEnd(s, p, name, false).Some? ==>
              p < |s| && s[p] == name[0] && (p == 0 || !IsWordChar(s[p - 1]))
  {
    if AssignEnd(s, p, name, false).Some? {
      assert s[p] == s[p..p + |name|][0];
    }
  }

  lemma InnerNoMatch(name: string, ws: seq<string>, s: string, q: nat, x: string, p: nat)
    requires SpellsAt(s, q, x) && q < p < q + |x|
    requires |name| > 0 && IsWordChar(name[0]) && NoInnerStart(x, name[0])
    ensures MatchAt(AssignChain(name, ws), s, p).None?
  {
    AssignChainAt(name, ws, s, p);
    AssignStarts(s, p, name);
    assert x[p - q] == s[q..q + |x|][p - q] == s[p];
    assert x[p - q - 1] == s[q..q + |x|][p - q - 1] == s[p - 1];
  }

  // ---------------------------------------------------------------------------
  // One pass of the rewrite over `pre + x + post`

  /** The text around a form: `pre` ends where a word may begin, and neither
      side holds a match of the pass's pattern. */
  predicate Around(re: Regex, pre: string, post: string) {
    && (pre == [] || !IsWordChar(pre[|pre| - 1]))
    && !Test(re, pre) && !Test(re, post)
  }

  /** `x` starts a word and ends on a non-word character, and the pass's
      words cannot begin at its first character. */
  predicate Fits(name: string, ws: seq<string>, x: string) {
    && |x| > 0 && IsWordChar(x[0]) && !IsWordChar(x[|x| - 1])
    && |name| > 0 && AllWord(name)
    && (forall k :: 0 <= k < |ws| ==> |ws[k]| > 0)
    && AllNoStart(ws, x[0])
  }

  lemma OutsideNoMatch(name: string, ws: seq<string>, pre: string, x: string, post: string, p: nat)
    requires Around(AssignChain(name, ws), pre, post) && Fits(name, ws, x)
    requires p < |pre| || |pre| + |x| <= p < |pre + x + post|
    ensures MatchAt(AssignChain(name, ws), pre + x + post, p).None?
  {
    var s := pre + x + post;
    if p < |pre| {
      assert s[..|pre|] == pre;
      assert s[|pre| - 1] == pre[|pre| - 1];
      assert s[|pre|] == x[0];
      BeforeNoMatch(name, ws, s, |pre|, p);
    } else {
      assert s[|pre| + |x|..] == post;
      assert s[|pre| + |x| - 1] == x[|x| - 1];
      AfterNoMatch(name, ws, s, |pre| + |x|, p);
    }
  }

  /** A pass whose pattern does not match at the start of `x` leaves the
      text as it is. */
  lemma PassKeeps(name: string, ws: seq<string>, rep: seq<Piece>, pre: string, x: string, post: string)
    requires Around(AssignChain(name, ws), pre, post) && Fits(name, ws, x)
    requires IsWordChar(name[0]) && NoInnerStart(x, name[0])
    requires AssignChainEnd(pre + x + post, |pre|, name, ws).None?
    ensures ReplaceAll(AssignChain(name, ws), rep, pre + x + post) == pre + x + post
  {
    var s := pre + x + post;
    forall p | 0 <= p < |s| ensures MatchAt(AssignChain(name, ws), s, p).None? {
      if p == |pre| {
        AssignChainAt(name, ws, s, p);
      } else if |pre| < p < |pre| + |x| {
        assert s[|pre|..|pre| + |x|] == x;
        InnerNoMatch(name, ws, s, |pre|, x, p);
      } else {
        OutsideNoMatch(name, ws, pre, x, post, p);
      }
    }
    ReplaceNoMatch(AssignChain(name, ws), rep, s, 0);
    assert s[0..] == s;
  }

  /** A pass whose pattern matches exactly `x` replaces it and keeps the
      text on either side. */
  lemma PassRewrites(name: string, ws: seq<string>, t: string, pre: string, x: string, post: string)
    requires Around(AssignChain(name, ws), pre, post) && Fits(name, ws, x)
    requires AssignChainEnd(pre + x + post, |pre|, name, ws).Some?
    requires AssignChainEnd(pre + x + post, |pre|, name, ws).value == |pre| + |x|
    ensures ReplaceAll(AssignChain(name, ws), [Literal(t)], pre + x + post) == pre + t + post
  {
    var s := pre + x + post;
    AssignChainAt(name, ws, s, |pre|);
    forall p | 0 <= p < |pre| ensures MatchAt(AssignChain(name, ws), s, p).None? {
      OutsideNoMatch(name, ws, pre, x, post, p);
    }
    forall p | |pre| + |x| <= p < |s| ensures MatchAt(AssignChain(name, ws), s, p).None? {
      OutsideNoMatch(name, ws, pre, x, post, p);
    }
    ReplaceOnce(AssignChain(name, ws), [Literal(t)], s, |pre|, Match(|pre| + |x|, []));
    assert s[..|pre|] == pre && s[|pre| + |x|..] == post;
    assert Expand([Literal(t)], []) == t;
  }

  // ---------------------------------------------------------------------------
  // Facts about the six patterns and the three replacements

  /** The words of a pattern: each starts with a non-space, and none of the
      letters the attribute names begin with (`h`, `t`, `r`, `f`) begins a word
      inside them. */
  predicate Inert(ws: seq<string>) {
    && Heads(ws)
    && AllNoStart(ws, 'h') && AllNoStart(ws, 't') && AllNoStart(ws, 'r') && AllNoStart(ws, 'f')
  }

  /** A word without the letter `c` begins no word with it. */
  lemma LacksLetter(w: string, c: char)
    requires forall k :: 0 <= k < |w| ==> w[k] != c
    ensures NoStart(w, c)
  {
  }

  /** Each letter `h`, `t`, `r`, `f` is absent from `w`. */
  predicate Unlettered(w: string) {
    forall k :: 0 <= k < |w| ==> w[k] != 'h' && w[k] != 't' && w[k] != 'r' && w[k] != 'f'
  }

  lemma UnletteredInert(ws: seq<string>)
    requires Heads(ws) && forall k :: 0 <= k < |ws| ==> Unlettered(ws[k])
    ensures Inert(ws)
  {
  }

  lemma BracesInert(ws: seq<string>, w: string)
    requires ws == ["{", w, "}"] && |w| > 0 && !IsSpace(w[0])
    requires NoStart(w, 'h') && NoStart(w, 't') && NoStart(w, 'r') && NoStart(w, 'f')
    ensures Inert(ws)
  {
    assert Unlettered("{") && Unlettered("}");
    forall k | 0 <= k < |ws| ensures |ws[k]| > 0 && !IsSpace(ws[k][0]) && NoStart(ws[k], 'h')
      && NoStart(ws[k], 't') && NoStart(ws[k], 'r') && NoStart(ws[k], 'f')
    {
      if k != 1 {
        LacksLetter(ws[k], 'h'); LacksLetter(ws[k], 't'); LacksLetter(ws[k], 'r'); LacksLetter(ws[k], 'f');
      }
    }
  }

  /** In `"button"` and `'button'` the `t`s continue the word `button`. */
  lemma ButtonNoStart(w: string)
    requires w == "\"button\"" || w == "'button'"
    ensures |w| > 0 && !IsSpace(w[0])
    ensures NoStart(w, 'h') && NoStart(w, 't') && NoStart(w, 'r') && NoStart(w, 'f')
  {
    assert w == [w[0]] + "button" + [w[0]];
    forall k | 0 <= k < |w| && w[k] == 't' ensures 0 < k && IsWordChar(w[k - 1]) {
      assert k == 3 || k == 4;
    }
    assert forall k :: 0 <= k < |w| ==> w[k] != 'h' && w[k] != 'r' && w[k] != 'f';
    LacksLetter(w, 'h'); LacksLetter(w, 'r'); LacksLetter(w, 'f');
  }

  lemma OneInert(w: string)
    requires w == "\"" || w == "\"0\"" || w == "'0'"
    ensures Inert([w])
  {
    assert Unlettered(w);
    UnletteredInert([w]);
  }

  lemma WordsInert()
    ensures Inert(HtmlForWords) && Inert(TabIndexBracedWords) && Inert(TabIndexDoubleWords)
    ensures Inert(TabIndexSingleWords) && Inert(RoleDoubleWords) && Inert(RoleSingleWords)
  {
    OneInert("\"");
    OneInert("\"0\"");
    OneInert("'0'");
    assert Unlettered("0");
    LacksLetter("0", 'h'); LacksLetter("0", 't'); LacksLetter("0", 'r'); LacksLetter("0", 'f');
    BracesInert(TabIndexBracedWords, "0");
    ButtonNoStart("\"button\"");
    BracesInert(RoleDoubleWords, "\"button\"");
    ButtonNoStart("'button'");
    BracesInert(RoleSingleWords, "'button'");
  }

  /** A replacement text starts a word, ends on a non-word character and
      begins no word past its first character with `h`, `t` or `r`. */
  predicate Settled(x: string) {
    && |x| > 0 && IsWordChar(x[0]) && !IsWordChar(x[|x| - 1])
    && NoInnerStart(x, 'h') && NoInnerStart(x, 't') && NoInnerStart(x, 'r')
  }

  lemma ForTextSettled()
    ensures Settled(ForText)
  {
  }

  lemma TabIndexTextSettled()
    ensures Settled(TabIndexText)
  {
  }

  lemma RoleTextSettled()
    ensures Settled(RoleText)
  {
  }

  lemma NamesWords()
    ensures AllWord("htmlFor") && AllWord("tabIndex") && AllWord("role")
  {
  }

  // ---------------------------------------------------------------------------
  // One pass, as an attribute meets it

  /** Where a spelt word would start, the text has the word's characters. */
  lemma SpellsCharsIf(s: string, i: nat, w: string)
    ensures SpellsAt(s, i, w) ==> forall y :: i <= y < i + |w| ==> s[y] == w[y - i]
  {
    if SpellsAt(s, i, w) { SpellsChars(s, i, w); }
  }

  /** A name that differs from the text at `q` in its `k`-th letter is not
      spelt there. */
  lemma NameMismatch(s: string, q: nat, x: string, name: string, k: nat)
    requires SpellsAt(s, q, x) && k < |x| && k < |name| && x[k] != name[k]
    ensures AssignEnd(s, q, name, false).None?
  {
    SpellsChars(s, q, x);
    assert s[q + k] == x[k];
    SpellsCharsIf(s, q, name);
  }

  /** White space then `x` at `i`: no chain whose first word begins
      differently matches there. */
  lemma ChainMismatch(s: string, i: nat, g: string, x: string, ws: seq<string>)
    requires SpellsAt(s, i, g + x) && AllSpace(g) && |x| > 0 && !IsSpace(x[0])
    requires |ws| > 0 && |ws[0]| > 0 && ws[0][0] != x[0]
    ensures ChainEnd(s, i, ws).None?
  {
    SpellsSplit(s, i, g, x);
    SpellsChars(s, i, g);
    SpellsChars(s, i + |g|, x);
    assert s[i + |g|] == x[0];
    RunEndAt(Space, s, i, i + |g|);
    SpellsCharsIf(s, i + |g|, ws[0]);
  }

  /** The letters the attribute names begin with. */
  predicate Initial(c: char) {
    c == 'h' || c == 't' || c == 'r' || c == 'f'
  }

  /** The name of a pass: `htmlFor`, `tabIndex` or `role` in the model. */
  predicate PassName(name: string) {
    |name| > 0 && AllWord(name) && (name[0] == 'h' || name[0] == 't' || name[0] == 'r')
  }

  /** The last character of a word list. */
  function Last(ws: seq<string>): char
    requires |ws| > 0 && |ws[|ws| - 1]| > 0
  {
    ws[|ws| - 1][|ws[|ws| - 1]| - 1]
  }

  /** `Spelled(name, g, gaps, ws)` is an attribute as the forms write it. */
  predicate Form(name: string, g: string, gaps: seq<string>, ws: seq<string>) {
    && |gaps| == |ws| && |ws| > 0 && AllSpace(g) && Blank(gaps) && Inert(ws)
    && |name| > 0 && AllWord(name) && Initial(name[0])
    && |ws[|ws| - 1]| > 0 && !IsWordChar(Last(ws))
  }

  lemma InertNoStart(ws: seq<string>, c: char)
    requires Inert(ws) && Initial(c)
    ensures AllNoStart(ws, c)
  {
  }

  lemma FormFits(name: string, g: string, gaps: seq<string>, ws: seq<string>, name': string, ws': seq<string>)
    requires Form(name, g, gaps, ws) && PassName(name') && Inert(ws')
    ensures Fits(name', ws', Spelled(name, g, gaps, ws))
    ensures NoInnerStart(Spelled(name, g, gaps, ws), name'[0])
  {
    var x := Spelled(name, g, gaps, ws);
    assert x[0] == name[0];
    SpelledLast(name, g, gaps, ws);
    InertNoStart(ws', name[0]);
    InertNoStart(ws, name'[0]);
    SpelledNoInnerStart(name, g, gaps, ws, name'[0]);
  }

  lemma SettledFits(x: string, name': string, ws': seq<string>)
    requires Settled(x) && Initial(x[0]) && PassName(name') && Inert(ws')
    ensures Fits(name', ws', x) && NoInnerStart(x, name'[0])
  {
    InertNoStart(ws', x[0]);
  }

  /** A pass whose name differs from the attribute's in letter `k` keeps the text. */
  lemma KeptByName(name': string, ws': seq<string>, t: string, pre: string, x: string, post: string, k: nat)
    requires Around(AssignChain(name', ws'), pre, post) && Fits(name', ws', x)
    requires PassName(name') && NoInnerStart(x, name'[0])
    requires k < |x| && k < |name'| && x[k] != name'[k]
    ensures ReplaceAll(AssignChain(name', ws'), [Literal(t)], pre + x + post) == pre + x + post
  {
    StandsAt(pre, x, post);
    NameMismatch(pre + x + post, |pre|, x, name', k);
    PassKeeps(name', ws', [Literal(t)], pre, x, post);
  }

  /** The value of a spelt attribute: its first white space and word, then the rest. */
  lemma SpellsInterleave(s: string, a: nat, gaps: seq<string>, ws: seq<string>)
    requires |gaps| == |ws| > 0 && SpellsAt(s, a, Interleave(gaps, ws))
    ensures SpellsAt(s, a, gaps[0] + ws[0])
    ensures SpellsAt(s, a + |gaps[0] + ws[0]|, Interleave(gaps[1..], ws[1..]))
  {
    SpellsSplit(s, a, gaps[0] + ws[0], Interleave(gaps[1..], ws[1..]));
  }

  /** Where a spelt attribute stands, its name and `=` match and its value
      follows. */
  lemma FormValueAt(s: string, q: nat, name: string, g: string, gaps: seq<string>, ws: seq<string>)
    requires |gaps| == |ws| && AllSpace(g) && |name| > 0 && IsWordChar(name[0])
    requires SpellsAt(s, q, Spelled(name, g, gaps, ws))
    requires q == 0 || !IsWordChar(s[q - 1])
    ensures AssignEnd(s, q, name, false).Some?
    ensures AssignEnd(s, q, name, false).value == q + |name + g + "="|
    ensures SpellsAt(s, q + |name + g + "="|, Interleave(gaps, ws))
  {
    var h, rest := name + g + "=", Interleave(gaps, ws);
    assert Spelled(name, g, gaps, ws) == h + rest;
    SpellsSplit(s, q, h, rest);
    FormAssign(s, q, name, g);
  }

  /** A chain whose first word begins differently from the value's does not
      match it. */
  lemma FirstWordNone(s: string, a: nat, gaps: seq<string>, ws: seq<string>, ws': seq<string>)
    requires |gaps| == |ws| > 0 && Blank(gaps) && Heads(ws)
    requires SpellsAt(s, a, Interleave(gaps, ws))
    requires |ws'| > 0 && |ws'[0]| > 0 && ws'[0][0] != ws[0][0]
    ensures ChainEnd(s, a, ws').None?
  {
    SpellsInterleave(s, a, gaps, ws);
    assert AllSpace(gaps[0]);
    ChainMismatch(s, a, gaps[0], ws[0], ws');
  }

  /** The same where the first words agree and the second ones differ. */
  lemma SecondWordNone(s: string, a: nat, gaps: seq<string>, ws: seq<string>, ws': seq<string>)
    requires |gaps| == |ws| > 1 && Blank(gaps) && Heads(ws)
    requires SpellsAt(s, a, Interleave(gaps, ws))
    requires |ws'| > 1 && ws'[0] == ws[0] && |ws'[1]| > 0 && ws'[1][0] != ws[1][0]
    ensures ChainEnd(s, a, ws').None?
  {
    SpellsInterleave(s, a, gaps, ws);
    assert AllSpace(gaps[0]) && Heads(ws[1..]) && Blank(gaps[1..]);
    SpacedWord(s, a, gaps[0], ws[0]);
    var e := a + |gaps[0] + ws[0]|;
    FirstWordNone(s, e, gaps[1..], ws[1..], ws'[1..]);
    ChainStepNone(s, a, ws', e);
  }

  /** Where a spelt attribute stands, no chain for its name whose first word
      begins differently matches. */
  lemma FirstWordAt(s: string, q: nat, name: string, g: string, gaps: seq<string>, ws: seq<string>, ws': seq<string>)
    requires |gaps| == |ws| > 0 && AllSpace(g) && Blank(gaps) && Heads(ws)
    requires |name| > 0 && IsWordChar(name[0])
    requires SpellsAt(s, q, Spelled(name, g, gaps, ws))
    requires q == 0 || !IsWordChar(s[q - 1])
    requires |ws'| > 0 && |ws'[0]| > 0 && ws'[0][0] != ws[0][0]
    ensures AssignChainEnd(s, q, name, ws').None?
  {
    FormValueAt(s, q, name, g, gaps, ws);
    var a := q + |name + g + "="|;
    FirstWordNone(s, a, gaps, ws, ws');
    AssignChainNone(s, q, name, ws', a);
  }

  /** The same where the first words agree and the second ones differ. */
  lemma SecondWordAt(s: string, q: nat, name: string, g: string, gaps: seq<string>, ws: seq<string>, ws': seq<string>)
    requires |gaps| == |ws| > 1 && AllSpace(g) && Blank(gaps) && Heads(ws)
    requires |name| > 0 && IsWordChar(name[0])
    requires SpellsAt(s, q, Spelled(name, g, gaps, ws))
    requires q == 0 || !IsWordChar(s[q - 1])
    requires |ws'| > 1 && ws'[0] == ws[0] && |ws'[1]| > 0 && ws'[1][0] != ws[1][0]
    ensures AssignChainEnd(s, q, name, ws').None?
  {
    FormValueAt(s, q, name, g, gaps, ws);
    var a := q + |name + g + "="|;
    SecondWordNone(s, a, gaps, ws, ws');
    AssignChainNone(s, q, name, ws', a);
  }

  /** A pass for the attribute's own name whose value begins with a
      different word keeps the text. */
  lemma KeptByFirstWord(name: string, g: string, gaps: seq<string>, ws: seq<string>, ws': seq<string>, t: string, pre: string, post: string)
    requires Form(name, g, gaps, ws) && PassName(name) && Inert(ws')
    requires Around(AssignChain(name, ws'), pre, post)
    requires |ws'| > 0 && ws'[0][0] != ws[0][0]
    ensures ReplaceAll(AssignChain(name, ws'), [Literal(t)], pre + Spelled(name, g, gaps, ws) + post)
            == pre + Spelled(name, g, gaps, ws) + post
  {
    var x := Spelled(name, g, gaps, ws);
    FormFits(name, g, gaps, ws, name, ws');
    StandsAt(pre, x, post);
    FirstWordAt(pre + x + post, |pre|, name, g, gaps, ws, ws');
    PassKeeps(name, ws', [Literal(t)], pre, x, post);
  }

  /** The same, where the first words agree and the second ones differ. */
  lemma KeptBySecondWord(name: string, g: string, gaps: seq<string>, ws: seq<string>, ws': seq<string>, t: string, pre: string, post: string)
    requires Form(name, g, gaps, ws) && |ws| > 1 && PassName(name) && Inert(ws')
    requires Around(AssignChain(name, ws'), pre, post)
    requires |ws'| > 1 && ws'[0] == ws[0] && ws'[1][0] != ws[1][0]
    ensures ReplaceAll(AssignChain(name, ws'), [Literal(t)], pre + Spelled(name, g, gaps, ws) + post)
            == pre + Spelled(name, g, gaps, ws) + post
  {
    var x := Spelled(name, g, gaps, ws);
    FormFits(name, g, gaps, ws, name, ws');
    StandsAt(pre, x, post);
    SecondWordAt(pre + x + post, |pre|, name, g, gaps, ws, ws');
    PassKeeps(name, ws', [Literal(t)], pre, x, post);
  }

  /** `x` stands at `|pre|` in `pre + x + post`, where a word may begin. */
  lemma StandsAt(pre: string, x: string, post: string)
    requires pre == [] || !IsWordChar(pre[|pre| - 1])
    ensures SpellsAt(pre + x + post, |pre|, x)
    ensures |pre| == 0 || !IsWordChar((pre + x + post)[|pre| - 1])
  {
    var s := pre + x + post;
    assert s[|pre|..|pre| + |x|] == x;
    if |pre| > 0 { assert s[|pre| - 1] == pre[|pre| - 1]; }
  }

  lemma ChainStepNone(s: string, i: nat, ws: seq<string>, e: nat)
    requires i <= |s| && |ws| > 0 && e <= |s|
    requires SpacedEnd(s, i, ws[0], false).Some? && SpacedEnd(s, i, ws[0], false).value == e
    requires ChainEnd(s, e, ws[1..]).None?
    ensures ChainEnd(s, i, ws).None?
  {
  }

  /** The pass for the attribute's own pattern replaces it. */
  lemma Rewritten(name: string, g: string, gaps: seq<string>, ws: seq<string>, t: string, pre: string, post: string)
    requires Form(name, g, gaps, ws) && PassName(name)
    requires Around(AssignChain(name, ws), pre, post)
    ensures ReplaceAll(AssignChain(name, ws), [Literal(t)], pre + Spelled(name, g, gaps, ws) + post)
            == pre + t + post
  {
    var x := Spelled(name, g, gaps, ws);
    FormFits(name, g, gaps, ws, name, ws);
    StandsAt(pre, x, post);
    FormMatch(pre + x + post, |pre|, name, g, gaps, ws);
    PassRewrites(name, ws, t, pre, x, post);
  }

  // ---------------------------------------------------------------------------
  // The six passes of `normalizeCode`

  /** `name` and `ws` are the name and the words of one of the six patterns. */
  predicate Pair(name: string, ws: seq<string>) {
    || (name == "htmlFor" && ws == HtmlForWords)
    || (name == "tabIndex" && (ws == TabIndexBracedWords || ws == TabIndexDoubleWords || ws == TabIndexSingleWords))
    || (name == "role" && (ws == RoleDoubleWords || ws == RoleSingleWords))
  }

  /** The text around an attribute: `pre` is empty or ends where a word may
      begin, and neither side holds a form of its own. */
  predicate Surround(pre: string, post: string) {
    (pre == [] || !IsWordChar(pre[|pre| - 1])) && Normal(pre) && Normal(post)
  }

  /** The white space a form is written with. */
  predicate Shape(g: string, gaps: seq<string>, ws: seq<string>) {
    |gaps| == |ws| && AllSpace(g) && Blank(gaps)
  }

  /** Every pattern's value ends on a quote or a brace. */
  lemma WordsEnd()
    ensures Last(HtmlForWords) == '"' && Last(TabIndexDoubleWords) == '"'
    ensures Last(TabIndexSingleWords) == '\'' && Last(TabIndexBracedWords) == '}'
    ensures Last(RoleDoubleWords) == '}' && Last(RoleSingleWords) == '}'
  {
  }

  lemma PairShape(name: string, ws: seq<string>)
    requires Pair(name, ws)
    ensures PassName(name) && Inert(ws) && |ws| > 0 && |ws[|ws| - 1]| > 0
    ensures !IsWordChar(Last(ws))
  {
    WordsEnd();
    WordsInert();
    NamesWords();
  }

  lemma PairAround(name: string, ws: seq<string>, pre: string, post: string)
    requires Pair(name, ws) && Surround(pre, post)
    ensures Around(AssignChain(name, ws), pre, post)
  {
    assert Around(HtmlForRe(), pre, post) && Around(TabIndexBracedRe(), pre, post);
    assert Around(TabIndexDoubleRe(), pre, post) && Around(TabIndexSingleRe(), pre, post);
    assert Around(RoleDoubleRe(), pre, post) && Around(RoleSingleRe(), pre, post);
  }

  lemma PairFacts(name: string, ws: seq<string>, pre: string, post: string)
    requires Pair(name, ws) && Surround(pre, post)
    ensures PassName(name) && Inert(ws) && |ws| > 0 && |ws[|ws| - 1]| > 0
    ensures !IsWordChar(Last(ws))
    ensures Around(AssignChain(name, ws), pre, post)
  {
    PairShape(name, ws);
    PairAround(name, ws, pre, post);
  }

  lemma PairForm(name: string, ws: seq<string>, g: string, gaps: seq<string>, pre: string, post: string)
    requires Pair(name, ws) && Surround(pre, post) && Shape(g, gaps, ws)
    ensures Form(name, g, gaps, ws) && PassName(name) && Inert(ws)
    ensures Around(AssignChain(name, ws), pre, post)
  {
    PairFacts(name, ws, pre, post);
  }

  /** A pattern's own pass replaces its form where it stands. */
  lemma Own(name: string, ws: seq<string>, t: string, g: string, gaps: seq<string>, pre: string, post: string)
    requires Pair(name, ws) && Surround(pre, post) && Shape(g, gaps, ws)
    ensures ReplaceAll(AssignChain(name, ws), [Literal(t)], pre + Spelled(name, g, gaps, ws) + post)
            == pre + t + post
  {
    PairForm(name, ws, g, gaps, pre, post);
    Rewritten(name, g, gaps, ws, t, pre, post);
  }

  /** A spelt attribute begins with its name. */
  lemma SpelledHead(name: string, g: string, gaps: seq<string>, ws: seq<string>, k: nat)
    requires |gaps| == |ws| && k < |name|
    ensures k < |Spelled(name, g, gaps, ws)| && Spelled(name, g, gaps, ws)[k] == name[k]
  {
  }

  lemma ShapeOne(g: string, g1: string, ws: seq<string>)
    requires AllSpace(g) && AllSpace(g1) && |ws| == 1
    ensures Shape(g, [g1], ws)
  {
  }

  lemma ShapeThree(g: string, g1: string, g2: string, g3: string, ws: seq<string>)
    requires AllSpace(g) && AllSpace(g1) && AllSpace(g2) && AllSpace(g3) && |ws| == 3
    ensures Shape(g, [g1, g2, g3], ws)
  {
  }

  /** A pass whose name differs in letter `k` from a form's keeps the form. */
  lemma KeepForm(name: string, ws: seq<string>, g: string, gaps: seq<string>, name': string, ws': seq<string>, t: string, pre: string, post: string, k: nat)
    requires Pair(name, ws) && Pair(name', ws') && Surround(pre, post) && Shape(g, gaps, ws)
    requires k < |name| && k < |name'| && name[k] != name'[k]
    ensures ReplaceAll(AssignChain(name', ws'), [Literal(t)], pre + Spelled(name, g, gaps, ws) + post)
            == pre + Spelled(name, g, gaps, ws) + post
  {
    PairForm(name, ws, g, gaps, pre, post);
    PairFacts(name', ws', pre, post);
    FormFits(name, g, gaps, ws, name', ws');
    SpelledHead(name, g, gaps, ws, k);
    KeptByName(name', ws', t, pre, Spelled(name, g, gaps, ws), post, k);
  }

  /** A pass of the form's own name whose first word begins differently keeps it. */
  lemma KeepFirst(name: string, ws: seq<string>, g: string, gaps: seq<string>, ws': seq<string>, t: string, pre: string, post: string)
    requires Pair(name, ws) && Pair(name, ws') && Surround(pre, post) && Shape(g, gaps, ws)
    requires |ws| > 0 && |ws'| > 0 && |ws[0]| > 0 && |ws'[0]| > 0 && ws'[0][0] != ws[0][0]
    ensures ReplaceAll(AssignChain(name, ws'), [Literal(t)], pre + Spelled(name, g, gaps, ws) + post)
            == pre + Spelled(name, g, gaps, ws) + post
  {
    PairForm(name, ws, g, gaps, pre, post);
    PairFacts(name, ws', pre, post);
    KeptByFirstWord(name, g, gaps, ws, ws', t, pre, post);
  }

  /** The same where the first words agree and the second ones differ. */
  lemma KeepSecond(name: string, ws: seq<string>, g: string, gaps: seq<string>, ws': seq<string>, t: string, pre: string, post: string)
    requires Pair(name, ws) && Pair(name, ws') && Surround(pre, post) && Shape(g, gaps, ws)
    requires |ws| > 1 && |ws'| > 1 && ws'[0] == ws[0] && |ws[1]| > 0 && |ws'[1]| > 0 && ws'[1][0] != ws[1][0]
    ensures ReplaceAll(AssignChain(name, ws'), [Literal(t)], pre + Spelled(name, g, gaps, ws) + post)
            == pre + Spelled(name, g, gaps, ws) + post
  {
    PairForm(name, ws, g, gaps, pre, post);
    PairFacts(name, ws', pre, post);
    KeptBySecondWord(name, g, gaps, ws, ws', t, pre, post);
  }

  /** A pass whose name differs in letter `k` from a replacement text keeps it. */
  lemma KeepText(x: string, name': string, ws': seq<string>, t: string, pre: string, post: string, k: nat)
    requires x == ForText || x == TabIndexText || x == RoleText
    requires Pair(name', ws') && Surround(pre, post)
    requires k < |x| && k < |name'| && x[k] != name'[k]
    ensures ReplaceAll(AssignChain(name', ws'), [Literal(t)], pre + x + post) == pre + x + post
  {
    ForTextSettled();
    TabIndexTextSettled();
    RoleTextSettled();
    PairFacts(name', ws', pre, post);
    SettledFits(x, name', ws');
    KeptByName(name', ws', t, pre, x, post, k);
  }

  /** `role="button"` is itself an attribute as the forms write it. */
  lemma RoleTextForm()
    ensures RoleText == Spelled("role", "", [""], ["\"button\""])
    ensures Form("role", "", [""], ["\"button\""])
  {
    ButtonNoStart("\"button\"");
    NamesWords();
  }

  /** The six passes, given what each makes of its input, make `normalizeCode`. */
  lemma Compose(code: string, a1: string, a2: string, a3: string, a4: string, a5: string, out: string)
    requires ReplaceAll(HtmlForRe(), [Literal(ForText)], code) == a1
    requires ReplaceAll(TabIndexBracedRe(), [Literal(TabIndexText)], a1) == a2
    requires ReplaceAll(TabIndexDoubleRe(), [Literal(TabIndexText)], a2) == a3
    requires ReplaceAll(TabIndexSingleRe(), [Literal(TabIndexText)], a3) == a4
    requires ReplaceAll(RoleDoubleRe(), [Literal(RoleText)], a4) == a5
    requires ReplaceAll(RoleSingleRe(), [Literal(RoleText)], a5) == out
    ensures NormalizeCode(code) == out
  {
  }

  /** `for="` survives the five passes after the one that writes it. */
  lemma ForTextStays(pre: string, post: string)
    requires Surround(pre, post)
    ensures ReplaceAll(TabIndexBracedRe(), [Literal(TabIndexText)], pre + ForText + post) == pre + ForText + post
    ensures ReplaceAll(TabIndexDoubleRe(), [Literal(TabIndexText)], pre + ForText + post) == pre + ForText + post
    ensures ReplaceAll(TabIndexSingleRe(), [Literal(TabIndexText)], pre + ForText + post) == pre + ForText + post
    ensures ReplaceAll(RoleDoubleRe(), [Literal(RoleText)], pre + ForText + post) == pre + ForText + post
    ensures ReplaceAll(RoleSingleRe(), [Literal(RoleText)], pre + ForText + post) == pre + ForText + post
  {
    KeepText(ForText, "tabIndex", TabIndexBracedWords, TabIndexText, pre, post, 0);
    KeepText(ForText, "tabIndex", TabIndexDoubleWords, TabIndexText, pre, post, 0);
    KeepText(ForText, "tabIndex", TabIndexSingleWords, TabIndexText, pre, post, 0);
    KeepText(ForText, "role", RoleDoubleWords, RoleText, pre, post, 0);
    KeepText(ForText, "role", RoleSingleWords, RoleText, pre, post, 0);
  }

  /** `tabindex` and `tabIndex` part at their fourth letter. */
  lemma LowerI()
    ensures |TabIndexText| > 3 && TabIndexText[3] == 'i' && "tabIndex"[3] == 'I'
  {
  }

  /** `tabindex="0"` survives the passes after the ones that write it. */
  lemma TabIndexTextStays(pre: string, post: string)
    requires Surround(pre, post)
    ensures ReplaceAll(TabIndexDoubleRe(), [Literal(TabIndexText)], pre + TabIndexText + post) == pre + TabIndexText + post
    ensures ReplaceAll(TabIndexSingleRe(), [Literal(TabIndexText)], pre + TabIndexText + post) == pre + TabIndexText + post
    ensures ReplaceAll(RoleDoubleRe(), [Literal(RoleText)], pre + TabIndexText + post) == pre + TabIndexText + post
    ensures ReplaceAll(RoleSingleRe(), [Literal(RoleText)], pre + TabIndexText + post) == pre + TabIndexText + post
  {
    LowerI();
    KeepText(TabIndexText, "tabIndex", TabIndexDoubleWords, TabIndexText, pre, post, 3);
    KeepText(TabIndexText, "tabIndex", TabIndexSingleWords, TabIndexText, pre, post, 3);
    KeepText(TabIndexText, "role", RoleDoubleWords, RoleText, pre, post, 0);
    KeepText(TabIndexText, "role", RoleSingleWords, RoleText, pre, post, 0);
  }

  /** `role="button"` survives the last pass, which looks for `{'button'}`. */
  lemma RoleTextStays(pre: string, post: string)
    requires Surround(pre, post)
    ensures ReplaceAll(RoleSingleRe(), [Literal(RoleText)], pre + RoleText + post) == pre + RoleText + post
  {
    PairFacts("role", RoleSingleWords, pre, post);
    RoleTextForm();
    KeptByFirstWord("role", "", [""], ["\"button\""], RoleSingleWords, RoleText, pre, post);
  }

  // ---------------------------------------------------------------------------
  // Each form inside a longer text

  /** `htmlFor="`, with the white space its pattern allows, becomes `for="`
      where it stands. */
  lemma HtmlForInText(pre: string, g: string, g1: string, post: string)
    requires Surround(pre, post) && AllSpace(g) && AllSpace(g1)
    ensures NormalizeCode(pre + Spelled("htmlFor", g, [g1], HtmlForWords) + post) == pre + ForText + post
  {
    ShapeOne(g, g1, HtmlForWords);
    Own("htmlFor", HtmlForWords, ForText, g, [g1], pre, post);
    ForTextStays(pre, post);
    var y := pre + ForText + post;
    Compose(pre + Spelled("htmlFor", g, [g1], HtmlForWords) + post, y, y, y, y, y, y);
  }

  /** `tabIndex={0}` becomes `tabindex="0"` where it stands. */
  lemma TabIndexBracedInText(pre: string, g: string, g1: string, g2: string, g3: string, post: string)
    requires Surround(pre, post) && AllSpace(g) && AllSpace(g1) && AllSpace(g2) && AllSpace(g3)
    ensures NormalizeCode(pre + Spelled("tabIndex", g, [g1, g2, g3], TabIndexBracedWords) + post)
            == pre + TabIndexText + post
  {
    var code := pre + Spelled("tabIndex", g, [g1, g2, g3], TabIndexBracedWords) + post;
    ShapeThree(g, g1, g2, g3, TabIndexBracedWords);
    KeepForm("tabIndex", TabIndexBracedWords, g, [g1, g2, g3], "htmlFor", HtmlForWords, ForText, pre, post, 0);
    Own("tabIndex", TabIndexBracedWords, TabIndexText, g, [g1, g2, g3], pre, post);
    TabIndexTextStays(pre, post);
    var y := pre + TabIndexText + post;
    Compose(code, code, y, y, y, y, y);
  }

  /** `tabIndex="0"` becomes `tabindex="0"` where it stands. */
  lemma TabIndexDoubleInText(pre: string, g: string, g1: string, post: string)
    requires Surround(pre, post) && AllSpace(g) && AllSpace(g1)
    ensures NormalizeCode(pre + Spelled("tabIndex", g, [g1], TabIndexDoubleWords) + post)
            == pre + TabIndexText + post
  {
    var code := pre + Spelled("tabIndex", g, [g1], TabIndexDoubleWords) + post;
    ShapeOne(g, g1, TabIndexDoubleWords);
    KeepForm("tabIndex", TabIndexDoubleWords, g, [g1], "htmlFor", HtmlForWords, ForText, pre, post, 0);
    KeepFirst("tabIndex", TabIndexDoubleWords, g, [g1], TabIndexBracedWords, TabIndexText, pre, post);
    Own("tabIndex", TabIndexDoubleWords, TabIndexText, g, [g1], pre, post);
    TabIndexTextStays(pre, post);
    var y := pre + TabIndexText + post;
    Compose(code, code, code, y, y, y, y);
  }

  /** `tabIndex='0'` becomes `tabindex="0"` where it stands. */
  lemma TabIndexSingleInText(pre: string, g: string, g1: string, post: string)
    requires Surround(pre, post) && AllSpace(g) && AllSpace(g1)
    ensures NormalizeCode(pre + Spelled("tabIndex", g, [g1], TabIndexSingleWords) + post)
            == pre + TabIndexText + post
  {
    var code := pre + Spelled("tabIndex", g, [g1], TabIndexSingleWords) + post;
    ShapeOne(g, g1, TabIndexSingleWords);
    KeepForm("tabIndex", TabIndexSingleWords, g, [g1], "htmlFor", HtmlForWords, ForText, pre, post, 0);
    KeepFirst("tabIndex", TabIndexSingleWords, g, [g1], TabIndexBracedWords, TabIndexText, pre, post);
    KeepFirst("tabIndex", TabIndexSingleWords, g, [g1], TabIndexDoubleWords, TabIndexText, pre, post);
    Own("tabIndex", TabIndexSingleWords, TabIndexText, g, [g1], pre, post);
    TabIndexTextStays(pre, post);
    var y := pre + TabIndexText + post;
    Compose(code, code, code, code, y, y, y);
  }

  /** The passes before the `role` ones keep a `role` form. */
  lemma RoleBefore(ws: seq<string>, g: string, gaps: seq<string>, pre: string, post: string)
    requires (ws == RoleDoubleWords || ws == RoleSingleWords) && Surround(pre, post) && Shape(g, gaps, ws)
    ensures ReplaceAll(HtmlForRe(), [Literal(ForText)], pre + Spelled("role", g, gaps, ws) + post)
            == pre + Spelled("role", g, gaps, ws) + post
    ensures ReplaceAll(TabIndexBracedRe(), [Literal(TabIndexText)], pre + Spelled("role", g, gaps, ws) + post)
            == pre + Spelled("role", g, gaps, ws) + post
    ensures ReplaceAll(TabIndexDoubleRe(), [Literal(TabIndexText)], pre + Spelled("role", g, gaps, ws) + post)
            == pre + Spelled("role", g, gaps, ws) + post
    ensures ReplaceAll(TabIndexSingleRe(), [Literal(TabIndexText)], pre + Spelled("role", g, gaps, ws) + post)
            == pre + Spelled("role", g, gaps, ws) + post
  {
    KeepForm("role", ws, g, gaps, "htmlFor", HtmlForWords, ForText, pre, post, 0);
    KeepForm("role", ws, g, gaps, "tabIndex", TabIndexBracedWords, TabIndexText, pre, post, 0);
    KeepForm("role", ws, g, gaps, "tabIndex", TabIndexDoubleWords, TabIndexText, pre, post, 0);
    KeepForm("role", ws, g, gaps, "tabIndex", TabIndexSingleWords, TabIndexText, pre, post, 0);
  }

  /** `role={"button"}` becomes `role="button"` where it stands. */
  lemma RoleDoubleInText(pre: string, g: string, g1: string, g2: string, g3: string, post: string)
    requires Surround(pre, post) && AllSpace(g) && AllSpace(g1) && AllSpace(g2) && AllSpace(g3)
    ensures NormalizeCode(pre + Spelled("role", g, [g1, g2, g3], RoleDoubleWords) + post)
            == pre + RoleText + post
  {
    var code := pre + Spelled("role", g, [g1, g2, g3], RoleDoubleWords) + post;
    ShapeThree(g, g1, g2, g3, RoleDoubleWords);
    RoleBefore(RoleDoubleWords, g, [g1, g2, g3], pre, post);
    Own("role", RoleDoubleWords, RoleText, g, [g1, g2, g3], pre, post);
    RoleTextStays(pre, post);
    var y := pre + RoleText + post;
    Compose(code, code, code, code, code, y, y);
  }

  /** `role={'button'}` becomes `role="button"` where it stands. */
  lemma RoleSingleInText(pre: string, g: string, g1: string, g2: string, g3: string, post: string)
    requires Surround(pre, post) && AllSpace(g) && AllSpace(g1) && AllSpace(g2) && AllSpace(g3)
    ensures NormalizeCode(pre + Spelled("role", g, [g1, g2, g3], RoleSingleWords) + post)
            == pre + RoleText + post
  {
    var code := pre + Spelled("role", g, [g1, g2, g3], RoleSingleWords) + post;
    ShapeThree(g, g1, g2, g3, RoleSingleWords);
    RoleBefore(RoleSingleWords, g, [g1, g2, g3], pre, post);
    KeepSecond("role", RoleSingleWords, g, [g1, g2, g3], RoleDoubleWords, RoleText, pre, post);
    Own("role", RoleSingleWords, RoleText, g, [g1, g2, g3], pre, post);
    var y := pre + RoleText + post;
    Compose(code, code, code, code, code, code, y);
  }
}

=== FILE: pattern.dfy ===
/** The fixed regular expressions of the validator and the preview converter,
    written in a small pattern language and run by a hand-written scanner with
    JavaScript's semantics for `test`, `match` (with and without the `g` flag)
    and `replace` with the `g` flag. */
module Pattern {
  import opened Base
  import opened Text

  /** Character classes: `\s`, `\w`, `\d`, `[...]` and `[^...]`. */
  datatype Class =
    | Space
    | WordChars
    | Digit
    | OneOf(chars: set<char>)
    | Except(chars: set<char>)

  predicate InClass(c: char, k: Class) {
    match k
    case Space => IsSpace(c)
    case WordChars => IsWordChar(c)
    case Digit => IsDigit(c)
    case OneOf(cs) => c in cs
    case Except(cs) => c !in cs
  }

  /** One element of a pattern.
      - `Lit(c)`: the character `c`; `LitFold(c)`: the same under the `i` flag.
      - `One(k)`: one character of class `k`.
      - `Run(k, min, capture)`: `k*` (min 0) or `k+` (min 1), greedy. The scanner
        does not backtrack into a `Run`. Every `Run` in this model is followed by
        an atom that cannot match a character of `k`, where backtracking never
        changes the outcome, except `<(\w+)([^>]*)\s*\/>`: there a shorter `\w+`
        leaves the gap starting on a word character, and a gap that ends on a
        word character cannot be followed by `\s*\/`, so the longest run is the
        only one that can succeed.
      - `Gap(k, capture)`: `k*`, greedy, WITH backtracking (longest first).
      - `Boundary`: `\b`.
      - `NotBlankThen(c)`: the look-ahead `(?!\s*c)`. */
  datatype Atom =
    | Lit(c: char)
    | LitFold(c: char)
    | One(k: Class)
    | Run(k: Class, min: nat, capture: bool)
    | Gap(k: Class, capture: bool)
    | Boundary
    | NotBlankThen(c: char)

  type Pattern = seq<Atom>

  /** A regular expression: alternatives tried in order (`a|b`). */
  type Regex = seq<Pattern>

  /** Where a match ends and what its capturing groups hold, in order. */
  datatype Match = Match(end: nat, groups: seq<string>)

  /** A match found at `start`. */
  datatype Hit = Hit(start: nat, m: Match)

  /** A literal string, one `Lit` per character. */
  function Word(w: string): (p: Pattern)
    ensures |p| == |w|
  {
    if |w| == 0 then [] else [Lit(w[0])] + Word(w[1..])
  }

  /** A literal string under the `i` flag. */
  function WordFold(w: string): (p: Pattern)
    ensures |p| == |w|
  {
    if |w| == 0 then [] else [LitFold(w[0])] + WordFold(w[1..])
  }

  /** Where the longest run of class `k` starting at `i` ends. */
  function RunEnd(k: Class, s: string, i: nat): (j: nat)
    requires i <= |s|
    ensures i <= j <= |s|
    ensures forall x :: i <= x < j ==> InClass(s[x], k)
    ensures j < |s| ==> !InClass(s[j], k)
    decreases |s| - i
  {
    if i < |s| && InClass(s[i], k) then RunEnd(k, s, i + 1) else i
  }

  /** `\b` holds at `i`: exactly one of the neighbouring characters is a word
      character (outside the string counts as a non-word character). */
  predicate BoundaryAt(s: string, i: nat)
    requires i <= |s|
  {
    (i > 0 && IsWordChar(s[i - 1])) != (i < |s| && IsWordChar(s[i]))
  }

  function Capture(m: Option<Match>, capture: bool, text: string): (r: Option<Match>)
    ensures r.Some? <==> m.Some?
    ensures r.Some? ==> r.value.end == m.value.end
  {
    if m.Some? && capture then Some(Match(m.value.end, [text] + m.value.groups)) else m
  }

  /** Matches pattern `p` against `s` starting exactly at `i`. */
  function MatchFrom(p: Pattern, s: string, i: nat): (r: Option<Match>)
    requires i <= |s|
    ensures r.Some? ==> i <= r.value.end <= |s|
    decreases |p|, |s| - i + 2
  {
    if |p| == 0 then Some(Match(i, []))
    else
      match p[0]
      case Lit(c) =>
        if i < |s| && s[i] == c then MatchFrom(p[1..], s, i + 1) else None
      case LitFold(c) =>
        if i < |s| && SameIgnoringCase(s[i], c) then MatchFrom(p[1..], s, i + 1) else None
      case One(k) =>
        if i < |s| && InClass(s[i], k) then MatchFrom(p[1..], s, i + 1) else None
      case Run(k, min, capture) =>
        var j := RunEnd(k, s, i);
        if j - i < min then None else Capture(MatchFrom(p[1..], s, j), capture, s[i..j])
      case Gap(k, capture) =>
        TryGap(p[1..], s, i, RunEnd(k, s, i), capture)
      case Boundary =>
        if BoundaryAt(s, i) then MatchFrom(p[1..], s, i) else None
      case NotBlankThen(c) =>
        var j := RunEnd(Space, s, i);
        if j < |s| && s[j] == c then None else MatchFrom(p[1..], s, i)
  }

  /** Backtracking over a `Gap` that starts at `i`: tries the rest of the
      pattern after `e`, `e - 1`, ..., `i`. */
  function TryGap(rest: Pattern, s: string, i: nat, e: nat, capture: bool): (r: Option<Match>)
    requires i <= e <= |s|
    ensures r.Some? ==> i <= r.value.end <= |s|
    decreases |rest| + 1, e - i + 1
  {
    var m := MatchFrom(rest, s, e);
    if m.Some? then Capture(m, capture, s[i..e])
    else if e == i then None
    else TryGap(rest, s, i, e - 1, capture)
  }

  /** Matches the alternatives of `re` at exactly `i`, the first that succeeds. */
  function MatchAt(re: Regex, s: string, i: nat): (r: Option<Match>)
    requires i <= |s|
    ensures r.Some? ==> i <= r.value.end <= |s|
    ensures r.Some? <==> exists a :: 0 <= a < |re| && MatchFrom(re[a], s, i).Some?
  {
    if |re| == 0 then None
    else
      var m := MatchFrom(re[0], s, i);
      if m.Some? then m
      else
        var r := MatchAt(re[1..], s, i);
        assert forall a :: 1 <= a < |re| ==> re[a] == re[1..][a - 1];
        r
  }

  /** The leftmost match at or after `i`: `re.exec(s)` without the `g` flag. */
  function SearchFrom(re: Regex, s: string, i: nat): (r: Option<Hit>)
    requires i <= |s|
    ensures r.Some? ==> i <= r.value.start <= |s| && MatchAt(re, s, r.value.start) == Some(r.value.m)
    ensures r.Some? ==> forall p :: i <= p < r.value.start ==> MatchAt(re, s, p).None?
    ensures r.None? <==> forall p :: i <= p <= |s| ==> MatchAt(re, s, p).None?
    decreases |s| - i
  {
    var m := MatchAt(re, s, i);
    if m.Some? then Some(Hit(i, m.value))
    else if i == |s| then None
    else SearchFrom(re, s, i + 1)
  }

  /** `re.test(s)` for a regex without the `g` flag. */
  predicate Test(re: Regex, s: string) {
    SearchFrom(re, s, 0).Some?
  }

  /** The matches `s.match(re)` returns when `re` has the `g` flag, scanning
      from `i`: after a match the scan resumes where it ended. */
  function FindFrom(re: Regex, s: string, i: nat): (hits: seq<Hit>)
    requires i <= |s|
    ensures forall k :: 0 <= k < |hits| ==> i <= hits[k].start < hits[k].m.end <= |s|
    ensures forall j, k :: 0 <= j < k < |hits| ==> hits[j].m.end <= hits[k].start
    decreases |s| - i
  {
    if i == |s| then []
    else
      var m := MatchAt(re, s, i);
      if m.Some? && m.value.end > i then [Hit(i, m.value)] + FindFrom(re, s, m.value.end)
      else FindFrom(re, s, i + 1)
  }

  /** The matched texts of a global match. */
  function Texts(s: string, hits: seq<Hit>): (r: seq<string>)
    requires forall k :: 0 <= k < |hits| ==> hits[k].start <= hits[k].m.end <= |s|
    ensures |r| == |hits|
    ensures forall k :: 0 <= k < |hits| ==> r[k] == s[hits[k].start..hits[k].m.end]
  {
    if |hits| == 0 then [] else [s[hits[0].start..hits[0].m.end]] + Texts(s, hits[1..])
  }

  /** `s.match(re)` with the `g` flag (`?? []`). */
  function MatchAll(re: Regex, s: string): seq<string> {
    Texts(s, FindFrom(re, s, 0))
  }

  /** A piece of a replacement string: literal text or `$n` (1-based in
      JavaScript, 0-based here). Every replacement of the model refers only to
      groups its regex has. */
  datatype Piece = Literal(t: string) | Group(n: nat)

  function Expand(rep: seq<Piece>, groups: seq<string>): string {
    if |rep| == 0 then ""
    else
      var head := match rep[0]
        case Literal(t) => t
        case Group(n) => if n < |groups| then groups[n] else "";
      head + Expand(rep[1..], groups)
  }

  /** `s.replace(re, rep)` with the `g` flag, from position `i` on. */
  function ReplaceFrom(re: Regex, rep: seq<Piece>, s: string, i: nat): string
    requires i <= |s|
    decreases |s| - i
  {
    if i == |s| then ""
    else
      var m := MatchAt(re, s, i);
      if m.Some? && m.value.end > i then Expand(rep, m.value.groups) + ReplaceFrom(re, rep, s, m.value.end)
      else [s[i]] + ReplaceFrom(re, rep, s, i + 1)
  }

  function ReplaceAll(re: Regex, rep: seq<Piece>, s: string): string {
    ReplaceFrom(re, rep, s, 0)
  }

  // ---------------------------------------------------------------------------
  // What a global replace does, independently of how the scan is written

  /** Hits that lie inside `s` from `i` on, in order, without overlap. */
  ghost predicate Placed(s: string, hits: seq<Hit>, i: nat) {
    && i <= |s|
    && (forall k :: 0 <= k < |hits| ==> i <= hits[k].start < hits[k].m.end <= |s|)
    && (forall j, k :: 0 <= j < k < |hits| ==> hits[j].m.end <= hits[k].start)
  }

  /** `s` from `i` on with every hit's text replaced by its expansion and every
      other character copied. */
  ghost function Splice(s: string, hits: seq<Hit>, rep: seq<Piece>, i: nat): string
    requires Placed(s, hits, i)
    decreases |hits|
  {
    if |hits| == 0 then s[i..]
    else s[i..hits[0].start] + Expand(rep, hits[0].m.groups) + Splice(s, hits[1..], rep, hits[0].m.end)
  }

  lemma {:induction false} SpliceStep(s: string, hits: seq<Hit>, rep: seq<Piece>, i: nat)
    requires i < |s| && Placed(s, hits, i + 1)
    ensures Placed(s, hits, i)
    ensures Splice(s, hits, rep, i) == [s[i]] + Splice(s, hits, rep, i + 1)
  {
    if |hits| == 0 {
      assert s[i..] == [s[i]] + s[i + 1..];
    } else {
      assert s[i..hits[0].start] == [s[i]] + s[i + 1..hits[0].start];
    }
  }

  /** A hit at `i` followed by hits from its end on: the splice puts the
      expansion first and carries on from the end of the hit. */
  lemma SpliceHit(s: string, h: Hit, hits: seq<Hit>, rep: seq<Piece>, i: nat)
    requires h.start == i < h.m.end && Placed(s, hits, h.m.end)
    ensures Placed(s, [h] + hits, i)
    ensures Splice(s, [h] + hits, rep, i) == Expand(rep, h.m.groups) + Splice(s, hits, rep, h.m.end)
  {
    var all := [h] + hits;
    assert all[0] == h && all[1..] == hits;
    assert s[i..i] == "";
  }

  /** A global replace changes exactly the matched texts: it is the splice of
      the global match's hits. */
  lemma {:induction false} ReplaceIsSplice(re: Regex, rep: seq<Piece>, s: string, i: nat)
    requires i <= |s|
    ensures Placed(s, FindFrom(re, s, i), i)
    ensures ReplaceFrom(re, rep, s, i) == Splice(s, FindFrom(re, s, i), rep, i)
    decreases |s| - i
  {
    FindPlaced(re, s, i);
    if i < |s| {
      if MatchAt(re, s, i).Some? && MatchAt(re, s, i).value.end > i {
        var e := MatchAt(re, s, i).value.end;
        ReplaceIsSplice(re, rep, s, e);
        SpliceAfterHit(re, rep, s, i);
      } else {
        ReplaceIsSplice(re, rep, s, i + 1);
        SpliceAfterMiss(re, rep, s, i);
      }
    }
  }

  /** The inductive step of `ReplaceIsSplice` over a non-empty match at `i`. */
  lemma SpliceAfterHit(re: Regex, rep: seq<Piece>, s: string, i: nat)
    requires i < |s| && MatchAt(re, s, i).Some? && MatchAt(re, s, i).value.end > i
    requires var e := MatchAt(re, s, i).value.end;
             ReplaceFrom(re, rep, s, e) == Splice(s, FindFrom(re, s, e), rep, e)
    ensures ReplaceFrom(re, rep, s, i) == Splice(s, FindFrom(re, s, i), rep, i)
  {
    var m := MatchAt(re, s, i).value;
    ScanHit(re, rep, s, i);
    FindPlaced(re, s, m.end);
    SpliceHit(s, Hit(i, m), FindFrom(re, s, m.end), rep, i);
  }

  /** The inductive step of `ReplaceIsSplice` at a position where no
      non-empty match starts. */
  lemma SpliceAfterMiss(re: Regex, rep: seq<Piece>, s: string, i: nat)
    requires i < |s| && !(MatchAt(re, s, i).Some? && MatchAt(re, s, i).value.end > i)
    requires ReplaceFrom(re, rep, s, i + 1) == Splice(s, FindFrom(re, s, i + 1), rep, i + 1)
    ensures ReplaceFrom(re, rep, s, i) == Splice(s, FindFrom(re, s, i), rep, i)
  {
    ScanMiss(re, rep, s, i);
    FindPlaced(re, s, i + 1);
    SpliceStep(s, FindFrom(re, s, i + 1), rep, i);
  }

  /** The hits of a global match lie inside the text, in order. */
  lemma FindPlaced(re: Regex, s: string, i: nat)
    requires i <= |s|
    ensures Placed(s, FindFrom(re, s, i), i)
  {
  }

  /** Both scans step over a non-empty match at `i` the same way. */
  lemma ScanHit(re: Regex, rep: seq<Piece>, s: string, i: nat)
    requires i < |s| && MatchAt(re, s, i).Some? && MatchAt(re, s, i).value.end > i
    ensures var m := MatchAt(re, s, i).value;
            && ReplaceFrom(re, rep, s, i) == Expand(rep, m.groups) + ReplaceFrom(re, rep, s, m.end)
            && FindFrom(re, s, i) == [Hit(i, m)] + FindFrom(re, s, m.end)
  {
  }

  /** Both scans step over position `i` when no non-empty match starts there. */
  lemma ScanMiss(re: Regex, rep: seq<Piece>, s: string, i: nat)
    requires i < |s| && !(MatchAt(re, s, i).Some? && MatchAt(re, s, i).value.end > i)
    ensures ReplaceFrom(re, rep, s, i) == [s[i]] + ReplaceFrom(re, rep, s, i + 1)
    ensures FindFrom(re, s, i) == FindFrom(re, s, i + 1)
  {
  }

  /** Position `p` lies inside one of the hits. */
  ghost predicate Covered(hits: seq<Hit>, p: nat) {
    exists k :: 0 <= k < |hits| && hits[k].start <= p < hits[k].m.end
  }

  /** Every non-empty match at or after `i` lies inside one of the hits of the
      global match, so (with the order of hits) the scan finds the leftmost
      matches and skips only positions inside an earlier match. */
  lemma {:induction false} FindCovers(re: Regex, s: string, i: nat, p: nat)
    requires i <= p < |s|
    requires MatchAt(re, s, p).Some? && MatchAt(re, s, p).value.end > p
    ensures Covered(FindFrom(re, s, i), p)
    decreases |s| - i
  {
    var m := MatchAt(re, s, i);
    if m.Some? && m.value.end > i {
      if m.value.end <= p {
        FindCovers(re, s, m.value.end, p);
      }
      CoversAfterHit(re, s, i, p);
    } else {
      assert p != i;
      FindCovers(re, s, i + 1, p);
      FindMiss(re, s, i);
    }
  }

  /** The step of `FindCovers` at a hit, given the claim for the rest. */
  lemma CoversAfterHit(re: Regex, s: string, i: nat, p: nat)
    requires i <= p < |s| && MatchAt(re, s, i).Some? && MatchAt(re, s, i).value.end > i
    requires MatchAt(re, s, i).value.end <= p ==> Covered(FindFrom(re, s, MatchAt(re, s, i).value.end), p)
    ensures Covered(FindFrom(re, s, i), p)
  {
    var h := Hit(i, MatchAt(re, s, i).value);
    FindHit(re, s, i);
    if p < h.m.end {
      CoveredHead(h, FindFrom(re, s, h.m.end), p);
    } else {
      CoveredTail(h, FindFrom(re, s, h.m.end), p);
    }
  }

  /** Each hit is what the regex matches at its start. */
  ghost predicate HitsMatch(re: Regex, s: string, hits: seq<Hit>) {
    forall k :: 0 <= k < |hits| ==> hits[k].start <= |s| && MatchAt(re, s, hits[k].start) == Some(hits[k].m)
  }

  /** Each hit of a global match is what the regex matches at its start. */
  lemma {:induction false} FindMatches(re: Regex, s: string, i: nat)
    requires i <= |s|
    ensures HitsMatch(re, s, FindFrom(re, s, i))
    decreases |s| - i
  {
    if i < |s| {
      var m := MatchAt(re, s, i);
      if m.Some? && m.value.end > i {
        FindMatches(re, s, m.value.end);
        FindHit(re, s, i);
        HitsMatchCons(re, s, Hit(i, m.value), FindFrom(re, s, m.value.end));
      } else {
        FindMiss(re, s, i);
        FindMatches(re, s, i + 1);
      }
    }
  }

  lemma HitsMatchCons(re: Regex, s: string, h: Hit, rest: seq<Hit>)
    requires h.start <= |s| && MatchAt(re, s, h.start) == Some(h.m) && HitsMatch(re, s, rest)
    ensures HitsMatch(re, s, [h] + rest)
  {
    forall k | 0 <= k < |[h] + rest| ensures ([h] + rest)[k].start <= |s| && MatchAt(re, s, ([h] + rest)[k].start) == Some(([h] + rest)[k].m) {
      if k > 0 { assert ([h] + rest)[k] == rest[k - 1]; }
    }
  }

  lemma FindHit(re: Regex, s: string, i: nat)
    requires i < |s| && MatchAt(re, s, i).Some? && MatchAt(re, s, i).value.end > i
    ensures FindFrom(re, s, i) == [Hit(i, MatchAt(re, s, i).value)] + FindFrom(re, s, MatchAt(re, s, i).value.end)
  {
  }

  lemma FindMiss(re: Regex, s: string, i: nat)
    requires i < |s| && !(MatchAt(re, s, i).Some? && MatchAt(re, s, i).value.end > i)
    ensures FindFrom(re, s, i) == FindFrom(re, s, i + 1)
  {
  }

  lemma CoveredHead(h: Hit, rest: seq<Hit>, p: nat)
    requires h.start <= p < h.m.end
    ensures Covered([h] + rest, p)
  {
    assert ([h] + rest)[0] == h;
  }

  lemma CoveredTail(h: Hit, rest: seq<Hit>, p: nat)
    requires Covered(rest, p)
    ensures Covered([h] + rest, p)
  {
    var k :| 0 <= k < |rest| && rest[k].start <= p < rest[k].m.end;
    assert ([h] + rest)[k + 1] == rest[k];
  }

  /** With no match anywhere, a global replace returns its input. */
  lemma {:induction false} ReplaceNoMatch(re: Regex, rep: seq<Piece>, s: string, i: nat)
    requires i <= |s|
    requires forall p :: i <= p < |s| ==> MatchAt(re, s, p).None?
    ensures ReplaceFrom(re, rep, s, i) == s[i..]
    decreases |s| - i
  {
    if i < |s| {
      ReplaceNoMatch(re, rep, s, i + 1);
      assert s[i..] == [s[i]] + s[i + 1..];
    }
  }

  /** Scanning over positions where nothing matches copies them. */
  lemma {:induction false} ReplaceSkips(re: Regex, rep: seq<Piece>, s: string, i: nat, a: nat)
    requires i <= a <= |s|
    requires forall p :: i <= p < a ==> MatchAt(re, s, p).None?
    ensures ReplaceFrom(re, rep, s, i) == s[i..a] + ReplaceFrom(re, rep, s, a)
    decreases a - i
  {
    if i < a {
      ReplaceSkips(re, rep, s, i + 1, a);
      ScanMiss(re, rep, s, i);
      var tail := ReplaceFrom(re, rep, s, a);
      calc {
        ReplaceFrom(re, rep, s, i);
        [s[i]] + (s[i + 1..a] + tail);
        { assert s[i..a] == [s[i]] + s[i + 1..a]; }
        s[i..a] + tail;
      }
    }
  }

  /** A text in which the regex matches at `a` and nowhere else (outside that
      match): the global replace puts the expansion in place of the match and
      keeps the text around it. */
  lemma ReplaceOnce(re: Regex, rep: seq<Piece>, s: string, a: nat, m: Match)
    requires a < m.end <= |s| && MatchAt(re, s, a) == Some(m)
    requires forall p :: 0 <= p < a ==> MatchAt(re, s, p).None?
    requires forall p :: m.end <= p < |s| ==> MatchAt(re, s, p).None?
    ensures ReplaceAll(re, rep, s) == s[..a] + Expand(rep, m.groups) + s[m.end..]
  {
    ReplaceSkips(re, rep, s, 0, a);
    ReplaceNoMatch(re, rep, s, m.end);
    assert ReplaceFrom(re, rep, s, a) == Expand(rep, m.groups) + s[m.end..];
  }

  /** A global replace on a string that is one whole match yields that match's
      expansion. */
  lemma WholeMatchReplaced(re: Regex, rep: seq<Piece>, s: string, groups: seq<string>)
    requires |s| > 0 && MatchAt(re, s, 0) == Some(Match(|s|, groups))
    ensures ReplaceAll(re, rep, s) == Expand(rep, groups)
  {
    assert ReplaceFrom(re, rep, s, |s|) == "";
    assert Expand(rep, groups) + "" == Expand(rep, groups);
  }

  // ---------------------------------------------------------------------------
  // Facts about single matches

  /** A run of class `k` from `i` up to a character outside `k` ends there. */
  lemma {:induction false} RunEndAt(k: Class, s: string, i: nat, j: nat)
    requires i <= j <= |s|
    requires forall x :: i <= x < j ==> InClass(s[x], k)
    requires j < |s| ==> !InClass(s[j], k)
    ensures RunEnd(k, s, i) == j
    decreases j - i
  {
    if i < j { RunEndAt(k, s, i + 1, j); }
  }

  /** Backtracking over a gap succeeds exactly when the rest of the pattern
      matches after some split point. */
  lemma {:induction false} TryGapFinds(rest: Pattern, s: string, i: nat, e: nat, capture: bool)
    requires i <= e <= |s|
    ensures TryGap(rest, s, i, e, capture).Some? <==>
      exists e' :: i <= e' <= e && MatchFrom(rest, s, e').Some?
    decreases e - i
  {
    assert TryGap(rest, s, i, e, capture) ==
      if MatchFrom(rest, s, e).Some? then Capture(MatchFrom(rest, s, e), capture, s[i..e])
      else if e == i then None else TryGap(rest, s, i, e - 1, capture);
    if MatchFrom(rest, s, e).Some? {
      assert i <= e <= e && MatchFrom(rest, s, e).Some?;
    } else if e > i {
      TryGapFinds(rest, s, i, e - 1, capture);
      if exists e' :: i <= e' <= e && MatchFrom(rest, s, e').Some? {
        var e' :| i <= e' <= e && MatchFrom(rest, s, e').Some?;
        assert e' != e;
      }
    }
  }

  /** The pattern mentions the literal `c`. */
  predicate Mentions(p: Pattern, c: char) {
    exists k :: 0 <= k < |p| && p[k] == Lit(c)
  }

  /** A pattern that needs the character `c` cannot match where no `c` follows. */
  lemma {:induction false} MatchNeedsLit(p: Pattern, s: string, i: nat, c: char)
    requires i <= |s| && Mentions(p, c)
    requires forall x :: i <= x < |s| ==> s[x] != c
    ensures MatchFrom(p, s, i).None?
    decreases |p|, |s| - i + 2
  {
    assert |p| > 0;
    if p[0] != Lit(c) {
      var k :| 0 <= k < |p| && p[k] == Lit(c);
      assert p[1..][k - 1] == Lit(c);
      match p[0]
      case Lit(_) => if i < |s| && s[i] == p[0].c { MatchNeedsLit(p[1..], s, i + 1, c); }
      case LitFold(_) => if i < |s| && SameIgnoringCase(s[i], p[0].c) { MatchNeedsLit(p[1..], s, i + 1, c); }
      case One(_) => if i < |s| && InClass(s[i], p[0].k) { MatchNeedsLit(p[1..], s, i + 1, c); }
      case Run(kk, _, _) => MatchNeedsLit(p[1..], s, RunEnd(kk, s, i), c);
      case Gap(kk, capture) => TryGapNeedsLit(p[1..], s, i, RunEnd(kk, s, i), capture, c);
      case Boundary => MatchNeedsLit(p[1..], s, i, c);
      case NotBlankThen(_) => MatchNeedsLit(p[1..], s, i, c);
    }
  }

  lemma {:induction false} TryGapNeedsLit(rest: Pattern, s: string, i: nat, e: nat, capture: bool, c: char)
    requires i <= e <= |s| && Mentions(rest, c)
    requires forall x :: i <= x < |s| ==> s[x] != c
    ensures TryGap(rest, s, i, e, capture).None?
    decreases |rest| + 1, e - i + 1
  {
    MatchNeedsLit(rest, s, e, c);
    if e > i { TryGapNeedsLit(rest, s, i, e - 1, capture, c); }
  }

  /** The pattern has an atom that takes one character of the set `cs`. */
  predicate NeedsOneOf(p: Pattern, cs: set<char>) {
    exists k :: 0 <= k < |p| && p[k] == One(OneOf(cs))
  }

  lemma NeedsOneOfRight(p: Pattern, q: Pattern, cs: set<char>)
    requires NeedsOneOf(q, cs)
    ensures NeedsOneOf(p + q, cs)
  {
    var k :| 0 <= k < |q| && q[k] == One(OneOf(cs));
    assert (p + q)[|p| + k] == One(OneOf(cs));
  }

  /** A pattern that needs a character of `cs` cannot match where none follows. */
  lemma {:induction false} MatchNeedsOneOf(p: Pattern, s: string, i: nat, cs: set<char>)
    requires i <= |s| && NeedsOneOf(p, cs)
    requires forall x :: i <= x < |s| ==> s[x] !in cs
    ensures MatchFrom(p, s, i).None?
    decreases |p|, |s| - i + 2
  {
    assert |p| > 0;
    if p[0] != One(OneOf(cs)) {
      var k :| 0 <= k < |p| && p[k] == One(OneOf(cs));
      assert p[1..][k - 1] == One(OneOf(cs));
      match p[0]
      case Lit(_) => if i < |s| && s[i] == p[0].c { MatchNeedsOneOf(p[1..], s, i + 1, cs); }
      case LitFold(_) => if i < |s| && SameIgnoringCase(s[i], p[0].c) { MatchNeedsOneOf(p[1..], s, i + 1, cs); }
      case One(_) => if i < |s| && InClass(s[i], p[0].k) { MatchNeedsOneOf(p[1..], s, i + 1, cs); }
      case Run(kk, _, _) => MatchNeedsOneOf(p[1..], s, RunEnd(kk, s, i), cs);
      case Gap(kk, capture) => TryGapNeedsOneOf(p[1..], s, i, RunEnd(kk, s, i), capture, cs);
      case Boundary => MatchNeedsOneOf(p[1..], s, i, cs);
      case NotBlankThen(_) => MatchNeedsOneOf(p[1..], s, i, cs);
    }
  }

  lemma {:induction false} TryGapNeedsOneOf(rest: Pattern, s: string, i: nat, e: nat, capture: bool, cs: set<char>)
    requires i <= e <= |s| && NeedsOneOf(rest, cs)
    requires forall x :: i <= x < |s| ==> s[x] !in cs
    ensures TryGap(rest, s, i, e, capture).None?
    decreases |rest| + 1, e - i + 1
  {
    MatchNeedsOneOf(rest, s, e, cs);
    if e > i { TryGapNeedsOneOf(rest, s, i, e - 1, capture, cs); }
  }

  /** A regex each of whose alternatives mentions `c` finds nothing in a string
      without `c`, so a global replace returns its input. */
  lemma ReplaceWithoutLit(re: Regex, rep: seq<Piece>, s: string, c: char)
    requires forall a :: 0 <= a < |re| ==> Mentions(re[a], c)
    requires forall x :: 0 <= x < |s| ==> s[x] != c
    ensures ReplaceAll(re, rep, s) == s
  {
    forall p | 0 <= p < |s| ensures MatchAt(re, s, p).None? {
      forall a | 0 <= a < |re| ensures MatchFrom(re[a], s, p).None? {
        MatchNeedsLit(re[a], s, p, c);
      }
    }
    ReplaceNoMatch(re, rep, s, 0);
  }

  // ---------------------------------------------------------------------------
  // Literal words and white space, in plain string terms

  /** `a` spells `w` under the `i` flag. */
  predicate FoldEq(a: string, w: string) {
    |a| == |w| && forall x :: 0 <= x < |w| ==> SameIgnoringCase(a[x], w[x])
  }

  /** `w` is spelt in `s` from `i` on. */
  predicate SpellsAt(s: string, i: nat, w: string) {
    i + |w| <= |s| && s[i..i + |w|] == w
  }

  lemma SpellsStep(s: string, i: nat, w: string)
    requires |w| > 0
    ensures SpellsAt(s, i, w) <==> i < |s| && s[i] == w[0] && SpellsAt(s, i + 1, w[1..])
  {
    if i + |w| <= |s| {
      var a := s[i..i + |w|];
      assert a[1..] == s[i + 1..i + 1 + |w[1..]|];
      assert a == [a[0]] + a[1..] && w == [w[0]] + w[1..];
    }
  }

  /** A spelling of `a + b` is a spelling of `a` followed by one of `b`. */
  lemma SpellsCons(s: string, i: nat, a: string, b: string)
    requires SpellsAt(s, i, a + b)
    ensures SpellsAt(s, i, a) && SpellsAt(s, i + |a|, b)
  {
    assert s[i..i + |a|] == s[i..i + |a + b|][..|a|];
    assert s[i + |a|..i + |a| + |b|] == s[i..i + |a + b|][|a|..];
  }

  /** A word pattern consumes exactly its word, or the match fails there. */
  lemma {:induction false} MatchWordIff(w: string, rest: Pattern, s: string, i: nat)
    requires i <= |s|
    ensures MatchFrom(Word(w) + rest, s, i) == if SpellsAt(s, i, w) then MatchFrom(rest, s, i + |w|) else None
    decreases |w|
  {
    if |w| == 0 {
      assert Word(w) + rest == rest;
      assert s[i..i] == w;
    } else {
      assert Word(w) + rest == [Lit(w[0])] + (Word(w[1..]) + rest);
      MatchLitStep(w[0], Word(w[1..]) + rest, s, i);
      SpellsStep(s, i, w);
      if i < |s| && s[i] == w[0] {
        MatchWordIff(w[1..], rest, s, i + 1);
      }
    }
  }

  /** Spelling a word in any case, one character at a time. */
  lemma FoldStep(s: string, i: nat, w: string)
    requires |w| > 0
    ensures SpellsFrom(s, i, w, true)
            <==> i < |s| && SameIgnoringCase(s[i], w[0]) && SpellsFrom(s, i + 1, w[1..], true)
  {
    if i + |w| <= |s| {
      var a := s[i..i + |w|];
      assert a[0] == s[i];
      assert a[1..] == s[i + 1..i + 1 + |w[1..]|];
      if FoldEq(a, w) {
        forall x | 0 <= x < |w[1..]| ensures SameIgnoringCase(a[1..][x], w[1..][x]) {
          assert a[1..][x] == a[x + 1] && w[1..][x] == w[x + 1];
        }
      }
      if SameIgnoringCase(s[i], w[0]) && FoldEq(a[1..], w[1..]) {
        forall x | 0 <= x < |w| ensures SameIgnoringCase(a[x], w[x]) {
          if x > 0 { assert a[x] == a[1..][x - 1] && w[x] == w[1..][x - 1]; }
        }
      }
    }
  }

  /** The same under the `i` flag. */
  lemma {:induction false} MatchWordFoldIff(w: string, rest: Pattern, s: string, i: nat)
    requires i <= |s|
    ensures MatchFrom(WordFold(w) + rest, s, i)
            == if SpellsFrom(s, i, w, true) then MatchFrom(rest, s, i + |w|) else None
    decreases |w|
  {
    if |w| == 0 {
      assert WordFold(w) + rest == rest;
      assert FoldEq(s[i..i], w);
    } else {
      assert WordFold(w) + rest == [LitFold(w[0])] + (WordFold(w[1..]) + rest);
      MatchLitFoldStep(w[0], WordFold(w[1..]) + rest, s, i);
      FoldStep(s, i, w);
      if i < |s| && SameIgnoringCase(s[i], w[0]) {
        MatchWordFoldIff(w[1..], rest, s, i + 1);
      }
    }
  }

  /** A run of white space is measured by `LeadingSpaces`. */
  lemma SpaceRunEnd(s: string, i: nat)
    requires i <= |s|
    ensures RunEnd(Space, s, i) == i + LeadingSpaces(s[i..])
  {
    var n := LeadingSpaces(s[i..]);
    forall x | i <= x < i + n ensures InClass(s[x], Space) {
      assert s[i..][..n][x - i] == s[x];
    }
    if i + n < |s| { assert s[i..][n] == s[i + n]; }
    RunEndAt(Space, s, i, i + n);
  }

  // ---------------------------------------------------------------------------
  // One atom at a time

  lemma MatchLitStep(c: char, rest: Pattern, s: string, i: nat)
    requires i <= |s|
    ensures MatchFrom([Lit(c)] + rest, s, i) == if i < |s| && s[i] == c then MatchFrom(rest, s, i + 1) else None
  {
    assert ([Lit(c)] + rest)[1..] == rest;
  }

  lemma MatchLitFoldStep(c: char, rest: Pattern, s: string, i: nat)
    requires i <= |s|
    ensures MatchFrom([LitFold(c)] + rest, s, i)
            == if i < |s| && SameIgnoringCase(s[i], c) then MatchFrom(rest, s, i + 1) else None
  {
    assert ([LitFold(c)] + rest)[1..] == rest;
  }

  lemma MatchOneStep(k: Class, rest: Pattern, s: string, i: nat)
    requires i <= |s|
    ensures MatchFrom([One(k)] + rest, s, i) == if i < |s| && InClass(s[i], k) then MatchFrom(rest, s, i + 1) else None
  {
    assert ([One(k)] + rest)[1..] == rest;
  }

  lemma MatchRunStep(k: Class, min: nat, rest: Pattern, s: string, i: nat)
    requires i <= |s|
    ensures MatchFrom([Run(k, min, false)] + rest, s, i)
            == if RunEnd(k, s, i) - i < min then None else MatchFrom(rest, s, RunEnd(k, s, i))
  {
    assert ([Run(k, min, false)] + rest)[1..] == rest;
  }

  lemma MatchBoundaryStep(rest: Pattern, s: string, i: nat)
    requires i <= |s|
    ensures MatchFrom([Boundary] + rest, s, i) == if BoundaryAt(s, i) then MatchFrom(rest, s, i) else None
  {
    assert ([Boundary] + rest)[1..] == rest;
  }

  lemma MatchRunCaptureStep(k: Class, min: nat, rest: Pattern, s: string, i: nat)
    requires i <= |s|
    ensures MatchFrom([Run(k, min, true)] + rest, s, i)
            == if RunEnd(k, s, i) - i < min then None
               else Capture(MatchFrom(rest, s, RunEnd(k, s, i)), true, s[i..RunEnd(k, s, i)])
  {
    assert ([Run(k, min, true)] + rest)[1..] == rest;
  }

  lemma MatchNotBlankStep(c: char, rest: Pattern, s: string, i: nat)
    requires i <= |s|
    ensures MatchFrom([NotBlankThen(c)] + rest, s, i)
            == if RunEnd(Space, s, i) < |s| && s[RunEnd(Space, s, i)] == c then None else MatchFrom(rest, s, i)
  {
    assert ([NotBlankThen(c)] + rest)[1..] == rest;
  }

  lemma MatchGapStep(k: Class, rest: Pattern, s: string, i: nat)
    requires i <= |s|
    ensures MatchFrom([Gap(k, false)] + rest, s, i) == TryGap(rest, s, i, RunEnd(k, s, i), false)
  {
    assert ([Gap(k, false)] + rest)[1..] == rest;
  }

  lemma MatchGapCaptureStep(k: Class, rest: Pattern, s: string, i: nat)
    requires i <= |s|
    ensures MatchFrom([Gap(k, true)] + rest, s, i) == TryGap(rest, s, i, RunEnd(k, s, i), true)
  {
    assert ([Gap(k, true)] + rest)[1..] == rest;
  }

  /** A regex of one alternative matches as that alternative does. */
  lemma MatchAtOne(p: Pattern, s: string, i: nat)
    requires i <= |s|
    ensures MatchAt([p], s, i) == MatchFrom(p, s, i)
  {
    assert [p][1..] == [];
  }

  /** With two alternatives the first is tried first. */
  lemma MatchAtTwo(p: Pattern, q: Pattern, s: string, i: nat)
    requires i <= |s|
    ensures MatchAt([p, q], s, i) == if MatchFrom(p, s, i).Some? then MatchFrom(p, s, i) else MatchFrom(q, s, i)
  {
    assert [p, q][1..] == [q];
    MatchAtOne(q, s, i);
  }

  /** `re.test(s)` for a one-alternative regex: a match starts somewhere. */
  lemma TestOne(p: Pattern, s: string)
    ensures Test([p], s) <==> exists q :: 0 <= q <= |s| && MatchFrom(p, s, q).Some?
  {
    var r := SearchFrom([p], s, 0);
    if r.Some? {
      MatchAtOne(p, s, r.value.start);
    } else {
      forall q | 0 <= q <= |s| ensures MatchFrom(p, s, q).None? {
        MatchAtOne(p, s, q);
      }
    }
  }

  lemma MentionsLeft(p: Pattern, q: Pattern, c: char)
    requires Mentions(p, c)
    ensures Mentions(p + q, c)
  {
    var k :| 0 <= k < |p| && p[k] == Lit(c);
    assert (p + q)[k] == Lit(c);
  }

  lemma MentionsRight(p: Pattern, q: Pattern, c: char)
    requires Mentions(q, c)
    ensures Mentions(p + q, c)
  {
    var k :| 0 <= k < |q| && q[k] == Lit(c);
    assert (p + q)[|p| + k] == Lit(c);
  }

  lemma MentionsWord(w: string, k: nat)
    requires k < |w|
    ensures Mentions(Word(w), w[k])
    decreases k
  {
    if k == 0 {
      assert Word(w)[0] == Lit(w[0]);
    } else {
      MentionsWord(w[1..], k - 1);
      MentionsRight([Lit(w[0])], Word(w[1..]), w[k]);
    }
  }

  // ---------------------------------------------------------------------------
  // Facts about global matches and replacements

  /** `[^c]*` from `i` stops at the next `c`, or runs to the end. */
  lemma RunToChar(s: string, i: nat, c: char)
    requires i <= |s|
    ensures RunEnd(Except({c}), s, i) == if c in s[i..] then i + IndexOf(s[i..], c) else |s|
  {
    var t := s[i..];
    var j := if c in t then i + IndexOf(t, c) else |s|;
    forall x | i <= x < j ensures InClass(s[x], Except({c})) {
      assert s[x] == t[x - i];
      if c in t { assert t[..IndexOf(t, c)][x - i] == t[x - i]; }
    }
    if j < |s| { assert s[j] == t[j - i]; }
    RunEndAt(Except({c}), s, i, j);
  }

  /** With no match from `i` on, the global match finds nothing. */
  lemma {:induction false} FindNoMatch(re: Regex, s: string, i: nat)
    requires i <= |s|
    requires forall p :: i <= p < |s| ==> MatchAt(re, s, p).None?
    ensures FindFrom(re, s, i) == []
    decreases |s| - i
  {
    if i < |s| { FindNoMatch(re, s, i + 1); }
  }

  /** A regex each of whose alternatives needs `c` finds nothing in a string
      without `c`. */
  lemma FindWithoutLit(re: Regex, s: string, c: char)
    requires forall a :: 0 <= a < |re| ==> Mentions(re[a], c)
    requires c !in s
    ensures MatchAll(re, s) == []
  {
    forall p | 0 <= p < |s| ensures MatchAt(re, s, p).None? {
      forall a | 0 <= a < |re| ensures MatchFrom(re[a], s, p).None? {
        MatchNeedsLit(re[a], s, p, c);
      }
    }
    FindNoMatch(re, s, 0);
  }

  /** A global replace with literal text puts in no character that neither
      the input nor the replacement has. */
  lemma {:induction false} ReplaceKeepsOut(re: Regex, t: string, s: string, i: nat, c: char)
    requires i <= |s| && c !in s[i..] && c !in t
    ensures c !in ReplaceFrom(re, [Literal(t)], s, i)
    decreases |s| - i
  {
    if i < |s| {
      var m := MatchAt(re, s, i);
      assert Expand([Literal(t)], if m.Some? then m.value.groups else []) == t + "";
      if m.Some? && m.value.end > i {
        assert s[m.value.end..] == s[i..][m.value.end - i..];
        ReplaceKeepsOut(re, t, s, m.value.end, c);
      } else {
        assert s[i + 1..] == s[i..][1..] && s[i] == s[i..][0];
        ReplaceKeepsOut(re, t, s, i + 1, c);
      }
    }
  }

  /** A successful match of a regex is the match of one of its alternatives. */
  lemma {:induction false} MatchAtPicks(re: Regex, s: string, i: nat)
    requires i <= |s| && MatchAt(re, s, i).Some?
    ensures exists a :: 0 <= a < |re| && MatchFrom(re[a], s, i) == MatchAt(re, s, i)
  {
    if MatchFrom(re[0], s, i).Some? {
      assert MatchFrom(re[0], s, i) == MatchAt(re, s, i);
    } else {
      MatchAtPicks(re[1..], s, i);
      var a :| 0 <= a < |re[1..]| && MatchFrom(re[1..][a], s, i) == MatchAt(re[1..], s, i);
      assert MatchFrom(re[a + 1], s, i) == MatchAt(re, s, i);
    }
  }

  // ---------------------------------------------------------------------------
  // Pieces shared by the fixed regular expressions

  function Spelt(w: string, fold: bool): Pattern {
    if fold then WordFold(w) else Word(w)
  }

  /** `\bname\s*=`. */
  function Assign(name: string, fold: bool): Pattern {
    [Boundary] + Spelt(name, fold) + [Run(Space, 0, false), Lit('=')]
  }

  /** `\s*` then the literal `w`. */
  function Spaced(w: string, fold: bool): Pattern {
    [Run(Space, 0, false)] + Spelt(w, fold)
  }

  // ---------------------------------------------------------------------------
  // The same pieces in plain string terms

  /** `w` is spelt in `s` from `i` on, ignoring ASCII case when `fold`. */
  predicate SpellsFrom(s: string, i: nat, w: string, fold: bool) {
    if fold then i + |w| <= |s| && FoldEq(s[i..i + |w|], w) else SpellsAt(s, i, w)
  }

  /** Where the text after `name =` begins, when `name` starts a word at `p`
      and is followed, past any white space, by `=`. */
  function AssignEnd(s: string, p: nat, name: string, fold: bool): (r: Option<nat>)
    ensures r.Some? ==> p + |name| < r.value <= |s| && s[r.value - 1] == '='
  {
    if p <= |s| && BoundaryAt(s, p) && SpellsFrom(s, p, name, fold) then
      var a := RunEnd(Space, s, p + |name|);
      if a < |s| && s[a] == '=' then Some(a + 1) else None
    else None
  }

  /** Where `w` ends, when it follows `i` past any white space. */
  function SpacedEnd(s: string, i: nat, w: string, fold: bool): (r: Option<nat>)
    requires i <= |s|
    ensures r.Some? ==> i + |w| <= r.value <= |s|
  {
    var a := RunEnd(Space, s, i);
    if SpellsFrom(s, a, w, fold) then Some(a + |w|) else None
  }

  lemma SpeltMatch(w: string, fold: bool, rest: Pattern, s: string, i: nat)
    requires i <= |s|
    ensures MatchFrom(Spelt(w, fold) + rest, s, i)
            == if SpellsFrom(s, i, w, fold) then MatchFrom(rest, s, i + |w|) else None
  {
    if fold { MatchWordFoldIff(w, rest, s, i); } else { MatchWordIff(w, rest, s, i); }
  }

  /** `\s*` before a literal skips the white space. */
  lemma SpacesMatch(rest: Pattern, s: string, i: nat)
    requires i <= |s|
    ensures MatchFrom([Run(Space, 0, false)] + rest, s, i) == MatchFrom(rest, s, RunEnd(Space, s, i))
  {
    MatchRunStep(Space, 0, rest, s, i);
  }

  lemma AssignShape(name: string, fold: bool, rest: Pattern)
    ensures Assign(name, fold) + rest
            == [Boundary] + (Spelt(name, fold) + ([Run(Space, 0, false)] + ([Lit('=')] + rest)))
  {
  }

  lemma SpacedShape(w: string, fold: bool, rest: Pattern)
    ensures Spaced(w, fold) + rest == [Run(Space, 0, false)] + (Spelt(w, fold) + rest)
  {
  }

  /** After the name: white space, then `=`. */
  lemma EqualsMatch(rest: Pattern, s: string, e: nat)
    requires e <= |s|
    ensures MatchFrom([Run(Space, 0, false)] + ([Lit('=')] + rest), s, e)
            == var a := RunEnd(Space, s, e);
               if a < |s| && s[a] == '=' then MatchFrom(rest, s, a + 1) else None
  {
    SpacesMatch([Lit('=')] + rest, s, e);
    MatchLitStep('=', rest, s, RunEnd(Space, s, e));
  }

  /** `\bname\s*=` as a boundary followed by the rest. */
  lemma AssignBoundary(name: string, fold: bool, rest: Pattern, s: string, p: nat)
    requires p <= |s|
    ensures MatchFrom(Assign(name, fold) + rest, s, p)
            == if BoundaryAt(s, p) then MatchFrom(Spelt(name, fold) + ([Run(Space, 0, false)] + ([Lit('=')] + rest)), s, p)
               else None
  {
    AssignShape(name, fold, rest);
    MatchBoundaryStep(Spelt(name, fold) + ([Run(Space, 0, false)] + ([Lit('=')] + rest)), s, p);
  }

  /** The pattern `\bname\s*=` followed by `rest` matches exactly where
      `AssignEnd` finds an assignment, and continues after the `=`. */
  lemma AssignMatch(name: string, fold: bool, rest: Pattern, s: string, p: nat)
    requires p <= |s|
    ensures MatchFrom(Assign(name, fold) + rest, s, p)
            == if AssignEnd(s, p, name, fold).Some? then MatchFrom(rest, s, AssignEnd(s, p, name, fold).value) else None
  {
    var tail := [Run(Space, 0, false)] + ([Lit('=')] + rest);
    AssignBoundary(name, fold, rest, s, p);
    if BoundaryAt(s, p) {
      SpeltMatch(name, fold, tail, s, p);
      if SpellsFrom(s, p, name, fold) {
        EqualsMatch(rest, s, p + |name|);
      }
    }
  }

  /** `\s*w` followed by `rest` matches exactly where `SpacedEnd` finds `w`. */
  lemma SpacedMatch(w: string, fold: bool, rest: Pattern, s: string, i: nat)
    requires i <= |s|
    ensures MatchFrom(Spaced(w, fold) + rest, s, i)
            == if SpacedEnd(s, i, w, fold).Some? then MatchFrom(rest, s, SpacedEnd(s, i, w, fold).value) else None
  {
    SpacedShape(w, fold, rest);
    SpacesMatch(Spelt(w, fold) + rest, s, i);
    SpeltMatch(w, fold, rest, s, RunEnd(Space, s, i));
  }


  /** Every rewrite needs an `=`. */
  lemma AssignMentionsEquals(name: string, fold: bool, rest: Pattern)
    ensures Mentions(Assign(name, fold) + rest, '=')
  {
    var a := Assign(name, fold);
    assert a[|a| - 1] == Lit('=');
    MentionsLeft(a, rest, '=');
  }

  /** A case-sensitive name mentions each of its characters. */
  lemma AssignMentionsName(name: string, rest: Pattern, k: nat)
    requires k < |name|
    ensures Mentions(Assign(name, false) + rest, name[k])
  {
    MentionsWord(name, k);
    MentionsRight([Boundary], Word(name), name[k]);
    MentionsLeft([Boundary] + Word(name), [Run(Space, 0, false), Lit('=')], name[k]);
    MentionsLeft(Assign(name, false), rest, name[k]);
  }

  /** The literal after the `=` mentions each of its characters. */
  lemma SpacedMentions(name: string, w: string, rest: Pattern, k: nat)
    requires k < |w|
    ensures Mentions(Assign(name, false) + (Spaced(w, false) + rest), w[k])
  {
    MentionsWord(w, k);
    MentionsRight([Run(Space, 0, false)], Word(w), w[k]);
    MentionsLeft(Spaced(w, false), rest, w[k]);
    MentionsRight(Assign(name, false), Spaced(w, false) + rest, w[k]);
  }

  /** A single-pattern rewrite whose pattern needs a character the text lacks
      leaves the text as it is. */
  lemma Untouched(re: Regex, rep: seq<Piece>, s: string, c: char)
    requires |re| == 1 && Mentions(re[0], c) && c !in s
    ensures ReplaceAll(re, rep, s) == s
  {
    ReplaceWithoutLit(re, rep, s, c);
  }

  // ---------------------------------------------------------------------------
  // The same pieces inside a longer text

  /** A run that stops inside the first `n` characters is the same run there. */
  lemma RunEndPrefix(k: Class, s: string, n: nat, i: nat)
    requires i <= n <= |s| && RunEnd(k, s, i) < n
    ensures RunEnd(k, s[..n], i) == RunEnd(k, s, i)
  {
    var e := RunEnd(k, s, i);
    forall x | i <= x < e ensures InClass(s[..n][x], k) {
      assert s[..n][x] == s[x];
    }
    assert s[..n][e] == s[e];
    RunEndAt(k, s[..n], i, e);
  }

  lemma SpellsPrefix(s: string, n: nat, i: nat, w: string)
    requires i + |w| <= n <= |s|
    ensures SpellsAt(s[..n], i, w) <==> SpellsAt(s, i, w)
  {
    assert s[..n][i..i + |w|] == s[i..i + |w|];
  }

  lemma BoundaryPrefix(s: string, n: nat, i: nat)
    requires i < n <= |s|
    ensures BoundaryAt(s[..n], i) <==> BoundaryAt(s, i)
  {
    if i > 0 { assert s[..n][i - 1] == s[i - 1]; }
    assert s[..n][i] == s[i];
  }

  /** `name=` at the very start of the text. */
  lemma AssignAtStart(s: string, name: string)
    requires |name| > 0 && IsWordChar(name[0])
    requires |name| < |s| && s[..|name|] == name && s[|name|] == '='
    ensures AssignEnd(s, 0, name, false) == Some(|name| + 1)
  {
    assert s[0] == name[0];
    RunEndAt(Space, s, |name|, |name|);
  }
}

=== FILE: preview.dfy ===
/** `convertReactJSXToHTML` of the preview panel: fourteen global
    replacements, applied in a fixed order, that turn JSX attribute spellings
    into HTML ones before the markup is written into the preview frame.

    Two things here serve the proofs rather than the converter. The chain is
    defined over the attribute names (`Names`) and the replacement texts
    (`Outputs`) as parameters, and `Convert` instantiates them with the
    converter's constants, so that no proof has to evaluate a rewrite on
    constant text. And the closed forms below ask of a value that it be
    `Plain`: free of quotes, braces and slashes, and of the capital letters in
    `Keys` that tell the attribute names apart. These conditions keep every
    later rewrite from acting on the value; they are not conditions the
    converter itself imposes. */
module Preview {
  import opened Base
  import opened Text
  import opened Pattern

  /** One global replacement `s.replace(re, rep)`. */
  datatype Rewrite = Rewrite(re: Regex, rep: seq<Piece>)

  function Step(r: Rewrite, s: string): string {
    ReplaceAll(r.re, r.rep, s)
  }

  /** None of the characters of `cs` occurs in `s`. */
  predicate NoneOf(s: string, cs: set<char>) {
    forall i :: 0 <= i < |s| ==> s[i] !in cs
  }

  // ---------------------------------------------------------------------------
  // The patterns

  const Quotes: set<char> := {'"', '\''}

  /** `["']([^"']+)["']`: a value between quotes of either kind. */
  function QuotedValue(): Pattern {
    [One(OneOf(Quotes)), Run(Except(Quotes), 1, true), One(OneOf(Quotes))]
  }

  /** `\{["']([^"']+)["']\}`. */
  function BracedValue(): Pattern {
    [Lit('{')] + QuotedValue() + [Lit('}')]
  }

  /** `\bname\s*=\s*` followed by `value`. */
  function AttrRe(name: string, value: Pattern): Regex {
    [Assign(name, false) + ([Run(Space, 0, false)] + value)]
  }

  /** `["']w["']`. */
  function QuotedWord(w: string): Pattern {
    [One(OneOf(Quotes))] + Word(w) + [One(OneOf(Quotes))]
  }

  /** `\{\(\)\s*=>\s*alert\(["']([^"']+)["']\)\}`. */
  function AlertValue(): Pattern {
    AlertShape("{()", "=>", "alert(", ")}")
  }

  /** `a\s*b\s*c["']([^"']+)["']d`: the alert pattern with its literal
      words as parameters. */
  function AlertShape(a: string, b: string, c: string, d: string): Pattern {
    Word(a) + ([Run(Space, 0, false)] + ArrowShape(b, c, d))
  }

  /** `b\s*c["']([^"']+)["']d`. */
  function ArrowShape(b: string, c: string, d: string): Pattern {
    Word(b) + ([Run(Space, 0, false)] + TailShape(c, d))
  }

  /** `c["']([^"']+)["']d`. */
  function TailShape(c: string, d: string): Pattern {
    Word(c) + (QuotedValue() + Word(d))
  }

  /** `\{[^}]+\}`. */
  function HandlerValue(): Pattern {
    [Lit('{'), Run(Except({'}'}), 1, false), Lit('}')]
  }

  /** `<(\w+)([^>]*)\s*\/>`. */
  function SelfClosingRe(): Regex {
    [[Lit('<'), Run(WordChars, 1, true), Gap(Except({'>'}), true), Run(Space, 0, false), Lit('/'), Lit('>')]]
  }

  /** `\{(\d+)\}`. */
  function BracedDigitsRe(): Regex {
    [[Lit('{'), Run(Digit, 1, true), Lit('}')]]
  }

  // ---------------------------------------------------------------------------
  // The fourteen rewrites and their order

  /** The attribute names the rewrites look for. They are a parameter, as are
      the replacement texts, so that proofs about the chain need not evaluate
      the rewrites on constant text; `React` holds the names the converter
      uses. */
  datatype Names = Names(className: string, htmlFor: string, tabIndex: string, onClick: string, onKeyDown: string)

  const React := Names("className", "htmlFor", "tabIndex", "onClick", "onKeyDown")

  /** The replacement texts; `Written` holds the converter's. */
  datatype Outputs = Outputs(
    classOpen: string, forOpen: string, tabZero: string, tabMinusOne: string,
    alertOpen: string, alertClose: string, clickMarker: string, keyDownMarker: string)

  const Written := Outputs(
    "class=\"", "for=\"", "tabindex=\"0\"", "tabindex=\"-1\"",
    "onclick=\"alert('", "')\"",
    Removed("onClick"), Removed("onKeyDown"))

  /** `<!-- attr handler removed (not supported in HTML) -->`, written in
      short pieces so that facts about its characters can be checked piece by
      piece. */
  function Removed(attr: string): string {
    "<!-- " + attr + " handler removed" + " (not supported" + " in HTML) -->"
  }

  /** `before` + `$1` + `after`. */
  function Around(before: string, after: string): seq<Piece> {
    [Literal(before), Group(0), Literal(after)]
  }

  function ClassQuoted(n: Names, o: Outputs): Rewrite {
    Rewrite(AttrRe(n.className, QuotedValue()), Around(o.classOpen, "\""))
  }

  function ClassBraced(n: Names, o: Outputs): Rewrite {
    Rewrite(AttrRe(n.className, BracedValue()), Around(o.classOpen, "\""))
  }

  function ForQuoted(n: Names, o: Outputs): Rewrite {
    Rewrite(AttrRe(n.htmlFor, QuotedValue()), Around(o.forOpen, "\""))
  }

  function ForBraced(n: Names, o: Outputs): Rewrite {
    Rewrite(AttrRe(n.htmlFor, BracedValue()), Around(o.forOpen, "\""))
  }

  function TabZeroBraced(n: Names, o: Outputs): Rewrite {
    Rewrite(AttrRe(n.tabIndex, Word("{0}")), [Literal(o.tabZero)])
  }

  function TabZeroQuoted(n: Names, o: Outputs): Rewrite {
    Rewrite(AttrRe(n.tabIndex, QuotedWord("0")), [Literal(o.tabZero)])
  }

  function TabMinusBraced(n: Names, o: Outputs): Rewrite {
    Rewrite(AttrRe(n.tabIndex, Word("{-1}")), [Literal(o.tabMinusOne)])
  }

  function TabMinusQuoted(n: Names, o: Outputs): Rewrite {
    Rewrite(AttrRe(n.tabIndex, QuotedWord("-1")), [Literal(o.tabMinusOne)])
  }

  function AlertClick(n: Names, o: Outputs): Rewrite {
    Rewrite(AttrRe(n.onClick, AlertValue()), Around(o.alertOpen, o.alertClose))
  }

  /** The replacer callback ignores the match and returns a constant. */
  function OtherClick(n: Names, o: Outputs): Rewrite {
    Rewrite(AttrRe(n.onClick, HandlerValue()), [Literal(o.clickMarker)])
  }

  function KeyDown(n: Names, o: Outputs): Rewrite {
    Rewrite(AttrRe(n.onKeyDown, HandlerValue()), [Literal(o.keyDownMarker)])
  }

  /** `<$1$2>`. */
  function SelfClosing(): Rewrite {
    Rewrite(SelfClosingRe(), [Literal("<"), Group(0), Group(1), Literal(">")])
  }

  function BracedDigits(): Rewrite {
    Rewrite(BracedDigitsRe(), Around("\"", "\""))
  }

  function BracedString(): Rewrite {
    Rewrite([BracedValue()], Around("\"", "\""))
  }

  /** The passes, grouped as the converter's comments group them. */
  function ClassPass(s: string, n: Names, o: Outputs): string {
    Step(ClassBraced(n, o), Step(ClassQuoted(n, o), s))
  }

  function ForPass(s: string, n: Names, o: Outputs): string {
    Step(ForBraced(n, o), Step(ForQuoted(n, o), s))
  }

  function TabPass(s: string, n: Names, o: Outputs): string {
    Step(TabMinusQuoted(n, o), Step(TabMinusBraced(n, o), Step(TabZeroQuoted(n, o), Step(TabZeroBraced(n, o), s))))
  }

  function ClickPass(s: string, n: Names, o: Outputs): string {
    Step(OtherClick(n, o), Step(AlertClick(n, o), s))
  }

  function KeyDownPass(s: string, n: Names, o: Outputs): string {
    Step(KeyDown(n, o), s)
  }

  function SelfClosingPass(s: string): string {
    Step(SelfClosing(), s)
  }

  function BracePass(s: string): string {
    Step(BracedString(), Step(BracedDigits(), s))
  }

  /** The passes from `htmlFor` on, from `tabIndex` on, and so forth. */
  function FromFor(s: string, n: Names, o: Outputs): string {
    FromTab(ForPass(s, n, o), n, o)
  }

  function FromTab(s: string, n: Names, o: Outputs): string {
    FromClick(TabPass(s, n, o), n, o)
  }

  function FromClick(s: string, n: Names, o: Outputs): string {
    FromKeyDown(ClickPass(s, n, o), n, o)
  }

  function FromKeyDown(s: string, n: Names, o: Outputs): string {
    FromSelfClosing(KeyDownPass(s, n, o))
  }

  function FromSelfClosing(s: string): string {
    BracePass(SelfClosingPass(s))
  }

  function ConvertWith(code: string, n: Names, o: Outputs): string {
    FromFor(ClassPass(code, n, o), n, o)
  }

  /** `convertReactJSXToHTML`. */
  function Convert(code: string): string {
    ConvertWith(code, React, Written)
  }

  // ---------------------------------------------------------------------------
  // Inputs and what the proofs need of the names and the replacement texts

  /** `q1 x q2`: a value between quotes, which need not be of the same kind. */
  function Quoted(q1: char, x: string, q2: char): string {
    [q1] + x + [q2]
  }

  /** `{q1 x q2}`. */
  function Braced(q1: char, x: string, q2: char): string {
    "{" + Quoted(q1, x, q2) + "}"
  }

  /** `{() => alert(q1 msg q2)}`, with single spaces around the arrow. */
  function AlertText(q1: char, msg: string, q2: char): string {
    AlertSpelt("{()", "=>", "alert(", ")}", q1, msg, q2)
  }

  /** `a b c q1 msg q2 d`, with single spaces after `a` and `b`. */
  function AlertSpelt(a: string, b: string, c: string, d: string, q1: char, msg: string, q2: char): string {
    a + (" " + (b + (" " + (c + (Quoted(q1, msg, q2) + d)))))
  }

  /** `{h}`: a handler written between braces. */
  function Handler(h: string): string {
    "{" + h + "}"
  }

  /** `<t a/>`: a self-closing tag `t` with the attribute text `a`. */
  function SelfClosed(t: string, a: string): string {
    "<" + t + a + "/>"
  }

  /** The capital letter each attribute name holds. */
  const Keys: set<char> := {'N', 'F', 'I', 'C', 'K'}

  /** A value none of whose characters any rewrite could act on: no quote,
      no brace, no slash and none of the names' capital letters. */
  predicate Plain(x: string) {
    NoneOf(x, Quotes + Keys + {'{', '/'})
  }

  /** Text that no rewrite from `htmlFor` on can act on. */
  predicate Inert(t: string) {
    NoneOf(t, {'{', '/', 'F', 'I'})
  }

  predicate Named(name: string) {
    |name| > 0 && IsWordChar(name[0])
  }

  /** Each name starts a word and holds its capital letter, which no later
      name holds. */
  predicate Spelling(n: Names) {
    && Named(n.className) && Named(n.htmlFor) && Named(n.tabIndex) && Named(n.onClick) && Named(n.onKeyDown)
    && 'N' in n.className
    && 'F' in n.htmlFor && 'N' !in n.htmlFor
    && 'I' in n.tabIndex && 'N' !in n.tabIndex && 'F' !in n.tabIndex
    && 'C' in n.onClick && 'N' !in n.onClick && 'F' !in n.onClick && 'I' !in n.onClick
    && 'K' in n.onKeyDown && 'N' !in n.onKeyDown && 'F' !in n.onKeyDown && 'I' !in n.onKeyDown && 'C' !in n.onKeyDown
  }

  /** Every replacement text is inert. */
  predicate Settled(o: Outputs) {
    && Inert(o.classOpen) && Inert(o.forOpen) && Inert(o.tabZero) && Inert(o.tabMinusOne)
    && Inert(o.alertOpen) && Inert(o.alertClose) && Inert(o.clickMarker) && Inert(o.keyDownMarker)
  }

  lemma ReactSpelling()
    ensures Spelling(React)
  {
    ClassNameSpelling();
    HtmlForSpelling();
    TabIndexSpelling();
    OnClickSpelling();
    OnKeyDownSpelling();
  }

  lemma ClassNameSpelling()
    ensures Named(React.className) && 'N' in React.className
  {
    assert React.className[5] == 'N';
  }

  lemma HtmlForSpelling()
    ensures Named(React.htmlFor) && 'F' in React.htmlFor && 'N' !in React.htmlFor
  {
    assert React.htmlFor[4] == 'F';
  }

  lemma TabIndexSpelling()
    ensures Named(React.tabIndex) && 'I' in React.tabIndex && 'N' !in React.tabIndex && 'F' !in React.tabIndex
  {
    assert React.tabIndex[3] == 'I';
  }

  lemma OnClickSpelling()
    ensures Named(React.onClick) && 'C' in React.onClick
    ensures 'N' !in React.onClick && 'F' !in React.onClick && 'I' !in React.onClick
  {
    assert React.onClick[2] == 'C';
  }

  lemma OnKeyDownSpelling()
    ensures Named(React.onKeyDown) && 'K' in React.onKeyDown
    ensures 'N' !in React.onKeyDown && 'F' !in React.onKeyDown && 'I' !in React.onKeyDown && 'C' !in React.onKeyDown
  {
    assert React.onKeyDown[2] == 'K';
  }

  lemma RemovedInert(attr: string)
    requires Inert(attr)
    ensures Inert(Removed(attr))
  {
    var cs := {'{', '/', 'F', 'I'};
    assert NoneOf("<!-- ", cs);
    assert NoneOf(" handler removed", cs);
    assert NoneOf(" (not supported", cs);
    assert NoneOf(" in HTML) -->", cs);
    NoneOfJoin("<!-- ", attr, cs);
    NoneOfJoin("<!-- " + attr, " handler removed", cs);
    NoneOfJoin("<!-- " + attr + " handler removed", " (not supported", cs);
    NoneOfJoin("<!-- " + attr + " handler removed" + " (not supported", " in HTML) -->", cs);
  }

  lemma WrittenSettled()
    ensures Settled(Written)
  {
    AttributeTextsInert();
    TabTextsInert();
    AlertTextsInert();
    assert Inert("onClick") && Inert("onKeyDown");
    RemovedInert("onClick");
    RemovedInert("onKeyDown");
  }

  lemma AttributeTextsInert()
    ensures Inert(Written.classOpen) && Inert(Written.forOpen)
  {
  }

  lemma TabTextsInert()
    ensures Inert(Written.tabZero) && Inert(Written.tabMinusOne)
  {
  }

  lemma AlertTextsInert()
    ensures Inert(Written.alertOpen) && Inert(Written.alertClose)
  {
  }

  lemma NoneOfJoin(a: string, b: string, cs: set<char>)
    requires NoneOf(a, cs) && NoneOf(b, cs)
    ensures NoneOf(a + b, cs)
  {
    forall i | 0 <= i < |a + b| ensures (a + b)[i] !in cs {
      if i >= |a| { assert (a + b)[i] == b[i - |a|]; }
    }
  }

  // ---------------------------------------------------------------------------
  // Single rewrites

  lemma StepKeeps(r: Rewrite, s: string)
    requires !Test(r.re, s)
    ensures Step(r, s) == s
  {
    ReplaceNoMatch(r.re, r.rep, s, 0);
    assert s[0..] == s;
  }

  lemma StepWhole(r: Rewrite, s: string, groups: seq<string>)
    requires |s| > 0 && MatchAt(r.re, s, 0) == Some(Match(|s|, groups))
    ensures Step(r, s) == Expand(r.rep, groups)
  {
    WholeMatchReplaced(r.re, r.rep, s, groups);
  }

  lemma AroundExpands(before: string, after: string, x: string)
    ensures Expand(Around(before, after), [x]) == before + x + after
  {
    var rep := Around(before, after);
    assert rep[1..][1..][1..] == [];
    assert Expand(rep[1..][1..], [x]) == after + "";
    assert Expand(rep[1..], [x]) == x + (after + "");
  }

  lemma LiteralExpands(t: string, groups: seq<string>)
    ensures Expand([Literal(t)], groups) == t
  {
    assert [Literal(t)][1..] == [];
  }

  /** A regex that needs a character the text lacks does not match it. */
  lemma Lacks(re: Regex, s: string, c: char)
    requires forall a :: 0 <= a < |re| ==> Mentions(re[a], c)
    requires c !in s
    ensures !Test(re, s)
  {
    forall p | 0 <= p <= |s| ensures MatchAt(re, s, p).None? {
      forall a | 0 <= a < |re| ensures MatchFrom(re[a], s, p).None? {
        MatchNeedsLit(re[a], s, p, c);
      }
    }
  }

  /** An attribute rewrite does not fire on text that lacks a character of
      the attribute's name. */
  lemma AttrLacks(name: string, value: Pattern, s: string, c: char)
    requires c in name && c !in s
    ensures !Test(AttrRe(name, value), s)
  {
    var k :| 0 <= k < |name| && name[k] == c;
    AssignMentionsName(name, [Run(Space, 0, false)] + value, k);
    Lacks(AttrRe(name, value), s, c);
  }

  /** Nor on text without `=`. */
  lemma AttrLacksEquals(name: string, value: Pattern, s: string)
    requires '=' !in s
    ensures !Test(AttrRe(name, value), s)
  {
    AssignMentionsEquals(name, false, [Run(Space, 0, false)] + value);
    Lacks(AttrRe(name, value), s, '=');
  }

  /** Nor, when the value starts with `{`, on text without `{`. */
  lemma AttrLacksBrace(name: string, value: Pattern, s: string)
    requires |value| > 0 && value[0] == Lit('{') && '{' !in s
    ensures !Test(AttrRe(name, value), s)
  {
    var rest := [Run(Space, 0, false)] + value;
    assert rest[1] == Lit('{');
    MentionsRight(Assign(name, false), rest, '{');
    Lacks(AttrRe(name, value), s, '{');
  }

  // ---------------------------------------------------------------------------
  // Passes that leave a text alone

  lemma ClassPassKeeps(s: string, n: Names, o: Outputs)
    requires Spelling(n) && ('N' !in s || '=' !in s)
    ensures ClassPass(s, n, o) == s
  {
    if 'N' !in s {
      AttrLacks(n.className, QuotedValue(), s, 'N');
      AttrLacks(n.className, BracedValue(), s, 'N');
    } else {
      AttrLacksEquals(n.className, QuotedValue(), s);
      AttrLacksEquals(n.className, BracedValue(), s);
    }
    StepKeeps(ClassQuoted(n, o), s);
    StepKeeps(ClassBraced(n, o), s);
  }

  lemma ForPassKeeps(s: string, n: Names, o: Outputs)
    requires Spelling(n) && ('F' !in s || '=' !in s)
    ensures ForPass(s, n, o) == s
  {
    if 'F' !in s {
      AttrLacks(n.htmlFor, QuotedValue(), s, 'F');
      AttrLacks(n.htmlFor, BracedValue(), s, 'F');
    } else {
      AttrLacksEquals(n.htmlFor, QuotedValue(), s);
      AttrLacksEquals(n.htmlFor, BracedValue(), s);
    }
    StepKeeps(ForQuoted(n, o), s);
    StepKeeps(ForBraced(n, o), s);
  }

  lemma TabPassKeeps(s: string, n: Names, o: Outputs)
    requires Spelling(n) && ('I' !in s || '=' !in s)
    ensures TabPass(s, n, o) == s
  {
    if 'I' !in s {
      AttrLacks(n.tabIndex, Word("{0}"), s, 'I');
      AttrLacks(n.tabIndex, QuotedWord("0"), s, 'I');
      AttrLacks(n.tabIndex, Word("{-1}"), s, 'I');
      AttrLacks(n.tabIndex, QuotedWord("-1"), s, 'I');
    } else {
      AttrLacksEquals(n.tabIndex, Word("{0}"), s);
      AttrLacksEquals(n.tabIndex, QuotedWord("0"), s);
      AttrLacksEquals(n.tabIndex, Word("{-1}"), s);
      AttrLacksEquals(n.tabIndex, QuotedWord("-1"), s);
    }
    StepKeeps(TabZeroBraced(n, o), s);
    StepKeeps(TabZeroQuoted(n, o), s);
    StepKeeps(TabMinusBraced(n, o), s);
    StepKeeps(TabMinusQuoted(n, o), s);
  }

  lemma ClickPassKeeps(s: string, n: Names, o: Outputs)
    requires Spelling(n) && ('C' !in s || '{' !in s || '=' !in s)
    ensures ClickPass(s, n, o) == s
  {
    if 'C' !in s {
      AttrLacks(n.onClick, AlertValue(), s, 'C');
      AttrLacks(n.onClick, HandlerValue(), s, 'C');
    } else if '{' !in s {
      assert AlertValue()[0] == Lit('{');
      AttrLacksBrace(n.onClick, AlertValue(), s);
      AttrLacksBrace(n.onClick, HandlerValue(), s);
    } else {
      AttrLacksEquals(n.onClick, AlertValue(), s);
      AttrLacksEquals(n.onClick, HandlerValue(), s);
    }
    StepKeeps(AlertClick(n, o), s);
    StepKeeps(OtherClick(n, o), s);
  }

  lemma KeyDownPassKeeps(s: string, n: Names, o: Outputs)
    requires Spelling(n) && ('K' !in s || '{' !in s || '=' !in s)
    ensures KeyDownPass(s, n, o) == s
  {
    if 'K' !in s {
      AttrLacks(n.onKeyDown, HandlerValue(), s, 'K');
    } else if '{' !in s {
      AttrLacksBrace(n.onKeyDown, HandlerValue(), s);
    } else {
      AttrLacksEquals(n.onKeyDown, HandlerValue(), s);
    }
    StepKeeps(KeyDown(n, o), s);
  }

  lemma SelfClosingPassKeeps(s: string)
    requires '<' !in s || '/' !in s
    ensures SelfClosingPass(s) == s
  {
    var p := SelfClosingRe()[0];
    assert p[0] == Lit('<') && p[4] == Lit('/');
    if '<' !in s { Lacks(SelfClosingRe(), s, '<'); } else { Lacks(SelfClosingRe(), s, '/'); }
    StepKeeps(SelfClosing(), s);
  }

  lemma BracePassKeeps(s: string)
    requires '{' !in s
    ensures BracePass(s) == s
  {
    assert BracedDigitsRe()[0][0] == Lit('{');
    Lacks(BracedDigitsRe(), s, '{');
    assert BracedValue()[0] == Lit('{');
    Lacks([BracedValue()], s, '{');
    StepKeeps(BracedDigits(), s);
    StepKeeps(BracedString(), s);
  }

  /** Inert text goes through every pass from `htmlFor` on unchanged. */
  lemma FromSelfClosingKeeps(t: string)
    requires Inert(t)
    ensures FromSelfClosing(t) == t
  {
    SelfClosingPassKeeps(t);
    BracePassKeeps(t);
  }

  lemma FromKeyDownKeeps(t: string, n: Names, o: Outputs)
    requires Spelling(n) && Inert(t)
    ensures FromKeyDown(t, n, o) == t
  {
    KeyDownPassKeeps(t, n, o);
    FromSelfClosingKeeps(t);
  }

  lemma FromClickKeeps(t: string, n: Names, o: Outputs)
    requires Spelling(n) && Inert(t)
    ensures FromClick(t, n, o) == t
  {
    ClickPassKeeps(t, n, o);
    FromKeyDownKeeps(t, n, o);
  }

  lemma FromTabKeeps(t: string, n: Names, o: Outputs)
    requires Spelling(n) && Inert(t)
    ensures FromTab(t, n, o) == t
  {
    TabPassKeeps(t, n, o);
    FromClickKeeps(t, n, o);
  }

  lemma FromForKeeps(t: string, n: Names, o: Outputs)
    requires Spelling(n) && Inert(t)
    ensures FromFor(t, n, o) == t
  {
    ForPassKeeps(t, n, o);
    FromTabKeeps(t, n, o);
  }

  // ---------------------------------------------------------------------------
  // What each pattern consumes, in plain string terms

  /** `["']([^"']+)["']` over a quoted `x`, then `rest`. */
  lemma QuotedValueMatch(rest: Pattern, s: string, i: nat, x: string)
    requires i + |x| + 2 <= |s| && |x| > 0
    requires s[i] in Quotes && s[i + 1..i + 1 + |x|] == x && s[i + 1 + |x|] in Quotes
    requires NoneOf(x, Quotes)
    ensures MatchFrom(QuotedValue() + rest, s, i) == Capture(MatchFrom(rest, s, i + |x| + 2), true, x)
  {
    var close := i + 1 + |x|;
    var tail := [One(OneOf(Quotes))] + rest;
    assert QuotedValue() + rest == [One(OneOf(Quotes))] + ([Run(Except(Quotes), 1, true)] + tail);
    MatchOneStep(OneOf(Quotes), [Run(Except(Quotes), 1, true)] + tail, s, i);
    forall y | i + 1 <= y < close ensures InClass(s[y], Except(Quotes)) {
      assert s[y] == x[y - i - 1];
    }
    RunEndAt(Except(Quotes), s, i + 1, close);
    MatchRunCaptureStep(Except(Quotes), 1, tail, s, i + 1);
    MatchOneStep(OneOf(Quotes), rest, s, close);
  }

  /** `["']([^"']+)["']` from `i` over a quoted `x` that ends the text. */
  lemma QuotedValueWhole(s: string, i: nat, q1: char, x: string, q2: char)
    requires i <= |s| && s[i..] == Quoted(q1, x, q2)
    requires q1 in Quotes && q2 in Quotes && |x| > 0 && NoneOf(x, Quotes)
    ensures MatchFrom(QuotedValue(), s, i) == Some(Match(|s|, [x]))
  {
    assert s[i] == q1 && s[i + 1..i + 1 + |x|] == x && s[i + 1 + |x|] == q2;
    QuotedValueMatch([], s, i, x);
    assert QuotedValue() + [] == QuotedValue();
    assert [x] + [] == [x];
  }

  /** `\{["']([^"']+)["']\}` from `i` over a braced quoted `x` that ends the
      text. */
  lemma BracedValueWhole(s: string, i: nat, q1: char, x: string, q2: char)
    requires i <= |s| && s[i..] == Braced(q1, x, q2)
    requires q1 in Quotes && q2 in Quotes && |x| > 0 && NoneOf(x, Quotes)
    ensures MatchFrom(BracedValue(), s, i) == Some(Match(|s|, [x]))
  {
    assert s[i] == '{' && s[i + 1] == q1 && s[i + 2..i + 2 + |x|] == x && s[i + 2 + |x|] == q2;
    assert s[i + 3 + |x|] == '}' && i + |x| + 4 == |s|;
    assert BracedValue() == [Lit('{')] + (QuotedValue() + [Lit('}')]);
    MatchLitStep('{', QuotedValue() + [Lit('}')], s, i);
    QuotedValueMatch([Lit('}')], s, i + 1, x);
    MatchLitStep('}', [], s, i + 3 + |x|);
    assert [x] + [] == [x];
  }

  /** The last position of `c` in `w`. */
  function LastAt(w: string, c: char): (k: nat)
    requires c in w
    ensures k < |w| && w[k] == c
    ensures forall i :: k < i < |w| ==> w[i] != c
  {
    if w[|w| - 1] == c then |w| - 1
    else
      var k :| 0 <= k < |w| && w[k] == c;
      assert w[..|w| - 1][k] == c;
      LastAt(w[..|w| - 1], c)
  }

  /** At the start of `name=v...`, an attribute regex matches as its value
      pattern does after the `=`. */
  lemma AttrAtStart(name: string, value: Pattern, s: string)
    requires Named(name)
    requires |name| + 1 < |s| && s[..|name|] == name && s[|name|] == '=' && !IsSpace(s[|name| + 1])
    ensures MatchAt(AttrRe(name, value), s, 0) == MatchFrom(value, s, |name| + 1)
  {
    var e := |name| + 1;
    MatchAtOne(Assign(name, false) + ([Run(Space, 0, false)] + value), s, 0);
    AssignAtStart(s, name);
    AssignMatch(name, false, [Run(Space, 0, false)] + value, s, 0);
    RunEndAt(Space, s, e, e);
    MatchRunStep(Space, 0, value, s, e);
  }

  /** Past the start, `name...` holds no further occurrence of the name when
      the text after it lacks one of its characters. */
  lemma AttrOnlyAtStart(name: string, value: Pattern, s: string, c: char, p: nat)
    requires c in name && |name| <= |s| && s[..|name|] == name
    requires forall i :: |name| <= i < |s| ==> s[i] != c
    requires 0 < p <= |s|
    ensures MatchAt(AttrRe(name, value), s, p).None?
  {
    MatchAtOne(Assign(name, false) + ([Run(Space, 0, false)] + value), s, p);
    AssignMatch(name, false, [Run(Space, 0, false)] + value, s, p);
    var k := LastAt(name, c);
    if p + |name| <= |s| {
      assert s[p..p + |name|][k] == s[p + k];
      if p + k < |name| {
        assert s[p + k] == s[..|name|][p + k];
      }
      assert s[p..p + |name|] != name;
    }
  }

  /** So the regex finds something in `name=v...` exactly when its value
      pattern matches right after the `=`. */
  lemma AttrTest(name: string, value: Pattern, s: string, c: char)
    requires Named(name) && c in name
    requires |name| + 1 < |s| && s[..|name|] == name && s[|name|] == '=' && !IsSpace(s[|name| + 1])
    requires forall i :: |name| <= i < |s| ==> s[i] != c
    ensures Test(AttrRe(name, value), s) <==> MatchFrom(value, s, |name| + 1).Some?
  {
    AttrAtStart(name, value, s);
    forall p | 0 < p <= |s| ensures MatchAt(AttrRe(name, value), s, p).None? {
      AttrOnlyAtStart(name, value, s, c, p);
    }
  }

  /** A quoted or braced plain value holds no key letter, brace or slash
      beyond its own delimiters. */
  lemma ValueLacks(q1: char, x: string, q2: char, c: char)
    requires q1 in Quotes && q2 in Quotes && Plain(x) && c in Keys + {'/'}
    ensures c !in Quoted(q1, x, q2) && c !in Braced(q1, x, q2)
  {
    assert c !in x;
  }

  lemma InertAround(a: string, x: string, b: string)
    requires Inert(a) && Plain(x) && Inert(b)
    ensures Inert(a + x + b) && '{' !in a + x + b
  {
    assert Inert(x);
    NoneOfJoin(a, x, {'{', '/', 'F', 'I'});
    NoneOfJoin(a + x, b, {'{', '/', 'F', 'I'});
  }

  // ---------------------------------------------------------------------------
  // Positions in `name=v`

  /** Where the parts of `name=v` sit. */
  lemma Layout(name: string, v: string, c: char)
    ensures var s := name + "=" + v;
      && |s| == |name| + 1 + |v| && s[..|name|] == name && s[|name|] == '='
      && s[|name| + 1..] == v
      && (c !in name && c != '=' && c !in v ==> c !in s)
  {
    var s := name + "=" + v;
    assert s[..|name|] == name;
    assert s[|name| + 1..] == v;
  }

  /** A key letter occurring in `name=v` only inside the name. */
  lemma KeyOnlyInName(name: string, v: string, c: char)
    requires c != '=' && c !in v
    ensures forall i :: |name| <= i < |name + "=" + v| ==> (name + "=" + v)[i] != c
  {
    var s := name + "=" + v;
    forall i | |name| <= i < |s| ensures s[i] != c {
      if i > |name| { assert s[i] == v[i - |name| - 1]; }
    }
  }

  // ---------------------------------------------------------------------------
  // `className` and `htmlFor`

  /** A quoted value after the attribute name is replaced by `open x"`. */
  lemma QuotedAttrStep(name: string, q1: char, x: string, q2: char, open: string)
    requires Named(name) && q1 in Quotes && q2 in Quotes && |x| > 0 && Plain(x)
    ensures Step(Rewrite(AttrRe(name, QuotedValue()), Around(open, "\"")), name + "=" + Quoted(q1, x, q2))
            == open + x + "\""
  {
    var s := name + "=" + Quoted(q1, x, q2);
    Layout(name, Quoted(q1, x, q2), 'N');
    QuotedValueWhole(s, |name| + 1, q1, x, q2);
    AttrAtStart(name, QuotedValue(), s);
    StepWhole(Rewrite(AttrRe(name, QuotedValue()), Around(open, "\"")), s, [x]);
    AroundExpands(open, "\"", x);
  }

  /** Likewise a braced value. */
  lemma BracedAttrStep(name: string, q1: char, x: string, q2: char, open: string)
    requires Named(name) && q1 in Quotes && q2 in Quotes && |x| > 0 && Plain(x)
    ensures Step(Rewrite(AttrRe(name, BracedValue()), Around(open, "\"")), name + "=" + Braced(q1, x, q2))
            == open + x + "\""
  {
    var s := name + "=" + Braced(q1, x, q2);
    Layout(name, Braced(q1, x, q2), 'N');
    BracedValueWhole(s, |name| + 1, q1, x, q2);
    AttrAtStart(name, BracedValue(), s);
    StepWhole(Rewrite(AttrRe(name, BracedValue()), Around(open, "\"")), s, [x]);
    AroundExpands(open, "\"", x);
  }

  /** The quoted form's rewrite leaves a braced value alone, given a letter
      of the name that the value lacks. */
  lemma QuotedAttrSkipsBraced(name: string, q1: char, x: string, q2: char, c: char, rep: seq<Piece>)
    requires Named(name) && c in name && c != '=' && c != '{' && c != '}' && c !in Quotes
    requires q1 in Quotes && q2 in Quotes && Plain(x) && c !in x
    ensures Step(Rewrite(AttrRe(name, QuotedValue()), rep), name + "=" + Braced(q1, x, q2))
            == name + "=" + Braced(q1, x, q2)
  {
    var s := name + "=" + Braced(q1, x, q2);
    Layout(name, Braced(q1, x, q2), c);
    assert c !in Braced(q1, x, q2);
    KeyOnlyInName(name, Braced(q1, x, q2), c);
    AttrTest(name, QuotedValue(), s, c);
    assert QuotedValue() == [One(OneOf(Quotes))] + QuotedValue()[1..];
    MatchOneStep(OneOf(Quotes), QuotedValue()[1..], s, |name| + 1);
    StepKeeps(Rewrite(AttrRe(name, QuotedValue()), rep), s);
  }

  lemma ClassNameQuotedWith(n: Names, o: Outputs, q1: char, x: string, q2: char)
    requires Spelling(n) && Settled(o)
    requires q1 in Quotes && q2 in Quotes && |x| > 0 && Plain(x)
    ensures ConvertWith(n.className + "=" + Quoted(q1, x, q2), n, o) == o.classOpen + x + "\""
  {
    var out := o.classOpen + x + "\"";
    QuotedAttrStep(n.className, q1, x, q2, o.classOpen);
    InertAround(o.classOpen, x, "\"");
    AttrLacksBrace(n.className, BracedValue(), out);
    StepKeeps(ClassBraced(n, o), out);
    FromForKeeps(out, n, o);
  }

  lemma ClassNameBracedWith(n: Names, o: Outputs, q1: char, x: string, q2: char)
    requires Spelling(n) && Settled(o)
    requires q1 in Quotes && q2 in Quotes && |x| > 0 && Plain(x)
    ensures ConvertWith(n.className + "=" + Braced(q1, x, q2), n, o) == o.classOpen + x + "\""
  {
    QuotedAttrSkipsBraced(n.className, q1, x, q2, 'N', Around(o.classOpen, "\""));
    BracedAttrStep(n.className, q1, x, q2, o.classOpen);
    InertAround(o.classOpen, x, "\"");
    FromForKeeps(o.classOpen + x + "\"", n, o);
  }

  lemma HtmlForQuotedWith(n: Names, o: Outputs, q1: char, x: string, q2: char)
    requires Spelling(n) && Settled(o)
    requires q1 in Quotes && q2 in Quotes && |x| > 0 && Plain(x)
    ensures ConvertWith(n.htmlFor + "=" + Quoted(q1, x, q2), n, o) == o.forOpen + x + "\""
  {
    var s := n.htmlFor + "=" + Quoted(q1, x, q2);
    var out := o.forOpen + x + "\"";
    ValueLacks(q1, x, q2, 'N');
    Layout(n.htmlFor, Quoted(q1, x, q2), 'N');
    ClassPassKeeps(s, n, o);
    QuotedAttrStep(n.htmlFor, q1, x, q2, o.forOpen);
    InertAround(o.forOpen, x, "\"");
    AttrLacksBrace(n.htmlFor, BracedValue(), out);
    StepKeeps(ForBraced(n, o), out);
    FromTabKeeps(out, n, o);
  }

  lemma HtmlForBracedWith(n: Names, o: Outputs, q1: char, x: string, q2: char)
    requires Spelling(n) && Settled(o)
    requires q1 in Quotes && q2 in Quotes && |x| > 0 && Plain(x)
    ensures ConvertWith(n.htmlFor + "=" + Braced(q1, x, q2), n, o) == o.forOpen + x + "\""
  {
    var s := n.htmlFor + "=" + Braced(q1, x, q2);
    ValueLacks(q1, x, q2, 'N');
    Layout(n.htmlFor, Braced(q1, x, q2), 'N');
    ClassPassKeeps(s, n, o);
    QuotedAttrSkipsBraced(n.htmlFor, q1, x, q2, 'F', Around(o.forOpen, "\""));
    BracedAttrStep(n.htmlFor, q1, x, q2, o.forOpen);
    InertAround(o.forOpen, x, "\"");
    FromTabKeeps(o.forOpen + x + "\"", n, o);
  }

  // ---------------------------------------------------------------------------
  // Reaching a later pass with the text untouched

  lemma ReachFor(s: string, n: Names, o: Outputs)
    requires Spelling(n) && 'N' !in s
    ensures ConvertWith(s, n, o) == FromFor(s, n, o)
  {
    ClassPassKeeps(s, n, o);
  }

  lemma ReachTab(s: string, n: Names, o: Outputs)
    requires Spelling(n) && 'N' !in s && 'F' !in s
    ensures ConvertWith(s, n, o) == FromTab(s, n, o)
  {
    ReachFor(s, n, o);
    ForPassKeeps(s, n, o);
  }

  lemma ReachClick(s: string, n: Names, o: Outputs)
    requires Spelling(n) && 'N' !in s && 'F' !in s && 'I' !in s
    ensures ConvertWith(s, n, o) == FromClick(s, n, o)
  {
    ReachTab(s, n, o);
    TabPassKeeps(s, n, o);
  }

  lemma ReachKeyDown(s: string, n: Names, o: Outputs)
    requires Spelling(n) && 'N' !in s && 'F' !in s && 'I' !in s && 'C' !in s
    ensures ConvertWith(s, n, o) == FromKeyDown(s, n, o)
  {
    ReachClick(s, n, o);
    ClickPassKeeps(s, n, o);
  }

  lemma ReachSelfClosing(s: string, n: Names, o: Outputs)
    requires Spelling(n) && NoneOf(s, Keys)
    ensures ConvertWith(s, n, o) == FromSelfClosing(s)
  {
    assert 'N' !in s && 'F' !in s && 'I' !in s && 'C' !in s && 'K' !in s;
    ReachKeyDown(s, n, o);
    KeyDownPassKeeps(s, n, o);
  }

  // ---------------------------------------------------------------------------
  // `tabIndex`

  /** An attribute rewrite leaves `name=v` alone when its value pattern fails
      right after the `=` and `v` lacks a letter of the name. */
  lemma AttrSkips(name: string, value: Pattern, v: string, c: char, rep: seq<Piece>)
    requires Named(name) && c in name && c != '=' && c !in v
    requires |v| > 0 && !IsSpace(v[0])
    requires MatchFrom(value, name + "=" + v, |name| + 1).None?
    ensures Step(Rewrite(AttrRe(name, value), rep), name + "=" + v) == name + "=" + v
  {
    var s := name + "=" + v;
    Layout(name, v, c);
    KeyOnlyInName(name, v, c);
    AttrTest(name, value, s, c);
    StepKeeps(Rewrite(AttrRe(name, value), rep), s);
  }

  /** An attribute rewrite whose value is the literal `w` replaces `name=w`
      whole. */
  lemma WordAttrStep(name: string, w: string, rep: seq<Piece>)
    requires Named(name) && |w| > 0 && !IsSpace(w[0])
    ensures Step(Rewrite(AttrRe(name, Word(w)), rep), name + "=" + w) == Expand(rep, [])
  {
    var s := name + "=" + w;
    Layout(name, w, 'N');
    AttrAtStart(name, Word(w), s);
    MatchWordIff(w, [], s, |name| + 1);
    assert Word(w) + [] == Word(w);
    StepWhole(Rewrite(AttrRe(name, Word(w)), rep), s, []);
  }

  /** `["']w["']` from `e` over a quoted `w` that ends the text. */
  lemma QuotedWordWhole(s: string, e: nat, q1: char, w: string, q2: char)
    requires e <= |s| && s[e..] == Quoted(q1, w, q2) && q1 in Quotes && q2 in Quotes
    ensures MatchFrom(QuotedWord(w), s, e) == Some(Match(|s|, []))
  {
    assert s[e] == q1 && s[e + 1..e + 1 + |w|] == w && s[e + 1 + |w|] == q2 && e + |w| + 2 == |s|;
    assert QuotedWord(w) == [One(OneOf(Quotes))] + (Word(w) + [One(OneOf(Quotes))]);
    MatchOneStep(OneOf(Quotes), Word(w) + [One(OneOf(Quotes))], s, e);
    MatchWordIff(w, [One(OneOf(Quotes))], s, e + 1);
    MatchOneStep(OneOf(Quotes), [], s, e + 1 + |w|);
  }

  /** Likewise for the quoted literal `w`. */
  lemma QuotedWordAttrStep(name: string, q1: char, w: string, q2: char, rep: seq<Piece>)
    requires Named(name) && q1 in Quotes && q2 in Quotes
    ensures Step(Rewrite(AttrRe(name, QuotedWord(w)), rep), name + "=" + Quoted(q1, w, q2)) == Expand(rep, [])
  {
    var s := name + "=" + Quoted(q1, w, q2);
    Layout(name, Quoted(q1, w, q2), 'N');
    AttrAtStart(name, QuotedWord(w), s);
    QuotedWordWhole(s, |name| + 1, q1, w, q2);
    StepWhole(Rewrite(AttrRe(name, QuotedWord(w)), rep), s, []);
  }

  /** The literal-`w` rewrite leaves `name=v` alone when `v` differs from
      `w` at `k`. */
  lemma WordAttrSkips(name: string, w: string, v: string, k: nat, c: char, rep: seq<Piece>)
    requires Named(name) && c in name && c != '=' && c !in v
    requires k < |w| && k < |v| && v[k] != w[k] && !IsSpace(v[0])
    ensures Step(Rewrite(AttrRe(name, Word(w)), rep), name + "=" + v) == name + "=" + v
  {
    var s := name + "=" + v;
    var e := |name| + 1;
    Layout(name, v, c);
    assert s[e + k] == v[k];
    MatchWordIff(w, [], s, e);
    assert Word(w) + [] == Word(w);
    if e + |w| <= |s| { assert s[e..e + |w|][k] == s[e + k]; }
    AttrSkips(name, Word(w), v, c, rep);
  }

  /** The quoted-`w` rewrite leaves `name=v` alone when `v` does not start
      with a quote, or differs from `w` at `k` past its opening quote. */
  lemma QuotedWordAttrSkips(name: string, w: string, v: string, k: nat, c: char, rep: seq<Piece>)
    requires Named(name) && c in name && c != '=' && c !in v && |v| > 0 && !IsSpace(v[0])
    requires v[0] !in Quotes || (k < |w| && k + 1 < |v| && v[k + 1] != w[k])
    ensures Step(Rewrite(AttrRe(name, QuotedWord(w)), rep), name + "=" + v) == name + "=" + v
  {
    var s := name + "=" + v;
    var e := |name| + 1;
    Layout(name, v, c);
    assert QuotedWord(w) == [One(OneOf(Quotes))] + (Word(w) + [One(OneOf(Quotes))]);
    MatchOneStep(OneOf(Quotes), Word(w) + [One(OneOf(Quotes))], s, e);
    if v[0] in Quotes {
      assert s[e + 1 + k] == v[k + 1];
      MatchWordIff(w, [One(OneOf(Quotes))], s, e + 1);
      if e + 1 + |w| <= |s| { assert s[e + 1..e + 1 + |w|][k] == s[e + 1 + k]; }
    }
    AttrSkips(name, QuotedWord(w), v, c, rep);
  }

  /** Inert text passes the remaining `tabIndex` rewrites and every later
      pass unchanged. */
  lemma TabOutputKeeps(t: string, n: Names, o: Outputs)
    requires Spelling(n) && Inert(t)
    ensures Step(TabZeroQuoted(n, o), t) == t && Step(TabMinusBraced(n, o), t) == t
    ensures Step(TabMinusQuoted(n, o), t) == t && FromClick(t, n, o) == t
  {
    AttrLacks(n.tabIndex, QuotedWord("0"), t, 'I');
    AttrLacks(n.tabIndex, Word("{-1}"), t, 'I');
    AttrLacks(n.tabIndex, QuotedWord("-1"), t, 'I');
    StepKeeps(TabZeroQuoted(n, o), t);
    StepKeeps(TabMinusBraced(n, o), t);
    StepKeeps(TabMinusQuoted(n, o), t);
    FromClickKeeps(t, n, o);
  }

  /** The `tabIndex` value reaches its pass: none of `N`, `F` in it. */
  lemma TabReached(v: string, n: Names, o: Outputs)
    requires Spelling(n) && 'N' !in v && 'F' !in v
    ensures ConvertWith(n.tabIndex + "=" + v, n, o) == FromTab(n.tabIndex + "=" + v, n, o)
  {
    Layout(n.tabIndex, v, 'N');
    Layout(n.tabIndex, v, 'F');
    ReachTab(n.tabIndex + "=" + v, n, o);
  }

  lemma TabIndexBracedZeroWith(n: Names, o: Outputs)
    requires Spelling(n) && Settled(o)
    ensures ConvertWith(n.tabIndex + "=" + "{0}", n, o) == o.tabZero
  {
    TabReached("{0}", n, o);
    WordAttrStep(n.tabIndex, "{0}", [Literal(o.tabZero)]);
    LiteralExpands(o.tabZero, []);
    TabOutputKeeps(o.tabZero, n, o);
  }

  lemma TabPassQuotedZero(n: Names, o: Outputs, q1: char, q2: char)
    requires Spelling(n) && Settled(o) && q1 in Quotes && q2 in Quotes
    ensures TabPass(n.tabIndex + "=" + Quoted(q1, "0", q2), n, o) == o.tabZero
  {
    var v := Quoted(q1, "0", q2);
    WordAttrSkips(n.tabIndex, "{0}", v, 0, 'I', [Literal(o.tabZero)]);
    QuotedWordAttrStep(n.tabIndex, q1, "0", q2, [Literal(o.tabZero)]);
    LiteralExpands(o.tabZero, []);
    TabOutputKeeps(o.tabZero, n, o);
  }

  lemma TabIndexQuotedZeroWith(n: Names, o: Outputs, q1: char, q2: char)
    requires Spelling(n) && Settled(o) && q1 in Quotes && q2 in Quotes
    ensures ConvertWith(n.tabIndex + "=" + Quoted(q1, "0", q2), n, o) == o.tabZero
  {
    TabReached(Quoted(q1, "0", q2), n, o);
    TabPassQuotedZero(n, o, q1, q2);
    TabOutputKeeps(o.tabZero, n, o);
  }

  lemma TabPassBracedMinusOne(n: Names, o: Outputs)
    requires Spelling(n) && Settled(o)
    ensures TabPass(n.tabIndex + "=" + "{-1}", n, o) == o.tabMinusOne
  {
    var v := "{-1}";
    WordAttrSkips(n.tabIndex, "{0}", v, 1, 'I', [Literal(o.tabZero)]);
    QuotedWordAttrSkips(n.tabIndex, "0", v, 0, 'I', [Literal(o.tabZero)]);
    WordAttrStep(n.tabIndex, v, [Literal(o.tabMinusOne)]);
    LiteralExpands(o.tabMinusOne, []);
    TabOutputKeeps(o.tabMinusOne, n, o);
  }

  lemma TabIndexBracedMinusOneWith(n: Names, o: Outputs)
    requires Spelling(n) && Settled(o)
    ensures ConvertWith(n.tabIndex + "=" + "{-1}", n, o) == o.tabMinusOne
  {
    TabReached("{-1}", n, o);
    TabPassBracedMinusOne(n, o);
    TabOutputKeeps(o.tabMinusOne, n, o);
  }

  lemma TabPassQuotedMinusOne(n: Names, o: Outputs, q1: char, q2: char)
    requires Spelling(n) && Settled(o) && q1 in Quotes && q2 in Quotes
    ensures TabPass(n.tabIndex + "=" + Quoted(q1, "-1", q2), n, o) == o.tabMinusOne
  {
    var v := Quoted(q1, "-1", q2);
    WordAttrSkips(n.tabIndex, "{0}", v, 0, 'I', [Literal(o.tabZero)]);
    QuotedWordAttrSkips(n.tabIndex, "0", v, 0, 'I', [Literal(o.tabZero)]);
    WordAttrSkips(n.tabIndex, "{-1}", v, 0, 'I', [Literal(o.tabMinusOne)]);
    QuotedWordAttrStep(n.tabIndex, q1, "-1", q2, [Literal(o.tabMinusOne)]);
    LiteralExpands(o.tabMinusOne, []);
    TabOutputKeeps(o.tabMinusOne, n, o);
  }

  lemma TabIndexQuotedMinusOneWith(n: Names, o: Outputs, q1: char, q2: char)
    requires Spelling(n) && Settled(o) && q1 in Quotes && q2 in Quotes
    ensures ConvertWith(n.tabIndex + "=" + Quoted(q1, "-1", q2), n, o) == o.tabMinusOne
  {
    TabReached(Quoted(q1, "-1", q2), n, o);
    TabPassQuotedMinusOne(n, o, q1, q2);
    TabOutputKeeps(o.tabMinusOne, n, o);
  }


  // ---------------------------------------------------------------------------
  // `onClick` and `onKeyDown`

  /** Where the parts of a quoted value spelt at `j` sit. */
  lemma QuotedSpelt(s: string, j: nat, q1: char, msg: string, q2: char)
    requires SpellsAt(s, j, Quoted(q1, msg, q2))
    ensures j + |msg| + 2 <= |s| && s[j] == q1 && s[j + 1..j + 1 + |msg|] == msg && s[j + 1 + |msg|] == q2
  {
    SpellsCons(s, j, [q1] + msg, [q2]);
    SpellsCons(s, j, [q1], msg);
    assert s[j] == s[j..j + 1][0];
    assert s[j + 1 + |msg|] == s[j + 1 + |msg|..j + 2 + |msg|][0];
  }

  /** `["']([^"']+)["']d` over a quoted message and `d` ending the text. */
  lemma QuotedThenWord(s: string, j: nat, d: string, q1: char, msg: string, q2: char)
    requires SpellsAt(s, j, Quoted(q1, msg, q2))
    requires SpellsAt(s, j + |msg| + 2, d) && j + |msg| + 2 + |d| == |s|
    requires q1 in Quotes && q2 in Quotes && |msg| > 0 && NoneOf(msg, Quotes)
    ensures MatchFrom(QuotedValue() + Word(d), s, j) == Some(Match(|s|, [msg]))
  {
    QuotedSpelt(s, j, q1, msg, q2);
    WordEnds(s, j + |msg| + 2, d);
    QuotedValueMatch(Word(d), s, j, msg);
    assert [msg] + [] == [msg];
  }

  /** The literal `d` ending the text matches with no groups. */
  lemma WordEnds(s: string, k: nat, d: string)
    requires SpellsAt(s, k, d) && k + |d| == |s|
    ensures MatchFrom(Word(d), s, k) == Some(Match(|s|, []))
  {
    MatchWordIff(d, [], s, k);
    assert Word(d) + [] == Word(d);
  }

  /** The tail `c["']([^"']+)["']d` of the alert pattern over a quoted
      message that ends the text. */
  lemma AlertTailWhole(s: string, i: nat, c: string, d: string, q1: char, msg: string, q2: char)
    requires SpellsAt(s, i, c) && SpellsAt(s, i + |c|, Quoted(q1, msg, q2))
    requires SpellsAt(s, i + |c| + |msg| + 2, d) && i + |c| + |msg| + 2 + |d| == |s|
    requires q1 in Quotes && q2 in Quotes && |msg| > 0 && NoneOf(msg, Quotes)
    ensures MatchFrom(TailShape(c, d), s, i) == Some(Match(|s|, [msg]))
  {
    MatchWordIff(c, QuotedValue() + Word(d), s, i);
    QuotedThenWord(s, i + |c|, d, q1, msg, q2);
  }

  /** One blank before a non-blank character is skipped by `\s*`. */
  lemma OneSpaceThen(rest: Pattern, s: string, i: nat)
    requires i + 1 < |s| && s[i] == ' ' && !IsSpace(s[i + 1])
    ensures MatchFrom([Run(Space, 0, false)] + rest, s, i) == MatchFrom(rest, s, i + 1)
  {
    RunEndAt(Space, s, i, i + 1);
    MatchRunStep(Space, 0, rest, s, i);
  }

  /** The first character of a nonempty text spelt at `i`. */
  lemma SpellsHead(s: string, i: nat, w: string)
    requires SpellsAt(s, i, w) && |w| > 0
    ensures s[i] == w[0]
  {
    assert s[i] == s[i..i + |w|][0];
  }

  /** The alert pattern from its arrow on. */
  lemma AlertArrowWhole(s: string, i: nat, b: string, c: string, d: string, q1: char, msg: string, q2: char)
    requires |c| > 0 && !IsSpace(c[0])
    requires SpellsAt(s, i, b) && i + |b| < |s| && s[i + |b|] == ' '
    requires SpellsAt(s, i + |b| + 1, c) && SpellsAt(s, i + |b| + 1 + |c|, Quoted(q1, msg, q2))
    requires SpellsAt(s, i + |b| + 1 + |c| + |msg| + 2, d) && i + |b| + 1 + |c| + |msg| + 2 + |d| == |s|
    requires q1 in Quotes && q2 in Quotes && |msg| > 0 && NoneOf(msg, Quotes)
    ensures MatchFrom(ArrowShape(b, c, d), s, i) == Some(Match(|s|, [msg]))
  {
    var j := i + |b| + 1;
    SpellsHead(s, j, c);
    MatchWordIff(b, [Run(Space, 0, false)] + TailShape(c, d), s, i);
    OneSpaceThen(TailShape(c, d), s, i + |b|);
    AlertTailWhole(s, j, c, d, q1, msg, q2);
  }

  /** Where the parts of `c q1 msg q2 d` spelt at `j` sit. */
  lemma TailSpelt(s: string, j: nat, c: string, d: string, q1: char, msg: string, q2: char)
    requires SpellsAt(s, j, c + (Quoted(q1, msg, q2) + d))
    ensures SpellsAt(s, j, c) && SpellsAt(s, j + |c|, Quoted(q1, msg, q2)) && SpellsAt(s, j + |c| + |msg| + 2, d)
  {
    SpellsCons(s, j, c, Quoted(q1, msg, q2) + d);
    SpellsCons(s, j + |c|, Quoted(q1, msg, q2), d);
  }

  /** Where the parts of `a b` spelt at `i`, with one blank between them,
      sit. */
  lemma SpacedSpelt(s: string, i: nat, a: string, b: string)
    requires SpellsAt(s, i, a + (" " + b))
    ensures SpellsAt(s, i, a) && i + |a| < |s| && s[i + |a|] == ' ' && SpellsAt(s, i + |a| + 1, b)
  {
    SpellsCons(s, i, a, " " + b);
    SpellsCons(s, i + |a|, " ", b);
    SpellsHead(s, i + |a|, " ");
  }

  /** The alert pattern from its arrow on, over the text from the arrow on. */
  lemma ArrowFromSpelt(s: string, i: nat, b: string, c: string, d: string, q1: char, msg: string, q2: char)
    requires |c| > 0 && !IsSpace(c[0])
    requires SpellsAt(s, i, b + (" " + (c + (Quoted(q1, msg, q2) + d))))
    requires i + |b| + |c| + |msg| + |d| + 3 == |s|
    requires q1 in Quotes && q2 in Quotes && |msg| > 0 && NoneOf(msg, Quotes)
    ensures MatchFrom(ArrowShape(b, c, d), s, i) == Some(Match(|s|, [msg]))
  {
    SpacedSpelt(s, i, b, c + (Quoted(q1, msg, q2) + d));
    TailSpelt(s, i + |b| + 1, c, d, q1, msg, q2);
    AlertArrowWhole(s, i, b, c, d, q1, msg, q2);
  }

  /** The alert pattern over the alert text ending the text. */
  lemma AlertShapeWhole(s: string, e: nat, a: string, b: string, c: string, d: string, q1: char, msg: string, q2: char)
    requires |b| > 0 && !IsSpace(b[0]) && |c| > 0 && !IsSpace(c[0])
    requires SpellsAt(s, e, AlertSpelt(a, b, c, d, q1, msg, q2))
    requires e + |a| + |b| + |c| + |msg| + |d| + 4 == |s|
    requires q1 in Quotes && q2 in Quotes && |msg| > 0 && NoneOf(msg, Quotes)
    ensures MatchFrom(AlertShape(a, b, c, d), s, e) == Some(Match(|s|, [msg]))
  {
    var arrow := b + (" " + (c + (Quoted(q1, msg, q2) + d)));
    SpacedSpelt(s, e, a, arrow);
    SpellsHead(s, e + |a| + 1, arrow);
    AlertHeadStep(s, e, a, b, c, d);
    ArrowFromSpelt(s, e + |a| + 1, b, c, d, q1, msg, q2);
  }

  /** The alert pattern's opening word and blank. */
  lemma AlertHeadStep(s: string, e: nat, a: string, b: string, c: string, d: string)
    requires SpellsAt(s, e, a) && e + |a| + 1 < |s| && s[e + |a|] == ' ' && !IsSpace(s[e + |a| + 1])
    ensures MatchFrom(AlertShape(a, b, c, d), s, e) == MatchFrom(ArrowShape(b, c, d), s, e + |a| + 1)
  {
    MatchWordIff(a, [Run(Space, 0, false)] + ArrowShape(b, c, d), s, e);
    OneSpaceThen(ArrowShape(b, c, d), s, e + |a|);
  }

  /** The same for the converter's own words. */
  lemma AlertValueWhole(s: string, e: nat, q1: char, msg: string, q2: char)
    requires SpellsAt(s, e, AlertText(q1, msg, q2)) && e + |AlertText(q1, msg, q2)| == |s|
    requires q1 in Quotes && q2 in Quotes && |msg| > 0 && NoneOf(msg, Quotes)
    ensures MatchFrom(AlertValue(), s, e) == Some(Match(|s|, [msg]))
  {
    AlertShapeWhole(s, e, "{()", "=>", "alert(", ")}", q1, msg, q2);
  }

  /** A text that fills `s` from `e` on is spelt there. */
  lemma SpellsRest(s: string, e: nat, v: string)
    requires e <= |s| && s[e..] == v
    ensures SpellsAt(s, e, v) && e + |v| == |s|
  {
  }

  /** The alert rewrite turns `name={() => alert(q1 msg q2)}` into
      `before msg after`. */
  lemma AlertAttrStep(name: string, q1: char, msg: string, q2: char, before: string, after: string)
    requires Named(name) && q1 in Quotes && q2 in Quotes && |msg| > 0 && NoneOf(msg, Quotes)
    ensures Step(Rewrite(AttrRe(name, AlertValue()), Around(before, after)), name + "=" + AlertText(q1, msg, q2))
            == before + msg + after
  {
    var v := AlertText(q1, msg, q2);
    var s := name + "=" + v;
    Layout(name, v, 'N');
    SpellsRest(s, |name| + 1, v);
    assert s[|name| + 1] == v[0] == '{';
    AlertValueWhole(s, |name| + 1, q1, msg, q2);
    AttrAtStart(name, AlertValue(), s);
    StepWhole(Rewrite(AttrRe(name, AlertValue()), Around(before, after)), s, [msg]);
    AroundExpands(before, after, msg);
  }

  /** The handler pattern over `{h}` ending the text. */
  lemma HandlerWhole(s: string, e: nat, h: string)
    requires e <= |s| && s[e..] == Handler(h) && |h| > 0 && '}' !in h
    ensures MatchFrom(HandlerValue(), s, e) == Some(Match(|s|, []))
  {
    var close := e + 1 + |h|;
    assert s[e] == '{' && s[close] == '}' && close + 1 == |s|;
    forall x | e + 1 <= x < close ensures InClass(s[x], Except({'}'})) {
      assert s[x] == h[x - e - 1];
    }
    RunEndAt(Except({'}'}), s, e + 1, close);
    assert HandlerValue() == [Lit('{')] + ([Run(Except({'}'}), 1, false)] + [Lit('}')]);
    MatchLitStep('{', [Run(Except({'}'}), 1, false)] + [Lit('}')], s, e);
    MatchRunStep(Except({'}'}), 1, [Lit('}')], s, e + 1);
    MatchLitStep('}', [], s, close);
  }

  /** A handler rewrite replaces `name={h}` whole. */
  lemma HandlerAttrStep(name: string, h: string, rep: seq<Piece>)
    requires Named(name) && |h| > 0 && '}' !in h
    ensures Step(Rewrite(AttrRe(name, HandlerValue()), rep), name + "=" + Handler(h)) == Expand(rep, [])
  {
    var s := name + "=" + Handler(h);
    Layout(name, Handler(h), 'N');
    assert s[|name| + 1] == '{';
    HandlerWhole(s, |name| + 1, h);
    AttrAtStart(name, HandlerValue(), s);
    StepWhole(Rewrite(AttrRe(name, HandlerValue()), rep), s, []);
  }

  /** The alert pattern needs a quote. */
  lemma AlertNeedsQuote()
    ensures NeedsOneOf(AlertValue(), Quotes)
  {
    var tail := QuotedValue() + Word(")}");
    assert tail[0] == One(OneOf(Quotes));
    NeedsOneOfRight(Word("alert("), tail, Quotes);
    NeedsOneOfRight([Run(Space, 0, false)], TailShape("alert(", ")}"), Quotes);
    NeedsOneOfRight(Word("=>"), [Run(Space, 0, false)] + TailShape("alert(", ")}"), Quotes);
    NeedsOneOfRight([Run(Space, 0, false)], ArrowShape("=>", "alert(", ")}"), Quotes);
    NeedsOneOfRight(Word("{()"), [Run(Space, 0, false)] + ArrowShape("=>", "alert(", ")}"), Quotes);
  }

  /** The alert rewrite leaves `name={h}` alone when `h` has no quote. */
  lemma AlertSkipsHandler(name: string, h: string, c: char, rep: seq<Piece>)
    requires Named(name) && c in name && c != '=' && c != '{' && c != '}' && c !in h
    requires NoneOf(h, Quotes)
    ensures Step(Rewrite(AttrRe(name, AlertValue()), rep), name + "=" + Handler(h)) == name + "=" + Handler(h)
  {
    var v := Handler(h);
    var s := name + "=" + v;
    var e := |name| + 1;
    Layout(name, v, c);
    assert c !in v;
    forall x | e <= x < |s| ensures s[x] !in Quotes {
      assert s[x] == v[x - e];
      if e < x < |s| - 1 { assert v[x - e] == h[x - e - 1]; }
    }
    AlertNeedsQuote();
    MatchNeedsOneOf(AlertValue(), s, e, Quotes);
    AttrSkips(name, AlertValue(), v, c, rep);
  }

  /** A handler without key letters, quotes or braces holds none of the
      characters the earlier passes look for. */
  lemma HandlerLacks(h: string, c: char)
    requires Plain(h) && c in Keys
    ensures c !in Handler(h)
  {
    assert c !in h;
  }

  /** Likewise the alert text around a plain message. */
  lemma AlertTextLacks(q1: char, msg: string, q2: char, c: char)
    requires q1 in Quotes && q2 in Quotes && Plain(msg) && c in Keys
    ensures c !in AlertText(q1, msg, q2)
  {
    assert c !in msg;
    assert c !in Quoted(q1, msg, q2);
  }

  lemma ClickPassAlert(n: Names, o: Outputs, q1: char, msg: string, q2: char)
    requires Spelling(n) && Settled(o)
    requires q1 in Quotes && q2 in Quotes && |msg| > 0 && Plain(msg)
    ensures ClickPass(n.onClick + "=" + AlertText(q1, msg, q2), n, o) == o.alertOpen + msg + o.alertClose
  {
    var out := o.alertOpen + msg + o.alertClose;
    AlertAttrStep(n.onClick, q1, msg, q2, o.alertOpen, o.alertClose);
    InertAround(o.alertOpen, msg, o.alertClose);
    AttrLacksBrace(n.onClick, HandlerValue(), out);
    StepKeeps(OtherClick(n, o), out);
  }

  lemma OnClickAlertWith(n: Names, o: Outputs, q1: char, msg: string, q2: char)
    requires Spelling(n) && Settled(o)
    requires q1 in Quotes && q2 in Quotes && |msg| > 0 && Plain(msg)
    ensures ConvertWith(n.onClick + "=" + AlertText(q1, msg, q2), n, o) == o.alertOpen + msg + o.alertClose
  {
    var v := AlertText(q1, msg, q2);
    var s := n.onClick + "=" + v;
    AlertTextLacks(q1, msg, q2, 'N');
    AlertTextLacks(q1, msg, q2, 'F');
    AlertTextLacks(q1, msg, q2, 'I');
    Layout(n.onClick, v, 'N');
    Layout(n.onClick, v, 'F');
    Layout(n.onClick, v, 'I');
    ReachClick(s, n, o);
    ClickPassAlert(n, o, q1, msg, q2);
    InertAround(o.alertOpen, msg, o.alertClose);
    FromKeyDownKeeps(o.alertOpen + msg + o.alertClose, n, o);
  }

  lemma ClickPassHandler(n: Names, o: Outputs, h: string)
    requires Spelling(n) && |h| > 0 && '}' !in h && Plain(h)
    ensures ClickPass(n.onClick + "=" + Handler(h), n, o) == o.clickMarker
  {
    assert 'C' !in h && NoneOf(h, Quotes);
    AlertSkipsHandler(n.onClick, h, 'C', Around(o.alertOpen, o.alertClose));
    HandlerAttrStep(n.onClick, h, [Literal(o.clickMarker)]);
    LiteralExpands(o.clickMarker, []);
  }

  lemma OnClickHandlerWith(n: Names, o: Outputs, h: string)
    requires Spelling(n) && Settled(o) && |h| > 0 && '}' !in h && Plain(h)
    ensures ConvertWith(n.onClick + "=" + Handler(h), n, o) == o.clickMarker
  {
    var s := n.onClick + "=" + Handler(h);
    HandlerLacks(h, 'N');
    HandlerLacks(h, 'F');
    HandlerLacks(h, 'I');
    Layout(n.onClick, Handler(h), 'N');
    Layout(n.onClick, Handler(h), 'F');
    Layout(n.onClick, Handler(h), 'I');
    ReachClick(s, n, o);
    ClickPassHandler(n, o, h);
    FromKeyDownKeeps(o.clickMarker, n, o);
  }

  lemma OnKeyDownWith(n: Names, o: Outputs, h: string)
    requires Spelling(n) && Settled(o) && |h| > 0 && '}' !in h && Plain(h)
    ensures ConvertWith(n.onKeyDown + "=" + Handler(h), n, o) == o.keyDownMarker
  {
    var s := n.onKeyDown + "=" + Handler(h);
    HandlerLacks(h, 'N');
    HandlerLacks(h, 'F');
    HandlerLacks(h, 'I');
    HandlerLacks(h, 'C');
    Layout(n.onKeyDown, Handler(h), 'N');
    Layout(n.onKeyDown, Handler(h), 'F');
    Layout(n.onKeyDown, Handler(h), 'I');
    Layout(n.onKeyDown, Handler(h), 'C');
    ReachKeyDown(s, n, o);
    HandlerAttrStep(n.onKeyDown, h, [Literal(o.keyDownMarker)]);
    LiteralExpands(o.keyDownMarker, []);
    FromSelfClosingKeeps(o.keyDownMarker);
  }

  // ---------------------------------------------------------------------------
  // Self-closing tags and braced values

  /** `\s*\/>` at the `/` of a closing `/>`. */
  lemma SlashCloseAt(s: string, k: nat)
    requires k + 2 == |s| && s[k] == '/' && s[k + 1] == '>'
    ensures MatchFrom([Run(Space, 0, false), Lit('/'), Lit('>')], s, k) == Some(Match(|s|, []))
  {
    RunEndAt(Space, s, k, k);
    MatchRunStep(Space, 0, [Lit('/'), Lit('>')], s, k);
    MatchLitStep('/', [Lit('>')], s, k);
    MatchLitStep('>', [], s, k + 1);
  }

  /** `\s*\/>` fails at the final `>`. */
  lemma SlashCloseFails(s: string)
    requires |s| > 0 && s[|s| - 1] == '>'
    ensures MatchFrom([Run(Space, 0, false), Lit('/'), Lit('>')], s, |s| - 1).None?
  {
    RunEndAt(Space, s, |s| - 1, |s| - 1);
    MatchRunStep(Space, 0, [Lit('/'), Lit('>')], s, |s| - 1);
    MatchLitStep('/', [Lit('>')], s, |s| - 1);
  }

  /** `([^>]*)\s*\/>` from `i` takes everything up to the closing `/>`: the
      longest gap leaves only `>`, so the scan gives one character back. */
  lemma GapToSlash(s: string, i: nat)
    requires i + 2 <= |s| && s[|s| - 2] == '/' && s[|s| - 1] == '>'
    requires forall x :: i <= x < |s| - 2 ==> s[x] != '>'
    ensures MatchFrom([Gap(Except({'>'}), true), Run(Space, 0, false), Lit('/'), Lit('>')], s, i)
            == Some(Match(|s|, [s[i..|s| - 2]]))
  {
    var close := [Run(Space, 0, false), Lit('/'), Lit('>')];
    forall x | i <= x < |s| - 1 ensures InClass(s[x], Except({'>'})) {
    }
    RunEndAt(Except({'>'}), s, i, |s| - 1);
    assert [Gap(Except({'>'}), true), Run(Space, 0, false), Lit('/'), Lit('>')] == [Gap(Except({'>'}), true)] + close;
    MatchGapCaptureStep(Except({'>'}), close, s, i);
    SlashCloseFails(s);
    SlashCloseAt(s, |s| - 2);
    assert TryGap(close, s, i, |s| - 1, true) == TryGap(close, s, i, |s| - 2, true);
    assert [s[i..|s| - 2]] + [] == [s[i..|s| - 2]];
  }

  /** A tag name: a nonempty run of word characters. */
  predicate TagName(t: string) {
    |t| > 0 && forall i :: 0 <= i < |t| ==> IsWordChar(t[i])
  }

  /** Attribute text after a tag name: it does not continue the name, holds
      no `>` and none of the characters the other passes act on. */
  predicate TagRest(a: string) {
    (a == [] || !IsWordChar(a[0])) && NoneOf(a, Keys + {'{', '>'})
  }

  /** Where the parts of `<t a/>` sit. */
  lemma SelfClosedLayout(t: string, a: string)
    ensures var s := SelfClosed(t, a);
      && |s| == |t| + |a| + 3 && s[0] == '<' && s[1..1 + |t|] == t && s[1 + |t|..|s| - 2] == a
      && s[|s| - 2] == '/' && s[|s| - 1] == '>'
  {
    var s := SelfClosed(t, a);
    assert s == "<" + t + a + "/>";
    assert s[1..1 + |t|] == t;
    assert s[1 + |t|..|s| - 2] == a;
  }

  /** In `<t a/>` the tag name's run ends after `t`, and the rest of the
      pattern from there captures `a`. */
  lemma SelfClosedScan(t: string, a: string)
    requires TagName(t) && TagRest(a)
    ensures var s := SelfClosed(t, a);
      && RunEnd(WordChars, s, 1) == 1 + |t|
      && MatchFrom([Gap(Except({'>'}), true), Run(Space, 0, false), Lit('/'), Lit('>')], s, 1 + |t|)
         == Some(Match(|s|, [a]))
  {
    var s := SelfClosed(t, a);
    var i := 1 + |t|;
    SelfClosedLayout(t, a);
    forall x | 1 <= x < i ensures InClass(s[x], WordChars) {
      assert s[x] == s[1..i][x - 1];
    }
    assert !IsWordChar(s[i]) by {
      if |a| > 0 { assert s[i] == s[i..|s| - 2][0]; } else { assert s[i] == '/'; }
    }
    RunEndAt(WordChars, s, 1, i);
    forall x | i <= x < |s| - 2 ensures s[x] != '>' {
      assert s[x] == s[i..|s| - 2][x - i];
      assert a[x - i] !in Keys + {'{', '>'};
    }
    GapToSlash(s, i);
  }

  /** `<(\w+)([^>]*)\s*\/>` matches `<t a/>` whole, capturing `t` and `a`. */
  lemma SelfClosingWhole(t: string, a: string)
    requires TagName(t) && TagRest(a)
    ensures MatchAt(SelfClosingRe(), SelfClosed(t, a), 0) == Some(Match(|SelfClosed(t, a)|, [t, a]))
  {
    var s := SelfClosed(t, a);
    var gap := [Gap(Except({'>'}), true), Run(Space, 0, false), Lit('/'), Lit('>')];
    var p := SelfClosingRe()[0];
    SelfClosedLayout(t, a);
    SelfClosedScan(t, a);
    MatchAtOne(p, s, 0);
    assert p == [Lit('<')] + ([Run(WordChars, 1, true)] + gap);
    MatchLitStep('<', [Run(WordChars, 1, true)] + gap, s, 0);
    MatchRunCaptureStep(WordChars, 1, gap, s, 1);
    assert [t] + [a] == [t, a];
  }

  lemma TagExpands(t: string, a: string)
    ensures Expand(SelfClosing().rep, [t, a]) == "<" + t + a + ">"
  {
    var rep := SelfClosing().rep;
    assert rep[1..][1..][1..][1..] == [];
    assert Expand(rep[1..][1..][1..], [t, a]) == ">" + "";
    assert Expand(rep[1..][1..], [t, a]) == a + (">" + "");
    assert Expand(rep[1..], [t, a]) == t + (a + (">" + ""));
  }

  /** None of the key letters in `<t a/>`. */
  lemma SelfClosedLacks(t: string, a: string)
    requires TagName(t) && TagRest(a) && NoneOf(t, Keys)
    ensures NoneOf(SelfClosed(t, a), Keys)
  {
    var s := SelfClosed(t, a);
    SelfClosedLayout(t, a);
    forall x | 0 <= x < |s| ensures s[x] !in Keys {
      if 1 <= x < 1 + |t| { assert s[x] == s[1..1 + |t|][x - 1]; }
      else if 1 + |t| <= x < |s| - 2 { assert s[x] == s[1 + |t|..|s| - 2][x - 1 - |t|]; }
    }
  }

  /** `<t a>` holds no `{`. */
  lemma TagOutLacksBrace(t: string, a: string)
    requires TagName(t) && TagRest(a)
    ensures '{' !in "<" + t + a + ">"
  {
    var out := "<" + t + a + ">";
    assert !IsWordChar('{');
    forall x | 0 <= x < |out| ensures out[x] != '{' {
      if 1 <= x < 1 + |t| { assert out[x] == t[x - 1]; }
      else if 1 + |t| <= x < |out| - 1 { assert out[x] == a[x - 1 - |t|]; }
    }
  }

  lemma SelfClosingWith(n: Names, o: Outputs, t: string, a: string)
    requires Spelling(n) && TagName(t) && NoneOf(t, Keys) && TagRest(a)
    ensures ConvertWith(SelfClosed(t, a), n, o) == "<" + t + a + ">"
  {
    var s := SelfClosed(t, a);
    var out := "<" + t + a + ">";
    SelfClosedLacks(t, a);
    ReachSelfClosing(s, n, o);
    SelfClosingWhole(t, a);
    StepWhole(SelfClosing(), s, [t, a]);
    TagExpands(t, a);
    TagOutLacksBrace(t, a);
    BracePassKeeps(out);
  }

  /** A nonempty run of decimal digits. */
  predicate Digits(d: string) {
    |d| > 0 && forall i :: 0 <= i < |d| ==> IsDigit(d[i])
  }

  /** `\{(\d+)\}` matches `{d}` whole, capturing `d`. */
  lemma BracedDigitsWhole(d: string)
    requires Digits(d)
    ensures MatchAt(BracedDigitsRe(), "{" + d + "}", 0) == Some(Match(|d| + 2, [d]))
  {
    var s := "{" + d + "}";
    var p := [Lit('{'), Run(Digit, 1, true), Lit('}')];
    forall x | 1 <= x < 1 + |d| ensures InClass(s[x], Digit) {
      assert s[x] == d[x - 1];
    }
    RunEndAt(Digit, s, 1, 1 + |d|);
    assert BracedDigitsRe() == [p];
    MatchAtOne(p, s, 0);
    assert p == [Lit('{')] + ([Run(Digit, 1, true)] + [Lit('}')]);
    MatchLitStep('{', [Run(Digit, 1, true)] + [Lit('}')], s, 0);
    MatchRunCaptureStep(Digit, 1, [Lit('}')], s, 1);
    assert s[1..1 + |d|] == d;
    MatchLitStep('}', [], s, 1 + |d|);
    assert [d] + [] == [d];
  }

  /** Text without `{` passes the string-brace rewrite unchanged. */
  lemma BracedStringKeeps(s: string)
    requires '{' !in s
    ensures Step(BracedString(), s) == s
  {
    assert BracedValue()[0] == Lit('{');
    Lacks([BracedValue()], s, '{');
    StepKeeps(BracedString(), s);
  }

  lemma BracedNumberWith(n: Names, o: Outputs, d: string)
    requires Spelling(n) && Digits(d)
    ensures ConvertWith("{" + d + "}", n, o) == "\"" + d + "\""
  {
    var s := "{" + d + "}";
    var out := "\"" + d + "\"";
    assert NoneOf(s, Keys) && '<' !in s by {
      forall x | 0 <= x < |s| ensures s[x] !in Keys && s[x] != '<' {
        if 0 < x < |s| - 1 { assert s[x] == d[x - 1]; }
      }
    }
    ReachSelfClosing(s, n, o);
    SelfClosingPassKeeps(s);
    BracePassDigits(d);
  }

  /** The brace passes turn `{d}` into `"d"`. */
  lemma BracePassDigits(d: string)
    requires Digits(d)
    ensures BracePass("{" + d + "}") == "\"" + d + "\""
  {
    var s := "{" + d + "}";
    var out := "\"" + d + "\"";
    BracedDigitsWhole(d);
    StepWhole(BracedDigits(), s, [d]);
    AroundExpands("\"", "\"", d);
    assert '{' !in out by {
      forall x | 0 <= x < |out| ensures out[x] != '{' {
        if 0 < x < |out| - 1 { assert out[x] == d[x - 1]; }
      }
    }
    BracedStringKeeps(out);
  }

  /** `\{(\d+)\}` finds nothing in a braced quoted value: its only `{` is
      followed by a quote. */
  lemma BracedDigitsSkipsString(q1: char, x: string, q2: char)
    requires q1 in Quotes && q2 in Quotes && Plain(x)
    ensures Step(BracedDigits(), Braced(q1, x, q2)) == Braced(q1, x, q2)
  {
    var s := Braced(q1, x, q2);
    var p := [Lit('{'), Run(Digit, 1, true), Lit('}')];
    assert BracedDigitsRe() == [p];
    assert p[0] == Lit('{');
    assert s[0] == '{' && s[1] == q1;
    forall k | 0 <= k <= |s| ensures MatchAt(BracedDigitsRe(), s, k).None? {
      MatchAtOne(p, s, k);
      if k == 0 {
        RunEndAt(Digit, s, 1, 1);
        assert p == [Lit('{')] + ([Run(Digit, 1, true)] + [Lit('}')]);
        MatchLitStep('{', [Run(Digit, 1, true)] + [Lit('}')], s, 0);
        MatchRunCaptureStep(Digit, 1, [Lit('}')], s, 1);
      } else {
        forall y | k <= y < |s| ensures s[y] != '{' {
          if 1 < y < |s| - 2 { assert s[y] == x[y - 2]; }
        }
        MatchNeedsLit(p, s, k, '{');
      }
    }
    StepKeeps(BracedDigits(), s);
  }

  lemma BracedStringWith(n: Names, o: Outputs, q1: char, x: string, q2: char)
    requires Spelling(n) && q1 in Quotes && q2 in Quotes && |x| > 0 && Plain(x)
    ensures ConvertWith(Braced(q1, x, q2), n, o) == "\"" + x + "\""
  {
    var s := Braced(q1, x, q2);
    forall c | c in Keys + {'/'} ensures c !in s {
      ValueLacks(q1, x, q2, c);
    }
    ReachSelfClosing(s, n, o);
    SelfClosingPassKeeps(s);
    BracedDigitsSkipsString(q1, x, q2);
    assert s[0..] == s;
    BracedValueWhole(s, 0, q1, x, q2);
    MatchAtOne(BracedValue(), s, 0);
    StepWhole(BracedString(), s, [x]);
    AroundExpands("\"", "\"", x);
  }

  // ---------------------------------------------------------------------------
  // Text the converter leaves alone

  /** Markup with no `=`, no brace, and not both `<` and `/` comes out as
      it went in. */
  lemma ConvertKeepsWith(s: string, n: Names, o: Outputs)
    requires Spelling(n) && '=' !in s && ('<' !in s || '/' !in s) && '{' !in s
    ensures ConvertWith(s, n, o) == s
  {
    ClassPassKeeps(s, n, o);
    ForPassKeeps(s, n, o);
    TabPassKeeps(s, n, o);
    ClickPassKeeps(s, n, o);
    KeyDownPassKeeps(s, n, o);
    SelfClosingPassKeeps(s);
    BracePassKeeps(s);
  }

  /** No pattern of the fourteen rewrites matches anywhere in `s`. */
  predicate Unmatched(s: string, n: Names, o: Outputs) {
    && !Test(ClassQuoted(n, o).re, s) && !Test(ClassBraced(n, o).re, s)
    && !Test(ForQuoted(n, o).re, s) && !Test(ForBraced(n, o).re, s)
    && !Test(TabZeroBraced(n, o).re, s) && !Test(TabZeroQuoted(n, o).re, s)
    && !Test(TabMinusBraced(n, o).re, s) && !Test(TabMinusQuoted(n, o).re, s)
    && !Test(AlertClick(n, o).re, s) && !Test(OtherClick(n, o).re, s) && !Test(KeyDown(n, o).re, s)
    && !Test(SelfClosing().re, s) && !Test(BracedDigits().re, s) && !Test(BracedString().re, s)
  }

  /** Markup in which no pattern matches goes through every pass unchanged. */
  lemma ConvertUnmatchedWith(s: string, n: Names, o: Outputs)
    requires Unmatched(s, n, o)
    ensures ConvertWith(s, n, o) == s
  {
    StepKeeps(ClassQuoted(n, o), s);
    StepKeeps(ClassBraced(n, o), s);
    StepKeeps(ForQuoted(n, o), s);
    StepKeeps(ForBraced(n, o), s);
    StepKeeps(TabZeroBraced(n, o), s);
    StepKeeps(TabZeroQuoted(n, o), s);
    StepKeeps(TabMinusBraced(n, o), s);
    StepKeeps(TabMinusQuoted(n, o), s);
    StepKeeps(AlertClick(n, o), s);
    StepKeeps(OtherClick(n, o), s);
    StepKeeps(KeyDown(n, o), s);
    StepKeeps(SelfClosing(), s);
    StepKeeps(BracedDigits(), s);
    StepKeeps(BracedString(), s);
  }

  // ---------------------------------------------------------------------------
  // The converter itself

  /** The converter is its definition with the component's names and texts. */
  lemma ConvertIs(s: string)
    ensures Convert(s) == ConvertWith(s, React, Written)
  {
  }

  /** `className="x"` (either quote) becomes `class="x"`. */
  lemma ClassNameQuoted(q1: char, x: string, q2: char)
    requires q1 in Quotes && q2 in Quotes && |x| > 0 && Plain(x)
    ensures Convert("className=" + Quoted(q1, x, q2)) == "class=\"" + x + "\""
  {
    ReactSpelling();
    WrittenSettled();
    ClassNameQuotedWith(React, Written, q1, x, q2);
    ClassNameAttr(Quoted(q1, x, q2));
    ConvertIs("className=" + Quoted(q1, x, q2));
  }


  /** `className={"x"}` (either quote) becomes `class="x"`. */
  lemma ClassNameBraced(q1: char, x: string, q2: char)
    requires q1 in Quotes && q2 in Quotes && |x| > 0 && Plain(x)
    ensures Convert("className=" + Braced(q1, x, q2)) == "class=\"" + x + "\""
  {
    ReactSpelling();
    WrittenSettled();
    ClassNameBracedWith(React, Written, q1, x, q2);
    ClassNameAttr(Braced(q1, x, q2));
    ConvertIs("className=" + Braced(q1, x, q2));
  }

  /** `htmlFor="x"` becomes `for="x"`. */
  lemma HtmlForQuoted(q1: char, x: string, q2: char)
    requires q1 in Quotes && q2 in Quotes && |x| > 0 && Plain(x)
    ensures Convert("htmlFor=" + Quoted(q1, x, q2)) == "for=\"" + x + "\""
  {
    ReactSpelling();
    WrittenSettled();
    HtmlForQuotedWith(React, Written, q1, x, q2);
    HtmlForAttr(Quoted(q1, x, q2));
    ConvertIs("htmlFor=" + Quoted(q1, x, q2));
  }

  lemma HtmlForBraced(q1: char, x: string, q2: char)
    requires q1 in Quotes && q2 in Quotes && |x| > 0 && Plain(x)
    ensures Convert("htmlFor=" + Braced(q1, x, q2)) == "for=\"" + x + "\""
  {
    ReactSpelling();
    WrittenSettled();
    HtmlForBracedWith(React, Written, q1, x, q2);
    HtmlForAttr(Braced(q1, x, q2));
    ConvertIs("htmlFor=" + Braced(q1, x, q2));
  }

  /** `tabIndex={0}` and `tabIndex="0"` become `tabindex="0"`. */
  lemma TabIndexBracedZero()
    ensures Convert("tabIndex=" + "{0}") == "tabindex=\"0\""
  {
    ReactSpelling();
    WrittenSettled();
    TabIndexBracedZeroWith(React, Written);
    TabIndexAttr("{0}");
    ConvertIs("tabIndex=" + "{0}");
  }

  lemma TabIndexQuotedZero(q1: char, q2: char)
    requires q1 in Quotes && q2 in Quotes
    ensures Convert("tabIndex=" + Quoted(q1, "0", q2)) == "tabindex=\"0\""
  {
    ReactSpelling();
    WrittenSettled();
    TabIndexQuotedZeroWith(React, Written, q1, q2);
    TabIndexAttr(Quoted(q1, "0", q2));
    ConvertIs("tabIndex=" + Quoted(q1, "0", q2));
  }

  /** `tabIndex={-1}` and `tabIndex="-1"` become `tabindex="-1"`. */
  lemma TabIndexBracedMinusOne()
    ensures Convert("tabIndex=" + "{-1}") == "tabindex=\"-1\""
  {
    ReactSpelling();
    WrittenSettled();
    TabIndexBracedMinusOneWith(React, Written);
    TabIndexAttr("{-1}");
    ConvertIs("tabIndex=" + "{-1}");
  }

  lemma TabIndexQuotedMinusOne(q1: char, q2: char)
    requires q1 in Quotes && q2 in Quotes
    ensures Convert("tabIndex=" + Quoted(q1, "-1", q2)) == "tabindex=\"-1\""
  {
    ReactSpelling();
    WrittenSettled();
    TabIndexQuotedMinusOneWith(React, Written, q1, q2);
    TabIndexAttr(Quoted(q1, "-1", q2));
    ConvertIs("tabIndex=" + Quoted(q1, "-1", q2));
  }

  /** `onClick={() => alert("msg")}` becomes `onclick="alert('msg')"`. */
  lemma OnClickAlert(q1: char, msg: string, q2: char)
    requires q1 in Quotes && q2 in Quotes && |msg| > 0 && Plain(msg)
    ensures Convert("onClick=" + AlertText(q1, msg, q2)) == "onclick=\"alert('" + msg + "')\""
  {
    ReactSpelling();
    WrittenSettled();
    OnClickAlertWith(React, Written, q1, msg, q2);
    OnClickAttr(AlertText(q1, msg, q2));
    ConvertIs("onClick=" + AlertText(q1, msg, q2));
  }

  /** Any other braced `onClick` handler becomes the removal comment. */
  lemma OnClickHandler(h: string)
    requires |h| > 0 && '}' !in h && Plain(h)
    ensures Convert("onClick=" + Handler(h)) == Removed("onClick")
  {
    ReactSpelling();
    WrittenSettled();
    OnClickHandlerWith(React, Written, h);
    OnClickAttr(Handler(h));
    ConvertIs("onClick=" + Handler(h));
  }

  /** A braced `onKeyDown` handler becomes the removal comment. */
  lemma OnKeyDownHandler(h: string)
    requires |h| > 0 && '}' !in h && Plain(h)
    ensures Convert("onKeyDown=" + Handler(h)) == Removed("onKeyDown")
  {
    ReactSpelling();
    WrittenSettled();
    OnKeyDownWith(React, Written, h);
    OnKeyDownAttr(Handler(h));
    ConvertIs("onKeyDown=" + Handler(h));
  }

  /** `<t a/>` becomes `<t a>`. */
  lemma SelfClosingTag(t: string, a: string)
    requires TagName(t) && NoneOf(t, Keys) && TagRest(a)
    ensures Convert(SelfClosed(t, a)) == "<" + t + a + ">"
  {
    ReactSpelling();
    SelfClosingWith(React, Written, t, a);
  }

  /** `{d}` with `d` digits becomes `"d"`. */
  lemma BracedNumber(d: string)
    requires Digits(d)
    ensures Convert("{" + d + "}") == "\"" + d + "\""
  {
    ReactSpelling();
    BracedNumberWith(React, Written, d);
  }

  /** `{"x"}` becomes `"x"`. */
  lemma BracedQuoted(q1: char, x: string, q2: char)
    requires q1 in Quotes && q2 in Quotes && |x| > 0 && Plain(x)
    ensures Convert(Braced(q1, x, q2)) == "\"" + x + "\""
  {
    ReactSpelling();
    BracedStringWith(React, Written, q1, x, q2);
  }

  /** Markup with no `=`, no brace, and not both `<` and `/` is returned
      as it is. */
  lemma ConvertKeeps(s: string)
    requires '=' !in s && ('<' !in s || '/' !in s) && '{' !in s
    ensures Convert(s) == s
  {
    ReactSpelling();
    ConvertKeepsWith(s, React, Written);
  }

  /** Markup in which none of the converter's fourteen patterns matches is
      returned as it is. */
  lemma ConvertUnmatched(s: string)
    requires Unmatched(s, React, Written)
    ensures Convert(s) == s
  {
    ConvertUnmatchedWith(s, React, Written);
  }

  // The attribute names as the converter spells them.

  lemma ClassNameAttr(v: string)
    ensures "className=" + v == React.className + "=" + v
  {
  }

  lemma HtmlForAttr(v: string)
    ensures "htmlFor=" + v == React.htmlFor + "=" + v
  {
  }

  lemma TabIndexAttr(v: string)
    ensures "tabIndex=" + v == React.tabIndex + "=" + v
  {
  }

  lemma OnClickAttr(v: string)
    ensures "onClick=" + v == React.onClick + "=" + v
  {
  }

  lemma OnKeyDownAttr(v: string)
    ensures "onKeyDown=" + v == React.onKeyDown + "=" + v
  {
  }
}

=== FILE: queries.dfy ===
/** The submission rule of the solution-submit mutation: how a user's
    progress row for a challenge changes when a solution is submitted, and
    the response returned. The progress table is a map keyed by user and
    challenge; the database's answers (its generated row id, its error) and
    the two clock readings are parameters. */
module Queries {
  import opened Base

  datatype Status = NotStarted | InProgress | Completed | Failed

  /** `UserProgress`. */
  datatype Progress = Progress(
    id: string,
    userId: string,
    challengeId: string,
    status: Status,
    submittedAt: Option<string>,
    completedAt: Option<string>,
    attempts: int,
    lastSubmittedCode: Option<string>)

  /** A (user, challenge) pair; the table holds at most one row per pair. */
  datatype Key = Key(userId: string, challengeId: string)

  type Table = map<Key, Progress>

  /** One call of the mutation: its parameters, the two clock readings, and
      what the database answers (the id it gives a new row, or an error). */
  datatype Submission = Submission(
    userId: string,
    challengeId: string,
    code: string,
    isValid: bool,
    submittedAt: string,
    completedAt: string,
    newId: string,
    dbError: Option<string>)
  {
    function KeyOf(): Key { Key(userId, challengeId) }
  }

  datatype Response = Response(success: bool, message: string, progress: Progress)

  const CorrectMessage := "정답입니다! 챌린지를 완료했습니다."
  const WrongMessage := "오답입니다. 다시 시도해보세요."
  const UpdateFailedPrefix := "진행 상황 업데이트 실패: "
  const SaveFailedPrefix := "진행 상황 저장 실패: "

  /** The new status: completed on a valid submission, and a completed row
      stays completed; otherwise failed. */
  function NewStatus(isValid: bool, previous: Option<Status>): (st: Status)
    ensures st == Completed <==> isValid || previous == Some(Completed)
    ensures st == Failed <==> !isValid && previous != Some(Completed)
  {
    if isValid then Completed
    else if previous == Some(Completed) then Completed
    else Failed
  }

  /** `(existingProgress?.attempts || 0) + 1`. */
  function NewAttempts(existing: Option<Progress>): int {
    (if existing.Some? then existing.value.attempts else 0) + 1
  }

  /** The row after the write: an update keeps the existing row's id and,
      on an invalid submission, its `completedAt`; an insert starts from an
      empty row with the database's id. */
  function Written(existing: Option<Progress>, sub: Submission): Progress {
    var status := NewStatus(sub.isValid, if existing.Some? then Some(existing.value.status) else None);
    var completedAt :=
      if sub.isValid then Some(sub.completedAt)
      else if existing.Some? then existing.value.completedAt
      else None;
    var id := if existing.Some? then existing.value.id else sub.newId;
    Progress(id, sub.userId, sub.challengeId, status, Some(sub.submittedAt), completedAt,
             NewAttempts(existing), Some(sub.code))
  }

  /** The mutation: the response and the table after it, or the thrown
      error's message, the table then being unchanged. */
  function Submit(table: Table, sub: Submission): (r: Result<(Response, Table), string>)
    ensures r.Err? <==> sub.dbError.Some?
    ensures r.Err? ==> r.error == (if sub.KeyOf() in table then UpdateFailedPrefix else SaveFailedPrefix) + sub.dbError.value
    ensures r.Ok? ==>
              var (response, after) := r.value;
              && response.success == sub.isValid
              && (response.message == CorrectMessage <==> sub.isValid)
              && response.message == (if sub.isValid then CorrectMessage else WrongMessage)
              && after.Keys == table.Keys + {sub.KeyOf()}
              && after[sub.KeyOf()] == response.progress
              && (forall k :: k in table && k != sub.KeyOf() ==> after[k] == table[k])
  {
    var key := sub.KeyOf();
    var existing := if key in table then Some(table[key]) else None;
    match sub.dbError
    case Some(e) => Err((if existing.Some? then UpdateFailedPrefix else SaveFailedPrefix) + e)
    case None =>
      var row := Written(existing, sub);
      Ok((Response(sub.isValid, if sub.isValid then CorrectMessage else WrongMessage, row), table[key := row]))
  }

  /** What a stored submission writes into its row, stated against the row
      that was there before. */
  lemma SubmitRow(table: Table, sub: Submission)
    requires sub.dbError.None?
    ensures var key := sub.KeyOf();
            var row := Submit(table, sub).value.0.progress;
            && row.userId == sub.userId && row.challengeId == sub.challengeId
            && (row.status == Completed <==> sub.isValid || (key in table && table[key].status == Completed))
            && row.status != NotStarted && row.status != InProgress
            && row.attempts == (if key in table then table[key].attempts else 0) + 1
            && ((key in table ==> table[key].attempts >= 0) ==> row.attempts >= 1)
            && (sub.isValid ==> row.completedAt == Some(sub.completedAt))
            && (!sub.isValid ==> row.completedAt == if key in table then table[key].completedAt else None)
            && row.lastSubmittedCode == Some(sub.code)
            && row.submittedAt == Some(sub.submittedAt)
            && row.id == (if key in table then table[key].id else sub.newId)
  {
  }

  /** The table after one submission. */
  function After(table: Table, sub: Submission): (t: Table)
    ensures forall k :: k in table && k != sub.KeyOf() ==> k in t && t[k] == table[k]
    ensures table.Keys <= t.Keys
  {
    match Submit(table, sub) case Ok((_, after)) => after case Err(_) => table
  }

  /** Submissions applied in order; a failed one leaves the table as it is. */
  function RunAll(table: Table, subs: seq<Submission>): Table
    decreases |subs|
  {
    if |subs| == 0 then table else RunAll(After(table, subs[0]), subs[1..])
  }

  /** The number of stored submissions for `key`. */
  function Stored(subs: seq<Submission>, key: Key): nat {
    if |subs| == 0 then 0
    else (if subs[0].dbError.None? && subs[0].KeyOf() == key then 1 else 0) + Stored(subs[1..], key)
  }

  /** A completed row stays completed under any later submissions. */
  lemma {:induction false} CompletedStaysCompleted(table: Table, subs: seq<Submission>, key: Key)
    requires key in table && table[key].status == Completed
    ensures key in RunAll(table, subs) && RunAll(table, subs)[key].status == Completed
    decreases |subs|
  {
    if |subs| > 0 {
      var next := After(table, subs[0]);
      if subs[0].dbError.None? && subs[0].KeyOf() == key {
        SubmitRow(table, subs[0]);
      }
      assert RunAll(table, subs) == RunAll(next, subs[1..]);
      CompletedStaysCompleted(next, subs[1..], key);
    }
  }

  /** The attempt count of a row grows by exactly the number of stored
      submissions for it; starting with no row, it counts them. */
  lemma {:induction false} AttemptsCount(table: Table, subs: seq<Submission>, key: Key)
    requires Stored(subs, key) > 0 || key in table
    ensures key in RunAll(table, subs)
    ensures RunAll(table, subs)[key].attempts
              == (if key in table then table[key].attempts else 0) + Stored(subs, key)
    decreases |subs|
  {
    if |subs| > 0 {
      var next := After(table, subs[0]);
      if subs[0].dbError.None? && subs[0].KeyOf() == key {
        SubmitRow(table, subs[0]);
      }
      assert RunAll(table, subs) == RunAll(next, subs[1..]);
      AttemptsCount(next, subs[1..], key);
    }
  }

  /** Rows for keys no stored submission names are untouched. */
  lemma {:induction false} OtherRowsUntouched(table: Table, subs: seq<Submission>, key: Key)
    requires key in table && Stored(subs, key) == 0
    ensures key in RunAll(table, subs) && RunAll(table, subs)[key] == table[key]
    decreases |subs|
  {
    if |subs| > 0 {
      var next := After(table, subs[0]);
      assert RunAll(table, subs) == RunAll(next, subs[1..]);
      OtherRowsUntouched(next, subs[1..], key);
    }
  }
}

=== FILE: seqs.dfy ===
/** `Array.prototype.filter`, `find` and the order facts shared by the lookups. */
module Seqs {
  import opened Base

  /** `r` is `xs` with some elements left out, the rest in order. */
  ghost predicate Subsequence<T>(r: seq<T>, xs: seq<T>)
    decreases |xs|
  {
    if |r| == 0 then true
    else if |xs| == 0 then false
    else (r[0] == xs[0] && Subsequence(r[1..], xs[1..])) || Subsequence(r, xs[1..])
  }

  function CountWhere<T>(xs: seq<T>, keep: T -> bool): (n: nat)
    ensures n <= |xs|
  {
    if |xs| == 0 then 0 else (if keep(xs[0]) then 1 else 0) + CountWhere(xs[1..], keep)
  }

  /** `xs.filter(keep)`: an order-preserving subsequence of `xs` made of
      elements that pass, as many as pass, so every passing element is in it. */
  function Filter<T(==)>(xs: seq<T>, keep: T -> bool): (r: seq<T>)
    ensures Subsequence(r, xs)
    ensures forall k :: 0 <= k < |r| ==> keep(r[k])
    ensures |r| == CountWhere(xs, keep)
    ensures forall x :: x in xs && keep(x) ==> x in r
    ensures forall x :: x in r ==> x in xs
    ensures |r| == 0 <==> forall k :: 0 <= k < |xs| ==> !keep(xs[k])
  {
    if |xs| == 0 then []
    else
      var rest := Filter(xs[1..], keep);
      assert forall x :: x in xs && x != xs[0] ==> x in xs[1..];
      if keep(xs[0]) then [xs[0]] + rest else rest
  }

  /** One step of `Filter`: the head, if it passes, before the filtered rest. */
  lemma FilterCons<T>(xs: seq<T>, keep: T -> bool)
    requires |xs| > 0
    ensures Filter(xs, keep) == (if keep(xs[0]) then [xs[0]] else []) + Filter(xs[1..], keep)
  {
  }

  /** Filtering with a test every element passes keeps everything. */
  lemma {:induction false} FilterAll<T>(xs: seq<T>, keep: T -> bool)
    requires forall k :: 0 <= k < |xs| ==> keep(xs[k])
    ensures Filter(xs, keep) == xs
  {
    if |xs| > 0 {
      FilterAll(xs[1..], keep);
      assert [xs[0]] + xs[1..] == xs;
    }
  }

  /** What passes the filter is exactly what is in `xs` and passes. */
  lemma FilterMembers<T>(xs: seq<T>, keep: T -> bool)
    ensures forall x :: x in Filter(xs, keep) <==> x in xs && keep(x)
  {
    var r := Filter(xs, keep);
    forall x | x in r ensures keep(x) {
      var k :| 0 <= k < |r| && r[k] == x;
    }
  }

  /** `xs.find(hit)`: the first element that passes, if any. */
  function Find<T(==)>(xs: seq<T>, hit: T -> bool): (r: Option<T>)
    ensures r.None? <==> forall k :: 0 <= k < |xs| ==> !hit(xs[k])
    ensures r.Some? ==> exists k :: 0 <= k < |xs| && xs[k] == r.value && hit(xs[k])
                                    && forall j :: 0 <= j < k ==> !hit(xs[j])
  {
    if |xs| == 0 then None
    else if hit(xs[0]) then Some(xs[0])
    else
      var r := Find(xs[1..], hit);
      assert forall k :: 1 <= k < |xs| ==> xs[k] == xs[1..][k - 1];
      if r.Some? then
        var k :| 0 <= k < |xs[1..]| && xs[1..][k] == r.value && hit(xs[1..][k])
                 && forall j :: 0 <= j < k ==> !hit(xs[1..][j]);
        assert xs[k + 1] == r.value && forall j :: 0 <= j < k + 1 ==> !hit(xs[j]);
        r
      else r
  }

  /** `xs.filter(Boolean)` on a list of optional values: the values present,
      in order. */
  function Somes<T(==)>(xs: seq<Option<T>>): (r: seq<T>)
    ensures |r| <= |xs|
    ensures forall k :: 0 <= k < |r| ==> exists j :: 0 <= j < |xs| && xs[j] == Some(r[k])
    ensures forall j :: 0 <= j < |xs| && xs[j].Some? ==> xs[j].value in r
    ensures |r| == 0 <==> forall j :: 0 <= j < |xs| ==> xs[j].None?
  {
    if |xs| == 0 then []
    else
      var rest := Somes(xs[1..]);
      assert forall j :: 1 <= j < |xs| ==> xs[j] == xs[1..][j - 1];
      if xs[0].Some? then
        var r := [xs[0].value] + rest;
        forall k | 0 < k < |r| ensures exists j :: 0 <= j < |xs| && xs[j] == Some(r[k]) {
          var j :| 0 <= j < |xs[1..]| && xs[1..][j] == Some(rest[k - 1]);
          assert xs[j + 1] == Some(r[k]);
        }
        assert xs[0] == Some(r[0]);
        r
      else
        forall k | 0 <= k < |rest| ensures exists j :: 0 <= j < |xs| && xs[j] == Some(rest[k]) {
          var j :| 0 <= j < |xs[1..]| && xs[1..][j] == Some(rest[k]);
          assert xs[j + 1] == Some(rest[k]);
        }
        rest
  }

  /** `Somes` keeps order: the values of a concatenation are the values of
      each part, one after the other. */
  lemma {:induction false} SomesAppend<T>(xs: seq<Option<T>>, ys: seq<Option<T>>)
    ensures Somes(xs + ys) == Somes(xs) + Somes(ys)
    decreases |xs|
  {
    if |xs| == 0 {
      assert xs + ys == ys;
    } else {
      assert (xs + ys)[1..] == xs[1..] + ys;
      SomesAppend(xs[1..], ys);
    }
  }
}

=== FILE: text.dfy ===
/** Character classes and string helpers with the meaning JavaScript gives them:
    `\s` and `String.prototype.trim`, `\w`/`\b`, `\d`, the ASCII case folding of
    the `i` regex flag, `indexOf`, `split`/`join`, `String(n)` and `parseInt(s, 10)`. */
module Text {
  import opened Base

  /** ECMAScript WhiteSpace and LineTerminator: the class `\s` matches and the
      characters `trim` removes. */
  predicate IsSpace(c: char) {
    || c == '\t' || c == '\n' || c == '\U{B}' || c == '\U{C}' || c == '\r' || c == ' '
    || c == '\U{A0}' || c == '\U{1680}' || ('\U{2000}' <= c <= '\U{200A}')
    || c == '\U{2028}' || c == '\U{2029}' || c == '\U{202F}' || c == '\U{205F}'
    || c == '\U{3000}' || c == '\U{FEFF}'
  }

  /** The class `\w`, which also decides where `\b` holds. */
  predicate IsWordChar(c: char) {
    ('a' <= c <= 'z') || ('A' <= c <= 'Z') || ('0' <= c <= '9') || c == '_'
  }

  /** The class `\d`. */
  predicate IsDigit(c: char) {
    '0' <= c <= '9'
  }

  function LowerAscii(c: char): (r: char)
    ensures 'A' <= c <= 'Z' ==> 'a' <= r <= 'z' && r as int == c as int + 32
    ensures !('A' <= c <= 'Z') ==> r == c
  {
    if 'A' <= c <= 'Z' then (c as int + 32) as char else c
  }

  /** Character equality under the regex `i` flag, restricted to ASCII letters. */
  predicate SameIgnoringCase(a: char, b: char) {
    LowerAscii(a) == LowerAscii(b)
  }

  predicate AllSpace(s: string) {
    forall i :: 0 <= i < |s| ==> IsSpace(s[i])
  }

  predicate Avoids(s: string, c: char) {
    forall i :: 0 <= i < |s| ==> s[i] != c
  }

  /** Number of white-space characters at the start of `s`. */
  function LeadingSpaces(s: string): (n: nat)
    ensures n <= |s|
    ensures AllSpace(s[..n])
    ensures n < |s| ==> !IsSpace(s[n])
  {
    if |s| == 0 || !IsSpace(s[0]) then 0
    else
      var k := LeadingSpaces(s[1..]);
      assert s[1..][..k] == s[1..k + 1];
      1 + k
  }

  /** Number of white-space characters at the end of `s`. */
  function TrailingSpaces(s: string): (n: nat)
    ensures n <= |s|
    ensures AllSpace(s[|s| - n..])
    ensures n < |s| ==> !IsSpace(s[|s| - n - 1])
  {
    if |s| == 0 || !IsSpace(s[|s| - 1]) then 0
    else
      var k := TrailingSpaces(s[..|s| - 1]);
      assert s[..|s| - 1][|s| - 1 - k..] == s[|s| - 1 - k..|s| - 1];
      1 + k
  }

  function TrimStart(s: string): (r: string)
    ensures |r| <= |s| && r == s[|s| - |r|..]
    ensures AllSpace(s[..|s| - |r|])
    ensures r == [] || !IsSpace(r[0])
  {
    s[LeadingSpaces(s)..]
  }

  function TrimEnd(s: string): (r: string)
    ensures |r| <= |s| && r == s[..|r|]
    ensures AllSpace(s[|r|..])
    ensures r == [] || !IsSpace(r[|r| - 1])
  {
    s[..|s| - TrailingSpaces(s)]
  }

  /** `s` is white space up to `k`, then `r`, then white space. */
  predicate SpacedAround(s: string, k: int, r: string) {
    0 <= k <= |s| - |r| && s[k..k + |r|] == r && AllSpace(s[..k]) && AllSpace(s[k + |r|..])
  }

  /** `s.trim()`: `s` is white space, then `r`, then white space, and `r`
      neither starts nor ends with white space. */
  function Trim(s: string): (r: string)
    ensures r == [] || (!IsSpace(r[0]) && !IsSpace(r[|r| - 1]))
    ensures exists k :: SpacedAround(s, k, r)
  {
    var t := TrimStart(s);
    var r := TrimEnd(t);
    var k := |s| - |t|;
    assert s[k..k + |r|] == r;
    assert s[k + |r|..] == t[|r|..];
    assert SpacedAround(s, k, r);
    r
  }

  /** Trimming leaves nothing exactly when the string is all white space. */
  lemma TrimEmptyIffBlank(s: string)
    ensures Trim(s) == [] <==> AllSpace(s)
  {
    if Trim(s) == [] {
      var k :| SpacedAround(s, k, []);
      forall i | 0 <= i < |s| ensures IsSpace(s[i]) {
        if i < k { assert s[..k][i] == s[i]; } else { assert s[k..][i - k] == s[i]; }
      }
    }
  }

  /** A trimmed string has no leading white space left to strip. */
  lemma TrimStartOfTrimmed(s: string)
    ensures TrimStart(Trim(s)) == Trim(s)
  {
    var r := Trim(s);
    if r != [] {
      assert LeadingSpaces(r) == 0;
    }
  }

  /** Trimming removes characters, never adds one. */
  lemma TrimAvoids(s: string, c: char)
    requires Avoids(s, c)
    ensures Avoids(Trim(s), c)
  {
    var r := Trim(s);
    var k :| SpacedAround(s, k, r);
    forall x | 0 <= x < |r| ensures r[x] != c {
      assert r[x] == s[k + x];
    }
  }

  /** A string with no white space at either end is its own trim. */
  lemma TrimOfTrimmed(s: string)
    requires s == [] || (!IsSpace(s[0]) && !IsSpace(s[|s| - 1]))
    ensures Trim(s) == s
  {
    if s != [] {
      assert LeadingSpaces(s) == 0;
      assert TrailingSpaces(s) == 0;
    }
  }

  /** `pat` occurs somewhere in `s`. */
  predicate Occurs(s: string, pat: string)
    decreases |s|
  {
    |pat| <= |s| && (s[..|pat|] == pat || (|s| > 0 && Occurs(s[1..], pat)))
  }

  /** `s.replaceAll(pat, rep)` for a non-empty string pattern: occurrences are
      found from left to right and do not overlap, and the text put in is not
      scanned again. */
  function ReplaceAllText(s: string, pat: string, rep: string): (r: string)
    requires |pat| > 0
    ensures !Occurs(s, pat) ==> r == s
    decreases |s|
  {
    if |s| < |pat| then s
    else if s[..|pat|] == pat then rep + ReplaceAllText(s[|pat|..], pat, rep)
    else [s[0]] + ReplaceAllText(s[1..], pat, rep)
  }

  /** `xs.indexOf(x)`: the first position of `x`, or -1. */
  function IndexOf<T(==)>(xs: seq<T>, x: T): (r: int)
    ensures r == -1 <==> x !in xs
    ensures r != -1 ==> 0 <= r < |xs| && xs[r] == x && x !in xs[..r]
  {
    if |xs| == 0 then -1
    else if xs[0] == x then 0
    else
      var k := IndexOf(xs[1..], x);
      if k == -1 then -1
      else
        assert xs[..k + 1] == [xs[0]] + xs[1..][..k];
        k + 1
  }

  function Count(s: string, c: char): nat {
    if |s| == 0 then 0 else (if s[0] == c then 1 else 0) + Count(s[1..], c)
  }

  lemma CountAppend(a: string, b: string, c: char)
    ensures Count(a + b, c) == Count(a, c) + Count(b, c)
  {
    if |a| == 0 {
      assert a + b == b;
    } else {
      assert (a + b)[0] == a[0];
      assert (a + b)[1..] == a[1..] + b;
      CountAppend(a[1..], b, c);
    }
  }

  lemma CountNone(s: string, c: char)
    requires Avoids(s, c)
    ensures Count(s, c) == 0
  {
    if |s| > 0 { CountNone(s[1..], c); }
  }

  /** `s.split(sep)` for a one-character separator. */
  function Split(s: string, sep: char): (parts: seq<string>)
    ensures |parts| >= 1
    ensures forall k :: 0 <= k < |parts| ==> Avoids(parts[k], sep)
    decreases |s|
  {
    var k := IndexOf(s, sep);
    if k == -1 then
      AbsentAvoids(s, sep);
      [s]
    else
      AbsentAvoids(s[..k], sep);
      [s[..k]] + Split(s[k + 1..], sep)
  }

  lemma AbsentAvoids(s: string, c: char)
    requires c !in s
    ensures Avoids(s, c)
  {
    forall i | 0 <= i < |s| ensures s[i] != c {
      assert s[i] in s;
    }
  }

  /** `parts.join(sep)`. */
  function Join(parts: seq<string>, sep: char): string {
    if |parts| == 0 then ""
    else if |parts| == 1 then parts[0]
    else parts[0] + [sep] + Join(parts[1..], sep)
  }

  /** Splitting and joining on the same separator gives back the string. */
  lemma {:induction false} JoinSplit(s: string, sep: char)
    ensures Join(Split(s, sep), sep) == s
    decreases |s|
  {
    var k := IndexOf(s, sep);
    if k != -1 {
      var rest := Split(s[k + 1..], sep);
      assert Split(s, sep) == [s[..k]] + rest;
      JoinSplit(s[k + 1..], sep);
      assert ([s[..k]] + rest)[1..] == rest;
      assert Join([s[..k]] + rest, sep) == s[..k] + [sep] + Join(rest, sep);
      assert s == s[..k] + [sep] + s[k + 1..];
    }
  }

  /** The first `x` in `xs` is at `i` when `xs[i]` is `x` and no earlier
      element is. */
  lemma {:induction false} IndexOfAt<T>(xs: seq<T>, x: T, i: nat)
    requires i < |xs| && xs[i] == x && x !in xs[..i]
    ensures IndexOf(xs, x) == i
  {
    if i > 0 {
      assert xs[0] in xs[..i];
      assert xs[1..][..i - 1] == xs[..i][1..];
      IndexOfAt(xs[1..], x, i - 1);
    }
  }

  /** An occurrence of `x` at `k` bounds the first one from above. */
  lemma {:induction false} IndexOfAtMost<T>(xs: seq<T>, x: T, k: nat)
    requires k < |xs| && xs[k] == x
    ensures 0 <= IndexOf(xs, x) <= k
  {
    if xs[0] != x {
      IndexOfAtMost(xs[1..], x, k - 1);
    }
  }

  /** No `x` before `k` bounds the first one from below. */
  lemma {:induction false} IndexOfAtLeast<T>(xs: seq<T>, x: T, k: nat)
    requires k <= |xs| && x in xs && x !in xs[..k]
    ensures IndexOf(xs, x) >= k
  {
    if k > 0 {
      assert xs[0] == xs[..k][0];
      assert xs[1..][..k - 1] == xs[..k][1..];
      var j :| 0 <= j < |xs| && xs[j] == x;
      assert j != 0;
      assert xs[1..][j - 1] == x;
      IndexOfAtLeast(xs[1..], x, k - 1);
    }
  }

  /** A separator-free piece, the separator and more: the piece comes first. */
  lemma SplitCons(p: string, sep: char, rest: string)
    requires Avoids(p, sep)
    ensures Split(p + [sep] + rest, sep) == [p] + Split(rest, sep)
  {
    var s := p + [sep] + rest;
    assert s[..|p|] == p;
    assert sep !in p;
    IndexOfAt(s, sep, |p|);
    assert s[|p| + 1..] == rest;
  }

  /** A separator-free string splits into itself. */
  lemma SplitAlone(p: string, sep: char)
    requires Avoids(p, sep)
    ensures Split(p, sep) == [p]
  {
    assert sep !in p;
  }

  /** Joining separator-free pieces and splitting again gives the pieces. */
  lemma {:induction false} SplitJoin(parts: seq<string>, sep: char)
    requires |parts| >= 1
    requires forall k :: 0 <= k < |parts| ==> Avoids(parts[k], sep)
    ensures Split(Join(parts, sep), sep) == parts
  {
    var p := parts[0];
    assert Avoids(p, sep);
    if |parts| == 1 {
      SplitAlone(p, sep);
    } else {
      var rest := Join(parts[1..], sep);
      assert Join(parts, sep) == p + [sep] + rest;
      SplitCons(p, sep, rest);
      SplitJoin(parts[1..], sep);
      assert parts == [p] + parts[1..];
    }
  }

  /** Split yields one more piece than there are separators. */
  lemma {:induction false} SplitCount(s: string, sep: char)
    ensures |Split(s, sep)| == Count(s, sep) + 1
    decreases |s|
  {
    var k := IndexOf(s, sep);
    if k == -1 {
      AbsentAvoids(s, sep);
      CountNone(s, sep);
    } else {
      var a, b := s[..k], s[k + 1..];
      assert s == a + [sep] + b;
      AbsentAvoids(a, sep);
      CountAround(a, sep, b);
      SplitCount(b, sep);
    }
  }

  /** A separator-free piece, one separator and more. */
  lemma CountAround(a: string, c: char, b: string)
    requires Avoids(a, c)
    ensures Count(a + [c] + b, c) == 1 + Count(b, c)
  {
    CountAppend(a + [c], b, c);
    CountAppend(a, [c], c);
    CountNone(a, c);
  }

  /** Joining separator-free pieces puts exactly |parts| - 1 separators in. */
  lemma {:induction false} JoinCount(parts: seq<string>, sep: char)
    requires |parts| >= 1
    requires forall k :: 0 <= k < |parts| ==> Avoids(parts[k], sep)
    ensures Count(Join(parts, sep), sep) == |parts| - 1
  {
    CountNone(parts[0], sep);
    if |parts| > 1 {
      JoinCount(parts[1..], sep);
      CountAppend(parts[0] + [sep], Join(parts[1..], sep), sep);
      CountAppend(parts[0], [sep], sep);
    }
  }

  // ---------------------------------------------------------------------------
  // Decimal numbers

  function DigitChar(d: nat): (c: char)
    requires d < 10
    ensures IsDigit(c) && c as int - '0' as int == d
  {
    ('0' as int + d) as char
  }

  predicate AllDigits(s: string) {
    forall i :: 0 <= i < |s| ==> IsDigit(s[i])
  }

  /** `String(n)` for a non-negative integer. */
  function NatToString(n: nat): (r: string)
    ensures |r| >= 1 && AllDigits(r)
    ensures |r| > 1 ==> r[0] != '0'
  {
    if n < 10 then [DigitChar(n)]
    else NatToString(n / 10) + [DigitChar(n % 10)]
  }

  /** `String(i)` for an integer. */
  function IntToString(i: int): string {
    if i < 0 then "-" + NatToString(-i) else NatToString(i)
  }

  function DigitsValue(s: string): nat
    requires AllDigits(s)
  {
    if |s| == 0 then 0
    else 10 * DigitsValue(s[..|s| - 1]) + (s[|s| - 1] as int - '0' as int)
  }

  /** Length of the longest run of decimal digits at the start of `s`. */
  function DigitPrefix(s: string): (n: nat)
    ensures n <= |s| && AllDigits(s[..n])
    ensures n < |s| ==> !IsDigit(s[n])
  {
    if |s| == 0 || !IsDigit(s[0]) then 0
    else
      var k := DigitPrefix(s[1..]);
      assert s[1..][..k] == s[1..k + 1];
      1 + k
  }

  /** `Number.parseInt(s, 10)`, `None` standing for NaN: leading white space,
      an optional sign, then the longest run of decimal digits (at least one). */
  function ParseInt(s: string): Option<int> {
    var t := TrimStart(s);
    var negative := |t| > 0 && t[0] == '-';
    var body := if |t| > 0 && (t[0] == '-' || t[0] == '+') then t[1..] else t;
    var n := DigitPrefix(body);
    if n == 0 then None
    else
      var v: int := DigitsValue(body[..n]);
      Some(if negative then -v else v)
  }

  lemma {:induction false} DigitsOfNatToString(n: nat)
    ensures DigitsValue(NatToString(n)) == n
  {
    if n >= 10 {
      DigitsOfNatToString(n / 10);
      var s := NatToString(n);
      assert s[..|s| - 1] == NatToString(n / 10);
    }
  }

  /** Reading back what `String` printed gives the same integer. */
  lemma ParseIntToString(i: int)
    ensures ParseInt(IntToString(i)) == Some(i)
  {
    var s := IntToString(i);
    var d := NatToString(if i < 0 then -i else i);
    assert LeadingSpaces(s) == 0;
    var body := if i < 0 then s[1..] else s;
    assert body == d;
    assert DigitPrefix(body) == |d| by { DigitPrefixAll(d); }
    assert body[..|d|] == d;
    DigitsOfNatToString(if i < 0 then -i else i);
  }

  lemma {:induction false} DigitPrefixAll(s: string)
    requires AllDigits(s)
    ensures DigitPrefix(s) == |s|
  {
    if |s| > 0 { DigitPrefixAll(s[1..]); }
  }

  lemma {:induction false} DigitPrefixStops(d: string, rest: string)
    requires AllDigits(d)
    requires rest == [] || !IsDigit(rest[0])
    ensures DigitPrefix(d + rest) == |d|
  {
    if |d| > 0 {
      assert (d + rest)[1..] == d[1..] + rest;
      DigitPrefixStops(d[1..], rest);
    }
  }

  lemma {:induction false} LeadingSpacesStop(s: string, k: nat)
    requires k < |s| && AllSpace(s[..k]) && !IsSpace(s[k])
    ensures LeadingSpaces(s) == k
  {
    if k > 0 {
      assert s[1..][..k - 1] == s[1..k];
      LeadingSpacesStop(s[1..], k - 1);
    }
  }

  /** `parseInt` skips leading white space, reads an optional sign and the
      longest run of digits, and ignores whatever follows the run: `"12abc"`
      reads as 12. */
  lemma ParseIntReads(ws: string, sign: string, d: string, rest: string)
    requires AllSpace(ws) && (sign == "" || sign == "-" || sign == "+")
    requires |d| > 0 && AllDigits(d)
    requires rest == [] || !IsDigit(rest[0])
    ensures ParseInt(ws + sign + d + rest) == Some(if sign == "-" then -(DigitsValue(d) as int) else DigitsValue(d))
  {
    var body := d + rest;
    var t := sign + body;
    TrimStartSkips(ws, sign, body);
    assert ws + sign + d + rest == ws + sign + body;
    DigitPrefixStops(d, rest);
    assert body[..|d|] == d;
    if sign == "" {
      assert t == body;
    } else {
      assert t[0] == sign[0] && t[1..] == body;
    }
    ParseIntTrimmed(ws + sign + d + rest, t, d, body);
  }

  /** `parseInt("12abc")` is 12. */
  lemma ParseIntExample()
    ensures ParseInt("12abc") == Some(12)
  {
    assert DigitsValue("12") == 12 by {
      assert "12"[..1] == "1";
      assert "1"[..0] == "";
    }
    assert AllDigits("12") && !IsDigit("abc"[0]);
    ParseIntSigned("12abc", "", "12", "abc");
  }

  /** The same without leading white space, as in trimmed text. */
  lemma ParseIntSigned(s: string, sign: string, d: string, rest: string)
    requires s == sign + d + rest && (sign == "" || sign == "-" || sign == "+")
    requires |d| > 0 && AllDigits(d)
    requires rest == [] || !IsDigit(rest[0])
    ensures ParseInt(s) == Some(if sign == "-" then -(DigitsValue(d) as int) else DigitsValue(d))
  {
    SignedHead(s, sign, d, rest);
    SignedTrimmed(s, sign, d, rest);
    SignedBody(s, sign, d, rest);
    DigitPrefixStops(d, rest);
    DigitsBefore(d, rest);
    ParseIntTrimmed(s, s, d, d + rest);
  }

  lemma SignedHead(s: string, sign: string, d: string, rest: string)
    requires s == sign + d + rest && (sign == "" || sign == "-" || sign == "+")
    requires |d| > 0 && AllDigits(d)
    ensures s[0] == '-' <==> sign == "-"
  {
    if sign == "" {
      assert s[0] == d[0];
    } else {
      assert s[0] == sign[0];
    }
  }

  lemma SignedTrimmed(s: string, sign: string, d: string, rest: string)
    requires s == sign + d + rest && (sign == "" || sign == "-" || sign == "+")
    requires |d| > 0 && AllDigits(d)
    ensures TrimStart(s) == s
  {
    if sign == "" {
      assert s[0] == d[0];
    } else {
      assert s[0] == sign[0];
    }
    NoLeadingSpace(s);
  }

  lemma SignedBody(s: string, sign: string, d: string, rest: string)
    requires s == sign + d + rest && (sign == "" || sign == "-" || sign == "+")
    ensures s == d + rest || (|s| > 0 && (s[0] == '-' || s[0] == '+') && s[1..] == d + rest)
  {
    if sign != "" {
      assert s[1..] == d + rest;
    }
  }

  lemma DigitsBefore(d: string, rest: string)
    ensures (d + rest)[..|d|] == d
  {
  }

  lemma NoLeadingSpace(s: string)
    requires |s| > 0 && !IsSpace(s[0])
    ensures TrimStart(s) == s
  {
  }

  lemma ParseIntTrimmed(s: string, t: string, d: string, body: string)
    requires TrimStart(s) == t && |d| > 0 && AllDigits(d)
    requires DigitPrefix(body) == |d| && body[..|d|] == d
    requires t == body || (|t| > 0 && (t[0] == '-' || t[0] == '+') && t[1..] == body)
    ensures ParseInt(s) == Some(if t[0] == '-' then -(DigitsValue(d) as int) else DigitsValue(d))
  {
  }

  lemma TrimStartSkips(ws: string, sign: string, body: string)
    requires AllSpace(ws) && (sign == "" || sign == "-" || sign == "+")
    requires |body| > 0 && IsDigit(body[0])
    ensures TrimStart(ws + sign + body) == sign + body
  {
    var s := ws + sign + body;
    assert s[..|ws|] == ws && s[|ws|] == (sign + body)[0];
    LeadingSpacesStop(s, |ws|);
    assert s[|ws|..] == sign + body;
  }

  /** A digit preceded by nothing but white space and at most one sign is read. */
  lemma ParseIntAtDigit(s: string, k: nat)
    requires k < |s| && IsDigit(s[k])
    requires AllSpace(s[..k]) || (0 < k && (s[k - 1] == '-' || s[k - 1] == '+') && AllSpace(s[..k - 1]))
    ensures ParseInt(s).Some?
  {
    var t := TrimStart(s);
    if AllSpace(s[..k]) {
      LeadingSpacesStop(s, k);
      assert t[0] == s[k];
    } else {
      LeadingSpacesStop(s, k - 1);
      assert t[1..][0] == s[k];
    }
  }

  /** `parseInt` gives NaN exactly when no digit of `s` is preceded by
      nothing but white space and at most one sign. */
  lemma ParseIntNaN(s: string)
    ensures ParseInt(s).None? <==>
            forall k :: 0 <= k < |s| && IsDigit(s[k]) ==>
              !AllSpace(s[..k]) && !(0 < k && (s[k - 1] == '-' || s[k - 1] == '+') && AllSpace(s[..k - 1]))
  {
    var n := LeadingSpaces(s);
    var t := TrimStart(s);
    if ParseInt(s).Some? {
      if |t| > 0 && (t[0] == '-' || t[0] == '+') {
        assert IsDigit(t[1..][0]);
        assert s[n + 1] == t[1] && s[n] == t[0] && s[..n + 1 - 1] == s[..n];
      } else {
        assert IsDigit(s[n]);
      }
    } else {
      forall k | 0 <= k < |s| && IsDigit(s[k])
        ensures !AllSpace(s[..k]) && !(0 < k && (s[k - 1] == '-' || s[k - 1] == '+') && AllSpace(s[..k - 1]))
      {
        if AllSpace(s[..k]) || (0 < k && (s[k - 1] == '-' || s[k - 1] == '+') && AllSpace(s[..k - 1])) {
          ParseIntAtDigit(s, k);
        }
      }
    }
  }

  /** `String` is injective on integers. */
  lemma IntToStringInjective(a: int, b: int)
    requires IntToString(a) == IntToString(b)
    ensures a == b
  {
    ParseIntToString(a);
    ParseIntToString(b);
  }

  /** `xs.map(x => `"${x}"`).join(', ')`. */
  function QuotedList(xs: seq<string>): string {
    if |xs| == 0 then ""
    else if |xs| == 1 then "\"" + xs[0] + "\""
    else "\"" + xs[0] + "\", " + QuotedList(xs[1..])
  }

  /** Reads a list written as `"a", "b", "c"` back into its items. */
  function ReadQuotedList(m: string): (r: Option<seq<string>>)
    ensures r.Some? && |m| > 0 ==> |r.value| > 0
    decreases |m|
  {
    if |m| == 0 then Some([])
    else if m[0] != '"' || '"' !in m[1..] then None
    else
      var e := 1 + IndexOf(m[1..], '"');
      var rest := m[e + 1..];
      if |rest| == 0 then Some([m[1..e]])
      else if |rest| >= 3 && rest[..2] == ", " then
        var more := ReadQuotedList(rest[2..]);
        if more.Some? then Some([m[1..e]] + more.value) else None
      else None
  }

  lemma QuotedListNonEmpty(xs: seq<string>)
    requires |xs| > 0
    ensures |QuotedList(xs)| >= 2
  {
  }

  /** The first `c` in `x + [c] + tail` is the one after `x` when `x` has none. */
  lemma IndexPast(x: string, c: char, tail: string)
    requires Avoids(x, c)
    ensures IndexOf(x + [c] + tail, c) == |x|
  {
    var xs := x + [c] + tail;
    assert xs[|x|] == c;
    assert forall k :: 0 <= k < |x| ==> xs[k] == x[k];
    var r := IndexOf(xs, c);
    assert forall k :: 0 <= k < r ==> xs[..r][k] == xs[k];
  }

  /** Reading one item: the text up to the next quote, then either the end
      or `, ` and more items. */
  lemma ReadQuotedStep(x: string, tail: string)
    requires Avoids(x, '"')
    ensures ReadQuotedList("\"" + x + "\"" + tail)
            == if |tail| == 0 then Some([x])
               else if |tail| >= 3 && tail[..2] == ", " then
                 (if ReadQuotedList(tail[2..]).Some? then Some([x] + ReadQuotedList(tail[2..]).value) else None)
               else None
  {
    var m := "\"" + x + "\"" + tail;
    assert m[1..] == x + ['"'] + tail;
    IndexPast(x, '"', tail);
    var e := 1 + |x|;
    assert m[1..e] == x;
    assert m[e + 1..] == tail;
    assert m[0] == '"' && m[1..][|x|] == '"';
  }

  /** A list of two or more items is its first item, `, ` and the rest. */
  lemma QuotedListCons(xs: seq<string>)
    requires |xs| > 1
    ensures QuotedList(xs) == "\"" + xs[0] + "\"" + (", " + QuotedList(xs[1..]))
  {
  }

  /** Reading an item followed by `, ` and a non-empty remainder. */
  lemma ReadQuotedCons(x: string, rest: string)
    requires Avoids(x, '"') && |rest| > 0
    ensures ReadQuotedList("\"" + x + "\"" + (", " + rest))
            == if ReadQuotedList(rest).Some? then Some([x] + ReadQuotedList(rest).value) else None
  {
    var tail := ", " + rest;
    assert tail[..2] == ", " && tail[2..] == rest;
    ReadQuotedStep(x, tail);
  }

  /** The items of a list whose items hold no `"` can be read back from it. */
  lemma {:induction false} QuotedListReads(xs: seq<string>)
    requires forall k :: 0 <= k < |xs| ==> Avoids(xs[k], '"')
    ensures ReadQuotedList(QuotedList(xs)) == Some(xs)
    decreases |xs|
  {
    if |xs| == 1 {
      ReadQuotedStep(xs[0], "");
      assert QuotedList(xs) == "\"" + xs[0] + "\"" + "";
      assert xs == [xs[0]];
    } else if |xs| > 1 {
      var rest := QuotedList(xs[1..]);
      QuotedListCons(xs);
      QuotedListNonEmpty(xs[1..]);
      ReadQuotedCons(xs[0], rest);
      QuotedListReads(xs[1..]);
      assert [xs[0]] + xs[1..] == xs;
    }
  }
}

=== FILE: validator.dfy ===
/** The lightweight source-text checks of the challenges: a fixed chain of
    rewrites from JSX spelling to HTML spelling, then scans for `<img>`,
    `<input>`/`<label>` and clickable `<div>`/`<span>` tags with pass/fail
    verdicts. Every regular expression is a fixed `Pattern`; next to each is
    its meaning in plain string terms, with a lemma tying the two. */
module Validator {
  import opened Base
  import opened Text
  import opened Pattern
  import Seqs

  datatype ValidationResult = ValidationResult(success: bool, message: string)

  // ---------------------------------------------------------------------------
  // Double-quoted attribute values

  /** The text between the `"` at `q` and the next `"`, when both exist. */
  function QuotedText(s: string, q: nat): (r: Option<string>)
    ensures r.Some? ==> q < |s| && s[q] == '"' && q + 1 + |r.value| < |s| && s[q + 1 + |r.value|] == '"'
                        && r.value == s[q + 1..q + 1 + |r.value|] && Avoids(r.value, '"')
    ensures r.None? && q < |s| && s[q] == '"' ==> Avoids(s[q + 1..], '"')
  {
    if q < |s| && s[q] == '"' && '"' in s[q + 1..] then
      var e := IndexOf(s[q + 1..], '"');
      assert s[q + 1..][..e] == s[q + 1..q + 1 + e];
      Some(s[q + 1..][..e])
    else None
  }

  /** A quoted value that is not empty and not only white space. */
  predicate NonBlankQuoted(s: string, q: nat) {
    QuotedText(s, q).Some? && !AllSpace(QuotedText(s, q).value)
  }

  /** `[^"]*` after an opening quote stops at the closing quote, or at the end. */
  lemma QuoteRunEnd(s: string, q: nat)
    requires q < |s| && s[q] == '"'
    ensures RunEnd(Except({'"'}), s, q + 1)
            == if QuotedText(s, q).Some? then q + 1 + |QuotedText(s, q).value| else |s|
  {
    var r := QuotedText(s, q);
    if r.Some? {
      var v := r.value;
      forall x | q + 1 <= x < q + 1 + |v| ensures InClass(s[x], Except({'"'})) {
        assert s[x] == v[x - q - 1];
      }
      RunEndAt(Except({'"'}), s, q + 1, q + 1 + |v|);
    } else {
      forall x | q + 1 <= x < |s| ensures InClass(s[x], Except({'"'})) {
        assert s[x] == s[q + 1..][x - q - 1];
      }
      RunEndAt(Except({'"'}), s, q + 1, |s|);
    }
  }

  /** The look-ahead `(?!\s*")` after an opening quote fails exactly when the
      quoted value is blank. */
  lemma BlankRunEnd(s: string, q: nat)
    requires QuotedText(s, q).Some?
    ensures (RunEnd(Space, s, q + 1) < |s| && s[RunEnd(Space, s, q + 1)] == '"')
            <==> AllSpace(QuotedText(s, q).value)
  {
    var v := QuotedText(s, q).value;
    var close := q + 1 + |v|;
    var j := RunEnd(Space, s, q + 1);
    if AllSpace(v) {
      forall x | q + 1 <= x < close ensures InClass(s[x], Space) {
        assert s[x] == v[x - q - 1];
      }
      RunEndAt(Space, s, q + 1, close);
    }
    forall x | q + 1 <= x < close ensures s[x] != '"' {
      assert s[x] == v[x - q - 1];
    }
    if j < |s| && s[j] == '"' {
      forall x | 0 <= x < |v| ensures IsSpace(v[x]) {
        assert v[x] == s[q + 1 + x];
        assert InClass(s[q + 1 + x], Space);
      }
    }
  }

  /** `(?!\s*")[^"]+"` after an opening quote. */
  lemma ValueTailMatch(s: string, q: nat)
    requires q < |s| && s[q] == '"'
    ensures MatchFrom([NotBlankThen('"'), Run(Except({'"'}), 1, false), Lit('"')], s, q + 1).Some?
            <==> NonBlankQuoted(s, q)
  {
    var run := [Run(Except({'"'}), 1, false), Lit('"')];
    assert [NotBlankThen('"'), Run(Except({'"'}), 1, false), Lit('"')] == [NotBlankThen('"')] + run;
    assert run == [Run(Except({'"'}), 1, false)] + [Lit('"')];
    MatchNotBlankStep('"', run, s, q + 1);
    MatchRunStep(Except({'"'}), 1, [Lit('"')], s, q + 1);
    var k := RunEnd(Except({'"'}), s, q + 1);
    MatchLitStep('"', [], s, k);
    QuoteRunEnd(s, q);
    if QuotedText(s, q).Some? {
      BlankRunEnd(s, q);
      if |QuotedText(s, q).value| == 0 { assert AllSpace(QuotedText(s, q).value); }
    }
  }

  /** What follows `alt=`: `\s*"(?!\s*")[^"]+"`. */
  function AltTail(): Pattern {
    [Run(Space, 0, false), Lit('"'), NotBlankThen('"'), Run(Except({'"'}), 1, false), Lit('"')]
  }

  lemma AltTailMatch(s: string, e: nat)
    requires e <= |s|
    ensures MatchFrom(AltTail(), s, e).Some? <==> NonBlankQuoted(s, RunEnd(Space, s, e))
  {
    var value := [NotBlankThen('"'), Run(Except({'"'}), 1, false), Lit('"')];
    assert AltTail() == [Run(Space, 0, false)] + ([Lit('"')] + value);
    var q := RunEnd(Space, s, e);
    MatchRunStep(Space, 0, [Lit('"')] + value, s, e);
    MatchLitStep('"', value, s, q);
    if q < |s| && s[q] == '"' {
      ValueTailMatch(s, q);
    }
  }

  /** `/\balt\s*=\s*"(?!\s*")[^"]+"/i`. */
  function AltPattern(): Pattern {
    Assign("alt", true) + AltTail()
  }

  /** At `p` starts an `alt` attribute (any case) whose double-quoted value is
      neither empty nor only white space. */
  predicate AltAt(s: string, p: nat) {
    && AssignEnd(s, p, "alt", true).Some?
    && AssignEnd(s, p, "alt", true).value <= |s|
    && NonBlankQuoted(s, RunEnd(Space, s, AssignEnd(s, p, "alt", true).value))
  }

  lemma AltMatch(s: string, p: nat)
    requires p <= |s|
    ensures MatchFrom(AltPattern(), s, p).Some? <==> AltAt(s, p)
  {
    AssignMatch("alt", true, AltTail(), s, p);
    var e := AssignEnd(s, p, "alt", true);
    if e.Some? { AltTailMatch(s, e.value); }
  }

  /** `altOk`: the tag passes the alt regex. */
  predicate AltOk(tag: string) {
    Test([AltPattern()], tag)
  }

  /** The tag carries a non-blank double-quoted `alt`. */
  predicate HasAlt(tag: string) {
    exists p :: 0 <= p <= |tag| && AltAt(tag, p)
  }

  lemma AltOkIff(tag: string)
    ensures AltOk(tag) <==> HasAlt(tag)
  {
    TestOne(AltPattern(), tag);
    if AltOk(tag) {
      var q :| 0 <= q <= |tag| && MatchFrom(AltPattern(), tag, q).Some?;
      AltMatch(tag, q);
    }
    if HasAlt(tag) {
      var p :| 0 <= p <= |tag| && AltAt(tag, p);
      AltMatch(tag, p);
    }
  }

  // ---------------------------------------------------------------------------
  // normalizeCode

  /** Each word of `ws` in turn, each after optional white space. */
  function Chain(ws: seq<string>, fold: bool): Pattern {
    if |ws| == 0 then [] else Spaced(ws[0], fold) + Chain(ws[1..], fold)
  }

  function Concat(ws: seq<string>): string {
    if |ws| == 0 then "" else ws[0] + Concat(ws[1..])
  }

  /** `/\bname\s*=\s*w1\s*w2.../g`: an assignment to `name` whose value is
      the words `ws`, white space allowed before each. */
  function AssignChain(name: string, ws: seq<string>): Regex {
    [Assign(name, false) + Chain(ws, false)]
  }

  /** The words after `=` in each pattern, in the order the rewrites run. */
  const HtmlForWords: seq<string> := ["\""]
  const TabIndexBracedWords: seq<string> := ["{", "0", "}"]
  const TabIndexDoubleWords: seq<string> := ["\"0\""]
  const TabIndexSingleWords: seq<string> := ["'0'"]
  const RoleDoubleWords: seq<string> := ["{", "\"button\"", "}"]
  const RoleSingleWords: seq<string> := ["{", "'button'", "}"]

  /** `/\bhtmlFor\s*=\s*"/g` */
  function HtmlForRe(): Regex {
    AssignChain("htmlFor", HtmlForWords)
  }

  /** `/\btabIndex\s*=\s*\{\s*0\s*\}/g` */
  function TabIndexBracedRe(): Regex {
    AssignChain("tabIndex", TabIndexBracedWords)
  }

  /** `/\btabIndex\s*=\s*"0"/g` */
  function TabIndexDoubleRe(): Regex {
    AssignChain("tabIndex", TabIndexDoubleWords)
  }

  /** `/\btabIndex\s*=\s*'0'/g` */
  function TabIndexSingleRe(): Regex {
    AssignChain("tabIndex", TabIndexSingleWords)
  }

  /** `/\brole\s*=\s*\{\s*"button"\s*\}/g` */
  function RoleDoubleRe(): Regex {
    AssignChain("role", RoleDoubleWords)
  }

  /** `/\brole\s*=\s*\{\s*'button'\s*\}/g` */
  function RoleSingleRe(): Regex {
    AssignChain("role", RoleSingleWords)
  }

  const ForText := "for=\""
  const TabIndexText := "tabindex=\"0\""
  const RoleText := "role=\"button\""

  /** `normalizeCode`: six global replacements, in this order. */
  function NormalizeCode(code: string): string {
    NormalizeWith(code, ForText, TabIndexText, RoleText)
  }

  /** The six replacements with their replacement texts as parameters, so
      that proofs about them need not evaluate the rewrites on constants. */
  function NormalizeWith(code: string, forText: string, tabIndexText: string, roleText: string): string {
    var s1 := ReplaceAll(HtmlForRe(), [Literal(forText)], code);
    var s2 := ReplaceAll(TabIndexBracedRe(), [Literal(tabIndexText)], s1);
    var s3 := ReplaceAll(TabIndexDoubleRe(), [Literal(tabIndexText)], s2);
    var s4 := ReplaceAll(TabIndexSingleRe(), [Literal(tabIndexText)], s3);
    var s5 := ReplaceAll(RoleDoubleRe(), [Literal(roleText)], s4);
    ReplaceAll(RoleSingleRe(), [Literal(roleText)], s5)
  }

  /** Text without `=` is never rewritten. */
  lemma NormalizeWithoutEquals(code: string)
    requires '=' !in code
    ensures NormalizeCode(code) == code
  {
    AssignMentionsEquals("htmlFor", false, Chain(["\""], false));
    AssignMentionsEquals("tabIndex", false, Chain(["{", "0", "}"], false));
    AssignMentionsEquals("tabIndex", false, Chain(["\"0\""], false));
    AssignMentionsEquals("tabIndex", false, Chain(["'0'"], false));
    AssignMentionsEquals("role", false, Chain(["{", "\"button\"", "}"], false));
    AssignMentionsEquals("role", false, Chain(["{", "'button'", "}"], false));
    Untouched(HtmlForRe(), [Literal(ForText)], code, '=');
    Untouched(TabIndexBracedRe(), [Literal(TabIndexText)], code, '=');
    Untouched(TabIndexDoubleRe(), [Literal(TabIndexText)], code, '=');
    Untouched(TabIndexSingleRe(), [Literal(TabIndexText)], code, '=');
    Untouched(RoleDoubleRe(), [Literal(RoleText)], code, '=');
    Untouched(RoleSingleRe(), [Literal(RoleText)], code, '=');
  }

  /** No pattern of `normalizeCode` matches anywhere in `t`. */
  predicate Normal(t: string) {
    && !Test(HtmlForRe(), t) && !Test(TabIndexBracedRe(), t) && !Test(TabIndexDoubleRe(), t)
    && !Test(TabIndexSingleRe(), t) && !Test(RoleDoubleRe(), t) && !Test(RoleSingleRe(), t)
  }

  /** Text in which none of the six patterns matches comes back unchanged. */
  lemma NormalizeUnmatched(code: string)
    requires Normal(code)
    ensures NormalizeCode(code) == code
  {
    assert code[0..] == code;
    ReplaceNoMatch(HtmlForRe(), [Literal(ForText)], code, 0);
    ReplaceNoMatch(TabIndexBracedRe(), [Literal(TabIndexText)], code, 0);
    ReplaceNoMatch(TabIndexDoubleRe(), [Literal(TabIndexText)], code, 0);
    ReplaceNoMatch(TabIndexSingleRe(), [Literal(TabIndexText)], code, 0);
    ReplaceNoMatch(RoleDoubleRe(), [Literal(RoleText)], code, 0);
    ReplaceNoMatch(RoleSingleRe(), [Literal(RoleText)], code, 0);
  }

  /** `w` right at `i`, with no white space before it. */
  lemma SpacedAt(s: string, i: nat, w: string)
    requires |w| > 0 && !IsSpace(w[0])
    requires i + |w| <= |s| && s[i..i + |w|] == w
    ensures SpacedEnd(s, i, w, false) == Some(i + |w|)
  {
    assert s[i] == w[0];
    RunEndAt(Space, s, i, i);
  }

  /** Words following each other directly match the chain to the end. */
  lemma {:induction false} ChainWhole(ws: seq<string>, s: string, i: nat)
    requires i <= |s| && s[i..] == Concat(ws)
    requires forall k :: 0 <= k < |ws| ==> |ws[k]| > 0 && !IsSpace(ws[k][0])
    ensures MatchFrom(Chain(ws, false), s, i) == Some(Match(|s|, []))
    decreases |ws|
  {
    if |ws| > 0 {
      var w := ws[0];
      assert s[i..i + |w|] == w by { assert s[i..][..|w|] == w; }
      assert s[i + |w|..] == Concat(ws[1..]) by { assert s[i + |w|..] == s[i..][|w|..]; }
      ChainWhole(ws[1..], s, i + |w|);
      ChainStep(ws, s, i);
    }
  }

  /** The step of `ChainWhole`: the first word, then the rest of the chain. */
  lemma ChainStep(ws: seq<string>, s: string, i: nat)
    requires |ws| > 0 && |ws[0]| > 0 && !IsSpace(ws[0][0])
    requires i + |ws[0]| <= |s| && s[i..i + |ws[0]|] == ws[0]
    requires MatchFrom(Chain(ws[1..], false), s, i + |ws[0]|) == Some(Match(|s|, []))
    ensures MatchFrom(Chain(ws, false), s, i) == Some(Match(|s|, []))
  {
    SpacedAt(s, i, ws[0]);
    SpacedMatch(ws[0], false, Chain(ws[1..], false), s, i);
  }

  /** A text that is exactly `name=` followed by the words is one whole match. */
  lemma AssignChainWhole(name: string, ws: seq<string>, s: string)
    requires |name| > 0 && IsWordChar(name[0])
    requires forall k :: 0 <= k < |ws| ==> |ws[k]| > 0 && !IsSpace(ws[k][0])
    requires s == name + "=" + Concat(ws)
    ensures MatchAt(AssignChain(name, ws), s, 0) == Some(Match(|s|, []))
  {
    assert s[..|name|] == name;
    AssignAtStart(s, name);
    MatchAtOne(Assign(name, false) + Chain(ws, false), s, 0);
    AssignMatch(name, false, Chain(ws, false), s, 0);
    assert s[|name| + 1..] == Concat(ws);
    ChainWhole(ws, s, |name| + 1);
  }

  lemma {:induction false} ChainMentions(ws: seq<string>, j: nat, k: nat)
    requires j < |ws| && k < |ws[j]|
    ensures Mentions(Chain(ws, false), ws[j][k])
    decreases j
  {
    if j == 0 {
      MentionsWord(ws[0], k);
      MentionsRight([Run(Space, 0, false)], Word(ws[0]), ws[0][k]);
      MentionsLeft(Spaced(ws[0], false), Chain(ws[1..], false), ws[0][k]);
    } else {
      ChainMentions(ws[1..], j - 1, k);
      MentionsRight(Spaced(ws[0], false), Chain(ws[1..], false), ws[j][k]);
    }
  }

  /** Characters each rewrite needs. */
  lemma AssignChainMentionsName(name: string, ws: seq<string>, k: nat)
    requires k < |name|
    ensures Mentions(AssignChain(name, ws)[0], name[k])
  {
    AssignMentionsName(name, Chain(ws, false), k);
  }

  lemma AssignChainMentionsWord(name: string, ws: seq<string>, j: nat, k: nat)
    requires j < |ws| && k < |ws[j]|
    ensures Mentions(AssignChain(name, ws)[0], ws[j][k])
  {
    ChainMentions(ws, j, k);
    MentionsRight(Assign(name, false), Chain(ws, false), ws[j][k]);
  }

  lemma HtmlForMentions()
    ensures Mentions(HtmlForRe()[0], 'F')
  {
    AssignChainMentionsName("htmlFor", ["\""], 4);
  }

  lemma TabIndexBracedMentions()
    ensures Mentions(TabIndexBracedRe()[0], 'I') && Mentions(TabIndexBracedRe()[0], '{')
  {
    AssignChainMentionsName("tabIndex", ["{", "0", "}"], 3);
    AssignChainMentionsWord("tabIndex", ["{", "0", "}"], 0, 0);
  }

  lemma TabIndexDoubleMentions()
    ensures Mentions(TabIndexDoubleRe()[0], 'I') && Mentions(TabIndexDoubleRe()[0], '"')
  {
    AssignChainMentionsName("tabIndex", ["\"0\""], 3);
    AssignChainMentionsWord("tabIndex", ["\"0\""], 0, 0);
  }

  lemma TabIndexSingleMentions()
    ensures Mentions(TabIndexSingleRe()[0], 'I')
  {
    AssignChainMentionsName("tabIndex", ["'0'"], 3);
  }

  lemma RoleDoubleMentions()
    ensures Mentions(RoleDoubleRe()[0], '{') && Mentions(RoleDoubleRe()[0], '"')
  {
    AssignChainMentionsWord("role", ["{", "\"button\"", "}"], 0, 0);
    AssignChainMentionsWord("role", ["{", "\"button\"", "}"], 1, 0);
  }

  lemma RoleSingleMentions()
    ensures Mentions(RoleSingleRe()[0], '{')
  {
    AssignChainMentionsWord("role", ["{", "'button'", "}"], 0, 0);
  }

  /** Characters each rewrite's pattern needs. */
  lemma RewritesMention()
    ensures Mentions(HtmlForRe()[0], 'F')
    ensures Mentions(TabIndexBracedRe()[0], 'I') && Mentions(TabIndexBracedRe()[0], '{')
    ensures Mentions(TabIndexDoubleRe()[0], 'I') && Mentions(TabIndexDoubleRe()[0], '"')
    ensures Mentions(TabIndexSingleRe()[0], 'I')
    ensures Mentions(RoleDoubleRe()[0], '{') && Mentions(RoleDoubleRe()[0], '"')
    ensures Mentions(RoleSingleRe()[0], '{')
  {
    HtmlForMentions();
    TabIndexBracedMentions();
    TabIndexDoubleMentions();
    TabIndexSingleMentions();
    RoleDoubleMentions();
    RoleSingleMentions();
  }

  /** A text that is one whole match of a rewrite becomes the replacement. */
  lemma Rewritten(re: Regex, s: string, out: string)
    requires |s| > 0 && MatchAt(re, s, 0) == Some(Match(|s|, []))
    ensures ReplaceAll(re, [Literal(out)], s) == out
  {
    WholeMatchReplaced(re, [Literal(out)], s, []);
    assert Expand([Literal(out)], []) == out + Expand([], []);
  }

  /** The rewrites after the first leave text without `I` and `{` alone. */
  lemma KeptAfterHtmlFor(x: string, t: string, r: string)
    requires 'I' !in x && '{' !in x
    ensures ReplaceAll(TabIndexBracedRe(), [Literal(t)], x) == x
    ensures ReplaceAll(TabIndexDoubleRe(), [Literal(t)], x) == x
    ensures ReplaceAll(TabIndexSingleRe(), [Literal(t)], x) == x
    ensures ReplaceAll(RoleDoubleRe(), [Literal(r)], x) == x
    ensures ReplaceAll(RoleSingleRe(), [Literal(r)], x) == x
  {
    RewritesMention();
    Untouched(TabIndexBracedRe(), [Literal(t)], x, 'I');
    Untouched(TabIndexDoubleRe(), [Literal(t)], x, 'I');
    Untouched(TabIndexSingleRe(), [Literal(t)], x, 'I');
    Untouched(RoleDoubleRe(), [Literal(r)], x, '{');
    Untouched(RoleSingleRe(), [Literal(r)], x, '{');
  }

  lemma WholeHtmlForWith(s: string, f: string, t: string, r: string)
    requires |s| > 0 && MatchAt(HtmlForRe(), s, 0) == Some(Match(|s|, []))
    requires 'I' !in f && '{' !in f
    ensures NormalizeWith(s, f, t, r) == f
  {
    Rewritten(HtmlForRe(), s, f);
    KeptAfterHtmlFor(f, t, r);
  }

  lemma WholeTabIndexBracedWith(s: string, f: string, t: string, r: string)
    requires |s| > 0 && 'F' !in s
    requires MatchAt(TabIndexBracedRe(), s, 0) == Some(Match(|s|, []))
    requires 'I' !in t && '{' !in t
    ensures NormalizeWith(s, f, t, r) == t
  {
    RewritesMention();
    Untouched(HtmlForRe(), [Literal(f)], s, 'F');
    Rewritten(TabIndexBracedRe(), s, t);
    KeptAfterHtmlFor(t, t, r);
  }

  lemma WholeTabIndexDoubleWith(s: string, f: string, t: string, r: string)
    requires |s| > 0 && 'F' !in s && '{' !in s
    requires MatchAt(TabIndexDoubleRe(), s, 0) == Some(Match(|s|, []))
    requires 'I' !in t && '{' !in t
    ensures NormalizeWith(s, f, t, r) == t
  {
    RewritesMention();
    Untouched(HtmlForRe(), [Literal(f)], s, 'F');
    Untouched(TabIndexBracedRe(), [Literal(t)], s, '{');
    Rewritten(TabIndexDoubleRe(), s, t);
    KeptAfterHtmlFor(t, t, r);
  }

  lemma WholeTabIndexSingleWith(s: string, f: string, t: string, r: string)
    requires |s| > 0 && 'F' !in s && '{' !in s && '"' !in s
    requires MatchAt(TabIndexSingleRe(), s, 0) == Some(Match(|s|, []))
    requires 'I' !in t && '{' !in t
    ensures NormalizeWith(s, f, t, r) == t
  {
    RewritesMention();
    Untouched(HtmlForRe(), [Literal(f)], s, 'F');
    Untouched(TabIndexBracedRe(), [Literal(t)], s, '{');
    Untouched(TabIndexDoubleRe(), [Literal(t)], s, '"');
    Rewritten(TabIndexSingleRe(), s, t);
    KeptAfterHtmlFor(t, t, r);
  }

  lemma WholeRoleDoubleWith(s: string, f: string, t: string, r: string)
    requires |s| > 0 && 'F' !in s && 'I' !in s
    requires MatchAt(RoleDoubleRe(), s, 0) == Some(Match(|s|, []))
    requires '{' !in r
    ensures NormalizeWith(s, f, t, r) == r
  {
    RewritesMention();
    Untouched(HtmlForRe(), [Literal(f)], s, 'F');
    Untouched(TabIndexBracedRe(), [Literal(t)], s, 'I');
    Untouched(TabIndexDoubleRe(), [Literal(t)], s, 'I');
    Untouched(TabIndexSingleRe(), [Literal(t)], s, 'I');
    Rewritten(RoleDoubleRe(), s, r);
    Untouched(RoleSingleRe(), [Literal(r)], r, '{');
  }

  lemma WholeRoleSingleWith(s: string, f: string, t: string, r: string)
    requires |s| > 0 && 'F' !in s && 'I' !in s && '"' !in s
    requires MatchAt(RoleSingleRe(), s, 0) == Some(Match(|s|, []))
    ensures NormalizeWith(s, f, t, r) == r
  {
    RewritesMention();
    Untouched(HtmlForRe(), [Literal(f)], s, 'F');
    Untouched(TabIndexBracedRe(), [Literal(t)], s, 'I');
    Untouched(TabIndexDoubleRe(), [Literal(t)], s, 'I');
    Untouched(TabIndexSingleRe(), [Literal(t)], s, 'I');
    Untouched(RoleDoubleRe(), [Literal(r)], s, '"');
    Rewritten(RoleSingleRe(), s, r);
  }

  /** The replacement texts contain none of the characters the later patterns
      need. */
  lemma ReplacementsInert()
    ensures 'I' !in ForText && '{' !in ForText
    ensures 'I' !in TabIndexText && '{' !in TabIndexText
    ensures '{' !in RoleText
  {
  }

  /** Text the `htmlFor` pattern consumes whole (`htmlFor="`, `htmlFor = "`,
      ...) normalizes to `for="`. */
  lemma WholeHtmlFor(s: string)
    requires |s| > 0 && MatchAt(HtmlForRe(), s, 0) == Some(Match(|s|, []))
    ensures NormalizeCode(s) == ForText
  {
    ReplacementsInert();
    WholeHtmlForWith(s, ForText, TabIndexText, RoleText);
  }

  /** Text without `F` that the braced `tabIndex` pattern consumes whole
      (`tabIndex={0}`, `tabIndex = { 0 }`, ...) normalizes to `tabindex="0"`. */
  lemma WholeTabIndexBraced(s: string)
    requires |s| > 0 && 'F' !in s
    requires MatchAt(TabIndexBracedRe(), s, 0) == Some(Match(|s|, []))
    ensures NormalizeCode(s) == TabIndexText
  {
    ReplacementsInert();
    WholeTabIndexBracedWith(s, ForText, TabIndexText, RoleText);
  }

  /** Likewise for `tabIndex="0"`, on text without `F` or `{`. */
  lemma WholeTabIndexDouble(s: string)
    requires |s| > 0 && 'F' !in s && '{' !in s
    requires MatchAt(TabIndexDoubleRe(), s, 0) == Some(Match(|s|, []))
    ensures NormalizeCode(s) == TabIndexText
  {
    ReplacementsInert();
    WholeTabIndexDoubleWith(s, ForText, TabIndexText, RoleText);
  }

  /** Likewise for `tabIndex='0'`, on text without `F`, `{` or `"`. */
  lemma WholeTabIndexSingle(s: string)
    requires |s| > 0 && 'F' !in s && '{' !in s && '"' !in s
    requires MatchAt(TabIndexSingleRe(), s, 0) == Some(Match(|s|, []))
    ensures NormalizeCode(s) == TabIndexText
  {
    ReplacementsInert();
    WholeTabIndexSingleWith(s, ForText, TabIndexText, RoleText);
  }

  /** Text without `F` or `I` that the `role={"button"}` pattern consumes
      whole normalizes to `role="button"`. */
  lemma WholeRoleDouble(s: string)
    requires |s| > 0 && 'F' !in s && 'I' !in s
    requires MatchAt(RoleDoubleRe(), s, 0) == Some(Match(|s|, []))
    ensures NormalizeCode(s) == RoleText
  {
    ReplacementsInert();
    WholeRoleDoubleWith(s, ForText, TabIndexText, RoleText);
  }

  /** Likewise for `role={'button'}`, on text without `F`, `I` or `"`. */
  lemma WholeRoleSingle(s: string)
    requires |s| > 0 && 'F' !in s && 'I' !in s && '"' !in s
    requires MatchAt(RoleSingleRe(), s, 0) == Some(Match(|s|, []))
    ensures NormalizeCode(s) == RoleText
  {
    WholeRoleSingleWith(s, ForText, TabIndexText, RoleText);
  }

  /** `htmlFor="` becomes `for="`. */
  lemma NormalizeHtmlFor(s: string)
    requires s == "htmlFor=\""
    ensures NormalizeCode(s) == ForText
  {
    assert s == "htmlFor" + "=" + Concat(["\""]);
    AssignChainWhole("htmlFor", ["\""], s);
    WholeHtmlFor(s);
  }

  lemma TabIndexBracedHeads(ws: seq<string>)
    requires ws == ["{", "0", "}"]
    ensures forall k :: 0 <= k < |ws| ==> |ws[k]| > 0 && !IsSpace(ws[k][0])
  {
    assert ws[0][0] == '{' && ws[1][0] == '0' && ws[2][0] == '}';
  }

  lemma TabIndexBracedWhole(s: string)
    requires s == "tabIndex" + "=" + Concat(["{", "0", "}"])
    ensures MatchAt(TabIndexBracedRe(), s, 0) == Some(Match(|s|, []))
  {
    TabIndexBracedHeads(["{", "0", "}"]);
    AssignChainWhole("tabIndex", ["{", "0", "}"], s);
  }

  lemma TabIndexBracedSpelling(s: string)
    requires s == "tabIndex={0}"
    ensures 'F' !in s
    ensures s == "tabIndex" + "=" + Concat(["{", "0", "}"])
  {
    assert Concat(["{", "0", "}"]) == s[9..];
  }

  /** `tabIndex={0}` becomes `tabindex="0"`. */
  lemma NormalizeTabIndexBraced(s: string)
    requires s == "tabIndex={0}"
    ensures NormalizeCode(s) == TabIndexText
  {
    TabIndexBracedSpelling(s);
    TabIndexBracedWhole(s);
    WholeTabIndexBraced(s);
  }

  lemma TabIndexDoubleHeads(ws: seq<string>)
    requires ws == ["\"0\""]
    ensures forall k :: 0 <= k < |ws| ==> |ws[k]| > 0 && !IsSpace(ws[k][0])
  {
    assert ws[0][0] == '"';
  }

  lemma TabIndexDoubleWhole(s: string)
    requires s == "tabIndex" + "=" + Concat(["\"0\""])
    ensures MatchAt(TabIndexDoubleRe(), s, 0) == Some(Match(|s|, []))
  {
    TabIndexDoubleHeads(["\"0\""]);
    AssignChainWhole("tabIndex", ["\"0\""], s);
  }

  lemma TabIndexDoubleSpelling(s: string)
    requires s == "tabIndex=\"0\""
    ensures 'F' !in s && '{' !in s
    ensures s == "tabIndex" + "=" + Concat(["\"0\""])
  {
    assert Concat(["\"0\""]) == s[9..];
  }

  /** `tabIndex="0"` becomes `tabindex="0"`. */
  lemma NormalizeTabIndexDouble(s: string)
    requires s == "tabIndex=\"0\""
    ensures NormalizeCode(s) == TabIndexText
  {
    TabIndexDoubleSpelling(s);
    TabIndexDoubleWhole(s);
    WholeTabIndexDouble(s);
  }

  lemma TabIndexSingleHeads(ws: seq<string>)
    requires ws == ["'0'"]
    ensures forall k :: 0 <= k < |ws| ==> |ws[k]| > 0 && !IsSpace(ws[k][0])
  {
    assert ws[0][0] == '\'';
  }

  lemma TabIndexSingleWhole(s: string)
    requires s == "tabIndex" + "=" + Concat(["'0'"])
    ensures MatchAt(TabIndexSingleRe(), s, 0) == Some(Match(|s|, []))
  {
    TabIndexSingleHeads(["'0'"]);
    AssignChainWhole("tabIndex", ["'0'"], s);
  }

  lemma TabIndexSingleSpelling(s: string)
    requires s == "tabIndex='0'"
    ensures 'F' !in s && '{' !in s && '"' !in s
    ensures s == "tabIndex" + "=" + Concat(["'0'"])
  {
    assert Concat(["'0'"]) == s[9..];
  }

  /** `tabIndex='0'` becomes `tabindex="0"`. */
  lemma NormalizeTabIndexSingle(s: string)
    requires s == "tabIndex='0'"
    ensures NormalizeCode(s) == TabIndexText
  {
    TabIndexSingleSpelling(s);
    TabIndexSingleWhole(s);
    WholeTabIndexSingle(s);
  }

  lemma RoleDoubleHeads(ws: seq<string>)
    requires ws == ["{", "\"button\"", "}"]
    ensures forall k :: 0 <= k < |ws| ==> |ws[k]| > 0 && !IsSpace(ws[k][0])
  {
    assert ws[0][0] == '{' && ws[1][0] == '"' && ws[2][0] == '}';
  }

  lemma RoleDoubleWhole(s: string)
    requires s == "role" + "=" + Concat(["{", "\"button\"", "}"])
    ensures MatchAt(RoleDoubleRe(), s, 0) == Some(Match(|s|, []))
  {
    RoleDoubleHeads(["{", "\"button\"", "}"]);
    AssignChainWhole("role", ["{", "\"button\"", "}"], s);
  }

  lemma RoleDoubleSpelling(s: string)
    requires s == "role={\"button\"}"
    ensures 'F' !in s && 'I' !in s
    ensures s == "role" + "=" + Concat(["{", "\"button\"", "}"])
  {
    assert Concat(["{", "\"button\"", "}"]) == s[5..];
  }

  /** `role={"button"}` becomes `role="button"`. */
  lemma NormalizeRoleDouble(s: string)
    requires s == "role={\"button\"}"
    ensures NormalizeCode(s) == RoleText
  {
    RoleDoubleSpelling(s);
    RoleDoubleWhole(s);
    WholeRoleDouble(s);
  }

  lemma RoleSingleHeads(ws: seq<string>)
    requires ws == ["{", "'button'", "}"]
    ensures forall k :: 0 <= k < |ws| ==> |ws[k]| > 0 && !IsSpace(ws[k][0])
  {
    assert ws[0][0] == '{' && ws[1][0] == '\'' && ws[2][0] == '}';
  }

  lemma RoleSingleWhole(s: string)
    requires s == "role" + "=" + Concat(["{", "'button'", "}"])
    ensures MatchAt(RoleSingleRe(), s, 0) == Some(Match(|s|, []))
  {
    RoleSingleHeads(["{", "'button'", "}"]);
    AssignChainWhole("role", ["{", "'button'", "}"], s);
  }

  lemma RoleSingleSpelling(s: string)
    requires s == "role={'button'}"
    ensures 'F' !in s && 'I' !in s && '"' !in s
    ensures s == "role" + "=" + Concat(["{", "'button'", "}"])
  {
    assert Concat(["{", "'button'", "}"]) == s[5..];
  }

  /** `role={'button'}` becomes `role="button"`. */
  lemma NormalizeRoleSingle(s: string)
    requires s == "role={'button'}"
    ensures NormalizeCode(s) == RoleText
  {
    RoleSingleSpelling(s);
    RoleSingleWhole(s);
    WholeRoleSingle(s);
  }

  /** Text without `c`, rewritten with replacement texts without `c`, stays
      without `c`. */
  lemma NormalizeWithKeepsOut(code: string, f: string, t: string, r: string, c: char)
    requires c !in code && c !in f && c !in t && c !in r
    ensures c !in NormalizeWith(code, f, t, r)
  {
    var s1 := ReplaceAll(HtmlForRe(), [Literal(f)], code);
    var s2 := ReplaceAll(TabIndexBracedRe(), [Literal(t)], s1);
    var s3 := ReplaceAll(TabIndexDoubleRe(), [Literal(t)], s2);
    var s4 := ReplaceAll(TabIndexSingleRe(), [Literal(t)], s3);
    var s5 := ReplaceAll(RoleDoubleRe(), [Literal(r)], s4);
    assert code[0..] == code;
    ReplaceKeepsOut(HtmlForRe(), f, code, 0, c);
    assert s1[0..] == s1;
    ReplaceKeepsOut(TabIndexBracedRe(), t, s1, 0, c);
    assert s2[0..] == s2;
    ReplaceKeepsOut(TabIndexDoubleRe(), t, s2, 0, c);
    assert s3[0..] == s3;
    ReplaceKeepsOut(TabIndexSingleRe(), t, s3, 0, c);
    assert s4[0..] == s4;
    ReplaceKeepsOut(RoleDoubleRe(), r, s4, 0, c);
    assert s5[0..] == s5;
    ReplaceKeepsOut(RoleSingleRe(), r, s5, 0, c);
  }

  /** Normalization brings in no `<`. */
  lemma NormalizeKeepsAngle(code: string)
    requires '<' !in code
    ensures '<' !in NormalizeCode(code)
  {
    assert '<' !in ForText && '<' !in TabIndexText && '<' !in RoleText;
    NormalizeWithKeepsOut(code, ForText, TabIndexText, RoleText, '<');
  }

  // ---------------------------------------------------------------------------
  // Opening tags

  /** `<name\b[^>]*>` under the `i` flag. */
  function TagPattern(name: string): Pattern {
    [Lit('<')] + WordFold(name) + [Boundary, Run(Except({'>'}), 0, false), Lit('>')]
  }

  /** The alternatives `<(n1|n2|...)\b[^>]*>`. */
  function TagRe(names: seq<string>): (re: Regex)
    ensures |re| == |names|
    ensures forall k :: 0 <= k < |names| ==> re[k] == TagPattern(names[k])
  {
    if |names| == 0 then [] else [TagPattern(names[0])] + TagRe(names[1..])
  }

  /** `/<img\b[^>]*>/gim` */
  function ImgRe(): Regex { TagRe(["img"]) }

  /** `/<input\b[^>]*>/gim` */
  function InputRe(): Regex { TagRe(["input"]) }

  /** `/<(div|span)\b[^>]*>/gim` */
  function DivSpanRe(): Regex { TagRe(["div", "span"]) }

  /** A tag name: word characters only. */
  predicate TagName(name: string) {
    |name| > 0 && forall k :: 0 <= k < |name| ==> IsWordChar(name[k])
  }

  /** At `p` starts `<name` in any case, not followed by a word character. */
  predicate TagOpens(s: string, p: nat, name: string) {
    && p < |s| && s[p] == '<'
    && SpellsFrom(s, p + 1, name, true)
    && BoundaryAt(s, p + 1 + |name|)
  }

  /** Just past the first `>` at or after `n`. */
  function CloseAfter(s: string, n: nat): (r: Option<nat>)
    requires n <= |s|
    ensures r.Some? ==> n < r.value <= |s| && s[r.value - 1] == '>'
    ensures r.None? <==> '>' !in s[n..]
  {
    if '>' in s[n..] then Some(n + IndexOf(s[n..], '>') + 1) else None
  }

  /** Where the opening tag `<name ...>` that starts at `p` ends: `name` in any
      case, then a character that cannot continue the name, then everything
      up to the first `>`. */
  function TagEnd(s: string, p: nat, name: string): (r: Option<nat>)
    ensures r.Some? ==> p + |name| + 1 < r.value <= |s| && s[r.value - 1] == '>'
  {
    if TagOpens(s, p, name) then CloseAfter(s, p + 1 + |name|) else None
  }

  lemma CloseAfterRun(s: string, n: nat)
    requires n <= |s|
    ensures var e := RunEnd(Except({'>'}), s, n);
            CloseAfter(s, n) == if e < |s| then Some(e + 1) else None
  {
    var e := RunEnd(Except({'>'}), s, n);
    RunToChar(s, n, '>');
    if '>' in s[n..] {
      assert e == n + IndexOf(s[n..], '>') < |s|;
    } else {
      assert e == |s|;
    }
  }

  /** `\b[^>]*>` after the name. */
  lemma TagTailMatch(s: string, n: nat)
    requires n <= |s|
    ensures MatchFrom([Boundary, Run(Except({'>'}), 0, false), Lit('>')], s, n)
            == if BoundaryAt(s, n) && CloseAfter(s, n).Some? then Some(Match(CloseAfter(s, n).value, [])) else None
  {
    var run := [Run(Except({'>'}), 0, false)] + [Lit('>')];
    assert [Boundary, Run(Except({'>'}), 0, false), Lit('>')] == [Boundary] + run;
    MatchBoundaryStep(run, s, n);
    MatchRunStep(Except({'>'}), 0, [Lit('>')], s, n);
    MatchLitStep('>', [], s, RunEnd(Except({'>'}), s, n));
    CloseAfterRun(s, n);
  }

  /** After the `<`: the name, then `\b[^>]*>`. */
  lemma TagNameMatch(name: string, s: string, p: nat)
    requires p < |s| && s[p] == '<'
    ensures MatchFrom(WordFold(name) + [Boundary, Run(Except({'>'}), 0, false), Lit('>')], s, p + 1)
            == if TagEnd(s, p, name).Some? then Some(Match(TagEnd(s, p, name).value, [])) else None
  {
    var tail := [Boundary, Run(Except({'>'}), 0, false), Lit('>')];
    MatchWordFoldIff(name, tail, s, p + 1);
    TagEndIs(s, p, name);
    if SpellsFrom(s, p + 1, name, true) {
      TagTailMatch(s, p + 1 + |name|);
    }
  }

  /** `TagEnd` once the `<` is known. */
  lemma TagEndIs(s: string, p: nat, name: string)
    requires p < |s| && s[p] == '<'
    ensures SpellsFrom(s, p + 1, name, true) ==> p + 1 + |name| <= |s|
    ensures TagEnd(s, p, name)
            == if SpellsFrom(s, p + 1, name, true) && BoundaryAt(s, p + 1 + |name|) then CloseAfter(s, p + 1 + |name|) else None
  {
  }

  lemma TagMatch(name: string, s: string, p: nat)
    requires p <= |s|
    ensures MatchFrom(TagPattern(name), s, p)
            == if TagEnd(s, p, name).Some? then Some(Match(TagEnd(s, p, name).value, [])) else None
  {
    var tail := [Boundary, Run(Except({'>'}), 0, false), Lit('>')];
    assert TagPattern(name) == [Lit('<')] + (WordFold(name) + tail);
    MatchLitStep('<', WordFold(name) + tail, s, p);
    if p < |s| && s[p] == '<' {
      TagNameMatch(name, s, p);
    }
  }

  /** The text of an opening tag `<name ...>`: the name in any case, a
      character that cannot continue it, and one `>`, at the end. */
  predicate IsTag(t: string, name: string) {
    && |t| >= |name| + 2
    && t[0] == '<'
    && FoldEq(t[1..|name| + 1], name)
    && !IsWordChar(t[|name| + 1])
    && t[|t| - 1] == '>'
    && Avoids(t[..|t| - 1], '>')
  }

  lemma FoldWordChar(a: char, b: char)
    requires SameIgnoringCase(a, b) && IsWordChar(b)
    ensures IsWordChar(a)
  {
  }

  /** Nothing before the `>` that `CloseAfter` finds is a `>`. */
  lemma CloseAfterAvoids(s: string, n: nat)
    requires n <= |s| && CloseAfter(s, n).Some?
    ensures Avoids(s[n..CloseAfter(s, n).value - 1], '>')
  {
    var k := IndexOf(s[n..], '>');
    assert s[n..CloseAfter(s, n).value - 1] == s[n..][..k];
  }

  /** A tag name spelt in any case is made of word characters. */
  lemma FoldedNameWord(s: string, i: nat, name: string)
    requires TagName(name) && SpellsFrom(s, i, name, true)
    ensures forall x :: i <= x < i + |name| ==> IsWordChar(s[x])
  {
    forall x | i <= x < i + |name| ensures IsWordChar(s[x]) {
      assert s[i..i + |name|][x - i] == s[x];
      FoldWordChar(s[x], name[x - i]);
    }
  }

  /** What `TagEnd` finds is a tag. */
  lemma TagText(s: string, p: nat, name: string)
    requires TagName(name) && TagEnd(s, p, name).Some?
    ensures IsTag(s[p..TagEnd(s, p, name).value], name)
  {
    var e := TagEnd(s, p, name).value;
    var n := p + 1 + |name|;
    var t := s[p..e];
    FoldedNameWord(s, p + 1, name);
    CloseAfterAvoids(s, n);
    assert t[1..|name| + 1] == s[p + 1..n];
    assert t[|name| + 1] == s[n] && IsWordChar(s[n - 1]);
    var u := t[..|t| - 1];
    forall x | 0 <= x < |u| ensures u[x] != '>' {
      if x > |name| {
        assert u[x] == s[n..e - 1][x - |name| - 1];
      } else if x > 0 {
        assert u[x] == s[p + x] && IsWordChar(s[p + x]);
      }
    }
  }

  /** Every text the tag scan returns is an opening tag of one of the names. */
  lemma TagsAreTags(names: seq<string>, s: string)
    requires forall k :: 0 <= k < |names| ==> TagName(names[k])
    ensures forall k :: 0 <= k < |MatchAll(TagRe(names), s)| ==>
              exists j :: 0 <= j < |names| && IsTag(MatchAll(TagRe(names), s)[k], names[j])
  {
    var re := TagRe(names);
    var hits := FindFrom(re, s, 0);
    FindMatches(re, s, 0);
    forall k | 0 <= k < |hits|
      ensures exists j :: 0 <= j < |names| && IsTag(s[hits[k].start..hits[k].m.end], names[j])
    {
      var h := hits[k];
      MatchAtPicks(re, s, h.start);
      var a :| 0 <= a < |re| && MatchFrom(re[a], s, h.start) == MatchAt(re, s, h.start);
      TagMatch(names[a], s, h.start);
      TagText(s, h.start, names[a]);
    }
  }

  /** No opening tag is skipped: each lies inside one of the scan's hits. */
  lemma TagFound(names: seq<string>, s: string, p: nat, j: nat)
    requires j < |names| && TagEnd(s, p, names[j]).Some?
    ensures Covered(FindFrom(TagRe(names), s, 0), p)
  {
    var re := TagRe(names);
    TagMatch(names[j], s, p);
    assert MatchFrom(re[j], s, p).Some?;
    MatchAtPicks(re, s, p);
    var a :| 0 <= a < |re| && MatchFrom(re[a], s, p) == MatchAt(re, s, p);
    TagMatch(names[a], s, p);
    FindCovers(re, s, 0, p);
  }

  /** Without a `<` there is no tag. */
  lemma NoAngleNoTags(names: seq<string>, s: string)
    requires '<' !in s
    ensures MatchAll(TagRe(names), s) == []
  {
    var re := TagRe(names);
    forall a | 0 <= a < |re| ensures Mentions(re[a], '<') {
      assert re[a][0] == Lit('<');
    }
    FindWithoutLit(re, s, '<');
  }

  // ---------------------------------------------------------------------------
  // validateAltText

  const NoImgMessage := "<img> 태그를 찾을 수 없습니다. 이미지가 있다면 <img> 요소를 포함해 주세요."
  const AltMissingMessage := "이미지에는 비어있지 않은 alt 속성이 필요합니다. 예: <img src=\"...\" alt=\"설명\" />"
  const AltPassMessage := "alt 속성 검증 통과: 모든 <img>에 적절한 alt가 있습니다."

  /** The `<img ...>` tags of the normalized code, in order. */
  function ImgTags(code: string): seq<string> {
    MatchAll(ImgRe(), NormalizeCode(code))
  }

  lemma AltOkAll(tags: seq<string>)
    ensures forall k :: 0 <= k < |tags| ==> (AltOk(tags[k]) <==> HasAlt(tags[k]))
  {
    forall k | 0 <= k < |tags| ensures AltOk(tags[k]) <==> HasAlt(tags[k]) {
      AltOkIff(tags[k]);
    }
  }

  /** What `validateAltText` promises about the image tags it found: no tag
      is a failure of its own; otherwise it passes exactly when every tag
      carries a non-blank double-quoted `alt`. */
  predicate AltVerdictSays(tags: seq<string>, r: ValidationResult) {
    && (r.success <==> |tags| > 0 && forall k :: 0 <= k < |tags| ==> HasAlt(tags[k]))
    && (|tags| == 0 ==> r.message == NoImgMessage)
    && (|tags| > 0 && !r.success ==> r.message == AltMissingMessage)
    && (r.success ==> r.message == AltPassMessage)
  }

  /** The verdict on the image tags found. */
  function AltVerdict(tags: seq<string>): (r: ValidationResult)
    ensures AltVerdictSays(tags, r)
  {
    if |tags| == 0 then ValidationResult(false, NoImgMessage)
    else
      var failed := Seqs.Filter(tags, (t: string) => !AltOk(t));
      AltOkAll(tags);
      if |failed| > 0 then ValidationResult(false, AltMissingMessage)
      else ValidationResult(true, AltPassMessage)
  }

  /** `validateAltText` on the `<img>` tags of the normalized code. */
  function ValidateAltText(code: string): (r: ValidationResult)
    ensures AltVerdictSays(ImgTags(code), r)
  {
    AltVerdict(ImgTags(code))
  }

  /** Code without any `<` has no image to check. */
  lemma AltWithoutAngle(code: string)
    requires '<' !in code
    ensures ValidateAltText(code) == ValidationResult(false, NoImgMessage)
  {
    NormalizeKeepsAngle(code);
    NoAngleNoTags(["img"], NormalizeCode(code));
  }

  // ---------------------------------------------------------------------------
  // validateLabel: the ids of the inputs

  /** What follows `id=`: `\s*"([^"]+)"`. */
  function IdTail(): Pattern {
    [Run(Space, 0, false), Lit('"'), Run(Except({'"'}), 1, true), Lit('"')]
  }

  /** `/\bid\s*=\s*"([^"]+)"/i`. */
  function IdPattern(): Pattern {
    Assign("id", true) + IdTail()
  }

  /** The value of an `id` attribute (any case) that starts at `p`: the
      non-empty text between double quotes after `id =`. */
  function IdAt(s: string, p: nat): (r: Option<string>)
    ensures r.Some? ==> |r.value| > 0 && Avoids(r.value, '"')
  {
    var a := AssignEnd(s, p, "id", true);
    if a.Some? then
      var v := QuotedText(s, RunEnd(Space, s, a.value));
      if v.Some? && |v.value| > 0 then v else None
    else None
  }

  /** `"([^"]+)"` at `q` captures the quoted text when it is not empty. */
  lemma IdValueMatch(s: string, q: nat)
    requires q <= |s|
    ensures var v := QuotedText(s, q);
            MatchFrom([Lit('"'), Run(Except({'"'}), 1, true), Lit('"')], s, q)
            == if v.Some? && |v.value| > 0 then Some(Match(q + |v.value| + 2, [v.value])) else None
  {
    var run := [Run(Except({'"'}), 1, true), Lit('"')];
    assert [Lit('"'), Run(Except({'"'}), 1, true), Lit('"')] == [Lit('"')] + run;
    assert run == [Run(Except({'"'}), 1, true)] + [Lit('"')];
    MatchLitStep('"', run, s, q);
    if q < |s| && s[q] == '"' {
      MatchRunCaptureStep(Except({'"'}), 1, [Lit('"')], s, q + 1);
      var k := RunEnd(Except({'"'}), s, q + 1);
      MatchLitStep('"', [], s, k);
      assert [Lit('"')] + [] == [Lit('"')];
      QuoteRunEnd(s, q);
      var v := QuotedText(s, q);
      if v.Some? {
        assert s[q + 1..k] == v.value;
        assert [v.value] + [] == [v.value];
      }
    }
  }

  lemma IdMatch(s: string, p: nat)
    requires p <= |s|
    ensures MatchFrom(IdPattern(), s, p).Some? <==> IdAt(s, p).Some?
    ensures IdAt(s, p).Some? ==> MatchFrom(IdPattern(), s, p).value.groups == [IdAt(s, p).value]
  {
    AssignMatch("id", true, IdTail(), s, p);
    var a := AssignEnd(s, p, "id", true);
    if a.Some? {
      var value := [Lit('"'), Run(Except({'"'}), 1, true), Lit('"')];
      assert IdTail() == [Run(Space, 0, false)] + value;
      SpacesMatch(value, s, a.value);
      IdValueMatch(s, RunEnd(Space, s, a.value));
    }
  }

  /** `p` is the first position of `s` where an `id` attribute starts. */
  predicate FirstIdAt(s: string, p: nat) {
    && p <= |s|
    && IdAt(s, p).Some?
    && forall q :: 0 <= q < p ==> IdAt(s, q).None?
  }

  /** `tag.match(idRe)?.[1]?.trim()`, kept only when not empty. */
  function TagId(tag: string): Option<string> {
    var h := SearchFrom([IdPattern()], tag, 0);
    if h.Some? && |h.value.m.groups| > 0 && Trim(h.value.m.groups[0]) != "" then
      Some(Trim(h.value.m.groups[0]))
    else None
  }

  /** The id of a tag is its first `id` attribute's value, trimmed; a tag
      without one, or whose first one is blank, has none. */
  lemma TagIdIs(tag: string)
    ensures TagId(tag).Some? <==> exists p :: FirstIdAt(tag, p) && !AllSpace(IdAt(tag, p).value)
    ensures forall p :: FirstIdAt(tag, p) && !AllSpace(IdAt(tag, p).value) ==> TagId(tag) == Some(Trim(IdAt(tag, p).value))
  {
    var re := [IdPattern()];
    var h := SearchFrom(re, tag, 0);
    if h.Some? {
      var p := h.value.start;
      MatchAtOne(IdPattern(), tag, p);
      IdMatch(tag, p);
      forall q | 0 <= q < p ensures IdAt(tag, q).None? {
        MatchAtOne(IdPattern(), tag, q);
        IdMatch(tag, q);
      }
      assert FirstIdAt(tag, p);
      TrimEmptyIffBlank(IdAt(tag, p).value);
      forall p' | FirstIdAt(tag, p') ensures p' == p {
        FirstIdAtUnique(tag, p, p');
      }
    } else {
      forall q | FirstIdAt(tag, q) ensures false {
        MatchAtOne(IdPattern(), tag, q);
        IdMatch(tag, q);
      }
    }
  }

  /** A text has at most one first `id` position. */
  lemma FirstIdAtUnique(s: string, p: nat, q: nat)
    requires FirstIdAt(s, p) && FirstIdAt(s, q)
    ensures p == q
  {
  }

  /** `inputs.map(tagId)`. */
  function TagIds(tags: seq<string>): (found: seq<Option<string>>)
    ensures |found| == |tags|
    ensures forall j :: 0 <= j < |tags| ==> found[j] == TagId(tags[j])
  {
    if |tags| == 0 then [] else [TagId(tags[0])] + TagIds(tags[1..])
  }

  /** The ids of the input tags that have one, in the order of the tags
      (`InputIdsInOrder`). */
  function InputIds(tags: seq<string>): (ids: seq<string>)
    ensures |ids| <= |tags|
    ensures forall k :: 0 <= k < |ids| ==> exists j :: 0 <= j < |tags| && TagId(tags[j]) == Some(ids[k])
    ensures forall j :: 0 <= j < |tags| && TagId(tags[j]).Some? ==> TagId(tags[j]).value in ids
    ensures |ids| == 0 <==> forall j :: 0 <= j < |tags| ==> TagId(tags[j]).None?
  {
    Seqs.Somes(TagIds(tags))
  }

  /** The ids keep the order of the tags: those of a concatenation are the
      ids of the first part followed by those of the second, and one tag
      gives its own id, if any. */
  lemma InputIdsInOrder(a: seq<string>, b: seq<string>, t: string)
    ensures InputIds(a + b) == InputIds(a) + InputIds(b)
    ensures InputIds([t]) == if TagId(t).Some? then [TagId(t).value] else []
  {
    TagIdsAppend(a, b);
    Seqs.SomesAppend(TagIds(a), TagIds(b));
    assert TagIds([t]) == [TagId(t)] + TagIds([]);
  }

  /** `map` over a concatenation. */
  lemma {:induction false} TagIdsAppend(a: seq<string>, b: seq<string>)
    ensures TagIds(a + b) == TagIds(a) + TagIds(b)
    decreases |a|
  {
    if |a| == 0 {
      assert a + b == b;
    } else {
      assert (a + b)[0] == a[0] && (a + b)[1..] == a[1..] + b;
      TagIdsAppend(a[1..], b);
    }
  }


  // ---------------------------------------------------------------------------
  // validateLabel: the labels

  /** `[^>]*>` after the closing quote. */
  function CloseTail(): Pattern {
    [Run(Except({'>'}), 0, false), Lit('>')]
  }

  /** What follows `for=`: `\s*"`, the id, `"[^>]*>`. The id is matched
      literally and in any case, which is what the escaped id means inside
      the constructed regex (see `ReadEscapedInverts`). */
  function ForTail(id: string): Pattern {
    [Run(Space, 0, false), Lit('"')] + WordFold(id) + [Lit('"')] + CloseTail()
  }

  /** `\bfor\s*=\s*"id"[^>]*>`. */
  function ForPattern(id: string): Pattern {
    Assign("for", true) + ForTail(id)
  }

  /** `<label\b[^>]*\bfor\s*=\s*"id"[^>]*>` with the `i` flag. */
  function LabelPattern(id: string): Pattern {
    [Lit('<')] + WordFold("label") + [Boundary, Gap(Except({'>'}), false)] + ForPattern(id)
  }

  /** At `q` a double quote, the id in any case, a double quote, and a `>`
      somewhere after. */
  predicate QuotedIdAt(s: string, q: nat, id: string) {
    && q < |s| && s[q] == '"'
    && SpellsFrom(s, q + 1, id, true)
    && q + 1 + |id| < |s| && s[q + 1 + |id|] == '"'
    && '>' in s[q + 2 + |id|..]
  }

  /** At `f` starts `for = "id"` (any case), followed somewhere by `>`. */
  predicate ForAt(s: string, f: nat, id: string) {
    && AssignEnd(s, f, "for", true).Some?
    && AssignEnd(s, f, "for", true).value <= |s|
    && QuotedIdAt(s, RunEnd(Space, s, AssignEnd(s, f, "for", true).value), id)
  }

  /** At `p` starts a `<label` tag (any case) in which, before any `>`, a
      `for` attribute names `id`. */
  predicate LabelAt(s: string, p: nat, id: string) {
    && TagOpens(s, p, "label")
    && exists f :: p + 6 <= f <= |s| && Avoids(s[p + 6..f], '>') && ForAt(s, f, id)
  }

  /** The code has a label for `id`. */
  predicate HasLabelFor(s: string, id: string) {
    exists p :: 0 <= p <= |s| && LabelAt(s, p, id)
  }

  lemma CloseTailMatch(s: string, n: nat)
    requires n <= |s|
    ensures MatchFrom(CloseTail(), s, n).Some? <==> '>' in s[n..]
  {
    assert CloseTail() == [Run(Except({'>'}), 0, false)] + [Lit('>')];
    MatchRunStep(Except({'>'}), 0, [Lit('>')], s, n);
    MatchLitStep('>', [], s, RunEnd(Except({'>'}), s, n));
    CloseAfterRun(s, n);
  }

  lemma QuotedIdMatch(s: string, q: nat, id: string)
    requires q <= |s|
    ensures MatchFrom([Lit('"')] + WordFold(id) + [Lit('"')] + CloseTail(), s, q).Some? <==> QuotedIdAt(s, q, id)
  {
    var after := [Lit('"')] + CloseTail();
    assert [Lit('"')] + WordFold(id) + [Lit('"')] + CloseTail() == [Lit('"')] + (WordFold(id) + after);
    MatchLitStep('"', WordFold(id) + after, s, q);
    if q < |s| && s[q] == '"' {
      MatchWordFoldIff(id, after, s, q + 1);
      var e := q + 1 + |id|;
      if e <= |s| {
        MatchLitStep('"', CloseTail(), s, e);
        if e < |s| { CloseTailMatch(s, e + 1); }
      }
    }
  }

  lemma ForMatch(s: string, f: nat, id: string)
    requires f <= |s|
    ensures MatchFrom(ForPattern(id), s, f).Some? <==> ForAt(s, f, id)
  {
    AssignMatch("for", true, ForTail(id), s, f);
    var a := AssignEnd(s, f, "for", true);
    if a.Some? {
      var quoted := [Lit('"')] + WordFold(id) + [Lit('"')] + CloseTail();
      assert ForTail(id) == [Run(Space, 0, false)] + quoted;
      SpacesMatch(quoted, s, a.value);
      QuotedIdMatch(s, RunEnd(Space, s, a.value), id);
    }
  }

  /** The run of characters other than `c` from `n` reaches `f` exactly when
      there is no `c` in between. */
  lemma RunAvoids(s: string, n: nat, f: nat, c: char)
    requires n <= f <= |s|
    ensures f <= RunEnd(Except({c}), s, n) <==> Avoids(s[n..f], c)
  {
    var e := RunEnd(Except({c}), s, n);
    if f <= e {
      forall x | 0 <= x < f - n ensures s[n..f][x] != c {
        assert InClass(s[n + x], Except({c}));
      }
    } else {
      assert s[n..f][e - n] == s[e];
    }
  }

  /** `[^>]*` with backtracking, then the `for` attribute. */
  lemma GapForMatch(s: string, n: nat, id: string)
    requires n <= |s|
    ensures MatchFrom([Gap(Except({'>'}), false)] + ForPattern(id), s, n).Some?
            <==> exists f :: n <= f <= |s| && Avoids(s[n..f], '>') && ForAt(s, f, id)
  {
    var e := RunEnd(Except({'>'}), s, n);
    MatchGapStep(Except({'>'}), ForPattern(id), s, n);
    TryGapFinds(ForPattern(id), s, n, e, false);
    if MatchFrom([Gap(Except({'>'}), false)] + ForPattern(id), s, n).Some? {
      var f :| n <= f <= e && MatchFrom(ForPattern(id), s, f).Some?;
      ForMatch(s, f, id);
      RunAvoids(s, n, f, '>');
    }
    if exists f :: n <= f <= |s| && Avoids(s[n..f], '>') && ForAt(s, f, id) {
      var f :| n <= f <= |s| && Avoids(s[n..f], '>') && ForAt(s, f, id);
      ForMatch(s, f, id);
      RunAvoids(s, n, f, '>');
    }
  }

  lemma LabelMatch(s: string, p: nat, id: string)
    requires p <= |s|
    ensures MatchFrom(LabelPattern(id), s, p).Some? <==> LabelAt(s, p, id)
  {
    var gap := [Gap(Except({'>'}), false)] + ForPattern(id);
    var name := [Boundary] + gap;
    assert LabelPattern(id) == [Lit('<')] + (WordFold("label") + name);
    MatchLitStep('<', WordFold("label") + name, s, p);
    if p < |s| && s[p] == '<' {
      MatchWordFoldIff("label", name, s, p + 1);
      if SpellsFrom(s, p + 1, "label", true) {
        MatchBoundaryStep(gap, s, p + 6);
        GapForMatch(s, p + 6, id);
      }
    }
  }

  /** The constructed label regex finds a label for `id` exactly when there
      is one. */
  lemma HasLabelIff(s: string, id: string)
    ensures Test([LabelPattern(id)], s) <==> HasLabelFor(s, id)
  {
    TestOne(LabelPattern(id), s);
    if Test([LabelPattern(id)], s) {
      var q :| 0 <= q <= |s| && MatchFrom(LabelPattern(id), s, q).Some?;
      LabelMatch(s, q, id);
    }
    if HasLabelFor(s, id) {
      var p :| 0 <= p <= |s| && LabelAt(s, p, id);
      LabelMatch(s, p, id);
    }
  }

  /** Every id has a label for it. */
  predicate AllLabelled(ids: seq<string>, s: string) {
    forall k :: 0 <= k < |ids| ==> HasLabelFor(s, ids[k])
  }

  /** `ids.filter(id => !labelRe(id).test(normalized))`. */
  function MissingIds(ids: seq<string>, s: string): seq<string> {
    if |ids| == 0 then []
    else (if Test([LabelPattern(ids[0])], s) then [] else [ids[0]]) + MissingIds(ids[1..], s)
  }

  /** The ids without a label, in order: every id whose label is missing, and
      no other. */
  /** The recursion above is `Array.prototype.filter` with the label test. */
  lemma {:induction false} MissingIdsFilter(ids: seq<string>, s: string)
    ensures MissingIds(ids, s) == Seqs.Filter(ids, (id: string) => !Test([LabelPattern(id)], s))
  {
    if |ids| > 0 {
      MissingIdsFilter(ids[1..], s);
    }
  }

  lemma MissingIdsAre(ids: seq<string>, s: string)
    ensures Seqs.Subsequence(MissingIds(ids, s), ids)
    ensures forall id :: id in MissingIds(ids, s) <==> id in ids && !HasLabelFor(s, id)
    ensures |MissingIds(ids, s)| == 0 <==> AllLabelled(ids, s)
  {
    MissingIdsFilter(ids, s);
    forall id ensures Test([LabelPattern(id)], s) <==> HasLabelFor(s, id) {
      HasLabelIff(s, id);
    }
  }

  /** An id never holds a double quote. */
  lemma TagIdAvoidsQuote(tag: string)
    ensures TagId(tag).Some? ==> Avoids(TagId(tag).value, '"')
  {
    TagIdIs(tag);
    if TagId(tag).Some? {
      var p :| FirstIdAt(tag, p) && !AllSpace(IdAt(tag, p).value);
      TrimAvoids(IdAt(tag, p).value, '"');
    }
  }

  // ---------------------------------------------------------------------------
  // validateLabel

  const NoInputMessage := "<input> 요소를 찾을 수 없습니다. 입력 요소가 있다면 <input>을 포함해 주세요."
  const NoIdMessage := "<input>에 id가 필요합니다. 예: <input id=\"email\" ... /> (label과 연결하기 위함)"
  const MissingLabelPrefix := "입력 필드에는 연결된 레이블이 필요합니다. 누락된 for/id: "
  const LabelPassMessage := "레이블 검증 통과: input id와 연결된 label(for)이 존재합니다."

  /** The `<input ...>` tags of the normalized code, in order. */
  function InputTags(code: string): seq<string> {
    MatchAll(InputRe(), NormalizeCode(code))
  }

  /** What `validateLabel` promises about the input tags found in the code
      `s` and their ids: no input, or no input with an id, is a failure of
      its own; otherwise it passes exactly when no id lacks a label, and a
      failure names the ids without one. */
  predicate LabelVerdictSays(tags: seq<string>, ids: seq<string>, missing: seq<string>, r: ValidationResult) {
    && (r.success <==> |tags| > 0 && |ids| > 0 && |missing| == 0)
    && (|tags| == 0 ==> r.message == NoInputMessage)
    && (|tags| > 0 && |ids| == 0 ==> r.message == NoIdMessage)
    && (|tags| > 0 && |ids| > 0 && !r.success ==> r.message == MissingLabelPrefix + QuotedList(missing))
    && (r.success ==> r.message == LabelPassMessage)
  }

  /** The verdict on the input tags found, their ids and the ids without a
      label. */
  function LabelVerdict(tags: seq<string>, ids: seq<string>, missing: seq<string>): (r: ValidationResult)
    ensures LabelVerdictSays(tags, ids, missing, r)
  {
    if |tags| == 0 then ValidationResult(false, NoInputMessage)
    else if |ids| == 0 then ValidationResult(false, NoIdMessage)
    else if |missing| > 0 then ValidationResult(false, MissingLabelPrefix + QuotedList(missing))
    else ValidationResult(true, LabelPassMessage)
  }

  /** `validateLabel` on the `<input>` tags of the normalized code. */
  function ValidateLabel(code: string): (r: ValidationResult)
    ensures var ids := InputIds(InputTags(code));
            LabelVerdictSays(InputTags(code), ids, MissingIds(ids, NormalizeCode(code)), r)
  {
    var tags := InputTags(code);
    var ids := InputIds(tags);
    LabelVerdict(tags, ids, MissingIds(ids, NormalizeCode(code)))
  }

  /** The verdict passes exactly when there are inputs, some with an id,
      and every id has a label for it. */
  lemma LabelVerdictPasses(tags: seq<string>, ids: seq<string>, s: string)
    ensures LabelVerdict(tags, ids, MissingIds(ids, s)).success <==> |tags| > 0 && |ids| > 0 && AllLabelled(ids, s)
  {
    MissingIdsAre(ids, s);
  }

  /** `validateLabel` passes exactly when some input has an id and every
      input id has a label for it. */
  lemma LabelPassIff(code: string)
    ensures var ids := InputIds(InputTags(code));
            ValidateLabel(code).success <==> |ids| > 0 && AllLabelled(ids, NormalizeCode(code))
  {
    var tags := InputTags(code);
    var ids := InputIds(tags);
    LabelVerdictPasses(tags, ids, NormalizeCode(code));
  }

  /** No id holds a double quote. */
  lemma InputIdsAvoidQuote(tags: seq<string>)
    ensures forall id :: id in InputIds(tags) ==> Avoids(id, '"')
  {
    forall tag | tag in tags ensures TagId(tag).Some? ==> Avoids(TagId(tag).value, '"') {
      TagIdAvoidsQuote(tag);
    }
  }

  /** The failure message lists the ids without a label, in order, so that
      they can be read back from it. */
  lemma MissingListed(ids: seq<string>, s: string)
    requires forall k :: 0 <= k < |ids| ==> Avoids(ids[k], '"')
    ensures ReadQuotedList(QuotedList(MissingIds(ids, s))) == Some(MissingIds(ids, s))
  {
    var missing := MissingIds(ids, s);
    MissingIdsAre(ids, s);
    forall k | 0 <= k < |missing| ensures Avoids(missing[k], '"') {
      assert missing[k] in ids;
    }
    QuotedListReads(missing);
  }

  /** Code without any `<` has no input to check. */
  lemma LabelWithoutAngle(code: string)
    requires '<' !in code
    ensures ValidateLabel(code) == ValidationResult(false, NoInputMessage)
  {
    NormalizeKeepsAngle(code);
    NoAngleNoTags(["input"], NormalizeCode(code));
  }

  // ---------------------------------------------------------------------------
  // validateKeyboard: attribute tests

  /** `name =` at `p`, then, past any white space, `w`. */
  predicate AssignsAt(s: string, p: nat, name: string, w: string, fold: bool) {
    && AssignEnd(s, p, name, fold).Some?
    && AssignEnd(s, p, name, fold).value <= |s|
    && SpacedEnd(s, AssignEnd(s, p, name, fold).value, w, fold).Some?
  }

  /** Somewhere in `s` the attribute `name` is set to `w`. */
  predicate Assigns(s: string, name: string, w: string, fold: bool) {
    exists p :: 0 <= p <= |s| && AssignsAt(s, p, name, w, fold)
  }

  /** Somewhere in `s` the attribute `name` is set, to anything. */
  predicate AssignsName(s: string, name: string, fold: bool) {
    exists p :: 0 <= p <= |s| && AssignEnd(s, p, name, fold).Some?
  }

  lemma AssignsMatch(s: string, p: nat, name: string, w: string, fold: bool)
    requires p <= |s|
    ensures MatchFrom(Assign(name, fold) + Spaced(w, fold), s, p).Some? <==> AssignsAt(s, p, name, w, fold)
  {
    AssignMatch(name, fold, Spaced(w, fold), s, p);
    var a := AssignEnd(s, p, name, fold);
    if a.Some? {
      assert Spaced(w, fold) + [] == Spaced(w, fold);
      SpacedMatch(w, fold, [], s, a.value);
    }
  }

  /** `/\bname\s*=\s*w/.test(s)` holds exactly when `s` sets `name` to `w`. */
  lemma AssignsIff(s: string, name: string, w: string, fold: bool)
    ensures Test([Assign(name, fold) + Spaced(w, fold)], s) <==> Assigns(s, name, w, fold)
  {
    var p := Assign(name, fold) + Spaced(w, fold);
    TestOne(p, s);
    if Test([p], s) {
      var q :| 0 <= q <= |s| && MatchFrom(p, s, q).Some?;
      AssignsMatch(s, q, name, w, fold);
    }
    if Assigns(s, name, w, fold) {
      var q :| 0 <= q <= |s| && AssignsAt(s, q, name, w, fold);
      AssignsMatch(s, q, name, w, fold);
    }
  }

  /** `/\bname\s*=/.test(s)` holds exactly when `s` sets `name`. */
  lemma AssignsNameIff(s: string, name: string, fold: bool)
    ensures Test([Assign(name, fold)], s) <==> AssignsName(s, name, fold)
  {
    var p := Assign(name, fold);
    TestOne(p, s);
    assert p + [] == p;
    if Test([p], s) {
      var q :| 0 <= q <= |s| && MatchFrom(p, s, q).Some?;
      AssignMatch(name, fold, [], s, q);
    }
    if AssignsName(s, name, fold) {
      var q :| 0 <= q <= |s| && AssignEnd(s, q, name, fold).Some?;
      AssignMatch(name, fold, [], s, q);
    }
  }

  /** `/\bonClick\s*=/`, case-sensitive. */
  function OnClickPattern(): Pattern {
    Assign("onClick", false)
  }

  /** `/\brole\s*=\s*"button"/i`. */
  function RoleButtonPattern(): Pattern {
    Assign("role", true) + Spaced("\"button\"", true)
  }

  /** `/\btabindex\s*=\s*"0"/i`. */
  function TabIndexZeroPattern(): Pattern {
    Assign("tabindex", true) + Spaced("\"0\"", true)
  }

  /** The tag sets `onClick` (exactly that spelling). */
  predicate HasOnClick(tag: string) {
    AssignsName(tag, "onClick", false)
  }

  /** The tag sets `role` to `"button"` and `tabindex` to `"0"`, in any case. */
  predicate KeyboardReady(tag: string) {
    Assigns(tag, "role", "\"button\"", true) && Assigns(tag, "tabindex", "\"0\"", true)
  }

  /** `/\bonClick\s*=/.test(tag)` */
  predicate ClickTest(tag: string) {
    Test([OnClickPattern()], tag)
  }

  /** `hasRoleButton && hasTabIndex0` */
  predicate ReadyTest(tag: string) {
    Test([RoleButtonPattern()], tag) && Test([TabIndexZeroPattern()], tag)
  }

  predicate UnreadyTest(tag: string) {
    !ReadyTest(tag)
  }

  /** `candidates.filter(tag => /\bonClick\s*=/.test(tag))`. */
  function ClickableTags(tags: seq<string>): seq<string> {
    if |tags| == 0 then []
    else (if ClickTest(tags[0]) then [tags[0]] else []) + ClickableTags(tags[1..])
  }

  /** `clickable.filter(tag => !(hasRoleButton && hasTabIndex0))`. */
  function UnreadyTags(tags: seq<string>): seq<string> {
    if |tags| == 0 then []
    else (if ReadyTest(tags[0]) then [] else [tags[0]]) + UnreadyTags(tags[1..])
  }

  lemma {:induction false} ClickableFilter(tags: seq<string>)
    ensures ClickableTags(tags) == Seqs.Filter(tags, ClickTest)
  {
    if |tags| > 0 {
      ClickableFilter(tags[1..]);
      Seqs.FilterCons(tags, ClickTest);
    }
  }

  lemma {:induction false} UnreadyFilter(tags: seq<string>)
    ensures UnreadyTags(tags) == Seqs.Filter(tags, UnreadyTest)
  {
    if |tags| > 0 {
      UnreadyFilter(tags[1..]);
      Seqs.FilterCons(tags, UnreadyTest);
    }
  }

  lemma ClickTestIff(t: string)
    ensures ClickTest(t) <==> HasOnClick(t)
  {
    AssignsNameIff(t, "onClick", false);
  }

  lemma UnreadyTestIff(t: string)
    ensures UnreadyTest(t) <==> !KeyboardReady(t)
  {
    AssignsIff(t, "role", "\"button\"", true);
    AssignsIff(t, "tabindex", "\"0\"", true);
  }

  /** The clickable tags are the tags that set `onClick`, in order. */
  lemma ClickableAre(tags: seq<string>)
    ensures Seqs.Subsequence(ClickableTags(tags), tags)
    ensures forall t :: t in ClickableTags(tags) <==> t in tags && HasOnClick(t)
  {
    ClickableFilter(tags);
    Seqs.FilterMembers(tags, ClickTest);
    forall t ensures ClickTest(t) <==> HasOnClick(t) {
      ClickTestIff(t);
    }
  }

  /** The tags that fail are those without both `role="button"` and
      `tabindex="0"`, in order. */
  lemma UnreadyAre(tags: seq<string>)
    ensures Seqs.Subsequence(UnreadyTags(tags), tags)
    ensures forall t :: t in UnreadyTags(tags) <==> t in tags && !KeyboardReady(t)
  {
    UnreadyFilter(tags);
    Seqs.FilterMembers(tags, UnreadyTest);
    forall t ensures UnreadyTest(t) <==> !KeyboardReady(t) {
      UnreadyTestIff(t);
    }
  }

  // ---------------------------------------------------------------------------
  // validateKeyboard

  const NoClickableMessage := "onClick이 있는 div/span 요소를 찾을 수 없습니다. 키보드 접근성 검증 대상이 필요합니다."
  const KeyboardMissingMessage := "클릭 가능한 div/span에는 role=\"button\"과 tabIndex=\"0\"(또는 tabIndex={0})이 필요합니다."
  const KeyboardPassMessage := "키보드 접근성 검증 통과: 클릭 가능한 비대화형 요소에 role/tabIndex가 있습니다."

  /** The `<div ...>` and `<span ...>` tags of the normalized code, in order. */
  function DivSpanTags(code: string): seq<string> {
    MatchAll(DivSpanRe(), NormalizeCode(code))
  }

  /** What `validateKeyboard` promises about the clickable tags and those of
      them that fail: no clickable tag is a failure of its own; otherwise it
      passes exactly when none fails. */
  predicate KeyboardVerdictSays(clickable: seq<string>, missing: seq<string>, r: ValidationResult) {
    && (r.success <==> |clickable| > 0 && |missing| == 0)
    && (|clickable| == 0 ==> r.message == NoClickableMessage)
    && (|clickable| > 0 && !r.success ==> r.message == KeyboardMissingMessage)
    && (r.success ==> r.message == KeyboardPassMessage)
  }

  function KeyboardVerdict(clickable: seq<string>, missing: seq<string>): (r: ValidationResult)
    ensures KeyboardVerdictSays(clickable, missing, r)
  {
    if |clickable| == 0 then ValidationResult(false, NoClickableMessage)
    else if |missing| > 0 then ValidationResult(false, KeyboardMissingMessage)
    else ValidationResult(true, KeyboardPassMessage)
  }

  /** `validateKeyboard` on the `<div>`/`<span>` tags of the normalized code. */
  function ValidateKeyboard(code: string): (r: ValidationResult)
    ensures var clickable := ClickableTags(DivSpanTags(code));
            KeyboardVerdictSays(clickable, UnreadyTags(clickable), r)
  {
    var clickable := ClickableTags(DivSpanTags(code));
    KeyboardVerdict(clickable, UnreadyTags(clickable))
  }

  /** The verdict passes exactly when some tag sets `onClick` and every tag
      that does also sets `role="button"` and `tabindex="0"`. */
  lemma KeyboardVerdictPasses(tags: seq<string>)
    ensures var clickable := ClickableTags(tags);
            KeyboardVerdict(clickable, UnreadyTags(clickable)).success
            <==> (exists t :: t in tags && HasOnClick(t))
                 && forall t :: t in tags && HasOnClick(t) ==> KeyboardReady(t)
  {
    var clickable := ClickableTags(tags);
    ClickableAre(tags);
    UnreadyAre(clickable);
    if |clickable| > 0 {
      assert clickable[0] in clickable;
    }
    if |UnreadyTags(clickable)| > 0 {
      assert UnreadyTags(clickable)[0] in UnreadyTags(clickable);
    }
  }

  /** `validateKeyboard` passes exactly when some `<div>`/`<span>` tag sets
      `onClick` and every such tag also sets `role="button"` and
      `tabindex="0"`. */
  lemma KeyboardPassIff(code: string)
    ensures var tags := DivSpanTags(code);
            ValidateKeyboard(code).success
            <==> (exists t :: t in tags && HasOnClick(t))
                 && forall t :: t in tags && HasOnClick(t) ==> KeyboardReady(t)
  {
    KeyboardVerdictPasses(DivSpanTags(code));
  }

  /** Code without any `<` has no clickable element to check. */
  lemma KeyboardWithoutAngle(code: string)
    requires '<' !in code
    ensures ValidateKeyboard(code) == ValidationResult(false, NoClickableMessage)
  {
    NormalizeKeepsAngle(code);
    NoAngleNoTags(["div", "span"], NormalizeCode(code));
  }

  // ---------------------------------------------------------------------------
  // escapeRegExp

  /** The characters `escapeRegExp` puts a backslash before. */
  const RegexSpecials: set<char> := {'.', '*', '+', '?', '^', '$', '{', '}', '(', ')', '|', '[', ']', '\\'}

  predicate IsSpecial(c: char) {
    c in RegexSpecials
  }

  /** `input.replace(/[.*+?^${}()|[\]\\]/g, '\\$&')`. */
  function EscapeRegExp(s: string): (r: string)
    ensures |r| == |s| + Seqs.CountWhere(s, IsSpecial)
  {
    if |s| == 0 then ""
    else (if IsSpecial(s[0]) then ['\\', s[0]] else [s[0]]) + EscapeRegExp(s[1..])
  }

  /** The literal text a regex source made only of plain characters and
      escaped special characters stands for; `None` for any other source
      (a bare special character, a backslash before anything else). */
  function ReadEscaped(r: string): Option<string>
    decreases |r|
  {
    if |r| == 0 then Some("")
    else if r[0] == '\\' then
      if |r| >= 2 && IsSpecial(r[1]) then
        var t := ReadEscaped(r[2..]);
        if t.Some? then Some([r[1]] + t.value) else None
      else None
    else if IsSpecial(r[0]) then None
    else
      var t := ReadEscaped(r[1..]);
      if t.Some? then Some([r[0]] + t.value) else None
  }

  /** The escaped text, read as a regex, stands for exactly the input: inside
      the label regex the id is matched literally. */
  lemma {:induction false} EscapeReads(s: string)
    ensures ReadEscaped(EscapeRegExp(s)) == Some(s)
    decreases |s|
  {
    if |s| > 0 {
      EscapeReads(s[1..]);
      var rest := EscapeRegExp(s[1..]);
      if IsSpecial(s[0]) {
        var r := ['\\', s[0]] + rest;
        assert r[2..] == rest;
      } else {
        var r := [s[0]] + rest;
        assert r[1..] == rest;
      }
      assert [s[0]] + s[1..] == s;
    }
  }

  /** Every source that reads as a literal is the escaping of that literal. */
  lemma {:induction false} ReadEscapedInverts(r: string)
    requires ReadEscaped(r).Some?
    ensures EscapeRegExp(ReadEscaped(r).value) == r
    decreases |r|
  {
    if |r| > 0 {
      var s := ReadEscaped(r).value;
      if r[0] == '\\' {
        ReadEscapedInverts(r[2..]);
        assert s[0] == r[1] && s[1..] == ReadEscaped(r[2..]).value;
        assert r == ['\\', r[1]] + r[2..];
      } else {
        ReadEscapedInverts(r[1..]);
        assert s[0] == r[0] && s[1..] == ReadEscaped(r[1..]).value;
        assert r == [r[0]] + r[1..];
      }
    }
  }

  /** Text without special characters is left as it is. */
  lemma {:induction false} EscapePlain(s: string)
    requires forall k :: 0 <= k < |s| ==> !IsSpecial(s[k])
    ensures EscapeRegExp(s) == s
    decreases |s|
  {
    if |s| > 0 {
      EscapePlain(s[1..]);
      assert [s[0]] + s[1..] == s;
    }
  }
}
